=== FILE: README.md ===
# Sikhshan learning platform: a verified model of its core

Sikhshan is a learning platform. Students and faculty share courses, chapters,
assignments, quizzes and a calendar, and they talk in two-party chat rooms
with live delivery over STOMP. This project models the platform's core in
Dafny and proves what the code promises about it. The core is:

- the chat subsystem: rooms, the message log with soft deletion and read
  receipts, presence, the chat service, and the WebSocket controller and
  session listener;
- automatic quiz scoring and the grade bands;
- the controllers that guard and change the course, chapter, assignment,
  submission, quiz, quiz-attempt and event tables;
- the audit-log interceptor;
- the pure helpers of the browser client for events, user search and chat.

Each back-end table is a sequence of rows in insertion order. Ids increase
along the table, as identity generation gives them. A repository query is a
pure function over that sequence. The `ORDER BY` queries are a stable sort
of the filtered rows, proved sorted, a permutation and stable. Entities whose
methods update their own fields are classes, as are the controllers and
services that change tables step by step. Each method is specified by
pure functions of the state before the call, and the lemmas beside it prove
the rules it keeps: one room per pair of users, one chapter per number per
course, one enrollment per student and course, and at most one attempt in
progress per quiz and student.

The current time is always a parameter `now`: seconds for `LocalDateTime`
and day numbers for `LocalDate`. Percentages are exact reals.

| file | module | models |
|---|---|---|
| wrappers.dfy | Wrappers | `Option` and `Result` |
| text.dfy | Text | Java and JavaScript string operations the code relies on: trim, split, case, `Long.parseLong`, number printing |
| seqs.dfy | Seqs | order-preserving filters and counts, the shape of every `WHERE` clause |
| sorting.dfy | Sorting | stable sort by a comparator, for `ORDER BY` and client-side sorting |
| tables.dfy | Tables | lookup, replacement and removal by id in a table with increasing ids |
| grading.dfy | Grades | `GradeCalculator` |
| quiz_scoring.dfy | QuizScoring | `QuizScoringUtility` |
| chat_model.dfy | ChatModel | `ChatRoom`, `Message` |
| messages.dfy | Messages | `MessageRepository` |
| chat_rooms.dfy | ChatRooms | `ChatRoomRepository` |
| presence.dfy | Presence | `UserStatus`, `UserStatusRepository` |
| chat_service.dfy | ChatServices | `ChatService` |
| websocket.dfy | WebSocket | `WebSocketMessage`, `WebSocketController`, `WebSocketEventListener` |
| submissions.dfy | Submissions | `AssignmentSubmission` and its repository |
| submission_controller.dfy | SubmissionControllers | `AssignmentSubmissionController` |
| assignments.dfy | Assignments | `AssignmentController` |
| chapters.dfy | Chapters | `ChapterController` |
| courses.dfy | Courses | `CourseController` |
| events.dfy | Events | `EventService` |
| quizzes.dfy | Quizzes | `QuizController` |
| quiz_attempts.dfy | QuizAttempts | `QuizAttemptController` |
| event_api.dfy | EventApi | `eventApi.js` |
| user_search_api.dfy | UserSearchApi | `userSearchApi.js` |
| chat_api.dfy | ChatApi | `chatApi.js` |
| audit.dfy | Audit | `AuditLogInterceptor` |

Facts about the chat code that the model follows:

- Message order is by `createdAt` alone in every query except the latest-message
  query, which orders by `createdAt` and then by id, both descending
  (`MessageRepository.java:36`). The newest-first page orders by `createdAt`
  alone (`MessageRepository.java:20`). Messages with equal timestamps keep
  table order, which is stable but not a promised order.
- A room for a pair is found, and saved if missing, with no uniqueness
  key. Pair uniqueness is proved for the sequential model only.
- The presence methods of the chat service do nothing, and room summaries
  always report users as offline (`ChatService.java:174-211`, `:236`).
- Sending checks the room, membership, the sender and the type name. A
  null content fails when the row is saved, under `@NotNull`. An empty text
  message is accepted: nothing checks that a text message has content.

## Model

| member | source | states |
|---|---|---|
| Grades.Band | backend/src/main/java/com/sikhshan/utility/GradeCalculator.java:10-19 | the band is the number of boundaries (35, 40, 50, 60, 70, 80, 90) the percentage reaches, at most 7 |
| Grades.BandMonotone | backend/src/main/java/com/sikhshan/utility/GradeCalculator.java:10-19 | a higher percentage never falls in a lower band |
| Grades.GradePoint | backend/src/main/java/com/sikhshan/utility/GradeCalculator.java:37-46 | the grade point is 0.0 exactly below 35, and between 1.6 and 4.0 from 35 up |
| Grades.ChainsFollowBand | backend/src/main/java/com/sikhshan/utility/GradeCalculator.java:10-62 | the letter, grade-point and description chains are one table indexed by the band |
| Grades.ColumnsDistinct | backend/src/main/java/com/sikhshan/utility/GradeCalculator.java:10-62 | each column of that table has distinct entries, and grade points rise with the band |
| Grades.SameThresholds | backend/src/main/java/com/sikhshan/utility/GradeCalculator.java:10-62 | two percentages get the same letter, the same grade point or the same description exactly when they fall in the same band |
| Grades.LetterRank | backend/src/main/java/com/sikhshan/utility/GradeCalculator.java:10-19 | every letter the calculator returns has its own rank from worst to best |
| Grades.GradesMonotone | backend/src/main/java/com/sikhshan/utility/GradeCalculator.java:10-62 | a higher percentage never gives a worse letter or a lower grade point; "A+" stays "A+" upwards and "Fail" stays "Fail" downwards |
| Grades.RoundTenth | backend/src/main/java/com/sikhshan/utility/GradeCalculator.java:29 | half-up rounding to one decimal moves the value by at most 0.05 |
| Grades.Percentage | backend/src/main/java/com/sikhshan/utility/GradeCalculator.java:27-30 | 0 when there is no positive total, otherwise the rounded ratio times 100 |
| Grades.PercentageBounds | backend/src/main/java/com/sikhshan/utility/GradeCalculator.java:27-30 | from 0 to total points earned, the percentage lies in [0, 100], and full marks give exactly 100 |
| Grades.PercentageMonotone | backend/src/main/java/com/sikhshan/utility/GradeCalculator.java:27-30 | more points out of the same total never lower the percentage |
| QuizScoring.OptionWithId | backend/src/main/java/com/sikhshan/utility/QuizScoringUtility.java:61-65 | the option found carries the id and is the first with it; None means no option has that id |
| QuizScoring.IsAnswerCorrect | backend/src/main/java/com/sikhshan/utility/QuizScoringUtility.java:41-56 | a correct answer is never blank, and only the three known question types can be answered correctly |
| QuizScoring.MultipleChoiceCorrectIff | backend/src/main/java/com/sikhshan/utility/QuizScoringUtility.java:58-70 | a multiple-choice answer is right exactly when it parses as a long, an option has that id, and the first such option is marked correct |
| QuizScoring.ParseLongRejectsBlank | backend/src/main/java/com/sikhshan/utility/QuizScoringUtility.java:42-44 | no string of white space parses as a number, so the blank check agrees with the parse |
| QuizScoring.ParseLongNeedsDigit | backend/src/main/java/com/sikhshan/utility/QuizScoringUtility.java:60 | a string that parses as a long holds a digit |
| QuizScoring.TextAnswerCorrectIff | backend/src/main/java/com/sikhshan/utility/QuizScoringUtility.java:72-80 | a true/false or short answer is right exactly when the key exists and the trimmed answer equals it ignoring case, the answer not being blank |
| QuizScoring.Earned | backend/src/main/java/com/sikhshan/utility/QuizScoringUtility.java:24-28 | a question contributes either nothing or all its points, and nothing when unanswered |
| QuizScoring.EarnedWithinTotal | backend/src/main/java/com/sikhshan/utility/QuizScoringUtility.java:18-29 | with non-negative points, the earned points lie between 0 and the total |
| QuizScoring.NoAnswersEarnNothing | backend/src/main/java/com/sikhshan/utility/QuizScoringUtility.java:18-29 | with no answers, nothing is earned |
| QuizScoring.AllCorrectEarnsTotal | backend/src/main/java/com/sikhshan/utility/QuizScoringUtility.java:18-29 | when every question is answered correctly, the earned points equal the total |
| QuizScoring.CalculateScore | backend/src/main/java/com/sikhshan/utility/QuizScoringUtility.java:18-36 | the loop's sums are the total and earned points, the percentage is their rounded ratio, and the letter and description are those of the percentage's band |
| QuizScoring.PerfectScoreIsTopBand | backend/src/main/java/com/sikhshan/utility/QuizScoringUtility.java:18-36 | a perfect score on a quiz worth points gives 100, "A+" and "Outstanding" |
| ChatModel.NewRoom | backend/src/main/java/com/sikhshan/model/ChatRoom.java:36-46 | a new room holds the two users, and both its timestamps are the creation time |
| ChatModel.OtherUser | backend/src/main/java/com/sikhshan/model/ChatRoom.java:98-105 | there is another user exactly when the asker is in the room, and the room lies between the asker and that user |
| ChatModel.IsBetweenSymmetric | backend/src/main/java/com/sikhshan/model/ChatRoom.java:107-110 | membership of a pair does not depend on the order of the two users |
| ChatModel.OtherUserInvolution | backend/src/main/java/com/sikhshan/model/ChatRoom.java:98-105 | in a room of two distinct users, the other user differs from the asker, and the other user's other user is the asker |
| ChatModel.ParseType | backend/src/main/java/com/sikhshan/service/ChatService.java:107 | a parsed type is the constant whose name was given |
| ChatModel.ParseTypeName | backend/src/main/java/com/sikhshan/model/Message.java:52-54 | every message type is recovered from its name |
| ChatModel.NewMessage | backend/src/main/java/com/sikhshan/model/Message.java:57-76 | a new message is unread, not deleted, has no deleter, and carries the room, sender, content, message type, file URL and creation time it was given; it displays its content |
| ChatModel.Delete | backend/src/main/java/com/sikhshan/model/Message.java:168-172 | deleting marks the message deleted, now, by the deleter, and changes nothing else |
| ChatModel.DisplayContent | backend/src/main/java/com/sikhshan/model/Message.java:179-185 | a deleted message shows the placeholder; any other message shows its content |
| ChatModel.DeleteHidesContent | backend/src/main/java/com/sikhshan/model/Message.java:168-185 | after deletion the content is never shown, yet it is kept, and the message still belongs to its sender |
| ChatModel.DeleteTwice | backend/src/main/java/com/sikhshan/model/Message.java:168-172 | deleting twice is the same as deleting once, at the later time, by the later deleter |
| Messages.OrdersArePreorders | backend/src/main/java/com/sikhshan/repository/MessageRepository.java:20-37 | the three query orders are total preorders, so sorting by them is well defined |
| Messages.Select | backend/src/main/java/com/sikhshan/repository/MessageRepository.java:20-64 | a query result is sorted by its order, is a permutation of the matching rows, and holds exactly the rows that match |
| Messages.PageOf | backend/src/main/java/com/sikhshan/service/ChatService.java:128-129 | a negative page or a size below 1 is rejected; otherwise the page is the slice of up to size elements starting at page * size, full when there are enough, the remainder on the last page, and empty past the end |
| Messages.FirstPagesArePrefix | backend/src/main/java/com/sikhshan/service/ChatService.java:119-134 | reading pages 0 to k-1 in order reproduces the first k * size elements, with nothing skipped or repeated |
| Messages.FindRoomPage | backend/src/main/java/com/sikhshan/repository/MessageRepository.java:20-21 | the page is rejected for bad paging, and is otherwise at most size messages of the room, newest first |
| Messages.PageOfSortedSubset | backend/src/main/java/com/sikhshan/repository/MessageRepository.java:20-21 | a page of a newest-first list is newest first and holds only elements of the list |
| Messages.RoomNewestFirst | backend/src/main/java/com/sikhshan/repository/MessageRepository.java:20-21 | the whole room, newest first: exactly the room's messages, each as many times as in the table |
| Messages.FindRoomPageIsSlice | backend/src/main/java/com/sikhshan/repository/MessageRepository.java:20-21 | each page is the corresponding slice of the room's messages, newest first |
| Messages.FindRoomOldestFirst | backend/src/main/java/com/sikhshan/repository/MessageRepository.java:24-25 | the room's messages, oldest first, each once |
| Messages.FindUnread | backend/src/main/java/com/sikhshan/repository/MessageRepository.java:28-29 | exactly the room's unread messages sent by someone other than the user, oldest first, each as many times as in the table |
| Messages.CountUnread | backend/src/main/java/com/sikhshan/repository/MessageRepository.java:32-33 | the unread count is at most the number of rows |
| Messages.CountUnreadIsListLength | backend/src/main/java/com/sikhshan/repository/MessageRepository.java:28-33 | the unread count is the length of the unread list |
| Messages.FindLatestFirst | backend/src/main/java/com/sikhshan/repository/MessageRepository.java:36-37 | exactly the room's messages, newest first and, at equal times, the higher id first, each as many times as in the table |
| Messages.LatestMessageIsMaximal | backend/src/main/java/com/sikhshan/repository/MessageRepository.java:36-37 | the list is non-empty exactly when the room has a message, and its head is the newest message, with the highest id among the newest |
| Messages.FindBySender | backend/src/main/java/com/sikhshan/repository/MessageRepository.java:40-41 | exactly the sender's messages, newest first, each as many times as in the table |
| Messages.FindAfter | backend/src/main/java/com/sikhshan/repository/MessageRepository.java:44-45 | exactly the room's messages created strictly after the time, oldest first, each as many times as in the table |
| Messages.FindDeleted | backend/src/main/java/com/sikhshan/repository/MessageRepository.java:53-54 | exactly the room's deleted messages, newest first, each as many times as in the table |
| Messages.CountInRoom | backend/src/main/java/com/sikhshan/repository/MessageRepository.java:57-58 | the room count equals the number of the room's messages, the length of the room's newest-first list, and so is at most the number of rows |
| Messages.FindInRange | backend/src/main/java/com/sikhshan/repository/MessageRepository.java:61-64 | exactly the room's messages created within the range, both ends included, oldest first, each as many times as in the table |
| Messages.ReverseNewestIsOldest | backend/src/main/java/com/sikhshan/repository/MessageRepository.java:20-25 | a newest-first list, reversed, is oldest first |
| Messages.OldestFirstIsReversedNewestFirst | backend/src/main/java/com/sikhshan/repository/MessageRepository.java:20-25 | when no two messages of the room share a creation time, the ascending listing is the descending one reversed |
| Messages.MarkReadRow | backend/src/main/java/com/sikhshan/repository/MessageRepository.java:48-50 | the update only sets the read flag, and sets it exactly on the room's messages from other senders |
| Messages.MarkRead | backend/src/main/java/com/sikhshan/repository/MessageRepository.java:48-50 | the update keeps the table's length and applies the row update to every row |
| Messages.MarkReadClearsUnread | backend/src/main/java/com/sikhshan/repository/MessageRepository.java:28-50 | after the update the user has nothing unread in that room |
| Messages.MarkReadIdempotent | backend/src/main/java/com/sikhshan/repository/MessageRepository.java:48-50 | running the update twice is the same as running it once |
| Messages.MarkReadLeavesOthers | backend/src/main/java/com/sikhshan/repository/MessageRepository.java:48-50 | other rooms' unread counts, and the user's own messages, are unchanged |
| Messages.CountPointwiseEqual | backend/src/main/java/com/sikhshan/repository/MessageRepository.java:32-33 | counts agree on two tables that match row for row |
| Messages.MarkReadKeepsRoomCounts | backend/src/main/java/com/sikhshan/repository/MessageRepository.java:48-58 | the update changes no message's room, so every room keeps its message count |
| Messages.FindById | backend/src/main/java/com/sikhshan/repository/MessageRepository.java:17 | the row found has the id; None means no row has it |
| Messages.ReplaceByIdKeepsIds | backend/src/main/java/com/sikhshan/repository/MessageRepository.java:17 | replacing a row under its own id keeps the ids increasing and within their bounds |
| Messages.SoftDeleteKeepsRoomCounts | backend/src/main/java/com/sikhshan/service/ChatService.java:136-154 | soft-deleting a stored message changes no room's message count |
| Messages.SoftDeleteListsAsDeleted | backend/src/main/java/com/sikhshan/repository/MessageRepository.java:53-54 | after a soft delete the message is among its room's deleted messages |
| Messages.SoftDeleteKeepsRooms | backend/src/main/java/com/sikhshan/service/ChatService.java:150-151 | replacing a row by a message of the same room keeps every room's count |
| Messages.MessageRepository.constructor | backend/src/main/java/com/sikhshan/repository/MessageRepository.java:17 | the table starts empty |
| Messages.MessageRepository.Insert | backend/src/main/java/com/sikhshan/repository/MessageRepository.java:17 | saving a new message gives it the next id and appends it, and it is then found by that id |
| Messages.MessageRepository.Update | backend/src/main/java/com/sikhshan/repository/MessageRepository.java:17 | saving a stored message replaces its row |
| Messages.MessageRepository.MarkMessagesAsRead | backend/src/main/java/com/sikhshan/repository/MessageRepository.java:48-50 | the table afterwards is the update applied to the old table |
| Messages.FindByIdLast | backend/src/main/java/com/sikhshan/repository/MessageRepository.java:17 | the last row appended is found by its id |
| ChatRooms.FindByUsers | backend/src/main/java/com/sikhshan/repository/ChatRoomRepository.java:16-17 | no room is found exactly when no room lies between the two users in either order; a room found lies between them; more than one match is an error |
| ChatRooms.FindByUsersSymmetric | backend/src/main/java/com/sikhshan/repository/ChatRoomRepository.java:15-17 | the pair lookup does not depend on the order of the two users |
| ChatRooms.CountBetweenAtMostOne | backend/src/main/java/com/sikhshan/repository/ChatRoomRepository.java:16-17 | with one room per pair, at most one room matches a pair |
| ChatRooms.FindByUsersAgreesWithExists | backend/src/main/java/com/sikhshan/repository/ChatRoomRepository.java:16-29 | with one room per pair, the lookup never fails, and it finds a room exactly when the existence check holds |
| ChatRooms.CountZeroIffNoneBetween | backend/src/main/java/com/sikhshan/repository/ChatRoomRepository.java:28-29 | the existence check fails exactly when no room lies between the two users |
| ChatRooms.AddRoomKeepsPairsUnique | backend/src/main/java/com/sikhshan/service/ChatService.java:39-57 | adding a room for a pair that has none keeps one room per pair |
| ChatRooms.FindByUserId | backend/src/main/java/com/sikhshan/repository/ChatRoomRepository.java:19-25 | exactly the rooms the user is in, most recent first, each once |
| ChatRooms.FindWithUnread | backend/src/main/java/com/sikhshan/repository/ChatRoomRepository.java:31-33 | exactly the user's rooms in which a message from someone else is unread |
| ChatRooms.ReadRoomLeavesUnreadList | backend/src/main/java/com/sikhshan/repository/ChatRoomRepository.java:31-33 | once the user has read a room, that room leaves the user's unread rooms |
| ChatRooms.FindById | backend/src/main/java/com/sikhshan/repository/ChatRoomRepository.java:13 | the row found has the id; None means no row has it |
| ChatRooms.SameUsersKeepsPairsUnique | backend/src/main/java/com/sikhshan/repository/ChatRoomRepository.java:16-17 | rewriting rows without changing their users keeps one room per pair |
| ChatRooms.TouchKeepsPairsUnique | backend/src/main/java/com/sikhshan/service/ChatService.java:112-114 | moving a room's last-message time keeps one room per pair |
| ChatRooms.ChatRoomRepository.constructor | backend/src/main/java/com/sikhshan/repository/ChatRoomRepository.java:13 | the table starts empty |
| ChatRooms.ChatRoomRepository.Insert | backend/src/main/java/com/sikhshan/repository/ChatRoomRepository.java:13 | saving a new room gives it the next id and appends it |
| ChatRooms.ChatRoomRepository.Update | backend/src/main/java/com/sikhshan/repository/ChatRoomRepository.java:13 | saving a stored room replaces its row |
| Presence.UserStatus.constructor | backend/src/main/java/com/sikhshan/model/UserStatus.java:24-34 | a new status is offline and last seen at creation |
| Presence.UserStatus.WithState | backend/src/main/java/com/sikhshan/model/UserStatus.java:36-41 | the status holds exactly the given user, flag and time |
| Presence.UserStatus.MarkOnline | backend/src/main/java/com/sikhshan/model/UserStatus.java:76-80 | the user is online, seen now, and still the same user |
| Presence.UserStatus.MarkOffline | backend/src/main/java/com/sikhshan/model/UserStatus.java:82-86 | the user is offline, seen now, and still the same user |
| Presence.UserStatus.UpdateLastSeen | backend/src/main/java/com/sikhshan/model/UserStatus.java:88-91 | only the last-seen time moves |
| Presence.Online | backend/src/main/java/com/sikhshan/repository/UserStatusRepository.java:26-27 | exactly the online rows, each as many times as in the table |
| Presence.CountOnline | backend/src/main/java/com/sikhshan/repository/UserStatusRepository.java:53-54 | the online count is at most the number of rows |
| Presence.CountOnlineIsListLength | backend/src/main/java/com/sikhshan/repository/UserStatusRepository.java:26-54 | the online count is the length of the online list |
| Presence.RecentlyActive | backend/src/main/java/com/sikhshan/repository/UserStatusRepository.java:30-31 | exactly the rows seen strictly after the time, each as many times as in the table |
| Presence.ToMarkOffline | backend/src/main/java/com/sikhshan/repository/UserStatusRepository.java:49-50 | exactly the online rows last seen strictly before the time, each as many times as in the table |
| Presence.WithUserIds | backend/src/main/java/com/sikhshan/repository/UserStatusRepository.java:57-58 | exactly the rows whose user is in the list, each as many times as in the table |
| Presence.StaleUsersAreOnlineAndInactive | backend/src/main/java/com/sikhshan/repository/UserStatusRepository.java:30-50 | every row due to be marked offline is online, and is not recently active for any recent time at or after the cut-off |
| Presence.FindByUserId | backend/src/main/java/com/sikhshan/repository/UserStatusRepository.java:22-23 | the row found belongs to the user; None means the user has no row |
| Presence.UserStatusRepository.constructor | backend/src/main/java/com/sikhshan/repository/UserStatusRepository.java:16 | the table starts empty |
| Presence.UserStatusRepository.Insert | backend/src/main/java/com/sikhshan/repository/UserStatusRepository.java:16 | a status is saved for a user who has none, keeping one row per user |
| Presence.UserStatusRepository.MarkUserOnline | backend/src/main/java/com/sikhshan/repository/UserStatusRepository.java:33-36 | the user's row is online and seen now; no other row changes |
| Presence.UserStatusRepository.MarkUserOffline | backend/src/main/java/com/sikhshan/repository/UserStatusRepository.java:38-41 | the user's row is offline and seen now; no other row changes; the user is no longer listed online |
| Presence.UserStatusRepository.UpdateLastSeen | backend/src/main/java/com/sikhshan/repository/UserStatusRepository.java:43-46 | only the user's last-seen time moves |
| ChatServices.ToUserSummary | backend/src/main/java/com/sikhshan/service/ChatService.java:234-246 | a participant summary carries the user's id, name and email, and always reads offline |
| ChatServices.SenderName | backend/src/main/java/com/sikhshan/service/ChatService.java:252 | the sender's name when there is one, otherwise the email |
| ChatServices.ToMessageSummary | backend/src/main/java/com/sikhshan/service/ChatService.java:248-256 | the summary carries the id, the displayed content, the sender name and the deleted flag |
| ChatServices.ToMessageResponse | backend/src/main/java/com/sikhshan/service/ChatService.java:258-279 | the response carries the id, room and sender, shows the placeholder for a deleted message, names a deleter exactly for a deleted message that has one, and gives the type's name |
| ChatServices.ToChatRoomResponse | backend/src/main/java/com/sikhshan/service/ChatService.java:215-232 | the response carries the room's id, users and last-message time; it has a last message exactly when the room has messages, and that last message is the summary of the head of `findLastMessageByChatRoomId` (newest, then highest id) |
| ChatServices.RoomResponses | backend/src/main/java/com/sikhshan/service/ChatService.java:59-64 | one response per room, in the rooms' order |
| ChatServices.MessageResponses | backend/src/main/java/com/sikhshan/service/ChatService.java:131-133 | one response per message, in the messages' order |
| ChatServices.RoomPageResponses | backend/src/main/java/com/sikhshan/service/ChatService.java:119-134 | the responses of a newest-first page of one room stay in that room and newest first |
| ChatServices.PrepareMessage | backend/src/main/java/com/sikhshan/service/ChatService.java:88-108 | the checks fail in source order, each exactly when every earlier check passed and its own fails: unknown room, sender outside the room, unknown sender, unknown type name, missing content; when all pass, the message is built unread and undeleted from the known sender, with the request's content, type and file URL, at the current time |
| ChatServices.OnlyMembersSend | backend/src/main/java/com/sikhshan/service/ChatService.java:93-96 | a user who is not in the room can never post to it |
| ChatServices.PrepareDelete | backend/src/main/java/com/sikhshan/service/ChatService.java:136-150 | a missing message gives MessageNotFound and somebody else's message NotAuthorizedToDelete; the sender's own message succeeds exactly when the user is known, with UserNotFound otherwise, and the result is the message deleted by that user now |
| ChatServices.CheckAccess | backend/src/main/java/com/sikhshan/service/ChatService.java:66-73 | access is granted exactly when the room exists and the user is in it; otherwise the error is room-not-found or not-authorised |
| ChatServices.ChatService.constructor | backend/src/main/java/com/sikhshan/service/ChatService.java:23-32 | the service starts with empty tables and the given user directory |
| ChatServices.ChatService.CreateChatRoom | backend/src/main/java/com/sikhshan/service/ChatService.java:39-57 | an existing room between the two users is returned unchanged; a missing user is reported, the first one first; otherwise one new room is appended and returned; either way one room per pair is kept |
| ChatServices.ChatService.ChatRoomsForUser | backend/src/main/java/com/sikhshan/service/ChatService.java:59-64 | the responses are those of the user's rooms as `findByUserIdOrderByLastMessageAtDesc` lists them, one for one and in that order; so each names the user, and the most recently active room comes first |
| ChatServices.ChatService.ChatRoomById | backend/src/main/java/com/sikhshan/service/ChatService.java:66-76 | the room is returned exactly when the access check passes, with that check's error otherwise |
| ChatServices.ChatService.ChatRoomByUsers | backend/src/main/java/com/sikhshan/service/ChatService.java:78-84 | a returned response is that of a stored room between the two users, its two users being the two ids in some order; null exactly when no room lies between them; an error only when the table holds two rooms for the pair |
| ChatServices.ChatService.SendMessage | backend/src/main/java/com/sikhshan/service/ChatService.java:88-117 | a failed check changes nothing and returns its error; otherwise the message is appended with the next id, the room's last-message time becomes now, and the stored message is returned |
| ChatServices.ChatService.MessagesByChatRoom | backend/src/main/java/com/sikhshan/service/ChatService.java:119-134 | the room and membership errors of the access check come first, then the paging errors; for a participant and valid paging, the responses are exactly those of the `page`-th slice of `size` of the room's messages, newest first |
| ChatServices.ChatService.DeleteMessage | backend/src/main/java/com/sikhshan/service/ChatService.java:136-154 | a failed check changes nothing; otherwise the sender's own message is replaced by its deleted form, which is returned |
| ChatServices.ChatService.MarkMessagesAsRead | backend/src/main/java/com/sikhshan/service/ChatService.java:156-166 | it succeeds exactly when the access check passes, and then applies the read-marking update; otherwise nothing changes |
| ChatServices.ChatService.UnreadMessageCount | backend/src/main/java/com/sikhshan/service/ChatService.java:168-170 | the count is the length of the user's unread list in that room, without an access check |
| ChatServices.ChatService.MarkUserOnline | backend/src/main/java/com/sikhshan/service/ChatService.java:174-185 | the switched-off presence update changes nothing |
| ChatServices.ChatService.MarkUserOffline | backend/src/main/java/com/sikhshan/service/ChatService.java:187-198 | the switched-off presence update changes nothing |
| ChatServices.ChatService.UpdateUserLastSeen | backend/src/main/java/com/sikhshan/service/ChatService.java:200-211 | the switched-off presence update changes nothing |
| WebSocket.KindNamesDistinct | backend/src/main/java/com/sikhshan/dto/WebSocketMessage.java:13-21 | distinct event kinds have distinct type names, and none is "ERROR" |
| WebSocket.NewMessageEvent | backend/src/main/java/com/sikhshan/dto/WebSocketMessage.java:84-86 | a new-message event carries the message, its room and its sender |
| WebSocket.MessageDeletedEvent | backend/src/main/java/com/sikhshan/dto/WebSocketMessage.java:88-90 | a deletion event carries the message id, the room and the deleter |
| WebSocket.UserOnlineEvent | backend/src/main/java/com/sikhshan/dto/WebSocketMessage.java:92-94 | an online event carries the user id and no room or sender |
| WebSocket.UserOfflineEvent | backend/src/main/java/com/sikhshan/dto/WebSocketMessage.java:96-98 | an offline event carries the user id and no room or sender |
| WebSocket.RoomUserEvent | backend/src/main/java/com/sikhshan/dto/WebSocketMessage.java:100-110 | typing and read events carry the acting user both as data and as sender, and the room |
| WebSocket.ErrorEvent | backend/src/main/java/com/sikhshan/dto/WebSocketMessage.java:29-33 | an error envelope has type "ERROR", no room and no sender, and its text starts with the operation's prefix |
| WebSocket.RoomTopicsDistinct | backend/src/main/java/com/sikhshan/restcontroller/WebSocketController.java:43 | two rooms with 64-bit ids never share a topic, and no room topic is the public topic |
| WebSocket.Authenticate | backend/src/main/java/com/sikhshan/restcontroller/WebSocketController.java:29-34 | the session's user is the principal's name read as a long; a missing principal and an unreadable name are the two failures |
| WebSocket.AuthenticateUserId | backend/src/main/java/com/sikhshan/restcontroller/WebSocketController.java:29-34 | a principal named after a 64-bit user id authenticates as that user |
| WebSocket.DataId | backend/src/main/java/com/sikhshan/restcontroller/WebSocketController.java:62 | the id is the frame's data read as a long; missing data is a failure |
| WebSocket.SendOutcome | backend/src/main/java/com/sikhshan/restcontroller/WebSocketController.java:24-50 | whatever happens, the returned event is broadcast last on the public topic, and it is either a new-message event or an error |
| WebSocket.SendReachesRoomOnlyFromMember | backend/src/main/java/com/sikhshan/restcontroller/WebSocketController.java:26-45 | a delivery to a room topic happens only for an authenticated participant of that room, and is a new-message event naming that room and that user |
| WebSocket.SendAlwaysBroadcastsPublicly | backend/src/main/java/com/sikhshan/restcontroller/WebSocketController.java:24-45 | every new message, even in a private room, is also broadcast on the public topic with its displayed content |
| WebSocket.Route | backend/src/main/java/com/sikhshan/restcontroller/WebSocketController.java:72-76 | a successful attempt is delivered as is; a failure goes to the user's error queue with the operation's prefix; without a principal the failure escapes the handler |
| WebSocket.DeleteOutcome | backend/src/main/java/com/sikhshan/restcontroller/WebSocketController.java:52-77 | the handler escapes exactly when there is no principal, and otherwise makes exactly one delivery |
| WebSocket.DeleteAnnouncedOnlyByAuthor | backend/src/main/java/com/sikhshan/restcontroller/WebSocketController.java:52-77 | a deletion is announced only by the message's own sender, in the message's own room; any other delivery is to the user's error queue |
| WebSocket.ReadOutcome | backend/src/main/java/com/sikhshan/restcontroller/WebSocketController.java:79-104 | the handler escapes exactly when there is no principal, and otherwise makes exactly one delivery |
| WebSocket.ReceiptOnlyFromMember | backend/src/main/java/com/sikhshan/restcontroller/WebSocketController.java:79-104 | a read receipt is published only for a participant of the room it names, on that room's topic, naming that user |
| WebSocket.TypingOutcome | backend/src/main/java/com/sikhshan/restcontroller/WebSocketController.java:106-144 | at most one delivery, and none exactly when the principal or the data cannot be read |
| WebSocket.TypingIgnoresMembership | backend/src/main/java/com/sikhshan/restcontroller/WebSocketController.java:106-144 | a well-formed typing frame is relayed to the named room whether or not the user belongs to it |
| WebSocket.WebSocketController.constructor | backend/src/main/java/com/sikhshan/restcontroller/WebSocketController.java:21-22 | the controller starts with nothing published |
| WebSocket.WebSocketController.SendMessage | backend/src/main/java/com/sikhshan/restcontroller/WebSocketController.java:24-50 | the service's tables change as the send would change them, and the outbox grows by exactly the deliveries of the send outcome |
| WebSocket.WebSocketController.DeleteMessage | backend/src/main/java/com/sikhshan/restcontroller/WebSocketController.java:52-77 | the message is soft-deleted exactly when the attempt succeeds, and the outbox grows by the delete outcome's deliveries |
| WebSocket.WebSocketController.MarkMessagesAsRead | backend/src/main/java/com/sikhshan/restcontroller/WebSocketController.java:79-104 | the room is marked read exactly when the attempt succeeds, and the outbox grows by the read outcome's deliveries |
| WebSocket.WebSocketController.Typing | backend/src/main/java/com/sikhshan/restcontroller/WebSocketController.java:106-144 | the outbox grows by exactly the typing outcome, and nothing else changes |
| WebSocket.WebSocketEventListener.constructor | backend/src/main/java/com/sikhshan/config/WebSocketEventListener.java:18-19 | the listener holds the chat service |
| WebSocket.WebSocketEventListener.HandleConnect | backend/src/main/java/com/sikhshan/config/WebSocketEventListener.java:21-39 | the user marked online is the principal read as a long, if it can be read; the chat tables do not change |
| WebSocket.WebSocketEventListener.HandleDisconnect | backend/src/main/java/com/sikhshan/config/WebSocketEventListener.java:41-59 | the user marked offline is the principal read as a long, if it can be read; the chat tables do not change |
| Submissions.LateFlag | backend/src/main/java/com/sikhshan/model/AssignmentSubmission.java:56-58 | with a due date, the flag records whether the submission came after it; without one the flag is left as it was |
| Submissions.CreatedStatus | backend/src/main/java/com/sikhshan/model/AssignmentSubmission.java:53-61 | a late submission is LATE_SUBMITTED; otherwise the status already set, or SUBMITTED |
| Submissions.CreatedStatusFollowsLateness | backend/src/main/java/com/sikhshan/model/AssignmentSubmission.java:53-61 | against a due date, the status is LATE_SUBMITTED exactly when the flag says late, and SUBMITTED exactly when it says on time |
| Submissions.AssignmentSubmission.constructor | backend/src/main/java/com/sikhshan/model/AssignmentSubmission.java:9-43 | a new submission has its assignment and student and every other field unset |
| Submissions.AssignmentSubmission.OnCreate | backend/src/main/java/com/sikhshan/model/AssignmentSubmission.java:46-63 | both times become now, the number defaults to 1, the status defaults to SUBMITTED, and lateness and the late status follow the due date when there is one |
| Submissions.AssignmentSubmission.SetGrading | backend/src/main/java/com/sikhshan/restcontroller/AssignmentSubmissionController.java:164-174 | the grade, letter grade, feedback, grading time and status take the given values, and no other field of the submission changes |
| Submissions.AssignmentSubmission.OnUpdate | backend/src/main/java/com/sikhshan/model/AssignmentSubmission.java:65-68 | only the modification time moves |
| Submissions.GradedStatus | backend/src/main/java/com/sikhshan/restcontroller/AssignmentSubmissionController.java:169-174 | the graded status is LATE_GRADED for a late submission and GRADED for an on-time one; with no flag, grading fails |
| Submissions.DatedSubmissionCanBeGraded | backend/src/main/java/com/sikhshan/restcontroller/AssignmentSubmissionController.java:169-174 | a submission created against a due date can be graded, and is LATE_GRADED exactly when it came after the due date |
| Submissions.GradedStatusesMentionGraded | backend/src/main/java/com/sikhshan/restcontroller/AssignmentController.java:67-69 | both graded statuses contain "GRADED", which is how the graded count recognises them |
| Submissions.SubmittedStatusesNotGraded | backend/src/main/java/com/sikhshan/restcontroller/AssignmentController.java:67-69 | neither submitted status contains "GRADED" |
| Submissions.FindById | backend/src/main/java/com/sikhshan/repository/AssignmentSubmissionRepository.java:10 | the row found has the id; None means no row has it |
| Submissions.ForAssignment | backend/src/main/java/com/sikhshan/repository/AssignmentSubmissionRepository.java:11 | exactly the assignment's submissions |
| Submissions.Latest | backend/src/main/java/com/sikhshan/repository/AssignmentSubmissionRepository.java:21 | the student's highest-numbered submission for the assignment; None exactly when there is none |
| Submissions.NextNumberExceedsEarlier | backend/src/main/java/com/sikhshan/restcontroller/AssignmentSubmissionController.java:82-86 | the next number exceeds every earlier number of the same student for the same assignment, and is at least 1 |
| Submissions.GradedCount | backend/src/main/java/com/sikhshan/restcontroller/AssignmentController.java:67-70 | the graded count is at most the number of the assignment's submissions |
| Submissions.UngradedNotCounted | backend/src/main/java/com/sikhshan/restcontroller/AssignmentController.java:67-70 | while every submission of the assignment has a submitted status, the graded count is 0 |
| Submissions.AllGradedCounted | backend/src/main/java/com/sikhshan/restcontroller/AssignmentController.java:67-70 | once every submission of the assignment is graded, all are counted |
| Submissions.SubmissionRepository.constructor | backend/src/main/java/com/sikhshan/repository/AssignmentSubmissionRepository.java:10 | the table starts empty |
| Submissions.SubmissionRepository.Insert | backend/src/main/java/com/sikhshan/model/AssignmentSubmission.java:45-63 | saving runs the creation hook, assigns the next id and appends the row; with a due date every row stays flagged |
| Submissions.SubmissionRepository.Remove | backend/src/main/java/com/sikhshan/repository/AssignmentSubmissionRepository.java:10 | deleting removes exactly that row |
| Submissions.SubmissionRepository.RemoveEach | backend/src/main/java/com/sikhshan/restcontroller/AssignmentController.java:244-255 | deleting each given submission in turn leaves exactly the other rows |
| SubmissionControllers.Submitted | backend/src/main/java/com/sikhshan/restcontroller/AssignmentSubmissionController.java:82-94 | a fresh submission is stamped now, flagged and given a status by its lateness against the due date, numbered as given, and ungraded |
| SubmissionControllers.Graded | backend/src/main/java/com/sikhshan/restcontroller/AssignmentSubmissionController.java:161-174 | grading sets the grade, letter, feedback and time, and the status from the lateness flag; nothing else but the modification time changes |
| SubmissionControllers.GradeIdempotent | backend/src/main/java/com/sikhshan/restcontroller/AssignmentSubmissionController.java:143-181 | grading twice with the same request at the same moment is the same as grading once |
| SubmissionControllers.AssignmentSubmissionController.constructor | backend/src/main/java/com/sikhshan/restcontroller/AssignmentSubmissionController.java:24-33 | the controller starts over the given tables |
| SubmissionControllers.AssignmentSubmissionController.Submit | backend/src/main/java/com/sikhshan/restcontroller/AssignmentSubmissionController.java:69-99 | missing ids and unknown ids are rejected without change; otherwise one submission is appended, numbered one past the student's latest for the assignment, and created as the creation hook says |
| SubmissionControllers.AssignmentSubmissionController.Grade | backend/src/main/java/com/sikhshan/restcontroller/AssignmentSubmissionController.java:142-181 | an unknown id is not found; otherwise that submission, and no other, takes its graded state |
| SubmissionControllers.AssignmentSubmissionController.GetLatest | backend/src/main/java/com/sikhshan/restcontroller/AssignmentSubmissionController.java:218-229 | not found exactly when the student has no submission for the assignment; otherwise the state of a stored submission of that student for that assignment, numbered at least as high as every other |
| SubmissionControllers.AssignmentSubmissionController.Delete | backend/src/main/java/com/sikhshan/restcontroller/AssignmentSubmissionController.java:247-273 | an unknown id is not found and changes nothing; otherwise exactly that submission leaves the table |
| Assignments.HttpStatus | backend/src/main/java/com/sikhshan/restcontroller/AssignmentController.java:200-220 | a missing assignment answers 404 and every other failure 400 |
| Assignments.Created | backend/src/main/java/com/sikhshan/restcontroller/AssignmentController.java:77-92 | a new assignment carries the request's fields, ACTIVE unless a status is given, the course and its instructor, and the creation time |
| Assignments.Updated | backend/src/main/java/com/sikhshan/restcontroller/AssignmentController.java:207-213 | the id, course, instructor and creation time are kept; the name, description and due date are overwritten, and the status only when one is given |
| Assignments.ToResponse | backend/src/main/java/com/sikhshan/restcontroller/AssignmentController.java:38-73 | the response is overdue exactly when the due date has passed, counts the assignment's submissions, and counts no more graded ones than that |
| Assignments.NothingGradedYet | backend/src/main/java/com/sikhshan/restcontroller/AssignmentController.java:63-70 | until a submission of the assignment is graded, the graded count is 0 |
| Assignments.AssignmentRepository.constructor | backend/src/main/java/com/sikhshan/model/Assignment.java:10-13 | the table starts empty |
| Assignments.AssignmentRepository.Insert | backend/src/main/java/com/sikhshan/model/Assignment.java:10-13 | saving a new assignment gives it the next id and appends it, and it is then found by that id |
| Assignments.AssignmentRepository.Update | backend/src/main/java/com/sikhshan/model/Assignment.java:10-13 | saving a stored assignment replaces its row |
| Assignments.AssignmentRepository.Delete | backend/src/main/java/com/sikhshan/model/Assignment.java:10-13 | deleting removes the row with the id |
| Assignments.AssignmentController.constructor | backend/src/main/java/com/sikhshan/restcontroller/AssignmentController.java:24-36 | the controller starts over the given tables |
| Assignments.AssignmentController.Create | backend/src/main/java/com/sikhshan/restcontroller/AssignmentController.java:76-97 | a missing or unknown course is rejected without change; a blank name or missing due date is rejected on save; otherwise one assignment is appended as built |
| Assignments.AssignmentController.Update | backend/src/main/java/com/sikhshan/restcontroller/AssignmentController.java:199-220 | an unknown id is not found; an unacceptable request is rejected on save; otherwise the row is replaced by its updated form |
| Assignments.AssignmentController.Delete | backend/src/main/java/com/sikhshan/restcontroller/AssignmentController.java:223-262 | an unknown id is not found; otherwise the assignment and all its submissions leave the tables, and every other submission stays |
| Chapters.ErrorStatus | backend/src/main/java/com/sikhshan/restcontroller/ChapterController.java:85-100 | missing course or chapter answers 404; a missing title, a non-positive number and a taken number answer 400 |
| Chapters.CheckRequest | backend/src/main/java/com/sikhshan/restcontroller/ChapterController.java:85-90 | a missing or blank title is reported first, then a missing or non-positive number; the body passes exactly when the title is not blank and the number is positive |
| Chapters.TrimmedOrNull | backend/src/main/java/com/sikhshan/restcontroller/ChapterController.java:106 | null stays null; any other description is trimmed |
| Chapters.FindByNumber | backend/src/main/java/com/sikhshan/repository/ChapterRepository.java:12 | with numbers unique per course, the chapter found is the only one with that course and number; None exactly when there is none |
| Chapters.RemoveKeepsUnique | backend/src/main/java/com/sikhshan/restcontroller/ChapterController.java:177 | deleting a chapter keeps numbers unique per course |
| Chapters.TailUnique | backend/src/main/java/com/sikhshan/repository/ChapterRepository.java:12 | dropping the first chapter keeps numbers unique |
| Chapters.OneMatchAtMost | backend/src/main/java/com/sikhshan/repository/ChapterRepository.java:12 | with numbers unique per course, a number lookup never matches twice, so the query cannot fail |
| Chapters.ChapterController.constructor | backend/src/main/java/com/sikhshan/restcontroller/ChapterController.java:29-41 | the controller starts with no chapters and the given attachments |
| Chapters.ChapterController.Create | backend/src/main/java/com/sikhshan/restcontroller/ChapterController.java:81-117 | a bad body, a missing course and a taken number are rejected in that order without change; otherwise one chapter is appended with the trimmed title and description, the number, and both times now; numbers stay unique |
| Chapters.ChapterController.Update | backend/src/main/java/com/sikhshan/restcontroller/ChapterController.java:120-157 | a bad body and a missing chapter are rejected; a number taken by another chapter of the course is rejected; otherwise the chapter's title, description, number and update time change, and numbers stay unique |
| Chapters.ChapterController.Delete | backend/src/main/java/com/sikhshan/restcontroller/ChapterController.java:160-183 | a missing chapter is not found and nothing changes; otherwise the chapter leaves the table and each of its attachments moves to no chapter, no other attachment changing |
| Chapters.DetachAll | backend/src/main/java/com/sikhshan/restcontroller/ChapterController.java:170-175 | the loop leaves every attachment of the chapter with no chapter and every other attachment as it was |
| Chapters.Detached | backend/src/main/java/com/sikhshan/restcontroller/ChapterController.java:173 | an attachment keeps its id, course and file, and no longer belongs to the deleted chapter |
| Chapters.DetachStep | backend/src/main/java/com/sikhshan/restcontroller/ChapterController.java:172-175 | each saved attachment joins the handled ones, the others unchanged |
| Chapters.DetachedAll | backend/src/main/java/com/sikhshan/restcontroller/ChapterController.java:171-175 | once every listed attachment is handled, exactly the chapter's attachments are detached |
| Chapters.AppendKeepsUnique | backend/src/main/java/com/sikhshan/restcontroller/ChapterController.java:97-111 | a chapter whose number its course does not use yet keeps numbers unique |
| Chapters.NumberHeldOnlyBy | backend/src/main/java/com/sikhshan/repository/ChapterRepository.java:12 | under the uniqueness rule, only the chapter itself holds its number in its course |
| Chapters.NumberConflict | backend/src/main/java/com/sikhshan/restcontroller/ChapterController.java:138-144 | a conflict exists exactly when another chapter of the same course has the requested number |
| Chapters.RenumberKeepsTable | backend/src/main/java/com/sikhshan/restcontroller/ChapterController.java:146-151 | saving an updated chapter under its own id keeps numbers unique, ids ordered and below the counter |
| Chapters.RenumberKeepsUnique | backend/src/main/java/com/sikhshan/restcontroller/ChapterController.java:138-148 | renumbering to a number no other chapter of the course uses keeps numbers unique |
| Courses.ErrorStatus | backend/src/main/java/com/sikhshan/restcontroller/CourseController.java:176-215 | unknown course, student or enrollment answer 404; an unknown instructor and a repeated enrollment answer 400; a missing id ends in the 500 of the catch-all handler |
| Courses.FindEnrollment | backend/src/main/java/com/sikhshan/repository/EnrollmentRepository.java:16 | with one enrollment per student and course, the lookup finds that pair's enrollment, and None exactly when the pair has none |
| Courses.TailPairsUnique | backend/src/main/java/com/sikhshan/repository/EnrollmentRepository.java:16 | dropping the first enrollment keeps pairs unique |
| Courses.PairMatchesAtMostOnce | backend/src/main/java/com/sikhshan/repository/EnrollmentRepository.java:16 | with pairs unique, the pair lookup matches at most one row, so it cannot fail |
| Courses.AppendKeepsPairsUnique | backend/src/main/java/com/sikhshan/restcontroller/CourseController.java:186-195 | saving an enrollment for a pair with none keeps one enrollment per pair |
| Courses.RemoveKeepsPairsUnique | backend/src/main/java/com/sikhshan/restcontroller/CourseController.java:210 | deleting an enrollment keeps pairs unique |
| Courses.FilterKeepsPairsUnique | backend/src/main/java/com/sikhshan/restcontroller/CourseController.java:156-157 | any filtered enrollment table keeps pairs unique |
| Courses.EnrolledCourseIds | backend/src/main/java/com/sikhshan/restcontroller/CourseController.java:166-167 | a course id is listed exactly when the student holds an enrollment in that course |
| Courses.Available | backend/src/main/java/com/sikhshan/restcontroller/CourseController.java:163-173 | a course is offered exactly when it is stored and the student is not enrolled in it; the offer keeps table order |
| Courses.Enrolled | backend/src/main/java/com/sikhshan/restcontroller/CourseController.java:166 | a course is listed exactly when it is stored and the student is enrolled in it |
| Courses.AvailablePartitions | backend/src/main/java/com/sikhshan/restcontroller/CourseController.java:163-173 | every stored course is either available to the student or one of the student's courses, never both |
| Courses.NoEnrollmentsAllAvailable | backend/src/main/java/com/sikhshan/restcontroller/CourseController.java:163-173 | a student without enrollments is offered every course, in table order |
| Courses.CourseIds | backend/src/main/java/com/sikhshan/restcontroller/CourseController.java:139 | an id is held exactly when some stored course has it |
| Courses.DropCourseEnrollments | backend/src/main/java/com/sikhshan/restcontroller/CourseController.java:155-157 | exactly the enrollments of other courses remain, in order |
| Courses.CourseController.constructor | backend/src/main/java/com/sikhshan/restcontroller/CourseController.java:62-81 | the controller starts with no courses and no enrollments over the given users |
| Courses.CourseController.Create | backend/src/main/java/com/sikhshan/restcontroller/CourseController.java:62-81 | a missing or unknown instructor is rejected without change; otherwise one course with the next id, the request's fields, today's date and the instructor is appended; enrollments are untouched |
| Courses.CourseController.Delete | backend/src/main/java/com/sikhshan/restcontroller/CourseController.java:137-161 | an unknown id is not found and nothing changes; otherwise the course and exactly its enrollments are removed |
| Courses.CourseController.Enroll | backend/src/main/java/com/sikhshan/restcontroller/CourseController.java:175-201 | unknown course, missing or unknown student, and an existing enrollment of the pair are rejected without change, the last exactly when the pair is enrolled; otherwise one ACTIVE enrollment dated today is appended |
| Courses.CourseController.Unenroll | backend/src/main/java/com/sikhshan/restcontroller/CourseController.java:203-216 | fails with not found exactly when the pair has no enrollment; otherwise exactly that enrollment is removed |
| Courses.UnenrollFreesPair | backend/src/main/java/com/sikhshan/restcontroller/CourseController.java:203-216 | after an unenroll the pair has no enrollment, so the student may enroll again |
| Events.NewEvent | backend/src/main/java/com/sikhshan/service/EventService.java:38-46 | the saved event carries every field of the request, the creator and the creation time, and has no update time |
| Events.Edited | backend/src/main/java/com/sikhshan/service/EventService.java:107-113 | an update keeps the id, the creator and the creation time, takes every field of the request and stamps the update time |
| Events.CreatedBlocksRepeat | backend/src/main/java/com/sikhshan/service/EventService.java:33-36 | once an event with a title and date is created, the same request by the same user is a duplicate |
| Events.NullNeverDuplicate | backend/src/main/java/com/sikhshan/repository/EventRepository.java:42-44 | a request without a title or a date is never a duplicate, as SQL equality never matches null |
| Events.OtherCreatorsIgnored | backend/src/main/java/com/sikhshan/repository/EventRepository.java:42-44 | events of other creators do not affect the duplicate check |
| Events.EventService.constructor | backend/src/main/java/com/sikhshan/service/EventService.java:20-26 | the service starts with no events over the given users |
| Events.EventService.Create | backend/src/main/java/com/sikhshan/service/EventService.java:29-50 | an unknown user and then a duplicate title and date are rejected without change; otherwise the new event is appended under the next id |
| Events.EventService.Update | backend/src/main/java/com/sikhshan/service/EventService.java:98-117 | a missing event and then a caller other than the creator are rejected without change; otherwise only that event is replaced by its edited form |
| Events.EventService.Delete | backend/src/main/java/com/sikhshan/service/EventService.java:120-130 | a missing event and then a caller other than the creator are rejected without change; otherwise exactly that event is removed |
| Events.IsCreatorAsWritten | backend/src/main/java/com/sikhshan/service/EventService.java:103-105 | the creator check as written accepts the caller only when the caller is the creator and the id lies in the `Long` cache, -128 to 127 |
| Events.CreatorRefusedAsWritten | backend/src/main/java/com/sikhshan/service/EventService.java:125-127 | as written, the creator of an event is refused once the creator's id is above 127 |
| Events.IsCreator | backend/src/main/java/com/sikhshan/service/EventService.java:103-105 | the intended check accepts the caller exactly when the caller's id is the creator's |
| Events.CreatorAccepted | backend/src/main/java/com/sikhshan/service/EventService.java:125-127 | the intended check accepts the creator whatever the id, and agrees with the written check for ids inside the cache |
| Events.ReplaceKeepsBound | backend/src/main/java/com/sikhshan/service/EventService.java:115 | saving an event under its own id keeps every id below the next one |
| Quizzes.ErrorStatus | backend/src/main/java/com/sikhshan/restcontroller/QuizController.java:107-320 | an unknown quiz answers 404; every other failure of the quiz endpoints answers 400 |
| Quizzes.ToResponse | backend/src/main/java/com/sikhshan/restcontroller/QuizController.java:65-74 | active exactly when strictly after the start and strictly before the end; overdue exactly when strictly after the end; never both; the count is the number of the quiz's attempts |
| Quizzes.NeitherFlag | backend/src/main/java/com/sikhshan/restcontroller/QuizController.java:65-70 | for a positive duration, a quiz is neither active nor overdue exactly up to its start and at its end instant |
| Quizzes.WindowError | backend/src/main/java/com/sikhshan/restcontroller/QuizController.java:193-203 | before the start the quiz has not started; after the end it has ended; it is open exactly from the start to the end, both included |
| Quizzes.ActiveIsOpen | backend/src/main/java/com/sikhshan/restcontroller/QuizController.java:193-203 | a quiz the course list shows as active is always open to students; at the start instant it is open but not shown as active |
| Quizzes.ActiveQuizzes | backend/src/main/java/com/sikhshan/restcontroller/QuizController.java:238-253 | exactly the course's quizzes strictly inside their window, in table order |
| Quizzes.ActiveListFlags | backend/src/main/java/com/sikhshan/restcontroller/QuizController.java:238-253 | every quiz of the active list is summarised as active and not overdue |
| Quizzes.StudentViewAsWritten | backend/src/main/java/com/sikhshan/restcontroller/QuizController.java:205-212 | the view as written clears only the correct answer and keeps every option exactly as the full view shows it |
| Quizzes.StudentViewAsWrittenLeaksAnswer | backend/src/main/java/com/sikhshan/restcontroller/QuizController.java:205-212 | for a multiple-choice question with a right option, the view as written still tells the student which option is right |
| Quizzes.StudentView | backend/src/main/java/com/sikhshan/restcontroller/QuizController.java:205-212 | the student view hides the correct answer and every option's flag and shows every other field of the question and its options |
| Quizzes.QuestionsOf | backend/src/main/java/com/sikhshan/repository/QuestionRepository.java:8-9 | exactly the quiz's questions; with ids increasing in the table, they come in id order |
| Quizzes.ForStudent | backend/src/main/java/com/sikhshan/restcontroller/QuizController.java:185-220 | an unknown quiz is not found; before the start and after the end the window errors come back; otherwise every question of the quiz, in id order, with the correct answer cleared and the options exactly as the full view shows them, `isCorrect` flags included |
| Quizzes.ForStudentCorrected | backend/src/main/java/com/sikhshan/restcontroller/QuizController.java:185-220 | the corrected endpoint of the Findings row: the same errors in the same cases, and otherwise every question of the quiz, in id order, with the answer and every option's flag hidden |
| Quizzes.CorrectedHidesOnlyFlags | backend/src/main/java/com/sikhshan/restcontroller/QuizController.java:205-212 | the corrected endpoint fails exactly when the written one does, with the same error, and otherwise returns the same quiz and questions, the options differing only in their hidden flags |
| Quizzes.CreateCheck | backend/src/main/java/com/sikhshan/restcontroller/QuizController.java:109-119 | a missing course or instructor id fails; an unknown course or instructor is rejected; then a missing start, a missing duration or a non-positive duration is rejected; a passing request has all of them |
| Quizzes.NewQuiz | backend/src/main/java/com/sikhshan/restcontroller/QuizController.java:121-129 | the saved quiz takes the request's fields, 100 points and ACTIVE unless given, and the creation time (backend/src/main/java/com/sikhshan/model/Quiz.java:42-48) |
| Quizzes.QuestionRow | backend/src/main/java/com/sikhshan/restcontroller/QuizController.java:136-141 | a saved question takes the request's text, type and answer, and one point unless given (backend/src/main/java/com/sikhshan/model/Question.java:15-23) |
| Quizzes.SavedCount | backend/src/main/java/com/sikhshan/restcontroller/QuizController.java:135-143 | no more questions are saved than requested |
| Quizzes.SavedCountAt | backend/src/main/java/com/sikhshan/restcontroller/QuizController.java:135-143 | saving stops exactly at the first question validation refuses, or at the end |
| Quizzes.SavedAreAcceptable | backend/src/main/java/com/sikhshan/model/Question.java:15-23 | every saved question has non-blank text and a type |
| Quizzes.QuestionRows | backend/src/main/java/com/sikhshan/restcontroller/QuizController.java:135-143 | the first n questions, in request order, with consecutive ids |
| Quizzes.OptionRowsStep | backend/src/main/java/com/sikhshan/restcontroller/QuizController.java:146-153 | saving one more question appends exactly its options, numbered after those before |
| Quizzes.OptionRowsNumbered | backend/src/main/java/com/sikhshan/restcontroller/QuizController.java:146-153 | saved options draw consecutive ids and each belongs to one of the questions saved with it |
| Quizzes.SaveOptions | backend/src/main/java/com/sikhshan/restcontroller/QuizController.java:146-153 | the inner loop saves each option of the question in order, with consecutive ids |
| Quizzes.SaveQuestion | backend/src/main/java/com/sikhshan/restcontroller/QuizController.java:135-155 | one turn of the outer loop adds the question and then its options |
| Quizzes.SaveQuestions | backend/src/main/java/com/sikhshan/restcontroller/QuizController.java:134-156 | the outer loop saves the questions up to the first refused one, with their options; it fails exactly when some question is refused |
| Quizzes.CreatedRowsLinked | backend/src/main/java/com/sikhshan/restcontroller/QuizController.java:141-151 | every saved question belongs to the new quiz and every saved option to a saved question |
| Quizzes.AddQuizKeepsTables | backend/src/main/java/com/sikhshan/restcontroller/QuizController.java:131-156 | adding the quiz with its questions and options keeps ids increasing and every question and option attached to a stored parent |
| Quizzes.OptionsKept | backend/src/main/java/com/sikhshan/restcontroller/QuizController.java:305-308 | exactly the options of questions outside the deleted set remain, in order |
| Quizzes.QuestionsNotOf | backend/src/main/java/com/sikhshan/restcontroller/QuizController.java:309 | exactly the questions of other quizzes remain, in order |
| Quizzes.AttemptsNotOf | backend/src/main/java/com/sikhshan/restcontroller/QuizController.java:312 | exactly the attempts at other quizzes remain, in order |
| Quizzes.DeleteOptions | backend/src/main/java/com/sikhshan/restcontroller/QuizController.java:305-308 | the loop over the quiz's questions deletes exactly their options |
| Quizzes.QuizController.constructor | backend/src/main/java/com/sikhshan/restcontroller/QuizController.java:30-43 | the controller starts with empty quiz, question and option tables over the given courses, users and attempts |
| Quizzes.QuizController.Create | backend/src/main/java/com/sikhshan/restcontroller/QuizController.java:106-162 | a failed check or a blank name is rejected without change; otherwise the quiz is appended, then its questions up to the first refused one with their options, and the answer is the quiz exactly when every question was saved |
| Quizzes.QuizController.Delete | backend/src/main/java/com/sikhshan/restcontroller/QuizController.java:296-320 | an unknown quiz is not found and nothing changes; otherwise the quiz, its questions, their options and its attempts are removed, and the remaining questions, options and attempts stay in table order |
| Quizzes.CascadeKeepsTables | backend/src/main/java/com/sikhshan/restcontroller/QuizController.java:303-315 | the cascade leaves no question without its quiz and no option without its question |
| QuizAttempts.FindByStatus | backend/src/main/java/com/sikhshan/repository/QuizAttemptRepository.java:12 | empty exactly when no attempt of the quiz, student and status exists; a found attempt matches all three; the query fails exactly when more than one matches |
| QuizAttempts.InProgressCountAtMostOne | backend/src/main/java/com/sikhshan/restcontroller/QuizAttemptController.java:90-96 | with at most one in-progress attempt per quiz and student, the in-progress query matches at most once |
| QuizAttempts.InProgressLookupSucceeds | backend/src/main/java/com/sikhshan/restcontroller/QuizAttemptController.java:91-92 | under that rule the in-progress query never fails |
| QuizAttempts.FindById | backend/src/main/java/com/sikhshan/restcontroller/QuizAttemptController.java:117 | a found attempt has the id; none is found exactly when no attempt has it |
| QuizAttempts.StartCheck | backend/src/main/java/com/sikhshan/restcontroller/QuizAttemptController.java:66-103 | an attempt starts only for a known quiz and student, inside the quiz window, without an attempt in progress; it is in progress, started now, with nothing submitted; before the start and after the end the window errors come back |
| QuizAttempts.StartKeepsInProgressUnique | backend/src/main/java/com/sikhshan/restcontroller/QuizAttemptController.java:90-105 | saving a started attempt keeps at most one in-progress attempt per quiz and student |
| QuizAttempts.RetakeAllowed | backend/src/main/java/com/sikhshan/restcontroller/QuizAttemptController.java:90-96 | inside the window, a student whose attempts are all submitted may start again |
| QuizAttempts.SubmitCheck | backend/src/main/java/com/sikhshan/restcontroller/QuizAttemptController.java:114-163 | the checks in source order: a request without an attempt id fails through the catch-all error, an unknown attempt is not found, a submission after the quiz's end is too late, a request whose student id is missing or is not the attempt's student is unauthorized, and missing or empty answers are refused; a pass gives the stored attempt, its quiz, the owning student and some answer |
| QuizAttempts.Submitted | backend/src/main/java/com/sikhshan/restcontroller/QuizAttemptController.java:150-157 | the submitted attempt keeps its identity and start, is SUBMITTED now, and carries the scorer's points, percentage, letter, description and the answers |
| QuizAttempts.SubmitKeepsInProgressUnique | backend/src/main/java/com/sikhshan/restcontroller/QuizAttemptController.java:159 | storing a submitted attempt never adds an in-progress one |
| QuizAttempts.StudentAttempt | backend/src/main/java/com/sikhshan/restcontroller/QuizAttemptController.java:179-194 | the attempt found belongs to the quiz and student and is in progress or submitted; none is found exactly when the student has neither |
| QuizAttempts.InProgressPreferred | backend/src/main/java/com/sikhshan/restcontroller/QuizAttemptController.java:181-185 | an attempt in progress is returned ahead of any submitted one |
| QuizAttempts.RetakeBreaksLookup | backend/src/main/java/com/sikhshan/restcontroller/QuizAttemptController.java:187-191 | with no attempt in progress and two submitted ones, the lookup fails |
| QuizAttempts.WholeMinutes | backend/src/main/java/com/sikhshan/restcontroller/QuizAttemptController.java:239 | whole minutes truncated toward zero: for a non-negative span, the largest count of minutes that fits |
| QuizAttempts.TimeRemaining | backend/src/main/java/com/sikhshan/restcontroller/QuizAttemptController.java:213-252 | a failing attempt lookup, then an unknown quiz, then a running quiz without an attempt in progress are the only errors; zero once the quiz has ended, whether or not an attempt is in progress; while it runs, the whole minutes from now to the attempt's start plus the duration, or zero when that is negative |
| QuizAttempts.TimeRemainingWithinDuration | backend/src/main/java/com/sikhshan/restcontroller/QuizAttemptController.java:235-240 | while the quiz runs, the minutes left fit inside the student's own window and never exceed the duration once the student has started |
| QuizAttempts.QuizAttemptController.constructor | backend/src/main/java/com/sikhshan/restcontroller/QuizAttemptController.java:26-34 | the controller starts with no attempts over the given quizzes and students |
| QuizAttempts.QuizAttemptController.StartQuizAttempt | backend/src/main/java/com/sikhshan/restcontroller/QuizAttemptController.java:65-111 | a failed start check changes nothing; otherwise the attempt is appended under the next id |
| QuizAttempts.QuizAttemptController.SubmitQuizAttempt | backend/src/main/java/com/sikhshan/restcontroller/QuizAttemptController.java:114-165 | a failed submission check, the missing-id case included, changes nothing and returns its error; otherwise the attempt is replaced by its submitted form, scored against the quiz's questions |
| EventApi.ConvertEventType | frontend/src/api/eventApi.js:86-94 | every input, null included, maps to one of the four client type names |
| EventApi.ConvertToBackendEventType | frontend/src/api/eventApi.js:97-105 | every input, null included, maps to one of the four back-end type names |
| EventApi.ClientTypeRoundTrip | frontend/src/api/eventApi.js:86-105 | a client type sent to the back end and read back is unchanged |
| EventApi.BackendTypeRoundTrip | frontend/src/api/eventApi.js:86-105 | a back-end type read by the client and sent back is unchanged |
| EventApi.UnknownTypesFallBack | frontend/src/api/eventApi.js:93 | an unknown name or null becomes "other" on the client and "OTHER" on the back end (frontend/src/api/eventApi.js:104) |
| EventApi.TypeName | frontend/src/api/eventApi.js:87-92 | every stored event type is sent under one of the four back-end names |
| EventApi.StoredTypeRoundTrip | frontend/src/api/eventApi.js:86-105 | every stored event type survives the trip to the client and back, and the client sees it lower-cased |
| EventApi.FormatTimeForApi | frontend/src/api/eventApi.js:76-78 | the time gains a seconds field: the input is kept as a prefix followed by ":00" |
| EventApi.FormatTimeForDisplay | frontend/src/api/eventApi.js:80-83 | a missing or empty time shows as ""; any other shows as a prefix of at most five characters, exactly five when there are that many |
| EventApi.DisplayOfApiTime | frontend/src/api/eventApi.js:76-83 | an HH:MM time sent to the API and shown again is unchanged |
| EventApi.ApiOfDisplayedTime | frontend/src/api/eventApi.js:76-83 | a stored HH:MM:00 time shown and sent back is unchanged |
| EventApi.TwoDigits | frontend/src/api/eventApi.js:71-72 | padding gives two digits whose value is the number |
| EventApi.FormatDateForApi | frontend/src/api/eventApi.js:69-74 | the year as printed, a dash, two digits worth the month number (index plus one), a dash, and two digits worth the day |
| UserSearchApi.UserDisplayName | frontend/src/api/userSearchApi.js:42-47 | "Unknown User" for no user; the name when it is not blank; otherwise the email, which may be missing |
| UserSearchApi.Initials | frontend/src/api/userSearchApi.js:60 | the joined initials hold no lower-case letter |
| UserSearchApi.NameInitials | frontend/src/api/userSearchApi.js:57-64 | at most two characters and no lower-case letter |
| UserSearchApi.UserInitials | frontend/src/api/userSearchApi.js:49-65 | "?" when there is no display name or it is "Unknown User"; otherwise at most two characters, none lower-case |
| UserSearchApi.InitialsOfNamedUser | frontend/src/api/userSearchApi.js:49-65 | a user with a name other than "Unknown User" shows the initials of that name |
| UserSearchApi.InitialsOfFirstAndLast | frontend/src/api/userSearchApi.js:57-60 | "First Last" shows the two capitalised first letters |
| UserSearchApi.InitialsOfOneWord | frontend/src/api/userSearchApi.js:61-63 | a single word shows its first two characters upper-cased |
| UserSearchApi.RoleDisplay | frontend/src/api/userSearchApi.js:67-78 | never empty; "Unknown" exactly for a missing or empty role |
| UserSearchApi.RoleDisplayIgnoresOnlyCase | frontend/src/api/userSearchApi.js:67-78 | every role is shown as itself up to the case of its letters |
| UserSearchApi.FilterUsersByRole | frontend/src/api/userSearchApi.js:115-118 | no role keeps the list unchanged; otherwise exactly the users with that role, in order |
| UserSearchApi.OnlineFirstIsTotalPreorder | frontend/src/api/userSearchApi.js:121-130 | the comparator is total and transitive, so the sort is well defined |
| UserSearchApi.SortUsersByOnlineStatus | frontend/src/api/userSearchApi.js:120-131 | a permutation of the users, sorted by the comparator, with every online user ahead of every offline one |
| UserSearchApi.SearchSuggestions | frontend/src/api/userSearchApi.js:142-155 | nothing for a missing or blank query; otherwise exactly the users whose name, email or role contains the lower-cased, trimmed term, in order |
| UserSearchApi.SuggestionsCommuteWithRoleFilter | frontend/src/api/userSearchApi.js:115-155 | narrowing by role and suggesting by query give the same list in either order |
| ChatApi.DisplayName | frontend/src/api/chatApi.js:182-184 | never empty; the name when it is non-empty, else the email when non-empty, else "Unknown User" |
| ChatApi.DisplayContent | frontend/src/api/chatApi.js:186-191 | a deleted message always shows the placeholder, whatever its content; any other shows its content unchanged, null included |
| ChatApi.ClientShowsServerDisplayContent | frontend/src/api/chatApi.js:186-191 | for every stored message the client shows what the server's own display content gives: the placeholder once deleted, the content otherwise |
| ChatApi.DisplayNamesAgree | frontend/src/api/chatApi.js:182-184 | the chat helper and the search helper name a user alike when the name is missing, empty or not blank (frontend/src/api/userSearchApi.js:42-47) |
| ChatApi.BlankNameShownOnlyInChat | frontend/src/api/chatApi.js:182-184 | a name of white space only is shown by the chat helper, while the search helper falls back to the email (frontend/src/api/userSearchApi.js:46) |
| Audit.HealthSubpathAudited | backend/src/main/java/com/sikhshan/interceptor/AuditLogInterceptor.java:196 | the health check is matched exactly, so any longer path below it is audited |
| Audit.ResourceType | backend/src/main/java/com/sikhshan/interceptor/AuditLogInterceptor.java:202-209 | the type is UNKNOWN or that of some entry whose key starts the URI; it is UNKNOWN whenever no key does |
| Audit.ResourceTypeUnique | backend/src/main/java/com/sikhshan/interceptor/AuditLogInterceptor.java:202-209 | in a table where no key is a prefix of another, the type is that of the one entry whose key starts the URI |
| Audit.ResourceTypeOrderFree | backend/src/main/java/com/sikhshan/interceptor/AuditLogInterceptor.java:202-209 | for such a table every iteration order gives the same type, so the hash map's order does not matter |
| Audit.DefaultResourcesPrefixFree | backend/src/main/java/com/sikhshan/interceptor/AuditLogInterceptor.java:65-70 | no installed resource key is a prefix of another |
| Audit.ResourcesNotSkipped | backend/src/main/java/com/sikhshan/interceptor/AuditLogInterceptor.java:65-70 | every URI under an installed resource key is audited: none of them is skipped (backend/src/main/java/com/sikhshan/interceptor/AuditLogInterceptor.java:190-200) |
| Audit.ResourceId | backend/src/main/java/com/sikhshan/interceptor/AuditLogInterceptor.java:211-224 | a number comes back exactly when the last field of the path is all digits and fits a long, and it is that field's value |
| Audit.ResourceIdOfNumberedPath | backend/src/main/java/com/sikhshan/interceptor/AuditLogInterceptor.java:211-224 | a path ending in a slash and a number gives that number back |
| Audit.Action | backend/src/main/java/com/sikhshan/interceptor/AuditLogInterceptor.java:112-118 | the mapped name of the exact method and path when there is one, otherwise the method, an underscore and the resource type |
| Audit.Status | backend/src/main/java/com/sikhshan/interceptor/AuditLogInterceptor.java:124-128 | SUCCESS exactly for a 2xx status without an exception; ERROR otherwise |
| Audit.ClientIp | backend/src/main/java/com/sikhshan/interceptor/AuditLogInterceptor.java:226-238 | the first field of a usable forwarded-for header, which contains no comma and is a prefix of it; otherwise a usable real-ip header; otherwise the remote address; a header of separators alone makes the lookup throw |
| Audit.Details | backend/src/main/java/com/sikhshan/interceptor/AuditLogInterceptor.java:240-261 | the request line, then the query when it is not empty, then the response status, then the error message when there was an exception |
| Audit.Entry | backend/src/main/java/com/sikhshan/interceptor/AuditLogInterceptor.java:98-179 | the record is of the current user or else the system user, with the action, type, id, status, details, address, timing and error derived as above |
| Audit.PreHandle | backend/src/main/java/com/sikhshan/interceptor/AuditLogInterceptor.java:74-78 | the request always proceeds, carrying the start time |
| Audit.AuditLogInterceptor.constructor | backend/src/main/java/com/sikhshan/interceptor/AuditLogInterceptor.java:16-71 | the interceptor starts with the given tables and an empty log |
| Audit.AuditLogInterceptor.AfterCompletion | backend/src/main/java/com/sikhshan/interceptor/AuditLogInterceptor.java:86-188 | a skipped URI and a failed client-address lookup log nothing; any other request adds exactly its one record |
| Audit.ExecutionTimeMeasured | backend/src/main/java/com/sikhshan/interceptor/AuditLogInterceptor.java:120-122 | a request timed by the pre-handler records the time since its start, and succeeds exactly for a 2xx status when nothing was thrown |

## Left out

- Concurrency and transactions. Every service or controller call is one atomic step. Two users contacting each other for the first time at the same moment could create two rooms; the model does not capture that race.
- Object identity. `ChatRoom.java:99-109`, `Message.java:176`, `EventService.java:103,125` and `QuizAttemptController.java:134` compare boxed `Long` ids with `==` or `!=`. The Findings row for `EventService.java` models the written comparison by reference and shows the creator it refuses. Everywhere else, event updates and deletes included, the model compares id values, as the code evidently intends. `User.java` is not part of this model, so the `Long` type of its id is inferred from the other entities.
- Aliasing. A `Message` row is a value. The model does not capture several Java objects sharing one entity instance.
- The clock. `LocalDateTime.now()` and `System.currentTimeMillis()` are the parameter `now`. Sub-second precision is not modelled.
- Integer widths. Points, counts, durations and ids are unbounded integers, so 32-bit and 64-bit overflow is not modelled. The exception is `Long.parseLong`, whose 64-bit range is modelled wherever the code parses text: resource ids in the audit interceptor (`Audit.ResourceId`), the principal name and the frame data of the WebSocket handlers (`WebSocket.Authenticate`, `WebSocket.DataId`, and the room topics built from them), and multiple-choice answers in quiz scoring (`QuizScoring.IsAnswerCorrect`).
- Floating point. Percentages and grade points are exact reals. Half-up rounding to one decimal is written out over the reals, so binary floating-point error is not modelled.
- JSON. Serialising and parsing quiz answers (`QuizScoringUtility.java:113-130`) and the JSON bodies of the endpoints are not modelled. Answers are a map from question id to answer.
- Cloudinary and files. Image and file deletion, uploads and the file endpoints of the assignment and submission controllers are foreign calls and are not modelled. The course delete in `CourseController.java:145-153` removes the image and ignores any failure, so the model keeps only the table changes.
- Reads that only map rows to responses. Examples are `getAllCourses`, `getQuizById`, `getAttemptsByQuiz`, `getAttemptById` and the event listings by date or creator. They are plain table reads and are not modelled separately.
- Updates outside the core. `updateCourse`, `updateQuiz` and `updateQuizAttempt` are not modelled.
- Entities this model does not include. `Event.java`, `User.java`, `Chapter.java`, `Course.java`, `Enrollment.java` and the response DTOs are not part of this model. Their fields are taken from how the controllers use them.
- `CourseAttachment.java` has no chapter field. `ChapterController.java:171-174` reads and clears one, so the model gives each attachment an optional chapter id.
- Question options. `question.getOptions()` is the option table filtered to the question, in table order. The model assumes the JPA collection keeps that order.
- Table state per controller. Each controller class holds its own copy of the tables it reads and writes, so no state is shared between controllers in the model. The quiz-attempt controller reads quizzes from a fixed map.
- Chapters.ChapterController.Store and Quizzes.QuizController.Store write all tables at once. They are helpers with no counterpart in the source.
- Logging and console output. The audit interceptor's `System.out` and `System.err` lines and every `printStackTrace` are not modelled.
- Audit storage and session. `AuditLogService.createLog` is an append to the interceptor's `log`, and a failure inside it is not modelled. The session id and the current user are read from the request value.
- Audit.ResourceType: Java's `HashMap` iteration order is unspecified, so the table is a sequence in some order. The type is proved independent of that order only for tables where no key is a prefix of another, and the installed table is proved to be one.
- Audit.Action: the action table is keyed by exact method and path. `PUT /api/courses/7` is not `PUT /api/courses`, so it falls back to `PUT_COURSE`. The model keeps this behaviour as written.
- Case and collation on the server. `equalsIgnoreCase`, used by the audit interceptor and by quiz scoring of true/false and short answers, is modelled on ASCII letters only. `String.trim` removes the characters up to U+0020, as Java does.
- Case in the client. `toUpperCase`, `toLowerCase` and `trim` act on ASCII letters and ASCII white space only.
- UserSearchApi.SortUsersByOnlineStatus: `localeCompare` is modelled as code-unit order, which matches the locale order only for lower-case ASCII names. A user with no display name sorts under the empty string, where the browser would throw.
- EventApi.ConvertEventType: a name inherited from `Object.prototype`, such as `"toString"`, looks up a function in JavaScript and is returned as it is. The model treats such a name as unknown and gives `"other"`. EventApi.ConvertToBackendEventType does the same with `"OTHER"`.
- EventApi.FormatTimeForApi: a `null` or `undefined` time, which JavaScript would turn into `"null:00"`, is not modelled.
- EventApi.FormatDateForApi: takes the year, month index and day that a valid `Date` gives. An invalid `Date`, which prints `NaN`, is not modelled.
- Presence in the chat service. The service's presence methods do nothing (`ChatService.java:174-211`), and the model keeps them as no-ops. The presence tracker is modelled by itself in `Presence`.
- Null ids in `startQuizAttempt`. A request without `quizId` or `studentId` makes `findById(null)` throw, and the controller answers 400 (`QuizAttemptController.java:68-69,108-109`). The model takes both ids as numbers, so that path is not modelled. `submitQuizAttempt` does take both ids as optional values, and the text of the caught exception is not modelled.
- Grade request parsing. `gradeSubmission` reads `grade` with `Double.parseDouble` and casts `letterGrade` to `String`. A grade that is not a number, or a letter grade that is not a string, throws and is answered 400 (`AssignmentSubmissionController.java:155-160,178-179`). The model receives the grade already parsed, so these failures are not modelled.
- Digits in `Long.parseLong`. Java also accepts non-ASCII Unicode digits. The model accepts ASCII digits only.
- WebSocket error text. An error event carries a reason value in place of the exception's message text.

## Findings

| source | as written | input that shows it | evidently intended | confidence | as-written member | corrected member |
|---|---|---|---|---|---|---|
| backend/src/main/java/com/sikhshan/restcontroller/QuizController.java:205-212 | the student view of a quiz clears only the question's `correctAnswer`; each option keeps its `isCorrect` flag | a multiple-choice question with options "4" (correct) and "5": the student view still marks "4" as correct | hide every option's `isCorrect` from students as well, as the comment "without correct answers" at line 185 says | medium, not executed | Quizzes.StudentViewAsWrittenLeaksAnswer | Quizzes.ForStudentCorrected |
| backend/src/main/java/com/sikhshan/service/EventService.java:103-125 | `updateEvent` and `deleteEvent` compare the creator's id with the caller's id, both boxed `Long` objects, using `!=`, which compares references | an event created by user 200, updated or deleted by user 200: `Long.valueOf` caches only -128 to 127, so the two ids are different objects and the creator is refused | compare the ids by value, for example with `Objects.equals`, so that the creator may always update or delete | medium, not executed | Events.CreatorRefusedAsWritten | Events.IsCreator |

=== FILE: assignments.dfy ===
/**
 * Assignments: the assignment table and the controller that creates,
 * updates and deletes assignments and reports their submission counts.
 */
module Assignments {
  import opened Wrappers
  import opened Text
  import opened Tables
  import opened Seqs
  import Submissions

  type Time = int

  const ACTIVE := "ACTIVE"

  /** A course as the assignment controller sees it: its instructor may be unset. */
  datatype Course = Course(id: int, name: string, instructorId: Option<int>)

  /** A stored assignment; the due date cannot be null (`@NotNull`). */
  datatype Assignment = Assignment(
    id: int, name: string, description: Option<string>, dueDate: Time, createdAt: Time,
    status: string, courseId: int, instructorId: Option<int>)

  function AssignmentId(a: Assignment): int { a.id }

  /** The request body of create and update; any field may be missing. */
  datatype AssignmentRequest = AssignmentRequest(
    name: Option<string>, description: Option<string>, dueDate: Option<Time>,
    status: Option<string>, courseId: Option<int>)

  datatype AssignmentError =
    | NotFound
    | InvalidCourse
    | MissingId            // `findById(null)` throws
    | ConstraintViolation  // bean validation refuses the entity on save

  /** The HTTP status each failure answers with. */
  function HttpStatus(e: AssignmentError): (code: int)
    ensures code == 404 <==> e.NotFound?
    ensures code == 400 <==> !e.NotFound?
  {
    if e.NotFound? then 404 else 400
  }

  /** `@NotBlank` on the name and `@NotNull` on the due date, checked on every save. */
  predicate Acceptable(name: Option<string>, dueDate: Option<Time>)
  {
    name.Some? && !IsJavaBlank(name.value) && dueDate.Some?
  }

  /** The assignment `createAssignment` builds for a known course, before the table assigns its id. */
  function Created(req: AssignmentRequest, course: Course, id: int, now: Time): (a: Assignment)
    requires Acceptable(req.name, req.dueDate)
    ensures a.status == req.status.GetOr(ACTIVE)
    ensures a.courseId == course.id && a.instructorId == course.instructorId
    ensures a.name == req.name.value && a.dueDate == req.dueDate.value
    ensures a.id == id && a.createdAt == now
  {
    Assignment(id, req.name.value, req.description, req.dueDate.value, now,
               req.status.GetOr(ACTIVE), course.id, course.instructorId)
  }

  /** `updateAssignment`: name, description and due date are overwritten; the status only when one is given. */
  function Updated(a: Assignment, req: AssignmentRequest): (r: Assignment)
    requires Acceptable(req.name, req.dueDate)
    ensures r.id == a.id && r.courseId == a.courseId && r.instructorId == a.instructorId && r.createdAt == a.createdAt
    ensures r == a.(name := req.name.value, description := req.description, dueDate := req.dueDate.value,
                    status := if req.status.Some? then req.status.value else a.status)
  {
    a.(name := req.name.value, description := req.description, dueDate := req.dueDate.value,
       status := req.status.GetOr(a.status))
  }

  /** The counts and flags `toResponse` adds to an assignment. */
  datatype AssignmentResponse = AssignmentResponse(
    assignment: Assignment, overdue: bool, submissionCount: nat, gradedCount: nat)

  /** `toResponse` over the submission table at time `now`. */
  function ToResponse(a: Assignment, subs: seq<Submissions.AssignmentSubmission>, now: Time): (r: AssignmentResponse)
    reads subs
    ensures r.assignment == a
    ensures r.overdue <==> a.dueDate < now
    ensures r.submissionCount == |Submissions.ForAssignment(subs, a.id)|
    ensures r.gradedCount <= r.submissionCount
  {
    AssignmentResponse(a, a.dueDate < now, |Submissions.ForAssignment(subs, a.id)|, Submissions.GradedCount(subs, a.id))
  }

  /** Until a submission of the assignment is graded, the graded count is 0. */
  lemma NothingGradedYet(a: Assignment, subs: seq<Submissions.AssignmentSubmission>, now: Time)
    requires forall s :: s in subs && s.assignmentId == a.id ==>
               s.status == Some(Submissions.SUBMITTED) || s.status == Some(Submissions.LATE_SUBMITTED)
    ensures ToResponse(a, subs, now).gradedCount == 0
  {
    Submissions.UngradedNotCounted(subs, a.id);
  }

  /** The assignment table. */
  class AssignmentRepository {
    var rows: seq<Assignment>
    var nextId: int

    ghost predicate Valid()
      reads this
    {
      nextId >= 1 && KeysIncreasing(rows, AssignmentId) && forall a :: a in rows ==> 1 <= a.id < nextId
    }

    constructor()
      ensures Valid() && rows == []
    {
      rows := [];
      nextId := 1;
    }

    /** `save` of a new assignment: it receives the next id and goes at the end. */
    method Insert(a: Assignment) returns (saved: Assignment)
      requires Valid()
      modifies this
      ensures Valid()
      ensures saved == a.(id := old(nextId)) && rows == old(rows) + [saved]
      ensures FindByKey(rows, AssignmentId, saved.id) == Some(saved)
    {
      saved := a.(id := nextId);
      FindByKeyAppended(rows, AssignmentId, saved);
      rows := rows + [saved];
      nextId := nextId + 1;
    }

    /** `save` of a stored assignment. */
    method Update(a: Assignment)
      requires Valid()
      modifies this
      ensures Valid()
      ensures rows == ReplaceByKey(old(rows), AssignmentId, a) && nextId == old(nextId)
    {
      ReplaceByKeyKeepsKeys(rows, AssignmentId, a);
      rows := ReplaceByKey(rows, AssignmentId, a);
    }

    /** `delete`. */
    method Delete(id: int)
      requires Valid()
      modifies this
      ensures Valid()
      ensures rows == RemoveKey(old(rows), AssignmentId, id) && nextId == old(nextId)
    {
      RemoveKeyKeepsOrder(rows, AssignmentId, id);
      rows := RemoveKey(rows, AssignmentId, id);
    }
  }

  class AssignmentController {
    const courses: map<int, Course>
    const assignments: AssignmentRepository
    const submissions: Submissions.SubmissionRepository

    ghost predicate Valid()
      reads this, assignments, submissions, submissions.rows
    {
      assignments.Valid() && submissions.Valid()
    }

    constructor(courses: map<int, Course>, assignments: AssignmentRepository, submissions: Submissions.SubmissionRepository)
      requires assignments.Valid() && submissions.Valid()
      ensures Valid()
      ensures this.courses == courses && this.assignments == assignments && this.submissions == submissions
    {
      this.courses := courses;
      this.assignments := assignments;
      this.submissions := submissions;
    }

    /**
     * `createAssignment`: the course must exist; the new assignment takes
     * the course's instructor and defaults its status to `ACTIVE`.
     */
    method Create(req: AssignmentRequest, now: Time) returns (r: Result<AssignmentResponse, AssignmentError>)
      requires Valid()
      modifies assignments
      ensures Valid()
      ensures req.courseId.None? ==> r == Err(MissingId)
      ensures req.courseId.Some? && req.courseId.value !in courses ==> r == Err(InvalidCourse)
      ensures r.Err? ==> assignments.rows == old(assignments.rows)
      ensures (req.courseId.Some? && req.courseId.value in courses && !Acceptable(req.name, req.dueDate))
                ==> r == Err(ConstraintViolation)
      ensures req.courseId.Some? && req.courseId.value in courses && Acceptable(req.name, req.dueDate) ==>
                var a := Created(req, courses[req.courseId.value], old(assignments.nextId), now);
                assignments.rows == old(assignments.rows) + [a] && r == Ok(ToResponse(a, submissions.rows, now))
    {
      if req.courseId.None? {
        return Err(MissingId);
      }
      if req.courseId.value !in courses {
        return Err(InvalidCourse);
      }
      if !Acceptable(req.name, req.dueDate) {
        return Err(ConstraintViolation);
      }
      var a := Created(req, courses[req.courseId.value], 0, now);
      var saved := assignments.Insert(a);
      assert unchanged(submissions) && unchanged(submissions.rows);
      return Ok(ToResponse(saved, submissions.rows, now));
    }

    /** `updateAssignment`. */
    method Update(id: int, req: AssignmentRequest, now: Time) returns (r: Result<AssignmentResponse, AssignmentError>)
      requires Valid()
      modifies assignments
      ensures Valid()
      ensures FindByKey(old(assignments.rows), AssignmentId, id).None? ==> r == Err(NotFound)
      ensures r.Err? ==> assignments.rows == old(assignments.rows)
      ensures (FindByKey(old(assignments.rows), AssignmentId, id).Some? && !Acceptable(req.name, req.dueDate))
                ==> r == Err(ConstraintViolation)
      ensures FindByKey(old(assignments.rows), AssignmentId, id).Some? && Acceptable(req.name, req.dueDate) ==>
                var a := Updated(FindByKey(old(assignments.rows), AssignmentId, id).value, req);
                assignments.rows == ReplaceByKey(old(assignments.rows), AssignmentId, a)
                && r == Ok(ToResponse(a, submissions.rows, now))
    {
      var found := FindByKey(assignments.rows, AssignmentId, id);
      if found.None? {
        return Err(NotFound);
      }
      if !Acceptable(req.name, req.dueDate) {
        return Err(ConstraintViolation);
      }
      var a := Updated(found.value, req);
      assignments.Update(a);
      return Ok(ToResponse(a, submissions.rows, now));
    }

    /**
     * `deleteAssignment`: every submission of the assignment is deleted,
     * one by one, and then the assignment itself.
     */
    method Delete(id: int) returns (r: Result<(), AssignmentError>)
      requires Valid()
      modifies assignments, submissions
      ensures Valid()
      ensures FindByKey(old(assignments.rows), AssignmentId, id).None? ==>
                r == Err(NotFound) && assignments.rows == old(assignments.rows) && submissions.rows == old(submissions.rows)
      ensures FindByKey(old(assignments.rows), AssignmentId, id).Some? ==>
                r == Ok(()) && assignments.rows == RemoveKey(old(assignments.rows), AssignmentId, id)
      ensures r.Ok? ==> forall s :: s in submissions.rows ==> s in old(submissions.rows) && s.assignmentId != id
      ensures forall s :: s in old(submissions.rows) && s.assignmentId != id ==> s in submissions.rows
    {
      var found := FindByKey(assignments.rows, AssignmentId, id);
      if found.None? {
        return Err(NotFound);
      }
      var doomed := Submissions.ForAssignment(submissions.rows, id);
      submissions.RemoveEach(doomed);
      label BeforeDelete:
      assignments.Delete(id);
      assert unchanged@BeforeDelete(submissions) && unchanged@BeforeDelete(submissions.rows);
      return Ok(());
    }
  }
}

=== FILE: audit.dfy ===
/**
 * The audit-log interceptor: after every request that is not skipped it
 * derives an action name, a resource type and id, a status, the client
 * address and a details line, and appends one audit record. The two
 * lookup tables are a configuration value; the defaults are the tables
 * the interceptor installs.
 */
module Audit {
  import opened Wrappers
  import opened Text

  // ---------------------------------------------------------------- configuration

  /**
   * `ACTION_MAPPING` keyed by `"METHOD /uri"`, and `RESOURCE_MAPPING` as
   * its entries in the order a `HashMap` happens to visit them.
   */
  datatype AuditConfig = AuditConfig(actions: map<string, string>, resources: seq<(string, string)>)

  /** The installed action names, keyed by exact method and path. */
  const ACTION_MAPPING: map<string, string> :=
    map[
      "POST /api/auth/login" := "LOGIN",
      "POST /api/auth/logout" := "LOGOUT",
      "POST /api/auth/register" := "CREATE_USER",
      "PUT /api/users" := "UPDATE_USER",
      "DELETE /api/users" := "DELETE_USER",
      "PUT /api/users/password" := "PASSWORD_CHANGE",
      "PUT /api/users/profile" := "PROFILE_UPDATE",
      "POST /api/courses" := "CREATE_COURSE",
      "PUT /api/courses" := "UPDATE_COURSE",
      "DELETE /api/courses" := "DELETE_COURSE",
      "POST /api/courses/enroll" := "ENROLL_COURSE",
      "DELETE /api/courses/enroll" := "UNENROLL_COURSE",
      "POST /api/assignments" := "CREATE_ASSIGNMENT",
      "PUT /api/assignments" := "UPDATE_ASSIGNMENT",
      "DELETE /api/assignments" := "DELETE_ASSIGNMENT",
      "POST /api/assignments/submit" := "SUBMIT_ASSIGNMENT",
      "PUT /api/assignments/grade" := "GRADE_ASSIGNMENT",
      "POST /api/quizzes" := "CREATE_QUIZ",
      "PUT /api/quizzes" := "UPDATE_QUIZ",
      "DELETE /api/quizzes" := "DELETE_QUIZ",
      "POST /api/quizzes/attempt" := "TAKE_QUIZ",
      "PUT /api/quizzes/grade" := "GRADE_QUIZ",
      "POST /api/files/upload" := "UPLOAD_FILE",
      "DELETE /api/files" := "DELETE_FILE",
      "POST /api/system/backup" := "SYSTEM_BACKUP",
      "POST /api/system/restore" := "SYSTEM_RESTORE"]

  /** The installed resource types, keyed by path prefix. */
  const RESOURCE_MAPPING: seq<(string, string)> :=
    [("/api/users", "USER"), ("/api/courses", "COURSE"), ("/api/assignments", "ASSIGNMENT"),
     ("/api/quizzes", "QUIZ"), ("/api/files", "FILE"), ("/api/system", "SYSTEM")]

  const DEFAULT_CONFIG: AuditConfig := AuditConfig(ACTION_MAPPING, RESOURCE_MAPPING)

  const UNKNOWN_RESOURCE: string := "UNKNOWN"

  // ---------------------------------------------------------------- skipping

  const HEALTH_URI: string := "/actuator/health"

  /** `shouldSkipAuditLogging`: static files, the health check, the audit log itself, chat and errors. */
  predicate ShouldSkip(uri: string)
  {
    StartsWith(uri, "/static/") || StartsWith(uri, "/css/") || StartsWith(uri, "/js/")
    || StartsWith(uri, "/images/") || uri == HEALTH_URI || StartsWith(uri, "/api/audit-logs")
    || StartsWith(uri, "/api/chat") || StartsWith(uri, "/error")
  }

  /** The health check is matched exactly: a longer path below it is audited. */
  lemma HealthSubpathAudited(rest: string)
    requires rest != []
    ensures !ShouldSkip(HEALTH_URI + rest)
  {
    var uri := HEALTH_URI + rest;
    assert uri[1] == 'a' && uri[2] == 'c';
    NotPrefixAt("/static/", uri, 1);
    NotPrefixAt("/css/", uri, 1);
    NotPrefixAt("/js/", uri, 1);
    NotPrefixAt("/images/", uri, 1);
    NotPrefixAt("/api/audit-logs", uri, 2);
    NotPrefixAt("/api/chat", uri, 2);
    NotPrefixAt("/error", uri, 1);
  }

  /** Strings that differ at a position neither is shorter than are not prefixes of each other. */
  lemma NotPrefixAt(p: string, s: string, i: nat)
    requires i < |p| && i < |s| && p[i] != s[i]
    ensures !StartsWith(s, p)
  {
  }

  // ---------------------------------------------------------------- resources

  /** No key of the resource table is a prefix of another. */
  predicate PrefixFree(resources: seq<(string, string)>)
  {
    forall i, j :: 0 <= i < |resources| && 0 <= j < |resources| && i != j ==> !(resources[i].0 <= resources[j].0)
  }

  /**
   * `getResourceType`: the type of the first entry whose key starts the
   * URI, in the table's iteration order, or `"UNKNOWN"`.
   */
  function ResourceType(resources: seq<(string, string)>, uri: string): (r: string)
    ensures r == UNKNOWN_RESOURCE || exists i :: 0 <= i < |resources| && StartsWith(uri, resources[i].0) && resources[i].1 == r
    ensures (forall i :: 0 <= i < |resources| ==> !StartsWith(uri, resources[i].0)) ==> r == UNKNOWN_RESOURCE
  {
    if resources == [] then UNKNOWN_RESOURCE
    else if StartsWith(uri, resources[0].0) then resources[0].1
    else
      var r := ResourceType(resources[1..], uri);
      assert forall i :: 0 <= i < |resources| - 1 ==> resources[1..][i] == resources[i + 1];
      r
  }

  /** Two prefixes of the same string: one is a prefix of the other. */
  lemma PrefixesComparable(a: string, b: string, s: string)
    requires a <= s && b <= s
    ensures a <= b || b <= a
  {
    if |a| <= |b| {
      assert a == s[..|a|] && b[..|a|] == s[..|a|];
    } else {
      assert b == s[..|b|] && a[..|b|] == s[..|b|];
    }
  }

  /**
   * With a prefix-free table the iteration order does not matter: the type
   * is that of the one entry whose key starts the URI.
   */
  lemma {:induction false} ResourceTypeUnique(resources: seq<(string, string)>, uri: string, k: int)
    requires PrefixFree(resources)
    requires 0 <= k < |resources| && StartsWith(uri, resources[k].0)
    ensures ResourceType(resources, uri) == resources[k].1
  {
    if k == 0 {
    } else {
      if StartsWith(uri, resources[0].0) {
        PrefixesComparable(resources[0].0, resources[k].0, uri);
        assert false;
      }
      var tail := resources[1..];
      assert tail[k - 1] == resources[k];
      assert PrefixFree(tail) by {
        forall i, j | 0 <= i < |tail| && 0 <= j < |tail| && i != j ensures !(tail[i].0 <= tail[j].0) {
          assert tail[i] == resources[i + 1] && tail[j] == resources[j + 1];
        }
      }
      ResourceTypeUnique(tail, uri, k - 1);
    }
  }

  /** Any two orders of one prefix-free table give the same type for every URI. */
  lemma ResourceTypeOrderFree(a: seq<(string, string)>, b: seq<(string, string)>, uri: string)
    requires PrefixFree(a) && PrefixFree(b) && multiset(a) == multiset(b)
    ensures ResourceType(a, uri) == ResourceType(b, uri)
  {
    if exists i :: 0 <= i < |a| && StartsWith(uri, a[i].0) {
      var i :| 0 <= i < |a| && StartsWith(uri, a[i].0);
      assert a[i] in multiset(b);
      var j :| 0 <= j < |b| && b[j] == a[i];
      ResourceTypeUnique(a, uri, i);
      ResourceTypeUnique(b, uri, j);
    } else {
      forall j | 0 <= j < |b| ensures !StartsWith(uri, b[j].0) {
        assert b[j] in multiset(a);
      }
    }
  }

  /** The installed resource table is prefix-free, so its `HashMap` order is irrelevant. */
  lemma DefaultResourcesPrefixFree()
    ensures PrefixFree(RESOURCE_MAPPING)
  {
    var rs := RESOURCE_MAPPING;
    assert forall i :: 0 <= i < |rs| ==> |rs[i].0| > 5 && rs[i].0[5] == "ucaqfs"[i];
    forall i, j | 0 <= i < |rs| && 0 <= j < |rs| && i != j ensures !(rs[i].0 <= rs[j].0) {
      NotPrefixAt(rs[i].0, rs[j].0, 5);
    }
  }

  // ---------------------------------------------------------------- resource ids

  /**
   * `extractResourceId`: the last field of the URI split at `/` (Java
   * `split`, which drops trailing empty fields), when it is all ASCII
   * digits and fits a `long`; otherwise `null`.
   */
  function ResourceId(uri: string): (r: Option<int>)
    ensures r.Some? ==> 0 <= r.value <= LONG_MAX
    ensures r.Some? ==> var parts := JavaSplit(uri, '/');
      parts != [] && AllDigits(parts[|parts| - 1]) && r.value == DigitsValue(parts[|parts| - 1])
    ensures r.None? ==> var parts := JavaSplit(uri, '/');
      parts == [] || !AllDigits(parts[|parts| - 1]) || DigitsValue(parts[|parts| - 1]) > LONG_MAX
  {
    var parts := JavaSplit(uri, '/');
    if |parts| > 0 && AllDigits(parts[|parts| - 1]) then
      ParseLongDigits(parts[|parts| - 1]);
      ParseLong(parts[|parts| - 1])
    else None
  }

  /** A URI ending in `/` and a number gives that number back. */
  lemma ResourceIdOfNumberedPath(path: string, id: int)
    requires 0 <= id <= LONG_MAX
    ensures ResourceId(path + "/" + IntToString(id)) == Some(id)
  {
    var digits := IntToString(id);
    JavaSplitLastField(path, digits, '/');
    assert path + "/" + digits == path + ['/'] + digits;
    ParseLongOfIntToString(id);
    ParseLongDigits(digits);
  }

  // ---------------------------------------------------------------- action and status

  /**
   * The action of a request: the mapped name of `"METHOD /uri"` when there
   * is one, otherwise `METHOD_RESOURCETYPE`.
   */
  function Action(config: AuditConfig, httpMethod: string, uri: string): (r: string)
    ensures httpMethod + " " + uri in config.actions ==> r == config.actions[httpMethod + " " + uri]
    ensures httpMethod + " " + uri !in config.actions ==>
              exists t :: r == httpMethod + "_" + t && t == ResourceType(config.resources, uri)
  {
    var key := httpMethod + " " + uri;
    if key in config.actions then config.actions[key]
    else httpMethod + "_" + ResourceType(config.resources, uri)
  }

  const SUCCESS: string := "SUCCESS"
  const ERROR: string := "ERROR"

  /** The status: `SUCCESS` exactly for a 2xx response without an exception. */
  function Status(statusCode: int, failed: bool): (r: string)
    ensures r == SUCCESS || r == ERROR
    ensures r == SUCCESS <==> 200 <= statusCode < 300 && !failed
  {
    if failed then ERROR
    else if 200 <= statusCode < 300 then SUCCESS
    else ERROR
  }

  // ---------------------------------------------------------------- client address

  /** A header that is present, not empty, and not `unknown` in any case. */
  predicate Usable(header: Option<string>)
  {
    header.Some? && header.value != "" && !EqualsIgnoreCase("unknown", header.value)
  }

  /** The first field of a Java `split` is a prefix of the string without the separator. */
  lemma {:induction false} FirstFieldIsPrefix(s: string, sep: char)
    ensures SplitAll(s, sep)[0] <= s
  {
    if s != [] {
      FirstFieldIsPrefix(s[1..], sep);
      SplitAllFirst(s, sep);
    }
  }

  /**
   * `getClientIpAddress`: the first comma-separated field of a usable
   * `X-Forwarded-For`, else a usable `X-Real-IP`, else the remote address.
   * A forwarded header made of commas alone splits into no fields at all:
   * reading the first one throws, which is `None`.
   */
  function ClientIp(forwardedFor: Option<string>, realIp: Option<string>, remoteAddr: string): (r: Option<string>)
    ensures r.None? <==> Usable(forwardedFor) && AllSep(forwardedFor.value, ',')
    ensures Usable(forwardedFor) && r.Some? ==> r.value <= forwardedFor.value && ',' !in r.value
    ensures Usable(forwardedFor) && ',' !in forwardedFor.value ==> r == forwardedFor
    ensures !Usable(forwardedFor) && Usable(realIp) ==> r == realIp
    ensures !Usable(forwardedFor) && !Usable(realIp) ==> r == Some(remoteAddr)
  {
    if Usable(forwardedFor) then
      var parts := JavaSplit(forwardedFor.value, ',');
      JavaSplitEmpty(forwardedFor.value, ',');
      FirstFieldIsPrefix(forwardedFor.value, ',');
      if parts == [] then None else Some(parts[0])
    else if Usable(realIp) then realIp
    else Some(remoteAddr)
  }

  // ---------------------------------------------------------------- details

  /** An exception, with its message, which may be `null`. */
  datatype Failure = Failure(message: Option<string>)

  /** `StringBuilder.append` of a `String` that may be `null`. */
  function OrNull(s: Option<string>): string { if s.Some? then s.value else "null" }

  /**
   * `createDetails`: `Request: METHOD URI`, the query after `?` when there
   * is a non-empty one, ` | Response: ` and the status, and
   * ` | Error: ` and the message when the request failed.
   */
  function Details(httpMethod: string, uri: string, query: Option<string>, statusCode: int, failure: Option<Failure>): (r: string)
    ensures StartsWith(r, "Request: " + httpMethod + " " + uri)
    ensures query.Some? && query.value != "" ==> StartsWith(r, "Request: " + httpMethod + " " + uri + "?" + query.value)
    ensures IsInfix(" | Response: " + IntToString(statusCode), r)
    ensures failure.None? ==> EndsWith(r, " | Response: " + IntToString(statusCode))
    ensures failure.Some? ==> EndsWith(r, " | Error: " + OrNull(failure.value.message))
  {
    var request := "Request: " + httpMethod + " " + uri;
    var withQuery := if query.Some? && query.value != "" then request + "?" + query.value else request;
    var response := " | Response: " + IntToString(statusCode);
    var error := if failure.Some? then " | Error: " + OrNull(failure.value.message) else "";
    DetailsLayout(request, withQuery, response, error);
    withQuery + response + error
  }

  /** Where the pieces of the details line sit. */
  lemma DetailsLayout(request: string, withQuery: string, response: string, error: string)
    requires request <= withQuery
    ensures var r := withQuery + response + error;
      StartsWith(r, request) && StartsWith(r, withQuery) && IsInfix(response, r) && EndsWith(r, error)
      && (error == "" ==> EndsWith(r, response))
  {
    var r := withQuery + response + error;
    assert r[..|withQuery|] == withQuery;
    assert r[|withQuery|..][..|response|] == response;
    assert r[|r| - |error|..] == error;
  }

  predicate EndsWith(s: string, suffix: string)
  {
    |suffix| <= |s| && s[|s| - |suffix|..] == suffix
  }

  // ---------------------------------------------------------------- the record

  /** The user a record names; anonymous requests are logged under a system user. */
  datatype Actor = Actor(id: int, email: string, name: string)

  const SYSTEM_ACTOR: Actor := Actor(0, "system@localhost", "System")

  /** What the interceptor reads from a request; `startTime` is the attribute `preHandle` sets. */
  datatype Request = Request(
    httpMethod: string, uri: string, query: Option<string>,
    forwardedFor: Option<string>, realIp: Option<string>, userAgent: Option<string>, remoteAddr: string,
    startTime: Option<int>, currentUser: Option<Actor>, sessionId: Option<string>)

  /** One audit record, as passed to `AuditLogService.createLog`. */
  datatype AuditEntry = AuditEntry(
    user: Actor, action: string, details: string, status: string, ipAddress: string,
    userAgent: Option<string>, resourceType: string, resourceId: Option<int>, sessionId: Option<string>,
    httpMethod: string, uri: string, statusCode: int, executionTime: Option<int>, errorMessage: Option<string>)

  /** The record `afterCompletion` builds once the client address is known. */
  function Entry(config: AuditConfig, req: Request, statusCode: int, failure: Option<Failure>, now: int, ip: string): (e: AuditEntry)
    ensures e.user == if req.currentUser.Some? then req.currentUser.value else SYSTEM_ACTOR
    ensures e.status == Status(statusCode, failure.Some?) && e.ipAddress == ip
    ensures e.action == Action(config, req.httpMethod, req.uri)
    ensures e.resourceType == ResourceType(config.resources, req.uri) && e.resourceId == ResourceId(req.uri)
    ensures e.details == Details(req.httpMethod, req.uri, req.query, statusCode, failure)
    ensures e.executionTime.Some? <==> req.startTime.Some?
    ensures req.startTime.Some? ==> e.executionTime == Some(now - req.startTime.value)
    ensures e.errorMessage == if failure.Some? then failure.value.message else None
    ensures e.httpMethod == req.httpMethod && e.uri == req.uri && e.statusCode == statusCode
    ensures e.userAgent == req.userAgent && e.sessionId == req.sessionId
  {
    AuditEntry(
      if req.currentUser.Some? then req.currentUser.value else SYSTEM_ACTOR,
      Action(config, req.httpMethod, req.uri),
      Details(req.httpMethod, req.uri, req.query, statusCode, failure),
      Status(statusCode, failure.Some?),
      ip, req.userAgent,
      ResourceType(config.resources, req.uri), ResourceId(req.uri), req.sessionId,
      req.httpMethod, req.uri, statusCode,
      if req.startTime.Some? then Some(now - req.startTime.value) else None,
      if failure.Some? then failure.value.message else None)
  }

  /** `preHandle`: records the start time on the request and lets it proceed. */
  function PreHandle(req: Request, now: int): (r: (Request, bool))
    ensures r.1 && r.0.startTime == Some(now)
    ensures r.0 == req.(startTime := Some(now))
  {
    (req.(startTime := Some(now)), true)
  }

  class AuditLogInterceptor {
    const config: AuditConfig
    /** The records handed to the audit service, oldest first. */
    var log: seq<AuditEntry>

    constructor(config: AuditConfig)
      ensures this.config == config && log == []
    {
      this.config := config;
      log := [];
    }

    /**
     * `afterCompletion`: nothing for a skipped URI; nothing either when
     * reading the client address throws, since every error is swallowed;
     * otherwise exactly one new record.
     */
    method AfterCompletion(req: Request, statusCode: int, failure: Option<Failure>, now: int)
      modifies this
      ensures ShouldSkip(req.uri) ==> log == old(log)
      ensures var ip := ClientIp(req.forwardedFor, req.realIp, req.remoteAddr);
        !ShouldSkip(req.uri) && ip.None? ==> log == old(log)
      ensures var ip := ClientIp(req.forwardedFor, req.realIp, req.remoteAddr);
        !ShouldSkip(req.uri) && ip.Some? ==> log == old(log) + [Entry(config, req, statusCode, failure, now, ip.value)]
    {
      if ShouldSkip(req.uri) {
        return;
      }
      var ip := ClientIp(req.forwardedFor, req.realIp, req.remoteAddr);
      if ip.None? {
        return;
      }
      log := log + [Entry(config, req, statusCode, failure, now, ip.value)];
    }
  }

  /** A request timed by `preHandle` at `start` and completed at `now` records `now - start`. */
  lemma ExecutionTimeMeasured(config: AuditConfig, req: Request, start: int, now: int, statusCode: int, ip: string)
    ensures Entry(config, PreHandle(req, start).0, statusCode, None, now, ip).executionTime == Some(now - start)
    ensures Entry(config, PreHandle(req, start).0, statusCode, None, now, ip).status == SUCCESS <==> 200 <= statusCode < 300
  {
  }

  /** Every URI of an audited resource type is itself audited: no resource prefix is a skipped one. */
  lemma ResourcesNotSkipped(uri: string, k: int)
    requires 0 <= k < |RESOURCE_MAPPING| && StartsWith(uri, RESOURCE_MAPPING[k].0)
    ensures !ShouldSkip(uri)
  {
    var key := RESOURCE_MAPPING[k].0;
    assert |key| > 6 && key[1] == 'a' && key[2] == 'p' && uri[1] == key[1] && uri[2] == key[2] && uri[5] == key[5] && uri[6] == key[6];
    NotPrefixAt("/static/", uri, 1);
    NotPrefixAt("/css/", uri, 1);
    NotPrefixAt("/js/", uri, 1);
    NotPrefixAt("/images/", uri, 1);
    NotPrefixAt("/error", uri, 1);
    if k == 1 {
      NotPrefixAt("/api/audit-logs", uri, 5);
      NotPrefixAt("/api/chat", uri, 6);
    } else if k == 2 {
      NotPrefixAt("/api/audit-logs", uri, 6);
      NotPrefixAt("/api/chat", uri, 5);
    } else {
      NotPrefixAt("/api/audit-logs", uri, 5);
      NotPrefixAt("/api/chat", uri, 5);
    }
    assert uri != HEALTH_URI by { NotPrefixAt(HEALTH_URI, uri, 2); }
  }
}

=== FILE: chapters.dfy ===
/**
 * Chapters of a course: creation and renumbering under the rule of one
 * chapter per number per course, and deletion that detaches attachments.
 */
module Chapters {
  import opened Wrappers
  import opened Text
  import opened Tables
  import opened Seqs

  type Time = int

  datatype Chapter = Chapter(
    id: int, courseId: int, title: string, description: Option<string>,
    chapterNumber: int, createdAt: Time, updatedAt: Time)

  /** A course attachment; `chapterId == None` files it under "no chapter". */
  datatype Attachment = Attachment(id: int, courseId: int, chapterId: Option<int>, fileName: string)

  function ChapterId(c: Chapter): int { c.id }
  function AttachmentId(a: Attachment): int { a.id }

  datatype ChapterRequest = ChapterRequest(title: Option<string>, description: Option<string>, chapterNumber: Option<int>)

  datatype ChapterError =
    | TitleRequired
    | NumberNotPositive
    | CourseNotFound
    | ChapterNotFound
    | NumberTaken(chapterNumber: int)

  function ErrorStatus(e: ChapterError): (code: int)
    ensures code == 404 <==> e.CourseNotFound? || e.ChapterNotFound?
    ensures code == 400 <==> e.TitleRequired? || e.NumberNotPositive? || e.NumberTaken?
  {
    if e.CourseNotFound? || e.ChapterNotFound? then 404 else 400
  }

  function ErrorMessage(e: ChapterError): string
  {
    match e
    case TitleRequired => "Chapter title is required"
    case NumberNotPositive => "Chapter number must be a positive integer"
    case CourseNotFound => "Course not found"
    case ChapterNotFound => "Chapter not found"
    case NumberTaken(n) => "Chapter number " + IntToString(n) + " already exists for this course"
  }

  /** The checks on the request body that come before any lookup. */
  function CheckRequest(req: ChapterRequest): (r: Option<ChapterError>)
    ensures r == Some(TitleRequired) <==> req.title.None? || IsJavaBlank(req.title.value)
    ensures r == Some(NumberNotPositive) <==>
              req.title.Some? && !IsJavaBlank(req.title.value) && (req.chapterNumber.None? || req.chapterNumber.value <= 0)
    ensures r.None? <==> req.title.Some? && !IsJavaBlank(req.title.value) && req.chapterNumber.Some? && req.chapterNumber.value > 0
  {
    if req.title.None? || IsJavaBlank(req.title.value) then Some(TitleRequired)
    else if req.chapterNumber.None? || req.chapterNumber.value <= 0 then Some(NumberNotPositive)
    else None
  }

  /** `s != null ? s.trim() : null`. */
  function TrimmedOrNull(s: Option<string>): (r: Option<string>)
    ensures r.None? <==> s.None?
    ensures r.Some? ==> r.value == JavaTrim(s.value)
  {
    match s
    case None => None
    case Some(v) => Some(JavaTrim(v))
  }

  function InCourseWithNumber(courseId: int, n: int): Chapter -> bool
  {
    (c: Chapter) => c.courseId == courseId && c.chapterNumber == n
  }

  /** At most one chapter per number per course. */
  predicate NumbersUnique(rows: seq<Chapter>)
  {
    forall i, j :: 0 <= i < j < |rows| ==> rows[i].courseId != rows[j].courseId || rows[i].chapterNumber != rows[j].chapterNumber
  }

  /** `findByCourseIdAndChapterNumber`; two matches would make the query throw, which `NumbersUnique` rules out. */
  function FindByNumber(rows: seq<Chapter>, courseId: int, n: int): (r: Option<Chapter>)
    requires NumbersUnique(rows)
    ensures r.None? <==> forall c :: c in rows ==> c.courseId != courseId || c.chapterNumber != n
    ensures r.Some? ==> r.value in rows && r.value.courseId == courseId && r.value.chapterNumber == n
    ensures r.Some? ==> forall c :: c in rows && c.courseId == courseId && c.chapterNumber == n ==> c == r.value
  {
    var p := InCourseWithNumber(courseId, n);
    OneMatchAtMost(rows, courseId, n);
    var found := FindOne(rows, p);
    assert found.Ok?;
    if found.value.Some? then
      var c := found.value.value;
      forall d | d in rows && d.courseId == courseId && d.chapterNumber == n ensures d == c {
        var i :| 0 <= i < |rows| && rows[i] == d;
        var j :| 0 <= j < |rows| && rows[j] == c;
        assert i == j;
      }
      Some(c)
    else
      assert forall i :: 0 <= i < |rows| ==> !p(rows[i]);
      None
  }

  /** Removing chapters keeps numbers unique. */
  lemma {:induction false} RemoveKeepsUnique(rows: seq<Chapter>, id: int)
    requires NumbersUnique(rows)
    ensures NumbersUnique(RemoveKey(rows, ChapterId, id))
  {
    if rows != [] {
      TailUnique(rows);
      RemoveKeepsUnique(rows[1..], id);
      var rest := RemoveKey(rows[1..], ChapterId, id);
      var r := RemoveKey(rows, ChapterId, id);
      if rows[0].id != id {
        assert r == [rows[0]] + rest;
        forall i, j | 0 <= i < j < |r| ensures r[i].courseId != r[j].courseId || r[i].chapterNumber != r[j].chapterNumber {
          if i == 0 {
            assert r[j] == rest[j - 1] && rest[j - 1] in rows[1..];
            var m :| 0 <= m < |rows[1..]| && rows[1..][m] == r[j];
            assert rows[m + 1] == r[j];
          } else {
            assert r[i] == rest[i - 1] && r[j] == rest[j - 1];
          }
        }
      }
    }
  }

  lemma TailUnique(rows: seq<Chapter>)
    requires rows != [] && NumbersUnique(rows)
    ensures NumbersUnique(rows[1..])
  {
    forall i, j | 0 <= i < j < |rows[1..]|
      ensures rows[1..][i].courseId != rows[1..][j].courseId || rows[1..][i].chapterNumber != rows[1..][j].chapterNumber
    {
      assert rows[1..][i] == rows[i + 1] && rows[1..][j] == rows[j + 1];
    }
  }

  /** Under the uniqueness rule a number lookup never matches twice. */
  lemma {:induction false} OneMatchAtMost(rows: seq<Chapter>, courseId: int, n: int)
    requires NumbersUnique(rows)
    ensures Count(rows, InCourseWithNumber(courseId, n)) <= 1
  {
    if rows != [] {
      var p := InCourseWithNumber(courseId, n);
      TailUnique(rows);
      OneMatchAtMost(rows[1..], courseId, n);
      if p(rows[0]) {
        CountZeroIffNone(rows[1..], p);
        forall i | 0 <= i < |rows[1..]| ensures !p(rows[1..][i]) {
          assert rows[1..][i] == rows[i + 1];
        }
      }
    }
  }

  /** The chapter table as the controller keeps it: ids ordered and below the next one, numbers unique per course. */
  ghost predicate TableValid(chapters: seq<Chapter>, nextChapterId: int)
  {
    nextChapterId >= 1
    && KeysIncreasing(chapters, ChapterId) && (forall c :: c in chapters ==> c.id < nextChapterId)
    && NumbersUnique(chapters)
  }

  class ChapterController {
    const courses: set<int>
    var chapters: seq<Chapter>
    var nextChapterId: int
    var attachments: seq<Attachment>

    ghost predicate Valid()
      reads this
    {
      TableValid(chapters, nextChapterId) && KeysIncreasing(attachments, AttachmentId)
    }

    /** Writes the chapter table and its id counter at once. */
    method Store(chapters': seq<Chapter>, nextChapterId': int)
      requires TableValid(chapters', nextChapterId') && KeysIncreasing(attachments, AttachmentId)
      modifies this
      ensures Valid() && chapters == chapters' && nextChapterId == nextChapterId' && attachments == old(attachments)
    {
      chapters, nextChapterId := chapters', nextChapterId';
    }

    constructor(courses: set<int>, attachments: seq<Attachment>)
      requires KeysIncreasing(attachments, AttachmentId)
      ensures Valid() && this.courses == courses && chapters == [] && this.attachments == attachments
    {
      this.courses := courses;
      chapters := [];
      nextChapterId := 1;
      this.attachments := attachments;
    }

    /**
     * `createChapter`: validates the body, requires the course, refuses a
     * number the course already uses, and stores title and description trimmed.
     */
    method Create(courseId: int, req: ChapterRequest, now: Time) returns (r: Result<Chapter, ChapterError>)
      requires Valid()
      modifies this
      ensures Valid()
      ensures attachments == old(attachments)
      ensures CheckRequest(req).Some? ==> r == Err(CheckRequest(req).value)
      ensures CheckRequest(req).None? && courseId !in courses ==> r == Err(CourseNotFound)
      ensures CheckRequest(req).None? && courseId in courses ==>
                (r == Err(NumberTaken(req.chapterNumber.value)) <==>
                 exists c :: c in old(chapters) && c.courseId == courseId && c.chapterNumber == req.chapterNumber.value)
      ensures r.Err? ==> chapters == old(chapters)
      ensures r.Ok? ==>
                chapters == old(chapters) + [r.value]
                && r.value == Chapter(old(nextChapterId), courseId, JavaTrim(req.title.value),
                                      TrimmedOrNull(req.description),
                                      req.chapterNumber.value, now, now)
    {
      var invalid := CheckRequest(req);
      if invalid.Some? {
        return Err(invalid.value);
      }
      if courseId !in courses {
        return Err(CourseNotFound);
      }
      var n := req.chapterNumber.value;
      var existing := FindByNumber(chapters, courseId, n);
      if existing.Some? {
        return Err(NumberTaken(n));
      }
      var description := TrimmedOrNull(req.description);
      var c := Chapter(nextChapterId, courseId, JavaTrim(req.title.value), description, n, now, now);
      AppendKeepsKeysIncreasing(chapters, ChapterId, c);
      AppendKeepsUnique(chapters, c);
      Store(chapters + [c], nextChapterId + 1);
      return Ok(c);
    }

    /**
     * `updateChapter`: a new number is checked against the other chapters
     * of the course; an unchanged number is not checked.
     */
    method Update(chapterId: int, req: ChapterRequest, now: Time) returns (r: Result<Chapter, ChapterError>)
      requires Valid()
      modifies this
      ensures Valid()
      ensures attachments == old(attachments) && nextChapterId == old(nextChapterId)
      ensures CheckRequest(req).Some? ==> r == Err(CheckRequest(req).value)
      ensures CheckRequest(req).None? && FindByKey(old(chapters), ChapterId, chapterId).None? ==> r == Err(ChapterNotFound)
      ensures CheckRequest(req).None? && FindByKey(old(chapters), ChapterId, chapterId).Some? ==>
                var c := FindByKey(old(chapters), ChapterId, chapterId).value;
                (r == Err(NumberTaken(req.chapterNumber.value)) <==>
                 exists d :: d in old(chapters) && d.id != chapterId && d.courseId == c.courseId && d.chapterNumber == req.chapterNumber.value)
      ensures r.Err? ==> chapters == old(chapters)
      ensures r.Ok? ==>
                var c := FindByKey(old(chapters), ChapterId, chapterId).value;
                r.value == c.(title := JavaTrim(req.title.value),
                              description := TrimmedOrNull(req.description),
                              chapterNumber := req.chapterNumber.value, updatedAt := now)
                && chapters == ReplaceByKey(old(chapters), ChapterId, r.value)
    {
      var invalid := CheckRequest(req);
      if invalid.Some? {
        return Err(invalid.value);
      }
      var found := FindByKey(chapters, ChapterId, chapterId);
      if found.None? {
        return Err(ChapterNotFound);
      }
      var c := found.value;
      var n := req.chapterNumber.value;
      if NumberConflict(chapters, c, n) {
        return Err(NumberTaken(n));
      }
      var description := TrimmedOrNull(req.description);
      var updated := c.(title := JavaTrim(req.title.value), description := description, chapterNumber := n, updatedAt := now);
      RenumberKeepsTable(chapters, c, updated, nextChapterId);
      Store(ReplaceByKey(chapters, ChapterId, updated), nextChapterId);
      return Ok(updated);
    }

    /**
     * `deleteChapter`: every attachment of the chapter is moved to "no
     * chapter", one by one; then the chapter is removed. No attachment is deleted.
     */
    method Delete(chapterId: int) returns (r: Result<(), ChapterError>)
      requires Valid()
      modifies this
      ensures Valid()
      ensures FindByKey(old(chapters), ChapterId, chapterId).None? ==>
                r == Err(ChapterNotFound) && chapters == old(chapters) && attachments == old(attachments)
      ensures FindByKey(old(chapters), ChapterId, chapterId).Some? ==>
                r == Ok(()) && chapters == RemoveKey(old(chapters), ChapterId, chapterId)
      ensures |attachments| == |old(attachments)|
      ensures r.Ok? ==> forall k :: 0 <= k < |attachments| ==> attachments[k] == Detached(old(attachments)[k], chapterId)
    {
      var found := FindByKey(chapters, ChapterId, chapterId);
      if found.None? {
        return Err(ChapterNotFound);
      }
      attachments := DetachAll(attachments, chapterId);
      RemoveKeyKeepsOrder(chapters, ChapterId, chapterId);
      RemoveKeepsUnique(chapters, chapterId);
      Store(RemoveKey(chapters, ChapterId, chapterId), nextChapterId);
      return Ok(());
    }
  }

  /**
   * The loop of `deleteChapter` over `findByChapterId`: each attachment of
   * the chapter is saved with no chapter. No attachment is dropped or reordered.
   */
  method DetachAll(rows: seq<Attachment>, chapterId: int) returns (r: seq<Attachment>)
    requires KeysIncreasing(rows, AttachmentId)
    ensures |r| == |rows|
    ensures forall k :: 0 <= k < |r| ==> r[k] == Detached(rows[k], chapterId)
    ensures KeysIncreasing(r, AttachmentId)
  {
    var list := Filter(rows, OfChapter(chapterId));
    r := rows;
    var i := 0;
    while i < |list|
      invariant 0 <= i <= |list|
      invariant |r| == |rows|
      invariant forall k :: 0 <= k < |r| ==> r[k] == DetachedIf(rows[k], chapterId, list[..i])
    {
      var a := list[i];
      assert a in list;
      FilterMembers(rows, OfChapter(chapterId), a);
      DetachStep(rows, r, a, chapterId, list[..i]);
      PrefixStep(list, i);
      r := ReplaceByKey(r, AttachmentId, a.(chapterId := None));
      i := i + 1;
    }
    forall k | 0 <= k < |r| ensures r[k] == Detached(rows[k], chapterId) {
      DetachedAll(rows, list, chapterId, k);
    }
    SameKeysIncreasing(rows, r, AttachmentId);
  }

  function OfChapter(chapterId: int): Attachment -> bool
  {
    (a: Attachment) => a.chapterId == Some(chapterId)
  }

  /** An attachment after its chapter is deleted. */
  function Detached(a: Attachment, chapterId: int): (r: Attachment)
    ensures r.id == a.id && r.courseId == a.courseId && r.fileName == a.fileName
    ensures r.chapterId.Some? ==> r.chapterId == a.chapterId && r.chapterId != Some(chapterId)
  {
    if a.chapterId == Some(chapterId) then a.(chapterId := None) else a
  }

  /** `Detached`, applied only to the attachments already handled. */
  function DetachedIf(a: Attachment, chapterId: int, handled: seq<Attachment>): Attachment
  {
    if a.chapterId == Some(chapterId) && a in handled then a.(chapterId := None) else a
  }

  /** One step of the detaching loop: the attachment just saved joins the handled ones. */
  lemma DetachStep(orig: seq<Attachment>, before: seq<Attachment>, a: Attachment, chapterId: int, handled: seq<Attachment>)
    requires KeysIncreasing(orig, AttachmentId)
    requires |before| == |orig|
    requires forall k :: 0 <= k < |orig| ==> before[k] == DetachedIf(orig[k], chapterId, handled)
    requires a in orig && a.chapterId == Some(chapterId)
    ensures forall k :: 0 <= k < |orig| ==>
              ReplaceByKey(before, AttachmentId, a.(chapterId := None))[k] == DetachedIf(orig[k], chapterId, handled + [a])
  {
    forall k | 0 <= k < |orig|
      ensures ReplaceByKey(before, AttachmentId, a.(chapterId := None))[k] == DetachedIf(orig[k], chapterId, handled + [a])
    {
      if orig[k].id == a.id {
        var m :| 0 <= m < |orig| && orig[m] == a;
        assert m == k;
      } else {
        assert orig[k] != a;
      }
    }
  }

  /** Once every listed attachment is handled, the loop has detached exactly the chapter's attachments. */
  lemma DetachedAll(orig: seq<Attachment>, list: seq<Attachment>, chapterId: int, k: int)
    requires list == Filter(orig, OfChapter(chapterId))
    requires 0 <= k < |orig|
    ensures DetachedIf(orig[k], chapterId, list[..|list|]) == Detached(orig[k], chapterId)
  {
    assert list[..|list|] == list;
    FilterMembers(orig, OfChapter(chapterId), orig[k]);
  }

  /** A chapter whose number its course does not use yet keeps numbers unique. */
  lemma AppendKeepsUnique(rows: seq<Chapter>, c: Chapter)
    requires NumbersUnique(rows)
    requires forall d :: d in rows ==> d.courseId != c.courseId || d.chapterNumber != c.chapterNumber
    ensures NumbersUnique(rows + [c])
  {
    var r := rows + [c];
    forall i, j | 0 <= i < j < |r| ensures r[i].courseId != r[j].courseId || r[i].chapterNumber != r[j].chapterNumber {
      if j == |rows| {
        assert r[i] in rows;
      }
    }
  }

  /** Only the chapter itself holds its own number in its course. */
  lemma NumberHeldOnlyBy(rows: seq<Chapter>, c: Chapter)
    requires NumbersUnique(rows) && c in rows
    ensures forall d :: d in rows && d.courseId == c.courseId && d.chapterNumber == c.chapterNumber ==> d == c
  {
    forall d | d in rows && d.courseId == c.courseId && d.chapterNumber == c.chapterNumber ensures d == c {
      var i :| 0 <= i < |rows| && rows[i] == d;
      var j :| 0 <= j < |rows| && rows[j] == c;
      assert i == j || rows[i] == rows[j];
    }
  }

  /**
   * The number check of `updateChapter`: only a changed number is looked up,
   * and it conflicts when the chapter holding it is another one.
   */
  function NumberConflict(rows: seq<Chapter>, c: Chapter, n: int): (b: bool)
    requires NumbersUnique(rows) && c in rows
    ensures b <==> exists d :: d in rows && d.id != c.id && d.courseId == c.courseId && d.chapterNumber == n
  {
    if c.chapterNumber == n then
      NumberHeldOnlyBy(rows, c);
      false
    else
      var existing := FindByNumber(rows, c.courseId, n);
      existing.Some? && existing.value.id != c.id
  }

  /** Saving an updated chapter under its own id keeps every rule of the table. */
  lemma RenumberKeepsTable(rows: seq<Chapter>, c: Chapter, updated: Chapter, nextId: int)
    requires NumbersUnique(rows) && KeysIncreasing(rows, ChapterId) && forall d :: d in rows ==> d.id < nextId
    requires c in rows && updated.id == c.id && updated.courseId == c.courseId
    requires forall d :: d in rows && d.courseId == c.courseId && d.chapterNumber == updated.chapterNumber ==> d.id == c.id
    ensures NumbersUnique(ReplaceByKey(rows, ChapterId, updated))
    ensures KeysIncreasing(ReplaceByKey(rows, ChapterId, updated), ChapterId)
    ensures forall d :: d in ReplaceByKey(rows, ChapterId, updated) ==> d.id < nextId
  {
    var r := ReplaceByKey(rows, ChapterId, updated);
    RenumberKeepsUnique(rows, c, updated);
    ReplaceByKeyKeepsKeys(rows, ChapterId, updated);
    SameKeysIncreasing(rows, r, ChapterId);
    forall d | d in r ensures d.id < nextId {
      var i :| 0 <= i < |r| && r[i] == d;
      assert rows[i] in rows;
    }
  }

  /** Renumbering a chapter to a number no other chapter of its course uses keeps numbers unique. */
  lemma RenumberKeepsUnique(rows: seq<Chapter>, c: Chapter, updated: Chapter)
    requires NumbersUnique(rows) && KeysIncreasing(rows, ChapterId)
    requires c in rows && updated.id == c.id && updated.courseId == c.courseId
    requires updated.chapterNumber == c.chapterNumber ||
             forall d :: d in rows && d.courseId == c.courseId && d.chapterNumber == updated.chapterNumber ==> d.id == c.id
    ensures NumbersUnique(ReplaceByKey(rows, ChapterId, updated))
  {
    var r := ReplaceByKey(rows, ChapterId, updated);
    var m :| 0 <= m < |rows| && rows[m] == c;
    forall i, j | 0 <= i < j < |r| ensures r[i].courseId != r[j].courseId || r[i].chapterNumber != r[j].chapterNumber {
      if rows[i].id == c.id {
        assert i == m;
        if updated.chapterNumber != c.chapterNumber {
          assert rows[j] in rows;
        }
      } else if rows[j].id == c.id {
        assert j == m;
        if updated.chapterNumber != c.chapterNumber {
          assert rows[i] in rows;
        }
      }
    }
  }
}

=== FILE: chat_api.dfy ===
/**
 * The chat helpers of the browser client: the name shown for a user and
 * the text shown for a message.
 */
module ChatApi {
  import opened Wrappers
  import opened Text
  import ChatModel
  import ChatServices
  import opened UserSearchApi

  /** A user as the chat endpoints return it; absent JSON fields are `None`. */
  datatype ChatUser = ChatUser(name: Option<string>, email: Option<string>)

  /** The fields of a message response the client reads to show it. */
  datatype MessageView = MessageView(isDeleted: bool, content: Option<string>)

  const DELETED_TEXT: string := "User deleted message"

  /**
   * `getDisplayName`: `user?.name || user?.email || 'Unknown User'`: the
   * first of name and email that is a non-empty string.
   */
  function DisplayName(user: Option<ChatUser>): (r: string)
    ensures r != ""
    ensures user.Some? && Truthy(user.value.name) ==> r == user.value.name.value
    ensures user.Some? && !Truthy(user.value.name) && Truthy(user.value.email) ==> r == user.value.email.value
    ensures user.None? || (!Truthy(user.value.name) && !Truthy(user.value.email)) ==> r == UNKNOWN_USER
  {
    if user.Some? && Truthy(user.value.name) then user.value.name.value
    else if user.Some? && Truthy(user.value.email) then user.value.email.value
    else UNKNOWN_USER
  }

  /**
   * `getDisplayContent`: the placeholder whenever the message is deleted,
   * whatever its content; otherwise the content as it is, `null` included.
   */
  function DisplayContent(message: MessageView): (r: Option<string>)
    ensures message.isDeleted ==> r == Some(DELETED_TEXT)
    ensures !message.isDeleted ==> r == message.content
  {
    if message.isDeleted then Some(DELETED_TEXT) else message.content
  }

  /** The fields the client reads from a message response. */
  function ViewOf(resp: ChatServices.MessageResponse): MessageView
  {
    MessageView(resp.isDeleted, Some(resp.content))
  }

  /** The client shows exactly what `Message.getDisplayContent` gives on the server, for every stored message. */
  lemma ClientShowsServerDisplayContent(m: ChatModel.Message)
    ensures DisplayContent(ViewOf(ChatServices.ToMessageResponse(m))) == Some(ChatModel.DisplayContent(m))
  {
  }

  /**
   * The chat and search helpers name a user alike whenever the name is
   * missing, empty or not blank; a name of white space only is shown by
   * the chat helper but skipped for the email by the search helper.
   */
  lemma DisplayNamesAgree(u: SearchUser)
    requires u.name.None? || u.name.value == "" || JsTrim(u.name.value) != ""
    requires Truthy(u.email)
    ensures UserDisplayName(Some(u)) == Some(DisplayName(Some(ChatUser(u.name, u.email))))
  {
  }

  /** A name of white space only is where the two helpers differ. */
  lemma BlankNameShownOnlyInChat(u: SearchUser)
    requires u.name.Some? && u.name.value != "" && JsTrim(u.name.value) == ""
    ensures DisplayName(Some(ChatUser(u.name, u.email))) == u.name.value
    ensures UserDisplayName(Some(u)) == u.email
  {
  }
}

=== FILE: chat_model.dfy ===
/**
 * The chat entities: users as seen by the chat, chat rooms between two users,
 * and messages with soft deletion. Timestamps (`LocalDateTime`) are whole
 * seconds on one clock; the current time is always passed in as `now`.
 */
module ChatModel {
  import opened Wrappers

  type Time = int

  /** A platform user, as far as the chat reads one. `role` is the name of the user's role. */
  datatype User = User(id: int, name: Option<string>, email: string, profilePictureUrl: Option<string>, role: string)

  // ---------------------------------------------------------------- rooms

  /** A one-to-one conversation between `user1` and `user2`. */
  datatype ChatRoom = ChatRoom(id: int, user1: User, user2: User, createdAt: Time, lastMessageAt: Time)

  /** `new ChatRoom(user1, user2)`: both timestamps start at the current time. */
  function NewRoom(id: int, user1: User, user2: User, now: Time): (r: ChatRoom)
    ensures r.user1 == user1 && r.user2 == user2 && r.id == id
    ensures r.createdAt == now && r.lastMessageAt == r.createdAt
  {
    ChatRoom(id, user1, user2, now, now)
  }

  /** A user belongs to a room when it is either of its two participants. */
  predicate ContainsUser(room: ChatRoom, userId: int)
  {
    room.user1.id == userId || room.user2.id == userId
  }

  /** The room is between users `a` and `b`, in either order. */
  predicate IsBetween(room: ChatRoom, a: int, b: int)
  {
    (room.user1.id == a && room.user2.id == b) || (room.user1.id == b && room.user2.id == a)
  }

  /** The participant that is not `userId`; nothing when `userId` is not in the room. */
  function OtherUser(room: ChatRoom, userId: int): (r: Option<User>)
    ensures r.Some? <==> ContainsUser(room, userId)
    ensures r.Some? ==> IsBetween(room, userId, r.value.id)
  {
    if room.user1.id == userId then Some(room.user2)
    else if room.user2.id == userId then Some(room.user1)
    else None
  }

  /** Being between two users does not depend on the order in which they are named. */
  lemma IsBetweenSymmetric(room: ChatRoom, a: int, b: int)
    ensures IsBetween(room, a, b) <==> IsBetween(room, b, a)
  {
  }

  /** In a room of two distinct users, the other user's other user is the user asked about. */
  lemma OtherUserInvolution(room: ChatRoom, userId: int)
    requires room.user1.id != room.user2.id
    requires ContainsUser(room, userId)
    ensures OtherUser(room, userId).value.id != userId
    ensures OtherUser(room, OtherUser(room, userId).value.id).value.id == userId
  {
  }

  // ---------------------------------------------------------------- messages

  /** The kinds of message content. */
  datatype MessageType = TEXT | FILE | IMAGE

  function TypeName(t: MessageType): string
  {
    match t
    case TEXT => "TEXT"
    case FILE => "FILE"
    case IMAGE => "IMAGE"
  }

  /**
   * `MessageType.valueOf(name)`: the constant with exactly that name. A null
   * name and an unknown name both raise an exception, modelled as `None`.
   */
  function ParseType(name: Option<string>): (r: Option<MessageType>)
    ensures r.Some? ==> name == Some(TypeName(r.value))
  {
    match name
    case None => None
    case Some(s) =>
      if s == "TEXT" then Some(TEXT)
      else if s == "FILE" then Some(FILE)
      else if s == "IMAGE" then Some(IMAGE)
      else None
  }

  /** Every constant is recovered from its name. */
  lemma ParseTypeName(t: MessageType)
    ensures ParseType(Some(TypeName(t))) == Some(t)
  {
  }

  /** One message in a room. `deletedAt` and `deletedBy` are set once the message is soft-deleted. */
  datatype Message = Message(
    id: int,
    roomId: int,
    sender: User,
    content: string,
    messageType: MessageType,
    fileUrl: Option<string>,
    createdAt: Time,
    isRead: bool,
    isDeleted: bool,
    deletedAt: Option<Time>,
    deletedBy: Option<User>)

  /** The text shown in place of the content of a deleted message. */
  const DELETED_PLACEHOLDER: string := "User deleted message"

  /** A message as created by `new Message()` and its setters, before it is stored. */
  function NewMessage(roomId: int, sender: User, content: string, messageType: MessageType,
                      fileUrl: Option<string>, now: Time): (m: Message)
    ensures !m.isRead && !m.isDeleted && m.deletedAt.None? && m.deletedBy.None?
    ensures m.createdAt == now && m.roomId == roomId && m.sender == sender
    ensures m.content == content && m.messageType == messageType && m.fileUrl == fileUrl
    ensures DisplayContent(m) == content
  {
    Message(0, roomId, sender, content, messageType, fileUrl, now, false, false, None, None)
  }

  /** The two messages differ at most in the three soft-deletion fields. */
  predicate SameExceptDeletion(a: Message, b: Message)
  {
    a.id == b.id && a.roomId == b.roomId && a.sender == b.sender && a.content == b.content
    && a.messageType == b.messageType && a.fileUrl == b.fileUrl && a.createdAt == b.createdAt
    && a.isRead == b.isRead
  }

  /** `Message.delete(user)`: marks the message deleted, now, by `deleter`, and changes nothing else. */
  function Delete(m: Message, deleter: User, now: Time): (r: Message)
    ensures r.isDeleted && r.deletedAt == Some(now) && r.deletedBy == Some(deleter)
    ensures SameExceptDeletion(m, r)
  {
    m.(isDeleted := true, deletedAt := Some(now), deletedBy := Some(deleter))
  }

  /** `Message.isFromUser(userId)`: the message was sent by that user. */
  predicate IsFromUser(m: Message, userId: int)
  {
    m.sender.id == userId
  }

  /** `Message.getDisplayContent()`: the placeholder for a deleted message, otherwise the content. */
  function DisplayContent(m: Message): (r: string)
    ensures m.isDeleted ==> r == DELETED_PLACEHOLDER
    ensures !m.isDeleted ==> r == m.content
  {
    if m.isDeleted then DELETED_PLACEHOLDER else m.content
  }

  /** After deletion the original content is never displayed again, whoever deletes and whenever. */
  lemma DeleteHidesContent(m: Message, deleter: User, now: Time)
    ensures DisplayContent(Delete(m, deleter, now)) == DELETED_PLACEHOLDER
    ensures Delete(m, deleter, now).content == m.content
    ensures IsFromUser(Delete(m, deleter, now), m.sender.id)
  {
  }

  /** Deleting again only moves the deletion time and deleter. */
  lemma DeleteTwice(m: Message, a: User, b: User, t1: Time, t2: Time)
    ensures Delete(Delete(m, a, t1), b, t2) == Delete(m, b, t2)
  {
  }
}

=== FILE: chat_rooms.dfy ===
/** The chat-room table and its queries. */
module ChatRooms {
  import opened Wrappers
  import opened ChatModel
  import opened Seqs
  import opened Sorting
  import Messages
  import Tables

  function Between(a: int, b: int): ChatRoom -> bool
  {
    (room: ChatRoom) => IsBetween(room, a, b)
  }

  function HasUser(userId: int): ChatRoom -> bool
  {
    (room: ChatRoom) => ContainsUser(room, userId)
  }

  /** `ORDER BY lastMessageAt DESC`. */
  predicate MostRecentFirst(a: ChatRoom, b: ChatRoom) { a.lastMessageAt >= b.lastMessageAt }

  /** `findByUsers(user1Id, user2Id)`: the room between the two users, in either order. */
  function FindByUsers(rows: seq<ChatRoom>, a: int, b: int): (r: Result<Option<ChatRoom>, QueryError>)
    ensures r == Ok(None) <==> forall room :: room in rows ==> !IsBetween(room, a, b)
    ensures r.Ok? && r.value.Some? ==> r.value.value in rows && IsBetween(r.value.value, a, b)
    ensures r.Err? <==> Count(rows, Between(a, b)) > 1
  {
    FindOne(rows, Between(a, b))
  }

  /** The pair lookup does not depend on the order in which the two users are given. */
  lemma FindByUsersSymmetric(rows: seq<ChatRoom>, a: int, b: int)
    ensures FindByUsers(rows, a, b) == FindByUsers(rows, b, a)
  {
    FilterEquivalent(rows, Between(a, b), Between(b, a));
  }

  /** `existsByUsers`: `COUNT > 0` over the same symmetric condition. */
  predicate ExistsByUsers(rows: seq<ChatRoom>, a: int, b: int)
  {
    Count(rows, Between(a, b)) > 0
  }

  /** At most one room per unordered pair of users. */
  predicate PairsUnique(rows: seq<ChatRoom>)
  {
    forall i, j :: 0 <= i < j < |rows| ==> !IsBetween(rows[j], rows[i].user1.id, rows[i].user2.id)
  }

  lemma {:induction false} CountBetweenAtMostOne(rows: seq<ChatRoom>, a: int, b: int)
    requires PairsUnique(rows)
    ensures Count(rows, Between(a, b)) <= 1
  {
    if rows != [] {
      var tail := rows[1..];
      assert PairsUnique(tail) by {
        forall i, j | 0 <= i < j < |tail| ensures !IsBetween(tail[j], tail[i].user1.id, tail[i].user2.id) {
          assert tail[i] == rows[i + 1] && tail[j] == rows[j + 1];
        }
      }
      CountBetweenAtMostOne(tail, a, b);
      if IsBetween(rows[0], a, b) {
        CountZeroIffNone(tail, Between(a, b));
        forall k | 0 <= k < |tail| ensures !IsBetween(tail[k], a, b) {
          assert tail[k] == rows[k + 1];
          assert !IsBetween(rows[k + 1], rows[0].user1.id, rows[0].user2.id);
        }
      }
    }
  }

  /**
   * With one room per pair, the pair lookup never fails, and finds a room
   * exactly when `existsByUsers` says one exists.
   */
  lemma FindByUsersAgreesWithExists(rows: seq<ChatRoom>, a: int, b: int)
    requires PairsUnique(rows)
    ensures FindByUsers(rows, a, b).Ok?
    ensures FindByUsers(rows, a, b).value.Some? <==> ExistsByUsers(rows, a, b)
  {
    CountBetweenAtMostOne(rows, a, b);
    CountZeroIffNone(rows, Between(a, b));
  }

  lemma CountZeroIffNoneBetween(rows: seq<ChatRoom>, a: int, b: int)
    ensures !ExistsByUsers(rows, a, b) <==> forall room :: room in rows ==> !IsBetween(room, a, b)
  {
    CountZeroIffNone(rows, Between(a, b));
  }

  /** Adding a room for a pair that has none keeps one room per pair. */
  lemma AddRoomKeepsPairsUnique(rows: seq<ChatRoom>, room: ChatRoom)
    requires PairsUnique(rows)
    requires FindByUsers(rows, room.user1.id, room.user2.id) == Ok(None)
    ensures PairsUnique(rows + [room])
  {
    var s := rows + [room];
    forall i, j | 0 <= i < j < |s| ensures !IsBetween(s[j], s[i].user1.id, s[i].user2.id) {
      if j == |rows| {
        assert s[i] in rows;
        assert !IsBetween(s[i], room.user1.id, room.user2.id);
      }
    }
  }

  /** `findByUserId` and `findByUserIdOrderByLastMessageAtDesc`: the user's rooms, most recent first. */
  function FindByUserId(rows: seq<ChatRoom>, userId: int): (r: seq<ChatRoom>)
    ensures SortedBy(r, MostRecentFirst)
    ensures multiset(r) == multiset(Filter(rows, HasUser(userId)))
    ensures forall room :: room in r <==> room in rows && ContainsUser(room, userId)
  {
    assert TotalPreorder(MostRecentFirst);
    var f := Filter(rows, HasUser(userId));
    SortBySorted(f, MostRecentFirst);
    forall room ensures room in f <==> room in rows && ContainsUser(room, userId) {
      FilterMembers(rows, HasUser(userId), room);
    }
    assert forall room :: room in SortBy(f, MostRecentFirst) <==> room in multiset(f);
    SortBy(f, MostRecentFirst)
  }

  /** `findChatRoomsWithUnreadMessages`: the user's rooms in which some message is unread for them. */
  function FindWithUnread(rows: seq<ChatRoom>, messages: seq<Message>, userId: int): (r: seq<ChatRoom>)
    ensures forall room :: room in r <==>
      room in rows && ContainsUser(room, userId) && Messages.CountUnread(messages, room.id, userId) > 0
  {
    var p := (room: ChatRoom) => ContainsUser(room, userId) && Messages.CountUnread(messages, room.id, userId) > 0;
    forall room ensures room in Filter(rows, p) <==> room in rows && p(room) {
      FilterMembers(rows, p, room);
    }
    Filter(rows, p)
  }

  /** Once the user has read a room, that room drops out of the user's unread rooms. */
  lemma ReadRoomLeavesUnreadList(rows: seq<ChatRoom>, messages: seq<Message>, room: ChatRoom, userId: int)
    ensures room !in FindWithUnread(rows, Messages.MarkRead(messages, room.id, userId), userId)
  {
    Messages.MarkReadClearsUnread(messages, room.id, userId);
  }

  /** `findById`. */
  function FindById(rows: seq<ChatRoom>, id: int): (r: Option<ChatRoom>)
    ensures r.Some? ==> r.value in rows && r.value.id == id
    ensures r.None? ==> forall room :: room in rows ==> room.id != id
  {
    if rows == [] then None
    else if rows[0].id == id then Some(rows[0])
    else FindById(rows[1..], id)
  }

  predicate IdsIncreasing(rows: seq<ChatRoom>)
  {
    forall i, j :: 0 <= i < j < |rows| ==> rows[i].id < rows[j].id
  }

  function RoomKey(room: ChatRoom): int { room.id }

  /** The table with the row of `room.id` replaced by `room` (`save` on a stored entity). */
  function ReplaceById(rows: seq<ChatRoom>, room: ChatRoom): seq<ChatRoom>
  {
    Tables.ReplaceByKey(rows, RoomKey, room)
  }

  /** Rewriting rows without changing who is in them keeps one room per pair. */
  lemma SameUsersKeepsPairsUnique(rows: seq<ChatRoom>, s: seq<ChatRoom>)
    requires PairsUnique(rows)
    requires |s| == |rows|
    requires forall i :: 0 <= i < |rows| ==> s[i].user1 == rows[i].user1 && s[i].user2 == rows[i].user2
    ensures PairsUnique(s)
  {
  }

  /** Moving a room's `lastMessageAt` keeps one room per pair. */
  lemma TouchKeepsPairsUnique(rows: seq<ChatRoom>, id: int, now: Time)
    requires PairsUnique(rows) && IdsIncreasing(rows)
    requires FindById(rows, id).Some?
    ensures PairsUnique(ReplaceById(rows, FindById(rows, id).value.(lastMessageAt := now)))
  {
    var room := FindById(rows, id).value;
    var s := ReplaceById(rows, room.(lastMessageAt := now));
    var k :| 0 <= k < |rows| && rows[k] == room;
    forall i | 0 <= i < |rows| ensures s[i].user1 == rows[i].user1 && s[i].user2 == rows[i].user2 {
      if rows[i].id == id {
        assert i == k;
      }
    }
    SameUsersKeepsPairsUnique(rows, s);
  }

  /** The chat-room table. */
  class ChatRoomRepository {
    var rows: seq<ChatRoom>
    var nextId: int

    ghost predicate Valid()
      reads this
    {
      nextId >= 1 && IdsIncreasing(rows) && forall i :: 0 <= i < |rows| ==> 1 <= rows[i].id < nextId
    }

    constructor()
      ensures Valid() && rows == []
    {
      rows := [];
      nextId := 1;
    }

    /** `save` of a new room: it gets the next id and goes at the end of the table. */
    method Insert(room: ChatRoom) returns (saved: ChatRoom)
      requires Valid()
      modifies this
      ensures Valid()
      ensures saved == room.(id := old(nextId))
      ensures rows == old(rows) + [saved]
    {
      saved := room.(id := nextId);
      rows := rows + [saved];
      nextId := nextId + 1;
    }

    /** `save` of a stored room: its row is replaced. */
    method Update(room: ChatRoom)
      requires Valid()
      requires FindById(rows, room.id).Some?
      modifies this
      ensures Valid()
      ensures rows == ReplaceById(old(rows), room)
      ensures nextId == old(nextId)
    {
      rows := ReplaceById(rows, room);
    }
  }
}

=== FILE: chat_service.dfy ===
/**
 * The chat service: rooms, messages, read state and soft deletion, over the
 * two chat tables and a read-only user directory. Every operation is one
 * transaction: when it fails, neither table changes.
 */
module ChatServices {
  import opened Wrappers
  import opened ChatModel
  import opened Sorting
  import Messages
  import ChatRooms

  /** The runtime exceptions the service raises, one per failed check. */
  datatype ChatError =
    | User1NotFound
    | User2NotFound
    | RoomNotFound
    | NotAuthorizedToAccess
    | NotAuthorizedToSend
    | SenderNotFound
    | UnknownMessageType
    | ContentMissing
    | MessageNotFound
    | NotAuthorizedToDelete
    | UserNotFound
    | NonUniqueRoom
    | InvalidPage(reason: Messages.PageError)

  /** The exception message of each error. */
  function ErrorMessage(e: ChatError): string
  {
    match e
    case User1NotFound => "User 1 not found"
    case User2NotFound => "User 2 not found"
    case RoomNotFound => "Chat room not found"
    case NotAuthorizedToAccess => "User not authorized to access this chat room"
    case NotAuthorizedToSend => "User not authorized to send message to this chat room"
    case SenderNotFound => "Sender not found"
    case UnknownMessageType => "No enum constant for message type"
    case ContentMissing => "Message content must not be null"
    case MessageNotFound => "Message not found"
    case NotAuthorizedToDelete => "User not authorized to delete this message"
    case UserNotFound => "User not found"
    case NonUniqueRoom => "Query did not return a unique result"
    case InvalidPage(reason) =>
      if reason.NegativePageIndex? then "Page index must not be less than zero"
      else "Page size must not be less than one"
  }

  // ---------------------------------------------------------------- responses

  datatype UserSummary = UserSummary(id: int, name: Option<string>, email: string,
                                     profilePictureUrl: Option<string>, role: string, isOnline: bool)

  datatype MessageSummary = MessageSummary(id: int, content: string, senderName: string,
                                           createdAt: Time, isDeleted: bool)

  datatype ChatRoomResponse = ChatRoomResponse(id: int, createdAt: Time, lastMessageAt: Time,
                                               user1: UserSummary, user2: UserSummary,
                                               lastMessage: Option<MessageSummary>)

  datatype SenderInfo = SenderInfo(id: int, name: Option<string>, email: string,
                                   profilePictureUrl: Option<string>, role: string)

  datatype MessageResponse = MessageResponse(
    id: int, chatRoomId: int, content: string, messageType: string, fileUrl: Option<string>,
    createdAt: Time, isRead: bool, isDeleted: bool, deletedAt: Option<Time>,
    sender: SenderInfo, deletedBy: Option<SenderInfo>)

  /** The body of a send request. `messageType` defaults to `"TEXT"` when the client omits it. */
  datatype MessageRequest = MessageRequest(chatRoomId: int, content: Option<string>,
                                           messageType: Option<string>, fileUrl: Option<string>)

  /** A participant as listed in a room; presence lookup is switched off, so always offline. */
  function ToUserSummary(u: User): (r: UserSummary)
    ensures r.id == u.id && r.name == u.name && r.email == u.email && !r.isOnline
  {
    UserSummary(u.id, u.name, u.email, u.profilePictureUrl, u.role, false)
  }

  /** The name shown for a sender: the user's name, or the email when there is no name. */
  function SenderName(u: User): (r: string)
    ensures u.name.Some? ==> r == u.name.value
    ensures u.name.None? ==> r == u.email
  {
    match u.name
    case Some(n) => n
    case None => u.email
  }

  function ToMessageSummary(m: Message): (r: MessageSummary)
    ensures r.id == m.id && r.content == DisplayContent(m) && r.senderName == SenderName(m.sender)
    ensures r.isDeleted == m.isDeleted
  {
    MessageSummary(m.id, DisplayContent(m), SenderName(m.sender), m.createdAt, m.isDeleted)
  }

  function ToSenderInfo(u: User): SenderInfo
  {
    SenderInfo(u.id, u.name, u.email, u.profilePictureUrl, u.role)
  }

  /**
   * A message as returned to clients: a deleted message shows the placeholder
   * instead of its content, and names its deleter.
   */
  function ToMessageResponse(m: Message): (r: MessageResponse)
    ensures r.id == m.id && r.chatRoomId == m.roomId && r.sender.id == m.sender.id
    ensures r.content == DisplayContent(m)
    ensures m.isDeleted ==> r.content == DELETED_PLACEHOLDER
    ensures r.deletedBy.Some? <==> m.isDeleted && m.deletedBy.Some?
    ensures r.messageType == TypeName(m.messageType)
  {
    MessageResponse(m.id, m.roomId, DisplayContent(m), TypeName(m.messageType), m.fileUrl,
                    m.createdAt, m.isRead, m.isDeleted, m.deletedAt, ToSenderInfo(m.sender),
                    if m.isDeleted && m.deletedBy.Some? then Some(ToSenderInfo(m.deletedBy.value)) else None)
  }

  /** A room as returned to clients, with a summary of its latest message if it has any. */
  function ToChatRoomResponse(room: ChatRoom, messages: seq<Message>): (r: ChatRoomResponse)
    ensures r.id == room.id && r.user1.id == room.user1.id && r.user2.id == room.user2.id
    ensures r.lastMessageAt == room.lastMessageAt
    ensures r.lastMessage.Some? <==> exists m :: m in messages && m.roomId == room.id
    ensures r.lastMessage.Some? ==>
      r.lastMessage.value == ToMessageSummary(Messages.FindLatestFirst(messages, room.id)[0])
  {
    var latest := Messages.FindLatestFirst(messages, room.id);
    Messages.LatestMessageIsMaximal(messages, room.id);
    ChatRoomResponse(room.id, room.createdAt, room.lastMessageAt, ToUserSummary(room.user1),
                     ToUserSummary(room.user2), if latest == [] then None else Some(ToMessageSummary(latest[0])))
  }

  function RoomResponses(rooms: seq<ChatRoom>, messages: seq<Message>): (r: seq<ChatRoomResponse>)
    ensures |r| == |rooms|
    ensures forall i :: 0 <= i < |rooms| ==> r[i] == ToChatRoomResponse(rooms[i], messages)
  {
    seq(|rooms|, i requires 0 <= i < |rooms| => ToChatRoomResponse(rooms[i], messages))
  }

  function MessageResponses(ms: seq<Message>): (r: seq<MessageResponse>)
    ensures |r| == |ms|
    ensures forall i :: 0 <= i < |ms| ==> r[i] == ToMessageResponse(ms[i])
  {
    if ms == [] then [] else [ToMessageResponse(ms[0])] + MessageResponses(ms[1..])
  }

  /** The responses of a user's rooms, most recent first, name the user and keep the order. */
  lemma UserRoomResponses(rooms: seq<ChatRoom>, messages: seq<Message>, userId: int)
    requires SortedBy(rooms, ChatRooms.MostRecentFirst)
    requires forall room :: room in rooms ==> ContainsUser(room, userId)
    ensures var r := RoomResponses(rooms, messages);
      (forall i :: 0 <= i < |r| ==> r[i].user1.id == userId || r[i].user2.id == userId)
      && forall i, j :: 0 <= i < j < |r| ==> r[i].lastMessageAt >= r[j].lastMessageAt
  {
    var r := RoomResponses(rooms, messages);
    forall i | 0 <= i < |r| ensures r[i].user1.id == userId || r[i].user2.id == userId {
      assert rooms[i] in rooms;
    }
    forall i, j | 0 <= i < j < |r| ensures r[i].lastMessageAt >= r[j].lastMessageAt {
      assert ChatRooms.MostRecentFirst(rooms[i], rooms[j]);
    }
  }

  /** The responses of a page of one room, newest first, keep the room and the order. */
  lemma RoomPageResponses(ms: seq<Message>, roomId: int)
    requires SortedBy(ms, Messages.NewestFirst)
    requires forall m :: m in ms ==> m.roomId == roomId
    ensures var r := MessageResponses(ms);
      (forall i :: 0 <= i < |r| ==> r[i].chatRoomId == roomId)
      && forall i, j :: 0 <= i < j < |r| ==> r[i].createdAt >= r[j].createdAt
  {
    var r := MessageResponses(ms);
    forall i | 0 <= i < |r| ensures r[i].chatRoomId == roomId {
      assert ms[i] in ms;
    }
    forall i, j | 0 <= i < j < |r| ensures r[i].createdAt >= r[j].createdAt {
      assert Messages.NewestFirst(ms[i], ms[j]);
    }
  }

  // ---------------------------------------------------------------- checks

  /**
   * The checks of `sendMessage`, in order, and the message they build: the
   * room must exist, the sender must be in it and be a known user, and the
   * type must name a constant; a missing content fails when the row is saved.
   */
  function PrepareMessage(rooms: seq<ChatRoom>, users: map<int, User>, req: MessageRequest,
                          senderId: int, now: Time): (r: Result<(ChatRoom, Message), ChatError>)
    ensures r.Ok? ==> ChatRooms.FindById(rooms, req.chatRoomId) == Some(r.value.0)
    ensures r.Ok? ==> ContainsUser(r.value.0, senderId) && senderId in users
    ensures r.Ok? ==> var m := r.value.1;
      m.roomId == req.chatRoomId && m.sender == users[senderId] && m.createdAt == now
      && !m.isRead && !m.isDeleted && Some(m.content) == req.content
      && Some(TypeName(m.messageType)) == req.messageType && m.fileUrl == req.fileUrl
    ensures r == Err(RoomNotFound) <==> ChatRooms.FindById(rooms, req.chatRoomId).None?
    ensures r == Err(NotAuthorizedToSend) <==>
      ChatRooms.FindById(rooms, req.chatRoomId).Some? && !ContainsUser(ChatRooms.FindById(rooms, req.chatRoomId).value, senderId)
    ensures var room := ChatRooms.FindById(rooms, req.chatRoomId);
      r == Err(SenderNotFound) <==> room.Some? && ContainsUser(room.value, senderId) && senderId !in users
    ensures var room := ChatRooms.FindById(rooms, req.chatRoomId);
      r == Err(UnknownMessageType) <==>
        room.Some? && ContainsUser(room.value, senderId) && senderId in users && ParseType(req.messageType).None?
    ensures var room := ChatRooms.FindById(rooms, req.chatRoomId);
      r == Err(ContentMissing) <==>
        room.Some? && ContainsUser(room.value, senderId) && senderId in users && ParseType(req.messageType).Some?
        && req.content.None?
    ensures r.Ok? || r.error in {RoomNotFound, NotAuthorizedToSend, SenderNotFound, UnknownMessageType, ContentMissing}
  {
    match ChatRooms.FindById(rooms, req.chatRoomId)
    case None => Err(RoomNotFound)
    case Some(room) =>
      if !ContainsUser(room, senderId) then Err(NotAuthorizedToSend)
      else if senderId !in users then Err(SenderNotFound)
      else match ParseType(req.messageType)
        case None => Err(UnknownMessageType)
        case Some(t) =>
          if req.content.None? then Err(ContentMissing)
          else Ok((room, NewMessage(req.chatRoomId, users[senderId], req.content.value, t, req.fileUrl, now)))
  }

  /** Only a participant of a room can post to it: a stranger's send always fails. */
  lemma OnlyMembersSend(rooms: seq<ChatRoom>, users: map<int, User>, req: MessageRequest, senderId: int, now: Time)
    requires forall room :: room in rooms && room.id == req.chatRoomId ==> !ContainsUser(room, senderId)
    ensures PrepareMessage(rooms, users, req, senderId, now).Err?
  {
  }

  /** The checks of `deleteMessage`: the message must exist, be the user's own, and the user must be known. */
  function PrepareDelete(messages: seq<Message>, users: map<int, User>, messageId: int,
                         userId: int, now: Time): (r: Result<Message, ChatError>)
    ensures r.Ok? ==> Messages.FindById(messages, messageId).Some?
    ensures r.Ok? ==> var m := Messages.FindById(messages, messageId).value;
      IsFromUser(m, userId) && userId in users && r.value == Delete(m, users[userId], now)
    ensures r == Err(NotAuthorizedToDelete) <==>
      Messages.FindById(messages, messageId).Some? && !IsFromUser(Messages.FindById(messages, messageId).value, userId)
    ensures Messages.FindById(messages, messageId).None? ==> r == Err(MessageNotFound)
    ensures Messages.FindById(messages, messageId).Some? && IsFromUser(Messages.FindById(messages, messageId).value, userId) ==>
      (r.Ok? <==> userId in users) && (userId !in users ==> r == Err(UserNotFound))
  {
    match Messages.FindById(messages, messageId)
    case None => Err(MessageNotFound)
    case Some(m) =>
      if !IsFromUser(m, userId) then Err(NotAuthorizedToDelete)
      else if userId !in users then Err(UserNotFound)
      else Ok(Delete(m, users[userId], now))
  }

  /** The room lookup and membership check shared by reading, listing and read-marking. */
  function CheckAccess(rooms: seq<ChatRoom>, roomId: int, userId: int): (r: Result<ChatRoom, ChatError>)
    ensures r.Ok? <==> ChatRooms.FindById(rooms, roomId).Some? && ContainsUser(ChatRooms.FindById(rooms, roomId).value, userId)
    ensures r.Ok? ==> r.value == ChatRooms.FindById(rooms, roomId).value
    ensures r.Err? ==> r.error in {RoomNotFound, NotAuthorizedToAccess}
  {
    match ChatRooms.FindById(rooms, roomId)
    case None => Err(RoomNotFound)
    case Some(room) => if ContainsUser(room, userId) then Ok(room) else Err(NotAuthorizedToAccess)
  }

  /** The service, holding the chat tables and the user directory. */
  class ChatService {
    const roomRepo: ChatRooms.ChatRoomRepository
    const messageRepo: Messages.MessageRepository
    const users: map<int, User>

    ghost predicate Valid()
      reads this, roomRepo, messageRepo
    {
      roomRepo.Valid() && messageRepo.Valid() && ChatRooms.PairsUnique(roomRepo.rows)
      && forall id :: id in users ==> users[id].id == id
    }

    constructor(users: map<int, User>)
      requires forall id :: id in users ==> users[id].id == id
      ensures Valid() && fresh(roomRepo) && fresh(messageRepo)
      ensures this.users == users && roomRepo.rows == [] && messageRepo.rows == []
    {
      this.users := users;
      roomRepo := new ChatRooms.ChatRoomRepository();
      messageRepo := new Messages.MessageRepository();
    }

    /**
     * `createChatRoom`: returns the room between the two users if there is
     * one; otherwise checks both users exist and stores a new room.
     */
    method CreateChatRoom(user1Id: int, user2Id: int, now: Time) returns (r: Result<ChatRoomResponse, ChatError>)
      requires Valid()
      modifies roomRepo
      ensures Valid()
      ensures messageRepo.rows == old(messageRepo.rows)
      ensures ChatRooms.FindByUsers(old(roomRepo.rows), user1Id, user2Id).Ok?
      ensures var found := ChatRooms.FindByUsers(old(roomRepo.rows), user1Id, user2Id);
        found.Ok? && found.value.Some? ==>
          r == Ok(ToChatRoomResponse(found.value.value, messageRepo.rows)) && roomRepo.rows == old(roomRepo.rows)
      ensures var found := ChatRooms.FindByUsers(old(roomRepo.rows), user1Id, user2Id);
        found == Ok(None) && (user1Id !in users || user2Id !in users) ==>
          r == Err(if user1Id !in users then User1NotFound else User2NotFound) && roomRepo.rows == old(roomRepo.rows)
      ensures var found := ChatRooms.FindByUsers(old(roomRepo.rows), user1Id, user2Id);
        found == Ok(None) && user1Id in users && user2Id in users ==>
          var room := NewRoom(old(roomRepo.nextId), users[user1Id], users[user2Id], now);
          roomRepo.rows == old(roomRepo.rows) + [room] && r == Ok(ToChatRoomResponse(room, messageRepo.rows))
      ensures r.Ok? ==> ChatRooms.FindByUsers(roomRepo.rows, user1Id, user2Id).Ok?
    {
      ChatRooms.FindByUsersAgreesWithExists(roomRepo.rows, user1Id, user2Id);
      var existing := ChatRooms.FindByUsers(roomRepo.rows, user1Id, user2Id).value;
      if existing.Some? {
        return Ok(ToChatRoomResponse(existing.value, messageRepo.rows));
      }
      if user1Id !in users {
        return Err(User1NotFound);
      }
      if user2Id !in users {
        return Err(User2NotFound);
      }
      var room := NewRoom(roomRepo.nextId, users[user1Id], users[user2Id], now);
      ChatRooms.AddRoomKeepsPairsUnique(roomRepo.rows, room);
      var saved := roomRepo.Insert(room);
      ChatRooms.FindByUsersAgreesWithExists(roomRepo.rows, user1Id, user2Id);
      r := Ok(ToChatRoomResponse(saved, messageRepo.rows));
    }

    /** `getChatRoomsForUser`: the user's rooms, most recently active first. */
    function ChatRoomsForUser(userId: int): (r: seq<ChatRoomResponse>)
      reads this, roomRepo, messageRepo
      ensures |r| == |ChatRooms.FindByUserId(roomRepo.rows, userId)|
      ensures forall i :: 0 <= i < |r| ==> r[i].user1.id == userId || r[i].user2.id == userId
      ensures forall i, j :: 0 <= i < j < |r| ==> r[i].lastMessageAt >= r[j].lastMessageAt
      ensures forall i :: 0 <= i < |r| ==>
                r[i] == ToChatRoomResponse(ChatRooms.FindByUserId(roomRepo.rows, userId)[i], messageRepo.rows)
    {
      var rooms := ChatRooms.FindByUserId(roomRepo.rows, userId);
      UserRoomResponses(rooms, messageRepo.rows, userId);
      RoomResponses(rooms, messageRepo.rows)
    }

    /** `getChatRoomById`: only a participant may see a room. */
    function ChatRoomById(roomId: int, userId: int): (r: Result<ChatRoomResponse, ChatError>)
      reads this, roomRepo, messageRepo
      ensures r.Ok? <==> CheckAccess(roomRepo.rows, roomId, userId).Ok?
      ensures r.Err? ==> r.error == CheckAccess(roomRepo.rows, roomId, userId).error
      ensures r.Ok? ==> r.value.id == roomId && (r.value.user1.id == userId || r.value.user2.id == userId)
    {
      match CheckAccess(roomRepo.rows, roomId, userId)
      case Err(e) => Err(e)
      case Ok(room) => Ok(ToChatRoomResponse(room, messageRepo.rows))
    }

    /** `getChatRoomByUsers`: the room between two users, or nothing (`null`). */
    function ChatRoomByUsers(user1Id: int, user2Id: int): (r: Result<Option<ChatRoomResponse>, ChatError>)
      reads this, roomRepo, messageRepo
      ensures r.Ok? && r.value.Some? ==> ChatRooms.ExistsByUsers(roomRepo.rows, user1Id, user2Id)
      ensures r.Ok? && r.value.Some? ==>
                exists room :: room in roomRepo.rows && IsBetween(room, user1Id, user2Id)
                               && r.value.value == ToChatRoomResponse(room, messageRepo.rows)
      ensures r.Ok? && r.value.Some? ==> var resp := r.value.value;
                (resp.user1.id == user1Id && resp.user2.id == user2Id) || (resp.user1.id == user2Id && resp.user2.id == user1Id)
      ensures r == Ok(None) <==> !ChatRooms.ExistsByUsers(roomRepo.rows, user1Id, user2Id)
      ensures r.Err? ==> !ChatRooms.PairsUnique(roomRepo.rows)
    {
      ChatRooms.CountZeroIffNoneBetween(roomRepo.rows, user1Id, user2Id);
      if ChatRooms.PairsUnique(roomRepo.rows) then
        ChatRooms.FindByUsersAgreesWithExists(roomRepo.rows, user1Id, user2Id);
        ChatRoomByUsersOf(user1Id, user2Id)
      else ChatRoomByUsersOf(user1Id, user2Id)
    }

    function ChatRoomByUsersOf(user1Id: int, user2Id: int): Result<Option<ChatRoomResponse>, ChatError>
      reads this, roomRepo, messageRepo
    {
      match ChatRooms.FindByUsers(roomRepo.rows, user1Id, user2Id)
      case Err(_) => Err(NonUniqueRoom)
      case Ok(None) => Ok(None)
      case Ok(Some(room)) => Ok(Some(ToChatRoomResponse(room, messageRepo.rows)))
    }

    /**
     * `sendMessage`: after the checks of `PrepareMessage`, stores the message
     * at the end of the table and moves the room's `lastMessageAt` to now.
     */
    method SendMessage(req: MessageRequest, senderId: int, now: Time) returns (r: Result<MessageResponse, ChatError>)
      requires Valid()
      modifies roomRepo, messageRepo
      ensures Valid()
      ensures var prep := PrepareMessage(old(roomRepo.rows), users, req, senderId, now);
        match prep
        case Err(e) =>
          r == Err(e) && roomRepo.rows == old(roomRepo.rows) && messageRepo.rows == old(messageRepo.rows)
        case Ok((room, m)) =>
          var saved := m.(id := old(messageRepo.nextId));
          messageRepo.rows == old(messageRepo.rows) + [saved]
          && roomRepo.rows == ChatRooms.ReplaceById(old(roomRepo.rows), room.(lastMessageAt := now))
          && r == Ok(ToMessageResponse(saved))
    {
      var prep := PrepareMessage(roomRepo.rows, users, req, senderId, now);
      if prep.Err? {
        return Err(prep.error);
      }
      var (room, m) := prep.value;
      var saved := messageRepo.Insert(m);
      ChatRooms.TouchKeepsPairsUnique(roomRepo.rows, room.id, now);
      roomRepo.Update(room.(lastMessageAt := now));
      r := Ok(ToMessageResponse(saved));
    }

    /** `getMessagesByChatRoom`: one page of a room's messages, newest first, for a participant. */
    function MessagesByChatRoom(roomId: int, userId: int, page: int, size: int): (r: Result<seq<MessageResponse>, ChatError>)
      reads this, roomRepo, messageRepo
      ensures r.Ok? ==> CheckAccess(roomRepo.rows, roomId, userId).Ok? && 0 <= page && 1 <= size
      ensures r.Ok? ==> |r.value| <= size && forall i :: 0 <= i < |r.value| ==> r.value[i].chatRoomId == roomId
      ensures r.Ok? ==> forall i, j :: 0 <= i < j < |r.value| ==> r.value[i].createdAt >= r.value[j].createdAt
      ensures CheckAccess(roomRepo.rows, roomId, userId).Ok? && 0 <= page && 1 <= size ==> r.Ok?
      ensures CheckAccess(roomRepo.rows, roomId, userId).Err? ==> r == Err(CheckAccess(roomRepo.rows, roomId, userId).error)
      ensures CheckAccess(roomRepo.rows, roomId, userId).Ok? && page < 0 ==> r == Err(InvalidPage(Messages.NegativePageIndex))
      ensures CheckAccess(roomRepo.rows, roomId, userId).Ok? && 0 <= page && size < 1 ==>
                r == Err(InvalidPage(Messages.PageSizeBelowOne))
      ensures r.Ok? ==> var all := Messages.RoomNewestFirst(messageRepo.rows, roomId);
                Messages.PageOf(all, page, size).Ok? && r.value == MessageResponses(Messages.PageOf(all, page, size).value)
    {
      match CheckAccess(roomRepo.rows, roomId, userId)
      case Err(e) => Err(e)
      case Ok(_) =>
        match Messages.FindRoomPage(messageRepo.rows, roomId, page, size)
        case Err(pe) => Err(InvalidPage(pe))
        case Ok(ms) =>
          RoomPageResponses(ms, roomId);
          Messages.FindRoomPageIsSlice(messageRepo.rows, roomId, page, size);
          Ok(MessageResponses(ms))
    }

    /** `deleteMessage`: soft-deletes the sender's own message. */
    method DeleteMessage(messageId: int, userId: int, now: Time) returns (r: Result<MessageResponse, ChatError>)
      requires Valid()
      modifies messageRepo
      ensures Valid()
      ensures var prep := PrepareDelete(old(messageRepo.rows), users, messageId, userId, now);
        match prep
        case Err(e) => r == Err(e) && messageRepo.rows == old(messageRepo.rows)
        case Ok(d) => messageRepo.rows == Messages.ReplaceById(old(messageRepo.rows), d) && r == Ok(ToMessageResponse(d))
    {
      var prep := PrepareDelete(messageRepo.rows, users, messageId, userId, now);
      if prep.Err? {
        return Err(prep.error);
      }
      messageRepo.Update(prep.value);
      r := Ok(ToMessageResponse(prep.value));
    }

    /** `markMessagesAsRead`: a participant marks everything the other side sent as read. */
    method MarkMessagesAsRead(roomId: int, userId: int) returns (r: Result<(), ChatError>)
      requires Valid()
      modifies messageRepo
      ensures Valid()
      ensures r.Ok? <==> CheckAccess(old(roomRepo.rows), roomId, userId).Ok?
      ensures r.Err? ==> r.error == CheckAccess(old(roomRepo.rows), roomId, userId).error
                         && messageRepo.rows == old(messageRepo.rows)
      ensures r.Ok? ==> messageRepo.rows == Messages.MarkRead(old(messageRepo.rows), roomId, userId)
    {
      var access := CheckAccess(roomRepo.rows, roomId, userId);
      if access.Err? {
        return Err(access.error);
      }
      messageRepo.MarkMessagesAsRead(roomId, userId);
      r := Ok(());
    }

    /** `getUnreadMessageCount`: counts without checking that the user belongs to the room. */
    function UnreadMessageCount(roomId: int, userId: int): (n: nat)
      reads this, messageRepo
      ensures n == |Messages.FindUnread(messageRepo.rows, roomId, userId)|
    {
      Messages.CountUnreadIsListLength(messageRepo.rows, roomId, userId);
      Messages.CountUnread(messageRepo.rows, roomId, userId)
    }

    /** `markUserOnline`: presence tracking is switched off; the call changes nothing. */
    method MarkUserOnline(userId: int)
      ensures unchanged(this, roomRepo, messageRepo)
    {
    }

    /** `markUserOffline`: switched off like `markUserOnline`. */
    method MarkUserOffline(userId: int)
      ensures unchanged(this, roomRepo, messageRepo)
    {
    }

    /** `updateUserLastSeen`: switched off like `markUserOnline`. */
    method UpdateUserLastSeen(userId: int)
      ensures unchanged(this, roomRepo, messageRepo)
    {
    }
  }
}

=== FILE: courses.dfy ===
/**
 * Courses: the course controller's instructor guard, its enrollment rules
 * (one enrollment per student and course), the list of courses a student
 * may still join, and the delete cascade over enrollments.
 */
module Courses {
  import opened Wrappers
  import opened Tables
  import opened Seqs

  /** `LocalDate`: a day number. */
  type Date = int

  const ACTIVE := "ACTIVE"

  /** The fields of a course this model follows; the image and the other descriptive fields are carried as-is by the source. */
  datatype Course = Course(id: int, name: Option<string>, code: Option<string>, status: Option<string>,
                           createdAt: Date, instructorId: int)

  datatype Enrollment = Enrollment(id: int, studentId: int, courseId: int, enrollmentDate: Date, status: string)

  function CourseId(c: Course): int { c.id }
  function EnrollmentId(e: Enrollment): int { e.id }

  /** The body of `createCourse`; the instructor id may be missing. */
  datatype CourseRequest = CourseRequest(instructorId: Option<int>, name: Option<string>, code: Option<string>,
                                         status: Option<string>)

  datatype CourseError =
    | CourseNotFound
    | InstructorNotFound
    | StudentNotFound
    | AlreadyEnrolled
    | EnrollmentNotFound
    | MissingId        // `findById(null)` throws

  /**
   * The HTTP status of each failure. A missing id throws: `createCourse`
   * lets it escape (the framework answers 500) and `enroll` catches it and
   * answers 500 itself.
   */
  function ErrorStatus(e: CourseError): (code: int)
    ensures code == 404 <==> e.CourseNotFound? || e.StudentNotFound? || e.EnrollmentNotFound?
    ensures code == 400 <==> e.InstructorNotFound? || e.AlreadyEnrolled?
    ensures code == 500 <==> e.MissingId?
  {
    match e
    case CourseNotFound => 404
    case StudentNotFound => 404
    case EnrollmentNotFound => 404
    case InstructorNotFound => 400
    case AlreadyEnrolled => 400
    case MissingId => 500
  }

  /** At most one enrollment per (student, course): what `findByStudentIdAndCourseId` relies on. */
  predicate PairsUnique(rows: seq<Enrollment>)
  {
    forall i, j :: 0 <= i < j < |rows| ==> rows[i].studentId != rows[j].studentId || rows[i].courseId != rows[j].courseId
  }

  function OfPair(studentId: int, courseId: int): Enrollment -> bool
  {
    (e: Enrollment) => e.studentId == studentId && e.courseId == courseId
  }

  /** `findByStudentIdAndCourseId`; two matches would make it throw, which `PairsUnique` rules out. */
  function FindEnrollment(rows: seq<Enrollment>, studentId: int, courseId: int): (r: Option<Enrollment>)
    requires PairsUnique(rows)
    ensures r.None? <==> forall e :: e in rows ==> e.studentId != studentId || e.courseId != courseId
    ensures r.Some? ==> r.value in rows && r.value.studentId == studentId && r.value.courseId == courseId
  {
    var p := OfPair(studentId, courseId);
    PairMatchesAtMostOnce(rows, studentId, courseId);
    var found := FindOne(rows, p);
    assert found.Ok?;
    if found.value.Some? then
      Some(found.value.value)
    else
      assert forall i :: 0 <= i < |rows| ==> !p(rows[i]);
      None
  }

  lemma TailPairsUnique(rows: seq<Enrollment>)
    requires rows != [] && PairsUnique(rows)
    ensures PairsUnique(rows[1..])
  {
    forall i, j | 0 <= i < j < |rows[1..]|
      ensures rows[1..][i].studentId != rows[1..][j].studentId || rows[1..][i].courseId != rows[1..][j].courseId
    {
      assert rows[1..][i] == rows[i + 1] && rows[1..][j] == rows[j + 1];
    }
  }

  /** Under the uniqueness rule the pair lookup never matches twice. */
  lemma {:induction false} PairMatchesAtMostOnce(rows: seq<Enrollment>, studentId: int, courseId: int)
    requires PairsUnique(rows)
    ensures Count(rows, OfPair(studentId, courseId)) <= 1
  {
    if rows != [] {
      var p := OfPair(studentId, courseId);
      TailPairsUnique(rows);
      PairMatchesAtMostOnce(rows[1..], studentId, courseId);
      if p(rows[0]) {
        CountZeroIffNone(rows[1..], p);
        forall i | 0 <= i < |rows[1..]| ensures !p(rows[1..][i]) {
          assert rows[1..][i] == rows[i + 1];
        }
      }
    }
  }

  /** Appending an enrollment for a pair with none keeps pairs unique. */
  lemma AppendKeepsPairsUnique(rows: seq<Enrollment>, e: Enrollment)
    requires PairsUnique(rows)
    requires forall d :: d in rows ==> d.studentId != e.studentId || d.courseId != e.courseId
    ensures PairsUnique(rows + [e])
  {
    var r := rows + [e];
    forall i, j | 0 <= i < j < |r| ensures r[i].studentId != r[j].studentId || r[i].courseId != r[j].courseId {
      if j == |rows| {
        assert r[i] in rows;
      }
    }
  }

  /** Dropping enrollments keeps pairs unique. */
  lemma {:induction false} RemoveKeepsPairsUnique(rows: seq<Enrollment>, id: int)
    requires PairsUnique(rows)
    ensures PairsUnique(RemoveKey(rows, EnrollmentId, id))
  {
    if rows != [] {
      TailPairsUnique(rows);
      RemoveKeepsPairsUnique(rows[1..], id);
      var rest := RemoveKey(rows[1..], EnrollmentId, id);
      var r := RemoveKey(rows, EnrollmentId, id);
      if rows[0].id != id {
        assert r == [rows[0]] + rest;
        forall i, j | 0 <= i < j < |r| ensures r[i].studentId != r[j].studentId || r[i].courseId != r[j].courseId {
          if i == 0 {
            assert r[j] == rest[j - 1] && rest[j - 1] in rows[1..];
            var m :| 0 <= m < |rows[1..]| && rows[1..][m] == r[j];
            assert rows[m + 1] == r[j];
          } else {
            assert r[i] == rest[i - 1] && r[j] == rest[j - 1];
          }
        }
      }
    }
  }

  /** A filtered table keeps pairs unique, whatever the filter. */
  lemma FilterKeepsPairsUnique(rows: seq<Enrollment>, p: Enrollment -> bool)
    requires PairsUnique(rows)
    ensures PairsUnique(Filter(rows, p))
  {
    FilterSubsequence(rows, p);
    var r := Filter(rows, p);
    forall i, j | 0 <= i < j < |r| ensures r[i].studentId != r[j].studentId || r[i].courseId != r[j].courseId {
      SubsequenceIndices(r, rows, i, j);
    }
  }

  /** The ids of the courses the student holds an enrollment in (`findByEnrollmentsStudentId`). */
  function EnrolledCourseIds(enrollments: seq<Enrollment>, studentId: int): (ids: set<int>)
    ensures forall c :: c in ids <==> exists e :: e in enrollments && e.studentId == studentId && e.courseId == c
  {
    set e | e in enrollments && e.studentId == studentId :: e.courseId
  }

  function NotIn(ids: set<int>): Course -> bool
  {
    (c: Course) => c.id !in ids
  }

  function InSet(ids: set<int>): Course -> bool
  {
    (c: Course) => c.id in ids
  }

  /** `getAvailableCoursesForStudent`: every course, in table order, except those the student is enrolled in. */
  function Available(courses: seq<Course>, enrollments: seq<Enrollment>, studentId: int): (r: seq<Course>)
    ensures forall c :: c in r <==> c in courses && c.id !in EnrolledCourseIds(enrollments, studentId)
    ensures Subsequence(r, courses)
  {
    var ids := EnrolledCourseIds(enrollments, studentId);
    var r := Filter(courses, NotIn(ids));
    forall c ensures c in r <==> c in courses && c.id !in ids {
      FilterMembers(courses, NotIn(ids), c);
    }
    FilterSubsequence(courses, NotIn(ids));
    r
  }

  /** The courses the student is enrolled in, as the second query of `getAvailableCoursesForStudent` lists them. */
  function Enrolled(courses: seq<Course>, enrollments: seq<Enrollment>, studentId: int): (r: seq<Course>)
    ensures forall c :: c in r <==> c in courses && c.id in EnrolledCourseIds(enrollments, studentId)
  {
    var ids := EnrolledCourseIds(enrollments, studentId);
    var r := Filter(courses, InSet(ids));
    forall c ensures c in r <==> c in courses && c.id in ids {
      FilterMembers(courses, InSet(ids), c);
    }
    r
  }

  /** Available and enrolled courses are disjoint and together cover every course. */
  lemma AvailablePartitions(courses: seq<Course>, enrollments: seq<Enrollment>, studentId: int, c: Course)
    requires c in courses
    ensures c in Available(courses, enrollments, studentId) <==> c !in Enrolled(courses, enrollments, studentId)
  {
  }

  /** A student without enrollments may join every course. */
  lemma NoEnrollmentsAllAvailable(courses: seq<Course>, enrollments: seq<Enrollment>, studentId: int)
    requires forall e :: e in enrollments ==> e.studentId != studentId
    ensures Available(courses, enrollments, studentId) == courses
  {
    var ids := EnrolledCourseIds(enrollments, studentId);
    assert ids == {};
    FilterAll(courses, NotIn(ids));
  }

  /** The ids held in the course table. */
  function CourseIds(courses: seq<Course>): (ids: set<int>)
    ensures forall k :: k in ids <==> exists c :: c in courses && c.id == k
  {
    set c | c in courses :: c.id
  }

  function OfCourse(courseId: int): Enrollment -> bool
  {
    (e: Enrollment) => e.courseId == courseId
  }

  function NotOfCourse(courseId: int): Enrollment -> bool
  {
    (e: Enrollment) => e.courseId != courseId
  }

  /**
   * `deleteAll(findByCourseId(id))`: every enrollment of the course goes,
   * the others stay in their order.
   */
  function DropCourseEnrollments(rows: seq<Enrollment>, courseId: int): (r: seq<Enrollment>)
    ensures forall e :: e in r <==> e in rows && e.courseId != courseId
    ensures Subsequence(r, rows)
  {
    var r := Filter(rows, NotOfCourse(courseId));
    forall e ensures e in r <==> e in rows && e.courseId != courseId {
      FilterMembers(rows, NotOfCourse(courseId), e);
    }
    FilterSubsequence(rows, NotOfCourse(courseId));
    r
  }

  class CourseController {
    /** The user table; any user may be an instructor or a student. */
    const users: set<int>
    var courses: seq<Course>
    var nextCourseId: int
    var enrollments: seq<Enrollment>
    var nextEnrollmentId: int

    ghost predicate Valid()
      reads this
    {
      nextCourseId >= 1 && nextEnrollmentId >= 1
      && KeysIncreasing(courses, CourseId) && (forall c :: c in courses ==> c.id < nextCourseId)
      && KeysIncreasing(enrollments, EnrollmentId) && (forall e :: e in enrollments ==> e.id < nextEnrollmentId)
      && PairsUnique(enrollments)
      // the foreign key: no enrollment outlives its course
      && (forall e :: e in enrollments ==> e.courseId in CourseIds(courses))
    }

    constructor(users: set<int>)
      ensures Valid() && this.users == users && courses == [] && enrollments == []
    {
      this.users := users;
      courses := [];
      nextCourseId := 1;
      enrollments := [];
      nextEnrollmentId := 1;
    }

    /** `createCourse`: the instructor must exist; the course is stored with today's date. */
    method Create(req: CourseRequest, today: Date) returns (r: Result<Course, CourseError>)
      requires Valid()
      modifies this
      ensures Valid()
      ensures enrollments == old(enrollments)
      ensures req.instructorId.None? ==> r == Err(MissingId)
      ensures req.instructorId.Some? && req.instructorId.value !in users ==> r == Err(InstructorNotFound)
      ensures r.Err? ==> courses == old(courses)
      ensures req.instructorId.Some? && req.instructorId.value in users ==>
                r == Ok(Course(old(nextCourseId), req.name, req.code, req.status, today, req.instructorId.value))
                && courses == old(courses) + [r.value]
    {
      if req.instructorId.None? {
        return Err(MissingId);
      }
      if req.instructorId.value !in users {
        return Err(InstructorNotFound);
      }
      var c := Course(nextCourseId, req.name, req.code, req.status, today, req.instructorId.value);
      AppendKeepsKeysIncreasing(courses, CourseId, c);
      assert forall e :: e in enrollments ==> e.courseId in CourseIds(courses + [c]) by {
        forall e | e in enrollments ensures e.courseId in CourseIds(courses + [c]) {
          var d :| d in courses && d.id == e.courseId;
          assert d in courses + [c];
        }
      }
      courses := courses + [c];
      nextCourseId := nextCourseId + 1;
      return Ok(c);
    }

    /** `deleteCourse`: the course's enrollments are deleted first, then the course. */
    method Delete(id: int) returns (r: Result<(), CourseError>)
      requires Valid()
      modifies this
      ensures Valid()
      ensures FindByKey(old(courses), CourseId, id).None? ==>
                r == Err(CourseNotFound) && courses == old(courses) && enrollments == old(enrollments)
      ensures FindByKey(old(courses), CourseId, id).Some? ==>
                r == Ok(()) && courses == RemoveKey(old(courses), CourseId, id)
                && enrollments == DropCourseEnrollments(old(enrollments), id)
    {
      var found := FindByKey(courses, CourseId, id);
      if found.None? {
        return Err(CourseNotFound);
      }
      var rest := DropCourseEnrollments(enrollments, id);
      SubsequenceKeepsKeysIncreasing(rest, enrollments, EnrollmentId);
      FilterKeepsPairsUnique(enrollments, NotOfCourse(id));
      var remaining := RemoveKey(courses, CourseId, id);
      RemoveKeyKeepsOrder(courses, CourseId, id);
      assert forall e :: e in rest ==> e.courseId in CourseIds(remaining) by {
        forall e | e in rest ensures e.courseId in CourseIds(remaining) {
          var d :| d in courses && d.id == e.courseId;
          assert d in remaining;
        }
      }
      enrollments := rest;
      courses := remaining;
      return Ok(());
    }

    /**
     * `enrollStudentInCourse`: 404 for an unknown course or student, 400 for
     * a student already enrolled; otherwise one ACTIVE enrollment is added.
     */
    method Enroll(courseId: int, studentId: Option<int>, today: Date) returns (r: Result<Enrollment, CourseError>)
      requires Valid()
      modifies this
      ensures Valid()
      ensures courses == old(courses)
      ensures courseId !in CourseIds(old(courses)) ==> r == Err(CourseNotFound)
      ensures courseId in CourseIds(old(courses)) && studentId.None? ==> r == Err(MissingId)
      ensures courseId in CourseIds(old(courses)) && studentId.Some? && studentId.value !in users ==> r == Err(StudentNotFound)
      ensures courseId in CourseIds(old(courses)) && studentId.Some? && studentId.value in users ==>
                (r == Err(AlreadyEnrolled) <==>
                 exists e :: e in old(enrollments) && e.studentId == studentId.value && e.courseId == courseId)
      ensures r.Err? ==> enrollments == old(enrollments)
      ensures r.Ok? ==>
                r.value == Enrollment(old(nextEnrollmentId), studentId.value, courseId, today, ACTIVE)
                && enrollments == old(enrollments) + [r.value]
    {
      var course := FindByKey(courses, CourseId, courseId);
      if course.None? {
        return Err(CourseNotFound);
      }
      if studentId.None? {
        return Err(MissingId);
      }
      var sid := studentId.value;
      if sid !in users {
        return Err(StudentNotFound);
      }
      var existing := FindEnrollment(enrollments, sid, courseId);
      if existing.Some? {
        return Err(AlreadyEnrolled);
      }
      var e := Enrollment(nextEnrollmentId, sid, courseId, today, ACTIVE);
      AppendKeepsKeysIncreasing(enrollments, EnrollmentId, e);
      AppendKeepsPairsUnique(enrollments, e);
      enrollments := enrollments + [e];
      nextEnrollmentId := nextEnrollmentId + 1;
      return Ok(e);
    }

    /** `unenrollStudentFromCourse`: 404 when there is no enrollment; otherwise exactly that one goes. */
    method Unenroll(courseId: int, studentId: int) returns (r: Result<Enrollment, CourseError>)
      requires Valid()
      modifies this
      ensures Valid()
      ensures courses == old(courses)
      ensures r.Err? <==> forall e :: e in old(enrollments) ==> e.studentId != studentId || e.courseId != courseId
      ensures r.Err? ==> r == Err(EnrollmentNotFound) && enrollments == old(enrollments)
      ensures r.Ok? ==>
                r.value in old(enrollments) && r.value.studentId == studentId && r.value.courseId == courseId
                && enrollments == RemoveKey(old(enrollments), EnrollmentId, r.value.id)
    {
      var existing := FindEnrollment(enrollments, studentId, courseId);
      if existing.None? {
        return Err(EnrollmentNotFound);
      }
      var e := existing.value;
      RemoveKeyKeepsOrder(enrollments, EnrollmentId, e.id);
      RemoveKeepsPairsUnique(enrollments, e.id);
      enrollments := RemoveKey(enrollments, EnrollmentId, e.id);
      return Ok(e);
    }
  }

  /** After an unenroll the student may enroll in the course again. */
  lemma UnenrollFreesPair(rows: seq<Enrollment>, e: Enrollment)
    requires PairsUnique(rows) && KeysIncreasing(rows, EnrollmentId) && e in rows
    ensures forall d :: d in RemoveKey(rows, EnrollmentId, e.id) ==> d.studentId != e.studentId || d.courseId != e.courseId
  {
    forall d | d in RemoveKey(rows, EnrollmentId, e.id) ensures d.studentId != e.studentId || d.courseId != e.courseId {
      var i :| 0 <= i < |rows| && rows[i] == d;
      var j :| 0 <= j < |rows| && rows[j] == e;
      assert i != j;
    }
  }
}

=== FILE: event_api.dfy ===
/**
 * The calendar helpers of the browser client: conversion between the
 * back end's upper-case event types and the client's lower-case ones, and
 * the date and time formats exchanged with the event API.
 */
module EventApi {
  import opened Wrappers
  import opened Text
  import Events

  // ---------------------------------------------------------------- event types

  /** The type names the back end sends (the `EventType` constants). */
  const BACKEND_TYPES: set<string> := {"ASSIGNMENT", "EXAM", "MEETING", "OTHER"}

  /** The type names the calendar pages use. */
  const CLIENT_TYPES: set<string> := {"assignment", "exam", "meeting", "other"}

  /**
   * `convertEventType`: a known back-end name to its lower-case form; any
   * other value, `null` (`None`) included, becomes `"other"`.
   */
  function ConvertEventType(backendType: Option<string>): (r: string)
    ensures r in CLIENT_TYPES
  {
    match backendType
    case Some("ASSIGNMENT") => "assignment"
    case Some("EXAM") => "exam"
    case Some("MEETING") => "meeting"
    case Some("OTHER") => "other"
    case _ => "other"
  }

  /** `convertToBackendEventType`: the inverse table; anything unknown becomes `"OTHER"`. */
  function ConvertToBackendEventType(clientType: Option<string>): (r: string)
    ensures r in BACKEND_TYPES
  {
    match clientType
    case Some("assignment") => "ASSIGNMENT"
    case Some("exam") => "EXAM"
    case Some("meeting") => "MEETING"
    case Some("other") => "OTHER"
    case _ => "OTHER"
  }

  /** A client type sent to the back end and read back is the same client type. */
  lemma ClientTypeRoundTrip(t: string)
    requires t in CLIENT_TYPES
    ensures ConvertEventType(Some(ConvertToBackendEventType(Some(t)))) == t
  {
  }

  /** A back-end type read by the client and sent back is the same back-end type. */
  lemma BackendTypeRoundTrip(t: string)
    requires t in BACKEND_TYPES
    ensures ConvertToBackendEventType(Some(ConvertEventType(Some(t)))) == t
  {
  }

  /** Unknown names, and `null`, fall back to the `OTHER` pair in both directions. */
  lemma UnknownTypesFallBack(t: Option<string>)
    ensures (t.None? || t.value !in BACKEND_TYPES) ==> ConvertEventType(t) == "other"
    ensures (t.None? || t.value !in CLIENT_TYPES) ==> ConvertToBackendEventType(t) == "OTHER"
  {
  }

  /** ASCII lower-casing, one character at a time. */
  lemma LowerOfWord(upper: string, lower: string)
    requires |upper| == |lower|
    requires forall i :: 0 <= i < |upper| ==> LowerChar(upper[i]) == lower[i]
    ensures Lower(upper) == lower
  {
  }

  /** The JSON name of each constant of the back end's `EventType`. */
  function TypeName(t: Events.EventType): (r: string)
    ensures r in BACKEND_TYPES
  {
    match t
    case Assignment => "ASSIGNMENT"
    case Exam => "EXAM"
    case Meeting => "MEETING"
    case Other => "OTHER"
  }

  /** Every stored event type survives the trip to the calendar and back, and shows in lower case. */
  lemma StoredTypeRoundTrip(t: Events.EventType)
    ensures ConvertToBackendEventType(Some(ConvertEventType(Some(TypeName(t))))) == TypeName(t)
    ensures ConvertEventType(Some(TypeName(t))) == Lower(TypeName(t))
  {
    BackendTypeRoundTrip(TypeName(t));
    match t
    case Assignment => LowerOfWord("ASSIGNMENT", "assignment");
    case Exam => LowerOfWord("EXAM", "exam");
    case Meeting => LowerOfWord("MEETING", "meeting");
    case Other => LowerOfWord("OTHER", "other");
  }

  // ---------------------------------------------------------------- times

  /** `formatTimeForAPI`: an `HH:MM` input gets seconds appended for `LocalTime`. */
  function FormatTimeForApi(time: string): (r: string)
    ensures |r| == |time| + 3 && r[..|time|] == time && r[|time|..] == ":00"
  {
    time + ":00"
  }

  /**
   * `formatTimeForDisplay`: a missing or empty time shows as the empty
   * string, any other as its first five characters.
   */
  function FormatTimeForDisplay(time: Option<string>): (r: string)
    ensures |r| <= 5
    ensures time.None? || time.value == "" ==> r == ""
    ensures time.Some? ==> r <= time.value
    ensures time.Some? && |time.value| >= 5 ==> |r| == 5
  {
    if time.None? || time.value == "" then "" else Take(time.value, 5)
  }

  /** An `HH:MM` time entered in the form shows unchanged once it has been through the API. */
  lemma DisplayOfApiTime(time: string)
    requires |time| == 5
    ensures FormatTimeForDisplay(Some(FormatTimeForApi(time))) == time
  {
  }

  /** A stored `HH:MM:00` time, shown and sent back, is the same stored time. */
  lemma ApiOfDisplayedTime(stored: string)
    requires |stored| == 8 && stored[5..] == ":00"
    ensures FormatTimeForApi(FormatTimeForDisplay(Some(stored))) == stored
  {
    assert stored == stored[..5] + stored[5..];
  }

  // ---------------------------------------------------------------- dates

  /** `String(n).padStart(2, '0')` for a month or a day. */
  function TwoDigits(n: nat): (r: string)
    requires n < 100
    ensures |r| == 2 && AllDigits(r) && DigitsValue(r) == n
  {
    var digits := NatToString(n);
    DigitsValueOfNatToString(n);
    if n < 10 then
      var r := PadStart(digits, 2, '0');
      assert r == ['0', DigitChar(n)];
      assert r[..1] == "0";
      r
    else
      assert NatToString(n / 10) == [DigitChar(n / 10)];
      PadStart(digits, 2, '0')
  }

  /**
   * `formatDateForAPI`: the year as `String` prints it, then the month and
   * the day of the month padded to two digits, separated by `-`. A `Date`
   * object gives a month index from 0 to 11 and a day from 1 to 31.
   */
  function FormatDateForApi(year: int, monthIndex: int, day: int): (r: string)
    requires 0 <= monthIndex < 12 && 1 <= day <= 31
    ensures var y := IntToString(year);
      |r| == |y| + 6 && r[..|y|] == y && r[|y|] == '-' && r[|y| + 3] == '-'
      && AllDigits(r[|y| + 1..|y| + 3]) && DigitsValue(r[|y| + 1..|y| + 3]) == monthIndex + 1
      && AllDigits(r[|y| + 4..]) && DigitsValue(r[|y| + 4..]) == day
  {
    var y := IntToString(year);
    var m := TwoDigits(monthIndex + 1);
    var d := TwoDigits(day);
    DateLayout(y, m, d);
    y + "-" + m + "-" + d
  }

  /** Where the fields sit in `year-mm-dd`. */
  lemma DateLayout(y: string, m: string, d: string)
    requires |m| == 2 && |d| == 2
    ensures var r := y + "-" + m + "-" + d;
      |r| == |y| + 6 && r[..|y|] == y && r[|y|] == '-' && r[|y| + 3] == '-'
      && r[|y| + 1..|y| + 3] == m && r[|y| + 4..] == d
  {
  }
}

=== FILE: events.dfy ===
/**
 * Events: the calendar event service. Creation refuses an unknown user
 * and a second event with the same title on the same date by the same
 * creator; only the creator may update or delete an event.
 */
module Events {
  import opened Wrappers
  import opened Tables

  /** `LocalDate`: a day number; `LocalTime`: seconds of the day; `LocalDateTime`: seconds. */
  type Date = int
  type TimeOfDay = int
  type Time = int

  /** The backend event kinds, as the front end names them. */
  datatype EventType = Assignment | Exam | Meeting | Other

  /** A stored event; every field the request carries may be null. */
  datatype Event = Event(
    id: int, title: Option<string>, description: Option<string>, eventDate: Option<Date>,
    startTime: Option<TimeOfDay>, endTime: Option<TimeOfDay>, eventType: Option<EventType>,
    createdBy: int, createdAt: Time, updatedAt: Option<Time>)

  function EventId(e: Event): int { e.id }

  datatype EventRequest = EventRequest(
    title: Option<string>, description: Option<string>, eventDate: Option<Date>,
    startTime: Option<TimeOfDay>, endTime: Option<TimeOfDay>, eventType: Option<EventType>)

  /** Each failure is a `RuntimeException`; the controller turns every one into 400. */
  datatype EventError = UserNotFound | DuplicateEvent | EventNotFound | NotCreator

  /**
   * `existsByTitleAndDateAndCreator`: a stored event of the user with the
   * same title and date. The query compares with SQL `=`, so a null title
   * or date never matches anything.
   */
  predicate IsDuplicate(events: seq<Event>, req: EventRequest, userId: int)
  {
    req.title.Some? && req.eventDate.Some?
    && exists e :: e in events && e.title == req.title && e.eventDate == req.eventDate && e.createdBy == userId
  }

  /** The event `createEvent` saves: the request's fields, the creator and the creation time. */
  function NewEvent(id: int, req: EventRequest, userId: int, now: Time): (e: Event)
    ensures e.createdBy == userId && e.createdAt == now && e.updatedAt.None?
    ensures e.title == req.title && e.eventDate == req.eventDate && e.eventType == req.eventType
    ensures e.description == req.description && e.startTime == req.startTime && e.endTime == req.endTime
  {
    Event(id, req.title, req.description, req.eventDate, req.startTime, req.endTime, req.eventType, userId, now, None)
  }

  /** `updateEvent` overwrites every field of the request and stamps the update time. */
  function Edited(e: Event, req: EventRequest, now: Time): (r: Event)
    ensures r.id == e.id && r.createdBy == e.createdBy && r.createdAt == e.createdAt
    ensures r.updatedAt == Some(now)
    ensures r == NewEvent(e.id, req, e.createdBy, e.createdAt).(updatedAt := Some(now))
  {
    e.(title := req.title, description := req.description, eventDate := req.eventDate,
       startTime := req.startTime, endTime := req.endTime, eventType := req.eventType, updatedAt := Some(now))
  }

  /** Once an event with a title and a date is stored, the same request by the same user is a duplicate. */
  lemma CreatedBlocksRepeat(events: seq<Event>, req: EventRequest, userId: int, id: int, now: Time)
    requires req.title.Some? && req.eventDate.Some?
    ensures IsDuplicate(events + [NewEvent(id, req, userId, now)], req, userId)
  {
    var e := NewEvent(id, req, userId, now);
    assert e in events + [e];
  }

  /** A request without a title or a date is never a duplicate, however many events exist. */
  lemma NullNeverDuplicate(events: seq<Event>, req: EventRequest, userId: int)
    requires req.title.None? || req.eventDate.None?
    ensures !IsDuplicate(events, req, userId)
  {
  }

  /** Another user's event with the same title and date does not block creation. */
  lemma OtherCreatorsIgnored(events: seq<Event>, other: Event, req: EventRequest, userId: int)
    requires other.createdBy != userId
    ensures IsDuplicate(events + [other], req, userId) <==> IsDuplicate(events, req, userId)
  {
    if IsDuplicate(events + [other], req, userId) {
      var e :| e in events + [other] && e.title == req.title && e.eventDate == req.eventDate && e.createdBy == userId;
      assert e in events;
    }
    if IsDuplicate(events, req, userId) {
      var e :| e in events && e.title == req.title && e.eventDate == req.eventDate && e.createdBy == userId;
      assert e in events + [other];
    }
  }

  // ---------------------------------------------------------------- creator check

  /** The values `Long.valueOf` hands out as shared, cached objects. */
  const LONG_CACHE_LOW: int := -128
  const LONG_CACHE_HIGH: int := 127

  /**
   * The creator check as written, `event.getCreatedBy().getId() != userId`:
   * both ids are `Long` objects, boxed separately, so the operator compares
   * references. Two boxes of one value are the same object only when the
   * value lies in the `Long` cache.
   */
  function IsCreatorAsWritten(e: Event, userId: int): (r: bool)
    ensures r ==> e.createdBy == userId
    ensures r <==> e.createdBy == userId && LONG_CACHE_LOW <= userId <= LONG_CACHE_HIGH
  {
    e.createdBy == userId && LONG_CACHE_LOW <= userId <= LONG_CACHE_HIGH
  }

  /** As written, the creator of an event is refused once the creator's id is above the cache. */
  lemma CreatorRefusedAsWritten(e: Event)
    requires e.createdBy > LONG_CACHE_HIGH
    ensures !IsCreatorAsWritten(e, e.createdBy)
  {
  }

  /** The creator check as intended: the ids are compared by value. */
  function IsCreator(e: Event, userId: int): (r: bool)
    ensures r <==> e.createdBy == userId
  {
    e.createdBy == userId
  }

  /** The intended check accepts the creator whatever the id, and agrees with the written one inside the cache. */
  lemma CreatorAccepted(e: Event, userId: int)
    ensures IsCreator(e, e.createdBy)
    ensures LONG_CACHE_LOW <= userId <= LONG_CACHE_HIGH ==> IsCreatorAsWritten(e, userId) == IsCreator(e, userId)
  {
  }

  class EventService {
    const users: set<int>
    var events: seq<Event>
    var nextId: int

    ghost predicate Valid()
      reads this
    {
      nextId >= 1 && KeysIncreasing(events, EventId) && forall e :: e in events ==> e.id < nextId
    }

    constructor(users: set<int>)
      ensures Valid() && this.users == users && events == []
    {
      this.users := users;
      events := [];
      nextId := 1;
    }

    /** `createEvent`: unknown user first, then the duplicate check, then the save. */
    method Create(req: EventRequest, userId: int, now: Time) returns (r: Result<Event, EventError>)
      requires Valid()
      modifies this
      ensures Valid()
      ensures userId !in users ==> r == Err(UserNotFound)
      ensures userId in users && IsDuplicate(old(events), req, userId) ==> r == Err(DuplicateEvent)
      ensures r.Err? ==> events == old(events)
      ensures userId in users && !IsDuplicate(old(events), req, userId) ==>
                r == Ok(NewEvent(old(nextId), req, userId, now)) && events == old(events) + [r.value]
    {
      if userId !in users {
        return Err(UserNotFound);
      }
      if IsDuplicate(events, req, userId) {
        return Err(DuplicateEvent);
      }
      var e := NewEvent(nextId, req, userId, now);
      AppendKeepsKeysIncreasing(events, EventId, e);
      events := events + [e];
      nextId := nextId + 1;
      return Ok(e);
    }

    /**
     * `updateEvent`: a missing event fails, then anyone but the creator
     * fails, by the intended check; nothing changes on failure.
     */
    method Update(eventId: int, req: EventRequest, userId: int, now: Time) returns (r: Result<Event, EventError>)
      requires Valid()
      modifies this
      ensures Valid()
      ensures nextId == old(nextId)
      ensures FindByKey(old(events), EventId, eventId).None? ==> r == Err(EventNotFound)
      ensures FindByKey(old(events), EventId, eventId).Some? && FindByKey(old(events), EventId, eventId).value.createdBy != userId ==>
                r == Err(NotCreator)
      ensures r.Err? ==> events == old(events)
      ensures r.Ok? ==>
                var e := FindByKey(old(events), EventId, eventId).value;
                e.createdBy == userId && r.value == Edited(e, req, now)
                && events == ReplaceByKey(old(events), EventId, r.value)
    {
      var found := FindByKey(events, EventId, eventId);
      if found.None? {
        return Err(EventNotFound);
      }
      var e := found.value;
      if !IsCreator(e, userId) {
        return Err(NotCreator);
      }
      var edited := Edited(e, req, now);
      ReplaceByKeyKeepsKeys(events, EventId, edited);
      SameKeysIncreasing(events, ReplaceByKey(events, EventId, edited), EventId);
      ReplaceKeepsBound(events, edited, nextId);
      events := ReplaceByKey(events, EventId, edited);
      return Ok(edited);
    }

    /**
     * `deleteEvent`: a missing event fails, then anyone but the creator
     * fails, by the intended check; the event stays on failure.
     */
    method Delete(eventId: int, userId: int) returns (r: Result<(), EventError>)
      requires Valid()
      modifies this
      ensures Valid()
      ensures nextId == old(nextId)
      ensures FindByKey(old(events), EventId, eventId).None? ==> r == Err(EventNotFound)
      ensures FindByKey(old(events), EventId, eventId).Some? && FindByKey(old(events), EventId, eventId).value.createdBy != userId ==>
                r == Err(NotCreator)
      ensures r.Err? ==> events == old(events)
      ensures r.Ok? ==>
                FindByKey(old(events), EventId, eventId).value.createdBy == userId
                && events == RemoveKey(old(events), EventId, eventId)
    {
      var found := FindByKey(events, EventId, eventId);
      if found.None? {
        return Err(EventNotFound);
      }
      if !IsCreator(found.value, userId) {
        return Err(NotCreator);
      }
      RemoveKeyKeepsOrder(events, EventId, eventId);
      events := RemoveKey(events, EventId, eventId);
      return Ok(());
    }
  }

  /** Saving an event under its own id keeps every id below the next one. */
  lemma ReplaceKeepsBound(events: seq<Event>, e: Event, nextId: int)
    requires forall d :: d in events ==> d.id < nextId
    requires exists d :: d in events && d.id == e.id
    ensures forall d :: d in ReplaceByKey(events, EventId, e) ==> d.id < nextId
  {
    var r := ReplaceByKey(events, EventId, e);
    forall d | d in r ensures d.id < nextId {
      var i :| 0 <= i < |r| && r[i] == d;
      assert events[i] in events;
    }
  }
}

=== FILE: grading.dfy ===
/**
 * Grade bands: a percentage maps to a letter grade, a grade point and a
 * performance description, all switching at 35, 40, 50, 60, 70, 80 and 90.
 * Percentages are exact reals; the one rounding step (to one decimal, half
 * up) is written out.
 */
module Grades {

  /** The band boundaries, lowest first. */
  const THRESHOLDS: seq<real> := [35.0, 40.0, 50.0, 60.0, 70.0, 80.0, 90.0]

  const LETTERS: seq<string> := ["F", "D+", "C", "C+", "B", "B+", "A", "A+"]
  const POINTS: seq<real> := [0.0, 1.6, 2.0, 2.4, 2.8, 3.2, 3.6, 4.0]
  const DESCRIPTIONS: seq<string> :=
    ["Fail", "Basic", "Acceptable", "Satisfactory", "Good", "Very Good", "Excellent", "Outstanding"]

  /** How many boundaries the percentage reaches: 0 (fail) up to 7 (top band). */
  function Band(p: real): (b: nat)
    ensures b <= 7
    ensures forall k :: 0 <= k < 7 ==> (k < b <==> p >= THRESHOLDS[k])
  {
    if p >= 90.0 then 7 else if p >= 80.0 then 6 else if p >= 70.0 then 5
    else if p >= 60.0 then 4 else if p >= 50.0 then 3 else if p >= 40.0 then 2
    else if p >= 35.0 then 1 else 0
  }

  /** A higher percentage never lands in a lower band. */
  lemma BandMonotone(p: real, q: real)
    requires p <= q
    ensures Band(p) <= Band(q)
  {
  }

  /** `calculateLetterGrade`. */
  function LetterGrade(p: real): string
  {
    if p >= 90.0 then "A+" else if p >= 80.0 then "A" else if p >= 70.0 then "B+"
    else if p >= 60.0 then "B" else if p >= 50.0 then "C+" else if p >= 40.0 then "C"
    else if p >= 35.0 then "D+" else "F"
  }

  /** `calculateGradePoint`: 0.0 below 35, otherwise between 1.6 and 4.0. */
  function GradePoint(p: real): (gp: real)
    ensures gp == 0.0 <==> p < 35.0
    ensures p >= 35.0 ==> 1.6 <= gp <= 4.0
  {
    if p >= 90.0 then 4.0 else if p >= 80.0 then 3.6 else if p >= 70.0 then 3.2
    else if p >= 60.0 then 2.8 else if p >= 50.0 then 2.4 else if p >= 40.0 then 2.0
    else if p >= 35.0 then 1.6 else 0.0
  }

  /** `getPerformanceDescription`. */
  function Description(p: real): string
  {
    if p >= 90.0 then "Outstanding" else if p >= 80.0 then "Excellent" else if p >= 70.0 then "Very Good"
    else if p >= 60.0 then "Good" else if p >= 50.0 then "Satisfactory" else if p >= 40.0 then "Acceptable"
    else if p >= 35.0 then "Basic" else "Fail"
  }

  /** The three if-chains are one table indexed by the band. */
  lemma ChainsFollowBand(p: real)
    ensures LetterGrade(p) == LETTERS[Band(p)]
    ensures GradePoint(p) == POINTS[Band(p)]
    ensures Description(p) == DESCRIPTIONS[Band(p)]
  {
  }

  /** Each column of the table has distinct entries. */
  lemma ColumnsDistinct(i: nat, j: nat)
    requires i <= 7 && j <= 7
    ensures LETTERS[i] == LETTERS[j] <==> i == j
    ensures POINTS[i] == POINTS[j] <==> i == j
    ensures DESCRIPTIONS[i] == DESCRIPTIONS[j] <==> i == j
    ensures i <= j <==> POINTS[i] <= POINTS[j]
  {
  }

  /**
   * Letter grade, grade point and description switch at identical
   * thresholds: two percentages share one of them iff they share all three.
   */
  lemma SameThresholds(p: real, q: real)
    ensures LetterGrade(p) == LetterGrade(q) <==> Band(p) == Band(q)
    ensures GradePoint(p) == GradePoint(q) <==> Band(p) == Band(q)
    ensures Description(p) == Description(q) <==> Band(p) == Band(q)
  {
    ChainsFollowBand(p);
    ChainsFollowBand(q);
    ColumnsDistinct(Band(p), Band(q));
  }

  /** The position of a letter in the table, worst first. */
  function LetterRank(g: string): (r: nat)
    ensures r <= 7
    ensures g in LETTERS ==> LETTERS[r] == g
  {
    if g == "A+" then 7 else if g == "A" then 6 else if g == "B+" then 5 else if g == "B" then 4
    else if g == "C+" then 3 else if g == "C" then 2 else if g == "D+" then 1 else 0
  }

  /** A higher percentage never yields a lower letter, grade point or description. */
  lemma GradesMonotone(p: real, q: real)
    requires p <= q
    ensures LetterRank(LetterGrade(p)) <= LetterRank(LetterGrade(q))
    ensures GradePoint(p) <= GradePoint(q)
    ensures LetterGrade(p) == "A+" ==> LetterGrade(q) == "A+"
    ensures Description(q) == "Fail" ==> Description(p) == "Fail"
  {
    BandMonotone(p, q);
    ChainsFollowBand(p);
    ChainsFollowBand(q);
    ColumnsDistinct(Band(p), Band(q));
    assert LetterRank(LetterGrade(p)) == Band(p);
    assert LetterRank(LetterGrade(q)) == Band(q);
  }

  /** `Math.round(x * 10) / 10`: half-up rounding to one decimal place. */
  function RoundTenth(x: real): (r: real)
    ensures x - 0.05 < r <= x + 0.05
  {
    (x * 10.0 + 0.5).Floor as real / 10.0
  }

  /** `calculatePercentage`: 0 unless there are points to score; otherwise the rounded ratio. */
  function Percentage(pointsEarned: int, totalPoints: int): (p: real)
    ensures totalPoints <= 0 ==> p == 0.0
    ensures totalPoints > 0 ==>
      var exact := pointsEarned as real / totalPoints as real * 100.0;
      exact - 0.05 < p <= exact + 0.05
  {
    if totalPoints <= 0 then 0.0
    else RoundTenth(pointsEarned as real / totalPoints as real * 100.0)
  }

  /** With `0 <= earned <= total` the percentage lies in [0, 100], and full marks give exactly 100. */
  lemma PercentageBounds(pointsEarned: int, totalPoints: int)
    requires 0 <= pointsEarned <= totalPoints
    ensures 0.0 <= Percentage(pointsEarned, totalPoints) <= 100.0
    ensures 0 < pointsEarned == totalPoints ==> Percentage(pointsEarned, totalPoints) == 100.0
  {
    if totalPoints > 0 {
      var exact := pointsEarned as real / totalPoints as real * 100.0;
      assert 0.0 <= exact <= 100.0 by {
        assert pointsEarned as real / totalPoints as real <= 1.0;
      }
      var f := (exact * 10.0 + 0.5).Floor;
      assert 0 <= f <= 1000;
      if pointsEarned == totalPoints {
        DivSelf(totalPoints as real);
        assert exact == 100.0;
        assert f == 1000;
      }
    }
  }

  lemma DivSelf(t: real)
    requires t != 0.0
    ensures t / t == 1.0
  {
  }

  /** More points earned out of the same total never lowers the percentage. */
  lemma PercentageMonotone(e1: int, e2: int, totalPoints: int)
    requires e1 <= e2
    ensures Percentage(e1, totalPoints) <= Percentage(e2, totalPoints)
  {
    if totalPoints > 0 {
      var x1 := e1 as real / totalPoints as real * 100.0;
      var x2 := e2 as real / totalPoints as real * 100.0;
      assert x1 <= x2;
      assert (x1 * 10.0 + 0.5).Floor <= (x2 * 10.0 + 0.5).Floor;
    }
  }
}

=== FILE: messages.dfy ===
/**
 * The message table and its queries. Each query is a filter of the table,
 * sorted by its `ORDER BY` clause; rows the clause ranks equal keep table
 * (insertion) order. The table itself lives in `MessageRepository`.
 */
module Messages {
  import opened Wrappers
  import opened ChatModel
  import opened Seqs
  import opened Sorting
  import Tables

  // ---------------------------------------------------------------- selections

  function InRoom(roomId: int): Message -> bool
  {
    (m: Message) => m.roomId == roomId
  }

  /** Messages in the room that `userId` has still to read: sent by someone else, not read. */
  function UnreadFor(roomId: int, userId: int): Message -> bool
  {
    (m: Message) => m.roomId == roomId && m.sender.id != userId && !m.isRead
  }

  function SentBy(senderId: int): Message -> bool
  {
    (m: Message) => m.sender.id == senderId
  }

  function InRoomAfter(roomId: int, after: Time): Message -> bool
  {
    (m: Message) => m.roomId == roomId && m.createdAt > after
  }

  function DeletedInRoom(roomId: int): Message -> bool
  {
    (m: Message) => m.roomId == roomId && m.isDeleted
  }

  /** `BETWEEN :startDate AND :endDate` includes both ends. */
  function InRoomBetween(roomId: int, start: Time, end: Time): Message -> bool
  {
    (m: Message) => m.roomId == roomId && start <= m.createdAt <= end
  }

  // ---------------------------------------------------------------- orders

  /** `ORDER BY createdAt DESC`. */
  predicate NewestFirst(a: Message, b: Message) { a.createdAt >= b.createdAt }

  /** `ORDER BY createdAt ASC`. */
  predicate OldestFirst(a: Message, b: Message) { a.createdAt <= b.createdAt }

  /** `ORDER BY createdAt DESC, id DESC`. */
  predicate LatestFirst(a: Message, b: Message)
  {
    a.createdAt > b.createdAt || (a.createdAt == b.createdAt && a.id >= b.id)
  }

  lemma OrdersArePreorders()
    ensures TotalPreorder(NewestFirst)
    ensures TotalPreorder(OldestFirst)
    ensures TotalPreorder(LatestFirst)
  {
  }

  /** The rows selected by `p`, sorted by `le`. */
  function Select(rows: seq<Message>, p: Message -> bool, le: (Message, Message) -> bool): (r: seq<Message>)
    requires TotalPreorder(le)
    ensures SortedBy(r, le)
    ensures multiset(r) == multiset(Filter(rows, p))
    ensures forall m :: m in r <==> m in rows && p(m)
  {
    SortBySorted(Filter(rows, p), le);
    forall m ensures m in Filter(rows, p) <==> m in rows && p(m) {
      FilterMembers(rows, p, m);
    }
    assert forall m :: m in SortBy(Filter(rows, p), le) <==> m in multiset(Filter(rows, p));
    SortBy(Filter(rows, p), le)
  }

  // ---------------------------------------------------------------- paging

  /** Why `PageRequest.of(page, size)` rejects its arguments. */
  datatype PageError = NegativePageIndex | PageSizeBelowOne

  /** The `page`-th slice of `size` elements of `all`, as a `Pageable` selects it. */
  function PageOf<T>(all: seq<T>, page: int, size: int): (r: Result<seq<T>, PageError>)
    ensures r.Err? <==> page < 0 || size < 1
    ensures r.Ok? ==> |r.value| <= size
    ensures r.Ok? ==> forall i :: 0 <= i < |r.value| ==> page * size + i < |all| && r.value[i] == all[page * size + i]
    ensures r.Ok? && page * size + size <= |all| ==> |r.value| == size
    ensures r.Ok? && page * size < |all| < page * size + size ==> |r.value| == |all| - page * size
    ensures r.Ok? && |all| <= page * size ==> r.value == []
  {
    if page < 0 then Err(NegativePageIndex)
    else if size < 1 then Err(PageSizeBelowOne)
    else
      var start := page * size;
      if start >= |all| then Ok([])
      else if start + size <= |all| then Ok(all[start..start + size])
      else Ok(all[start..])
  }

  /** Pages `0` to `k - 1` one after another. */
  function FirstPages<T>(all: seq<T>, k: nat, size: int): seq<T>
    requires size >= 1
  {
    if k == 0 then [] else FirstPages(all, k - 1, size) + PageOf(all, k - 1, size).value
  }

  /** Reading the pages in order reproduces the full list, with nothing skipped or repeated. */
  lemma {:induction false} FirstPagesArePrefix<T>(all: seq<T>, k: nat, size: int)
    requires size >= 1
    ensures FirstPages(all, k, size) == all[..if k * size <= |all| then k * size else |all|]
  {
    if k > 0 {
      FirstPagesArePrefix(all, k - 1, size);
      var p := PageOf(all, k - 1, size).value;
      var start := (k - 1) * size;
      assert k * size == start + size;
      var before := all[..if start <= |all| then start else |all|];
      if start >= |all| {
        assert p == [];
      } else {
        assert p == all[start..if start + size <= |all| then start + size else |all|];
        assert all[..if k * size <= |all| then k * size else |all|] == before + p;
      }
    }
  }

  // ---------------------------------------------------------------- queries

  /** `findByChatRoomIdOrderByCreatedAtDesc(chatRoomId, PageRequest.of(page, size))`. */
  function FindRoomPage(rows: seq<Message>, roomId: int, page: int, size: int): (r: Result<seq<Message>, PageError>)
    ensures r.Err? <==> page < 0 || size < 1
    ensures r.Ok? ==> |r.value| <= size && SortedBy(r.value, NewestFirst)
    ensures r.Ok? ==> forall m :: m in r.value ==> m in rows && m.roomId == roomId
  {
    var all := RoomNewestFirst(rows, roomId);
    var r := PageOf(all, page, size);
    if r.Ok? then PageOfSortedSubset(all, page, size); r else r
  }

  lemma PageOfSortedSubset(all: seq<Message>, page: int, size: int)
    requires page >= 0 && size >= 1
    requires SortedBy(all, NewestFirst)
    ensures SortedBy(PageOf(all, page, size).value, NewestFirst)
    ensures forall m :: m in PageOf(all, page, size).value ==> m in all
  {
    var p := PageOf(all, page, size).value;
    forall m | m in p ensures m in all {
      var i :| 0 <= i < |p| && p[i] == m;
      assert all[page * size + i] == m;
    }
    forall i, j | 0 <= i < j < |p| ensures NewestFirst(p[i], p[j]) {
      assert p[i] == all[page * size + i] && p[j] == all[page * size + j];
    }
  }

  /** The whole room, newest first, of which `FindRoomPage` returns slices. */
  function RoomNewestFirst(rows: seq<Message>, roomId: int): (r: seq<Message>)
    ensures SortedBy(r, NewestFirst)
    ensures multiset(r) == multiset(Filter(rows, InRoom(roomId)))
    ensures forall m :: m in r <==> m in rows && m.roomId == roomId
  {
    OrdersArePreorders();
    Select(rows, InRoom(roomId), NewestFirst)
  }

  /** Each page is the corresponding slice of the room's messages, newest first. */
  lemma FindRoomPageIsSlice(rows: seq<Message>, roomId: int, page: int, size: int)
    requires page >= 0 && size >= 1
    ensures FindRoomPage(rows, roomId, page, size) == PageOf(RoomNewestFirst(rows, roomId), page, size)
  {
  }

  /** `findByChatRoomIdOrderByCreatedAtAsc`. */
  function FindRoomOldestFirst(rows: seq<Message>, roomId: int): (r: seq<Message>)
    ensures SortedBy(r, OldestFirst)
    ensures multiset(r) == multiset(Filter(rows, InRoom(roomId)))
    ensures forall m :: m in r <==> m in rows && m.roomId == roomId
  {
    OrdersArePreorders();
    Select(rows, InRoom(roomId), OldestFirst)
  }

  /** `findUnreadMessagesByChatRoomAndUser`. */
  function FindUnread(rows: seq<Message>, roomId: int, userId: int): (r: seq<Message>)
    ensures SortedBy(r, OldestFirst)
    ensures multiset(r) == multiset(Filter(rows, UnreadFor(roomId, userId)))
    ensures forall m :: m in r <==> m in rows && m.roomId == roomId && m.sender.id != userId && !m.isRead
  {
    OrdersArePreorders();
    Select(rows, UnreadFor(roomId, userId), OldestFirst)
  }

  /** `countUnreadMessagesByChatRoomAndUser`. */
  function CountUnread(rows: seq<Message>, roomId: int, userId: int): (n: nat)
    ensures n <= |rows|
  {
    Count(rows, UnreadFor(roomId, userId))
  }

  /** The unread count is the length of the unread list. */
  lemma CountUnreadIsListLength(rows: seq<Message>, roomId: int, userId: int)
    ensures CountUnread(rows, roomId, userId) == |FindUnread(rows, roomId, userId)|
  {
    CountIsFilterLength(rows, UnreadFor(roomId, userId));
    assert |FindUnread(rows, roomId, userId)| == |multiset(Filter(rows, UnreadFor(roomId, userId)))|;
  }

  /** `findLastMessageByChatRoomId`: newest first, the higher id first among equal times. */
  function FindLatestFirst(rows: seq<Message>, roomId: int): (r: seq<Message>)
    ensures SortedBy(r, LatestFirst)
    ensures multiset(r) == multiset(Filter(rows, InRoom(roomId)))
    ensures forall m :: m in r <==> m in rows && m.roomId == roomId
  {
    OrdersArePreorders();
    Select(rows, InRoom(roomId), LatestFirst)
  }

  /**
   * The first row of `FindLatestFirst` is the room's latest message: no other
   * message of the room is newer, or equally new with a higher id.
   */
  lemma LatestMessageIsMaximal(rows: seq<Message>, roomId: int)
    ensures FindLatestFirst(rows, roomId) != [] <==> exists m :: m in rows && m.roomId == roomId
    ensures FindLatestFirst(rows, roomId) != [] ==>
      var head := FindLatestFirst(rows, roomId)[0];
      head in rows && head.roomId == roomId &&
      forall m :: m in rows && m.roomId == roomId ==>
        m.createdAt < head.createdAt || (m.createdAt == head.createdAt && m.id <= head.id)
  {
    var r := FindLatestFirst(rows, roomId);
    if r != [] {
      forall m | m in rows && m.roomId == roomId
        ensures m.createdAt < r[0].createdAt || (m.createdAt == r[0].createdAt && m.id <= r[0].id)
      {
        assert m in r;
        var i :| 0 <= i < |r| && r[i] == m;
        if i != 0 { assert LatestFirst(r[0], r[i]); }
      }
    }
  }

  /** `findBySenderIdOrderByCreatedAtDesc`. */
  function FindBySender(rows: seq<Message>, senderId: int): (r: seq<Message>)
    ensures SortedBy(r, NewestFirst)
    ensures multiset(r) == multiset(Filter(rows, SentBy(senderId)))
    ensures forall m :: m in r <==> m in rows && m.sender.id == senderId
  {
    OrdersArePreorders();
    Select(rows, SentBy(senderId), NewestFirst)
  }

  /** `findByChatRoomIdAndCreatedAtAfter`: strictly after `after`. */
  function FindAfter(rows: seq<Message>, roomId: int, after: Time): (r: seq<Message>)
    ensures SortedBy(r, OldestFirst)
    ensures multiset(r) == multiset(Filter(rows, InRoomAfter(roomId, after)))
    ensures forall m :: m in r <==> m in rows && m.roomId == roomId && m.createdAt > after
  {
    OrdersArePreorders();
    Select(rows, InRoomAfter(roomId, after), OldestFirst)
  }

  /** `findDeletedMessagesByChatRoomId`. */
  function FindDeleted(rows: seq<Message>, roomId: int): (r: seq<Message>)
    ensures SortedBy(r, NewestFirst)
    ensures multiset(r) == multiset(Filter(rows, DeletedInRoom(roomId)))
    ensures forall m :: m in r <==> m in rows && m.roomId == roomId && m.isDeleted
  {
    OrdersArePreorders();
    Select(rows, DeletedInRoom(roomId), NewestFirst)
  }

  /** `countByChatRoomId`. */
  function CountInRoom(rows: seq<Message>, roomId: int): (n: nat)
    ensures n <= |rows|
    ensures n == |RoomNewestFirst(rows, roomId)|
  {
    CountIsFilterLength(rows, InRoom(roomId));
    assert |RoomNewestFirst(rows, roomId)| == |multiset(Filter(rows, InRoom(roomId)))|;
    Count(rows, InRoom(roomId))
  }

  /** `findByChatRoomIdAndDateRange`: both ends included. */
  function FindInRange(rows: seq<Message>, roomId: int, start: Time, end: Time): (r: seq<Message>)
    ensures SortedBy(r, OldestFirst)
    ensures multiset(r) == multiset(Filter(rows, InRoomBetween(roomId, start, end)))
    ensures forall m :: m in r <==> m in rows && m.roomId == roomId && start <= m.createdAt <= end
  {
    OrdersArePreorders();
    Select(rows, InRoomBetween(roomId, start, end), OldestFirst)
  }

  // ---------------------------------------------------------------- ascending vs descending

  lemma ReverseNewestIsOldest(s: seq<Message>)
    requires SortedBy(s, NewestFirst)
    ensures SortedBy(Reverse(s), OldestFirst)
  {
  }

  /** No two different messages of the room were created at the same time. */
  predicate DistinctTimesInRoom(rows: seq<Message>, roomId: int)
  {
    forall i, j ::
      (0 <= i < |rows| && 0 <= j < |rows| && rows[i].roomId == roomId && rows[j].roomId == roomId
       && rows[i].createdAt == rows[j].createdAt) ==> rows[i] == rows[j]
  }

  /**
   * When no two messages of a room share a creation time, the ascending
   * listing is exactly the descending listing reversed. (With equal times the
   * database may order the tied rows either way in each query.)
   */
  lemma OldestFirstIsReversedNewestFirst(rows: seq<Message>, roomId: int)
    requires DistinctTimesInRoom(rows, roomId)
    ensures FindRoomOldestFirst(rows, roomId) == Reverse(RoomNewestFirst(rows, roomId))
  {
    var asc := FindRoomOldestFirst(rows, roomId);
    var desc := RoomNewestFirst(rows, roomId);
    ReverseNewestIsOldest(desc);
    ReverseMultiset(desc);
    assert multiset(desc) == multiset(Filter(rows, InRoom(roomId)));
    assert Antisymmetric(asc, OldestFirst) by {
      forall i, j | 0 <= i < |asc| && 0 <= j < |asc| && OldestFirst(asc[i], asc[j]) && OldestFirst(asc[j], asc[i])
        ensures asc[i] == asc[j]
      {
        assert asc[i] in rows && asc[j] in rows;
        var p :| 0 <= p < |rows| && rows[p] == asc[i];
        var q :| 0 <= q < |rows| && rows[q] == asc[j];
      }
    }
    SortedPermutationUnique(asc, Reverse(desc), OldestFirst);
  }

  // ---------------------------------------------------------------- bulk update

  /** One row under `UPDATE Message m SET m.isRead = true WHERE <unread for userId in roomId>`. */
  function MarkReadRow(m: Message, roomId: int, userId: int): (r: Message)
    ensures r == m.(isRead := r.isRead)
    ensures r.isRead == (m.isRead || (m.roomId == roomId && m.sender.id != userId))
  {
    if UnreadFor(roomId, userId)(m) then m.(isRead := true) else m
  }

  /** The whole table after `markMessagesAsRead(roomId, userId)`. */
  function MarkRead(rows: seq<Message>, roomId: int, userId: int): (r: seq<Message>)
    ensures |r| == |rows|
    ensures forall i :: 0 <= i < |rows| ==> r[i] == MarkReadRow(rows[i], roomId, userId)
  {
    if rows == [] then [] else [MarkReadRow(rows[0], roomId, userId)] + MarkRead(rows[1..], roomId, userId)
  }

  /** After the update, the user has nothing left unread in that room. */
  lemma {:induction false} MarkReadClearsUnread(rows: seq<Message>, roomId: int, userId: int)
    ensures CountUnread(MarkRead(rows, roomId, userId), roomId, userId) == 0
  {
    var after := MarkRead(rows, roomId, userId);
    CountZeroIffNone(after, UnreadFor(roomId, userId));
  }

  /** Running the update twice is running it once. */
  lemma MarkReadIdempotent(rows: seq<Message>, roomId: int, userId: int)
    ensures MarkRead(MarkRead(rows, roomId, userId), roomId, userId) == MarkRead(rows, roomId, userId)
  {
  }

  /**
   * The update touches no other room, and none of the reader's own messages:
   * what the other participant has not read yet stays unread.
   */
  lemma MarkReadLeavesOthers(rows: seq<Message>, roomId: int, userId: int, otherRoom: int, otherUser: int)
    requires otherRoom != roomId
    ensures CountUnread(MarkRead(rows, roomId, userId), otherRoom, otherUser) == CountUnread(rows, otherRoom, otherUser)
    ensures forall i :: 0 <= i < |rows| && rows[i].sender.id == userId ==> MarkRead(rows, roomId, userId)[i] == rows[i]
  {
    var after := MarkRead(rows, roomId, userId);
    CountPointwiseEqual(rows, after, UnreadFor(otherRoom, otherUser));
  }

  lemma {:induction false} CountPointwiseEqual(a: seq<Message>, b: seq<Message>, p: Message -> bool)
    requires |a| == |b|
    requires forall i :: 0 <= i < |a| ==> p(a[i]) == p(b[i])
    ensures Count(a, p) == Count(b, p)
  {
    if a != [] {
      CountPointwiseEqual(a[1..], b[1..], p);
    }
  }

  /** The update changes no message's room, so every room keeps its message count. */
  lemma MarkReadKeepsRoomCounts(rows: seq<Message>, roomId: int, userId: int, anyRoom: int)
    ensures CountInRoom(MarkRead(rows, roomId, userId), anyRoom) == CountInRoom(rows, anyRoom)
  {
    CountPointwiseEqual(rows, MarkRead(rows, roomId, userId), InRoom(anyRoom));
  }

  // ---------------------------------------------------------------- the table

  /** Ids strictly increase along the table, as identity generation hands them out. */
  predicate IdsIncreasing(rows: seq<Message>)
  {
    forall i, j :: 0 <= i < j < |rows| ==> rows[i].id < rows[j].id
  }

  /** `findById`. */
  function FindById(rows: seq<Message>, id: int): (r: Option<Message>)
    ensures r.Some? ==> r.value in rows && r.value.id == id
    ensures r.None? ==> forall m :: m in rows ==> m.id != id
  {
    if rows == [] then None
    else if rows[0].id == id then Some(rows[0])
    else FindById(rows[1..], id)
  }

  function MessageKey(m: Message): int { m.id }

  /** The table with the row of `m.id` replaced by `m` (`save` on a stored entity). */
  function ReplaceById(rows: seq<Message>, m: Message): seq<Message>
  {
    Tables.ReplaceByKey(rows, MessageKey, m)
  }

  /** Replacing a row under its own id keeps the ids, their order and their bounds. */
  lemma ReplaceByIdKeepsIds(rows: seq<Message>, m: Message, nextId: int)
    requires IdsIncreasing(rows) && forall i :: 0 <= i < |rows| ==> 1 <= rows[i].id < nextId
    ensures var r := ReplaceById(rows, m);
      IdsIncreasing(r) && forall i :: 0 <= i < |r| ==> 1 <= r[i].id < nextId
  {
    var r := ReplaceById(rows, m);
    forall i, j | 0 <= i < j < |r| ensures r[i].id < r[j].id {
      assert r[i].id == rows[i].id && r[j].id == rows[j].id;
    }
  }

  /** Soft-deleting a stored message keeps it in its room: no room's count changes. */
  lemma SoftDeleteKeepsRoomCounts(rows: seq<Message>, id: int, deleter: User, now: Time, anyRoom: int)
    requires IdsIncreasing(rows)
    requires FindById(rows, id).Some?
    ensures CountInRoom(ReplaceById(rows, Delete(FindById(rows, id).value, deleter, now)), anyRoom) == CountInRoom(rows, anyRoom)
  {
    var m := FindById(rows, id).value;
    forall x | x in rows && x.id == id ensures x.roomId == m.roomId {
      var i :| 0 <= i < |rows| && rows[i] == x;
      var j :| 0 <= j < |rows| && rows[j] == m;
      assert i == j;
    }
    SoftDeleteKeepsRooms(rows, Delete(m, deleter, now), anyRoom);
  }

  /** After a soft delete the message is listed among its room's deleted messages. */
  lemma SoftDeleteListsAsDeleted(rows: seq<Message>, id: int, deleter: User, now: Time)
    requires FindById(rows, id).Some?
    ensures Delete(FindById(rows, id).value, deleter, now) in
            FindDeleted(ReplaceById(rows, Delete(FindById(rows, id).value, deleter, now)), FindById(rows, id).value.roomId)
  {
    var m := FindById(rows, id).value;
    var d := Delete(m, deleter, now);
    var after := ReplaceById(rows, d);
    var k :| 0 <= k < |rows| && rows[k] == m;
    assert after[k] == d;
  }

  lemma SoftDeleteKeepsRooms(rows: seq<Message>, d: Message, anyRoom: int)
    requires forall m :: m in rows && m.id == d.id ==> m.roomId == d.roomId
    ensures CountInRoom(ReplaceById(rows, d), anyRoom) == CountInRoom(rows, anyRoom)
  {
    var after := ReplaceById(rows, d);
    forall i | 0 <= i < |rows| ensures InRoom(anyRoom)(rows[i]) == InRoom(anyRoom)(after[i]) {
      if rows[i].id == d.id { assert rows[i] in rows; }
    }
    CountPointwiseEqual(rows, after, InRoom(anyRoom));
  }

  /** The message table: `save` and the bulk read-marking update. */
  class MessageRepository {
    var rows: seq<Message>
    var nextId: int

    ghost predicate Valid()
      reads this
    {
      nextId >= 1 && IdsIncreasing(rows) && forall i :: 0 <= i < |rows| ==> 1 <= rows[i].id < nextId
    }

    constructor()
      ensures Valid() && rows == []
    {
      rows := [];
      nextId := 1;
    }

    /** `save` of a new message: the row gets the next id and goes at the end of the table. */
    method Insert(m: Message) returns (saved: Message)
      requires Valid()
      modifies this
      ensures Valid()
      ensures saved == m.(id := old(nextId))
      ensures rows == old(rows) + [saved]
      ensures FindById(rows, saved.id) == Some(saved)
    {
      saved := m.(id := nextId);
      rows := rows + [saved];
      nextId := nextId + 1;
      FindByIdLast(rows, saved);
    }

    /** `save` of a stored message: its row is replaced. */
    method Update(m: Message)
      requires Valid()
      requires FindById(rows, m.id).Some?
      modifies this
      ensures Valid()
      ensures rows == ReplaceById(old(rows), m)
      ensures nextId == old(nextId)
    {
      ReplaceByIdKeepsIds(rows, m, nextId);
      rows := ReplaceById(rows, m);
    }

    /** `markMessagesAsRead(chatRoomId, userId)`: the bulk update, row by row. */
    method MarkMessagesAsRead(roomId: int, userId: int)
      requires Valid()
      modifies this
      ensures Valid()
      ensures rows == MarkRead(old(rows), roomId, userId)
      ensures nextId == old(nextId)
    {
      var i := 0;
      while i < |rows|
        invariant 0 <= i <= |rows| == |old(rows)|
        invariant forall k :: 0 <= k < i ==> rows[k] == MarkReadRow(old(rows)[k], roomId, userId)
        invariant forall k :: i <= k < |rows| ==> rows[k] == old(rows)[k]
        invariant nextId == old(nextId)
      {
        if !rows[i].isRead && rows[i].roomId == roomId && rows[i].sender.id != userId {
          rows := rows[i := rows[i].(isRead := true)];
        }
        i := i + 1;
      }
    }
  }

  lemma FindByIdLast(rows: seq<Message>, m: Message)
    requires rows != [] && rows[|rows| - 1] == m
    requires IdsIncreasing(rows)
    ensures FindById(rows, m.id) == Some(m)
  {
    if |rows| > 1 {
      assert rows[0].id < m.id;
      FindByIdLast(rows[1..], m);
    }
  }
}

=== FILE: presence.dfy ===
/**
 * Presence: one status row per user, saying whether the user is online and
 * when the user was last seen. The entity updates its own fields; the
 * repository's bulk updates rewrite the rows of one user.
 */
module Presence {
  import opened Wrappers

  type Time = int

  /** The presence of one user. */
  class UserStatus {
    var userId: int
    var isOnline: bool
    var lastSeen: Time

    /** `new UserStatus(user)`: offline, last seen now. */
    constructor(userId: int, now: Time)
      ensures this.userId == userId && !isOnline && lastSeen == now
    {
      this.userId := userId;
      isOnline := false;
      lastSeen := now;
    }

    /** `new UserStatus(user, isOnline, lastSeen)`. */
    constructor WithState(userId: int, isOnline: bool, lastSeen: Time)
      ensures this.userId == userId && this.isOnline == isOnline && this.lastSeen == lastSeen
    {
      this.userId := userId;
      this.isOnline := isOnline;
      this.lastSeen := lastSeen;
    }

    /** `markOnline()`. */
    method MarkOnline(now: Time)
      modifies this
      ensures isOnline && lastSeen == now && userId == old(userId)
    {
      isOnline := true;
      lastSeen := now;
    }

    /** `markOffline()`. */
    method MarkOffline(now: Time)
      modifies this
      ensures !isOnline && lastSeen == now && userId == old(userId)
    {
      isOnline := false;
      lastSeen := now;
    }

    /** `updateLastSeen()`: touches the time only. */
    method UpdateLastSeen(now: Time)
      modifies this
      ensures isOnline == old(isOnline) && lastSeen == now && userId == old(userId)
    {
      lastSeen := now;
    }
  }

  // ---------------------------------------------------------------- queries

  /** `findOnlineUsers`. */
  function Online(rows: seq<UserStatus>): (r: seq<UserStatus>)
    reads rows
    ensures forall s :: s in r ==> s in rows && s.isOnline
    ensures forall s :: s in rows && s.isOnline ==> s in r
    ensures forall s :: s in rows ==> multiset(r)[s] == if s.isOnline then multiset(rows)[s] else 0
  {
    if rows == [] then []
    else
      assert rows == [rows[0]] + rows[1..];
      (if rows[0].isOnline then [rows[0]] else []) + Online(rows[1..])
  }

  /** `countOnlineUsers`. */
  function CountOnline(rows: seq<UserStatus>): (n: nat)
    reads rows
    ensures n <= |rows|
  {
    if rows == [] then 0 else (if rows[0].isOnline then 1 else 0) + CountOnline(rows[1..])
  }

  /** The count query agrees with the list query. */
  lemma {:induction false} CountOnlineIsListLength(rows: seq<UserStatus>)
    ensures CountOnline(rows) == |Online(rows)|
  {
    if rows != [] {
      CountOnlineIsListLength(rows[1..]);
    }
  }

  /** `findRecentlyActiveUsers(recentTime)`: seen strictly after the given time. */
  function RecentlyActive(rows: seq<UserStatus>, recentTime: Time): (r: seq<UserStatus>)
    reads rows
    ensures forall s :: s in r ==> s in rows && s.lastSeen > recentTime
    ensures forall s :: s in rows && s.lastSeen > recentTime ==> s in r
    ensures forall s :: s in rows ==> multiset(r)[s] == if s.lastSeen > recentTime then multiset(rows)[s] else 0
  {
    if rows == [] then []
    else
      assert rows == [rows[0]] + rows[1..];
      (if rows[0].lastSeen > recentTime then [rows[0]] else []) + RecentlyActive(rows[1..], recentTime)
  }

  /** `findUsersToMarkOffline(offlineTime)`: online, but not seen since before the given time. */
  function ToMarkOffline(rows: seq<UserStatus>, offlineTime: Time): (r: seq<UserStatus>)
    reads rows
    ensures forall s :: s in r ==> s in rows && s.isOnline && s.lastSeen < offlineTime
    ensures forall s :: s in rows && s.isOnline && s.lastSeen < offlineTime ==> s in r
    ensures forall s :: s in rows ==> multiset(r)[s] == if s.isOnline && s.lastSeen < offlineTime then multiset(rows)[s] else 0
  {
    if rows == [] then []
    else
      assert rows == [rows[0]] + rows[1..];
      (if rows[0].isOnline && rows[0].lastSeen < offlineTime then [rows[0]] else [])
         + ToMarkOffline(rows[1..], offlineTime)
  }

  /** `findByUserIds(userIds)`: the rows whose user is in the list. */
  function WithUserIds(rows: seq<UserStatus>, userIds: seq<int>): (r: seq<UserStatus>)
    reads rows
    ensures forall s :: s in r ==> s in rows && s.userId in userIds
    ensures forall s :: s in rows && s.userId in userIds ==> s in r
    ensures forall s :: s in rows ==> multiset(r)[s] == if s.userId in userIds then multiset(rows)[s] else 0
  {
    if rows == [] then []
    else
      assert rows == [rows[0]] + rows[1..];
      (if rows[0].userId in userIds then [rows[0]] else []) + WithUserIds(rows[1..], userIds)
  }

  /**
   * The users due to be marked offline are online users, and none of them
   * counts as recently active for any time from `offlineTime - 1` on.
   */
  lemma StaleUsersAreOnlineAndInactive(rows: seq<UserStatus>, offlineTime: Time, recentTime: Time)
    requires recentTime >= offlineTime - 1
    ensures forall s :: s in ToMarkOffline(rows, offlineTime) ==> s in Online(rows)
    ensures forall s :: s in ToMarkOffline(rows, offlineTime) ==> s !in RecentlyActive(rows, recentTime)
  {
  }

  /** `findByUserId`: the row of the user, if any. */
  function FindByUserId(rows: seq<UserStatus>, userId: int): (r: Option<UserStatus>)
    reads rows
    ensures r.Some? ==> r.value in rows && r.value.userId == userId
    ensures r.None? ==> forall s :: s in rows ==> s.userId != userId
  {
    if rows == [] then None
    else if rows[0].userId == userId then Some(rows[0])
    else FindByUserId(rows[1..], userId)
  }

  /** The status table. `user_id` is unique, so each user has at most one row. */
  class UserStatusRepository {
    var rows: seq<UserStatus>

    ghost predicate Valid()
      reads this, rows
    {
      forall i, j :: 0 <= i < j < |rows| ==> rows[i] != rows[j] && rows[i].userId != rows[j].userId
    }

    constructor()
      ensures Valid() && rows == []
    {
      rows := [];
    }

    /** `save` of a status for a user that has none yet. */
    method Insert(s: UserStatus)
      requires Valid()
      requires FindByUserId(rows, s.userId).None?
      modifies this
      ensures Valid()
      ensures rows == old(rows) + [s]
    {
      rows := rows + [s];
    }

    /** `markUserOnline(userId, now)`: that user's row becomes online, seen now; no other row changes. */
    method MarkUserOnline(userId: int, now: Time)
      requires Valid()
      modifies rows
      ensures Valid() && rows == old(rows)
      ensures forall s :: s in rows && s.userId == userId ==> s.isOnline && s.lastSeen == now
      ensures forall s :: s in rows && s.userId != userId ==> s.isOnline == old(s.isOnline) && s.lastSeen == old(s.lastSeen)
      ensures forall s :: s in rows ==> s.userId == old(s.userId)
    {
      var i := 0;
      while i < |rows|
        invariant 0 <= i <= |rows|
        invariant forall s :: s in rows ==> s.userId == old(s.userId)
        invariant forall k :: 0 <= k < i && rows[k].userId == userId ==> rows[k].isOnline && rows[k].lastSeen == now
        invariant forall k :: 0 <= k < |rows| && (k >= i || rows[k].userId != userId) ==>
          rows[k].isOnline == old(rows[k].isOnline) && rows[k].lastSeen == old(rows[k].lastSeen)
      {
        if rows[i].userId == userId {
          rows[i].isOnline := true;
          rows[i].lastSeen := now;
        }
        i := i + 1;
      }
    }

    /** `markUserOffline(userId, now)`: that user's row becomes offline, seen now; no other row changes. */
    method MarkUserOffline(userId: int, now: Time)
      requires Valid()
      modifies rows
      ensures Valid() && rows == old(rows)
      ensures forall s :: s in rows && s.userId == userId ==> !s.isOnline && s.lastSeen == now
      ensures forall s :: s in rows && s.userId != userId ==> s.isOnline == old(s.isOnline) && s.lastSeen == old(s.lastSeen)
      ensures forall s :: s in rows ==> s.userId == old(s.userId)
      ensures forall s :: s in Online(rows) ==> s.userId != userId
    {
      var i := 0;
      while i < |rows|
        invariant 0 <= i <= |rows|
        invariant forall s :: s in rows ==> s.userId == old(s.userId)
        invariant forall k :: 0 <= k < i && rows[k].userId == userId ==> !rows[k].isOnline && rows[k].lastSeen == now
        invariant forall k :: 0 <= k < |rows| && (k >= i || rows[k].userId != userId) ==>
          rows[k].isOnline == old(rows[k].isOnline) && rows[k].lastSeen == old(rows[k].lastSeen)
      {
        if rows[i].userId == userId {
          rows[i].isOnline := false;
          rows[i].lastSeen := now;
        }
        i := i + 1;
      }
    }

    /** `updateLastSeen(userId, now)`: only that user's time moves. */
    method UpdateLastSeen(userId: int, now: Time)
      requires Valid()
      modifies rows
      ensures Valid() && rows == old(rows)
      ensures forall s :: s in rows ==> s.isOnline == old(s.isOnline) && s.userId == old(s.userId)
      ensures forall s :: s in rows ==> s.lastSeen == if s.userId == userId then now else old(s.lastSeen)
    {
      var i := 0;
      while i < |rows|
        invariant 0 <= i <= |rows|
        invariant forall s :: s in rows ==> s.userId == old(s.userId) && s.isOnline == old(s.isOnline)
        invariant forall k :: 0 <= k < i && rows[k].userId == userId ==> rows[k].lastSeen == now
        invariant forall k :: 0 <= k < |rows| && (k >= i || rows[k].userId != userId) ==>
          rows[k].lastSeen == old(rows[k].lastSeen)
      {
        if rows[i].userId == userId {
          rows[i].lastSeen := now;
        }
        i := i + 1;
      }
    }
  }
}

=== FILE: quiz_attempts.dfy ===
/**
 * Quiz attempts: a student starts an attempt inside the quiz's time window,
 * then submits answers that are scored automatically. At most one attempt
 * per quiz and student is in progress at any time.
 */
module QuizAttempts {
  import opened Wrappers
  import opened Seqs
  import opened QuizScoring
  import Grades
  import Tables

  type Time = int

  const IN_PROGRESS := "IN_PROGRESS"
  const SUBMITTED := "SUBMITTED"

  /** A quiz as attempts see it, with its questions in id order. */
  datatype Quiz = Quiz(id: int, name: string, startDateTime: Time, durationMinutes: int,
                       totalPoints: int, questions: seq<Question>)

  /** `startDateTime.plusMinutes(durationMinutes)`; times are in seconds. */
  function EndTime(quiz: Quiz): Time
  {
    quiz.startDateTime + 60 * quiz.durationMinutes
  }

  datatype Attempt = Attempt(id: int, quizId: int, studentId: int, startedAt: Time,
                             submittedAt: Option<Time>, pointsEarned: Option<int>,
                             percentage: Option<real>, letterGrade: Option<string>,
                             description: Option<string>, answers: Option<Answers>, status: string)

  function Matches(quizId: int, studentId: int, status: string): Attempt -> bool
  {
    (a: Attempt) => a.quizId == quizId && a.studentId == studentId && a.status == status
  }

  /** `findByQuizIdAndStudentIdAndStatus`. */
  function FindByStatus(rows: seq<Attempt>, quizId: int, studentId: int, status: string): (r: Result<Option<Attempt>, QueryError>)
    ensures r == Ok(None) <==> forall a :: a in rows ==> !Matches(quizId, studentId, status)(a)
    ensures r.Ok? && r.value.Some? ==> r.value.value in rows && Matches(quizId, studentId, status)(r.value.value)
    ensures r.Err? <==> Count(rows, Matches(quizId, studentId, status)) > 1
  {
    FindOne(rows, Matches(quizId, studentId, status))
  }

  /** The table invariant the start check keeps: no two in-progress attempts share a quiz and a student. */
  predicate InProgressUnique(rows: seq<Attempt>)
  {
    forall i, j :: 0 <= i < j < |rows| && rows[i].status == IN_PROGRESS && rows[j].status == IN_PROGRESS
      ==> rows[i].quizId != rows[j].quizId || rows[i].studentId != rows[j].studentId
  }

  lemma {:induction false} InProgressCountAtMostOne(rows: seq<Attempt>, quizId: int, studentId: int)
    requires InProgressUnique(rows)
    ensures Count(rows, Matches(quizId, studentId, IN_PROGRESS)) <= 1
  {
    if rows != [] {
      var tail := rows[1..];
      assert InProgressUnique(tail) by {
        forall i, j | 0 <= i < j < |tail| && tail[i].status == IN_PROGRESS && tail[j].status == IN_PROGRESS
          ensures tail[i].quizId != tail[j].quizId || tail[i].studentId != tail[j].studentId
        {
          assert tail[i] == rows[i + 1] && tail[j] == rows[j + 1];
        }
      }
      InProgressCountAtMostOne(tail, quizId, studentId);
      if Matches(quizId, studentId, IN_PROGRESS)(rows[0]) {
        CountZeroIffNone(tail, Matches(quizId, studentId, IN_PROGRESS));
        forall k | 0 <= k < |tail| ensures !Matches(quizId, studentId, IN_PROGRESS)(tail[k]) {
          assert tail[k] == rows[k + 1];
        }
      }
    }
  }

  /** Under the invariant, looking up the in-progress attempt never fails. */
  lemma InProgressLookupSucceeds(rows: seq<Attempt>, quizId: int, studentId: int)
    requires InProgressUnique(rows)
    ensures FindByStatus(rows, quizId, studentId, IN_PROGRESS).Ok?
  {
    InProgressCountAtMostOne(rows, quizId, studentId);
  }

  predicate IdsIncreasing(rows: seq<Attempt>)
  {
    forall i, j :: 0 <= i < j < |rows| ==> rows[i].id < rows[j].id
  }

  function FindById(rows: seq<Attempt>, id: int): (r: Option<Attempt>)
    ensures r.Some? ==> r.value in rows && r.value.id == id
    ensures r.None? ==> forall a :: a in rows ==> a.id != id
  {
    if rows == [] then None
    else if rows[0].id == id then Some(rows[0])
    else FindById(rows[1..], id)
  }

  function AttemptKey(a: Attempt): int { a.id }

  /** The table with the row of `a.id` replaced by `a` (`save` on a stored entity). */
  function ReplaceById(rows: seq<Attempt>, a: Attempt): seq<Attempt>
  {
    Tables.ReplaceByKey(rows, AttemptKey, a)
  }

  // ---------------------------------------------------------------- start

  datatype StartError = InvalidQuizOrStudent | NotStartedYet | QuizEnded | AlreadyActive | LookupFailed(e: QueryError)

  function StartErrorMessage(e: StartError): string
  {
    match e
    case InvalidQuizOrStudent => "Invalid quiz or student ID"
    case NotStartedYet => "Quiz has not started yet"
    case QuizEnded => "Quiz has ended"
    case AlreadyActive => "You already have an active attempt for this quiz"
    case LookupFailed(_) => "Error starting quiz attempt: query did not return a unique result"
  }

  /** The checks of `startQuizAttempt`, in order, and the attempt to save (its id still unset). */
  function StartCheck(rows: seq<Attempt>, quizzes: map<int, Quiz>, students: set<int>,
                      quizId: int, studentId: int, now: Time): (r: Result<Attempt, StartError>)
    ensures r.Ok? ==> quizId in quizzes && studentId in students
    ensures r.Ok? ==> quizzes[quizId].startDateTime <= now <= EndTime(quizzes[quizId])
    ensures r.Ok? ==> FindByStatus(rows, quizId, studentId, IN_PROGRESS) == Ok(None)
    ensures r.Ok? ==> var a := r.value;
      a.quizId == quizId && a.studentId == studentId && a.startedAt == now && a.status == IN_PROGRESS
      && a.submittedAt.None? && a.pointsEarned.None? && a.answers.None?
    ensures quizId in quizzes && studentId in students && now < quizzes[quizId].startDateTime ==> r == Err(NotStartedYet)
    ensures (quizId in quizzes && studentId in students && quizzes[quizId].startDateTime <= now
             && now > EndTime(quizzes[quizId])) ==> r == Err(QuizEnded)
  {
    if quizId !in quizzes || studentId !in students then Err(InvalidQuizOrStudent)
    else
      var quiz := quizzes[quizId];
      if now < quiz.startDateTime then Err(NotStartedYet)
      else if now > EndTime(quiz) then Err(QuizEnded)
      else match FindByStatus(rows, quizId, studentId, IN_PROGRESS)
        case Err(e) => Err(LookupFailed(e))
        case Ok(Some(_)) => Err(AlreadyActive)
        case Ok(None) => Ok(Attempt(0, quizId, studentId, now, None, None, None, None, None, None, IN_PROGRESS))
  }

  /** Saving a started attempt keeps at most one in-progress attempt per quiz and student. */
  lemma StartKeepsInProgressUnique(rows: seq<Attempt>, quizzes: map<int, Quiz>, students: set<int>,
                                   quizId: int, studentId: int, now: Time, id: int)
    requires InProgressUnique(rows)
    requires StartCheck(rows, quizzes, students, quizId, studentId, now).Ok?
    ensures InProgressUnique(rows + [StartCheck(rows, quizzes, students, quizId, studentId, now).value.(id := id)])
  {
    var a := StartCheck(rows, quizzes, students, quizId, studentId, now).value.(id := id);
    var s := rows + [a];
    forall i, j | 0 <= i < j < |s| && s[i].status == IN_PROGRESS && s[j].status == IN_PROGRESS
      ensures s[i].quizId != s[j].quizId || s[i].studentId != s[j].studentId
    {
      if j == |rows| {
        assert s[i] in rows;
        assert !Matches(quizId, studentId, IN_PROGRESS)(s[i]);
      }
    }
  }

  /**
   * Nothing stops a second attempt once the first is submitted: within the
   * window, a student with only submitted attempts may start again.
   */
  lemma RetakeAllowed(rows: seq<Attempt>, quizzes: map<int, Quiz>, students: set<int>,
                      quizId: int, studentId: int, now: Time)
    requires quizId in quizzes && studentId in students
    requires quizzes[quizId].startDateTime <= now <= EndTime(quizzes[quizId])
    requires forall a :: a in rows && a.quizId == quizId && a.studentId == studentId ==> a.status == SUBMITTED
    ensures StartCheck(rows, quizzes, students, quizId, studentId, now).Ok?
  {
  }

  // ---------------------------------------------------------------- submit

  /**
   * `SubmitFailed` is the catch-all answer "Error submitting quiz attempt: …",
   * given when `findById(null)` throws for a request without an attempt id.
   */
  datatype SubmitError = SubmitFailed | AttemptNotFound | SubmittedTooLate | Unauthorized | NoAnswers

  function SubmitErrorMessage(e: SubmitError): string
  {
    match e
    case SubmitFailed => "Error submitting quiz attempt: "
    case AttemptNotFound => "Quiz attempt not found"
    case SubmittedTooLate => "Quiz has ended. Cannot submit after time limit"
    case Unauthorized => "Unauthorized attempt submission"
    case NoAnswers => "No answers provided"
  }

  /** The request's student owns the attempt; a request without a student id owns nothing. */
  predicate OwnsAttempt(a: Attempt, studentId: Option<int>)
  {
    studentId.Some? && a.studentId == studentId.value
  }

  /**
   * The checks of `submitQuizAttempt`, in order: the request must name an
   * attempt, the attempt must exist, the quiz must not have ended, the
   * request's student must own the attempt, and some answer must be given.
   * The attempt's status is not checked.
   */
  function SubmitCheck(rows: seq<Attempt>, quizzes: map<int, Quiz>, attemptId: Option<int>, studentId: Option<int>,
                       answers: Option<Answers>, now: Time): (r: Result<(Attempt, Quiz), SubmitError>)
    requires forall a :: a in rows ==> a.quizId in quizzes
    ensures attemptId.None? ==> r == Err(SubmitFailed)
    ensures attemptId.Some? && FindById(rows, attemptId.value).None? ==> r == Err(AttemptNotFound)
    ensures attemptId.Some? && FindById(rows, attemptId.value).Some? ==>
      var a := FindById(rows, attemptId.value).value;
      (now > EndTime(quizzes[a.quizId]) ==> r == Err(SubmittedTooLate)) &&
      (now <= EndTime(quizzes[a.quizId]) && !OwnsAttempt(a, studentId) ==> r == Err(Unauthorized)) &&
      (now <= EndTime(quizzes[a.quizId]) && OwnsAttempt(a, studentId) ==>
         (r == Err(NoAnswers) <==> answers.None? || answers.value == map[]))
    ensures r.Ok? ==> attemptId.Some? && FindById(rows, attemptId.value) == Some(r.value.0)
                      && r.value.1 == quizzes[r.value.0.quizId]
    ensures r.Ok? ==> now <= EndTime(r.value.1) && studentId == Some(r.value.0.studentId)
    ensures r.Ok? ==> answers.Some? && answers.value != map[]
  {
    if attemptId.None? then Err(SubmitFailed)
    else
      match FindById(rows, attemptId.value)
      case None => Err(AttemptNotFound)
      case Some(attempt) =>
        var quiz := quizzes[attempt.quizId];
        if now > EndTime(quiz) then Err(SubmittedTooLate)
        else if !OwnsAttempt(attempt, studentId) then Err(Unauthorized)
        else if answers.None? || answers.value == map[] then Err(NoAnswers)
        else Ok((attempt, quiz))
  }

  /** The attempt after scoring: submitted now, with the scorer's figures and the answers. */
  function Submitted(a: Attempt, score: ScoreResult, answers: Answers, now: Time): (r: Attempt)
    ensures r.id == a.id && r.quizId == a.quizId && r.studentId == a.studentId && r.startedAt == a.startedAt
    ensures r.status == SUBMITTED && r.submittedAt == Some(now) && r.answers == Some(answers)
    ensures r.pointsEarned == Some(score.pointsEarned) && r.percentage == Some(score.percentage)
    ensures r.letterGrade == Some(score.letterGrade) && r.description == Some(score.description)
  {
    a.(submittedAt := Some(now), pointsEarned := Some(score.pointsEarned), percentage := Some(score.percentage),
       letterGrade := Some(score.letterGrade), description := Some(score.description),
       status := SUBMITTED, answers := Some(answers))
  }

  /** Replacing an attempt by its submitted form never adds an in-progress attempt. */
  lemma SubmitKeepsInProgressUnique(rows: seq<Attempt>, a: Attempt)
    requires InProgressUnique(rows)
    requires a.status == SUBMITTED
    ensures InProgressUnique(ReplaceById(rows, a))
  {
  }

  // ---------------------------------------------------------------- reads

  datatype LookupError = NoAttemptFound | AttemptLookupFailed(e: QueryError)

  /** `getStudentAttemptForQuiz`: the in-progress attempt if there is one, else the submitted one. */
  function StudentAttempt(rows: seq<Attempt>, quizId: int, studentId: int): (r: Result<Attempt, LookupError>)
    ensures r.Ok? ==> r.value in rows && r.value.quizId == quizId && r.value.studentId == studentId
    ensures r.Ok? ==> r.value.status == IN_PROGRESS || r.value.status == SUBMITTED
    ensures r == Err(NoAttemptFound) <==>
      forall a :: a in rows && a.quizId == quizId && a.studentId == studentId ==> a.status != IN_PROGRESS && a.status != SUBMITTED
  {
    match FindByStatus(rows, quizId, studentId, IN_PROGRESS)
    case Err(e) => Err(AttemptLookupFailed(e))
    case Ok(Some(a)) => Ok(a)
    case Ok(None) =>
      match FindByStatus(rows, quizId, studentId, SUBMITTED)
      case Err(e) => Err(AttemptLookupFailed(e))
      case Ok(Some(a)) => Ok(a)
      case Ok(None) => Err(NoAttemptFound)
  }

  /** An attempt in progress is preferred over any submitted one. */
  lemma InProgressPreferred(rows: seq<Attempt>, quizId: int, studentId: int, a: Attempt)
    requires InProgressUnique(rows)
    requires a in rows && Matches(quizId, studentId, IN_PROGRESS)(a)
    ensures StudentAttempt(rows, quizId, studentId) == Ok(a)
  {
    InProgressCountAtMostOne(rows, quizId, studentId);
  }

  /** After a retake, two submitted attempts and none in progress make the lookup fail. */
  lemma RetakeBreaksLookup(rows: seq<Attempt>, quizId: int, studentId: int)
    requires forall a :: a in rows ==> !Matches(quizId, studentId, IN_PROGRESS)(a)
    requires Count(rows, Matches(quizId, studentId, SUBMITTED)) >= 2
    ensures StudentAttempt(rows, quizId, studentId).Err?
  {
  }

  /** `Duration.toMinutes`: whole minutes, truncated toward zero. */
  function WholeMinutes(seconds: int): (m: int)
    ensures seconds >= 0 ==> 0 <= m * 60 <= seconds < (m + 1) * 60
    ensures seconds < 0 ==> m <= 0
  {
    if seconds >= 0 then seconds / 60 else -((-seconds) / 60)
  }

  datatype TimeError = QuizNotFound | NoActiveAttempt | TimeLookupFailed(e: QueryError)

  /**
   * `getTimeRemaining`: 0 once the quiz has ended; otherwise the whole
   * minutes left of the student's own window, never negative. The attempt
   * lookup runs before the quiz check.
   */
  function TimeRemaining(rows: seq<Attempt>, quizzes: map<int, Quiz>, quizId: int, studentId: int, now: Time): (r: Result<int, TimeError>)
    ensures r.Ok? ==> r.value >= 0 && quizId in quizzes
    ensures r.Ok? && now > EndTime(quizzes[quizId]) ==> r.value == 0
    ensures quizId in quizzes && now > EndTime(quizzes[quizId]) && FindByStatus(rows, quizId, studentId, IN_PROGRESS).Ok? ==> r == Ok(0)
    ensures var active := FindByStatus(rows, quizId, studentId, IN_PROGRESS);
      active.Ok? && active.value.Some? && quizId in quizzes && now <= EndTime(quizzes[quizId]) ==>
        var left := WholeMinutes(active.value.value.startedAt + 60 * quizzes[quizId].durationMinutes - now);
        r == Ok(if left < 0 then 0 else left)
    ensures (r.Err? && r.error.TimeLookupFailed?) <==> FindByStatus(rows, quizId, studentId, IN_PROGRESS).Err?
    ensures r == Err(QuizNotFound) <==> FindByStatus(rows, quizId, studentId, IN_PROGRESS).Ok? && quizId !in quizzes
    ensures r == Err(NoActiveAttempt) <==>
      FindByStatus(rows, quizId, studentId, IN_PROGRESS) == Ok(None) && quizId in quizzes && now <= EndTime(quizzes[quizId])
  {
    var active := FindByStatus(rows, quizId, studentId, IN_PROGRESS);
    if active.Err? then Err(TimeLookupFailed(active.error))
    else if quizId !in quizzes then Err(QuizNotFound)
    else
      var quiz := quizzes[quizId];
      if now > EndTime(quiz) then Ok(0)
      else match active.value
        case None => Err(NoActiveAttempt)
        case Some(a) =>
          var m := WholeMinutes(a.startedAt + 60 * quiz.durationMinutes - now);
          Ok(if m < 0 then 0 else m)
  }

  /** While the quiz runs, the time left never exceeds the duration counted from the student's start. */
  lemma TimeRemainingWithinDuration(rows: seq<Attempt>, quizzes: map<int, Quiz>, quizId: int, studentId: int, now: Time)
    requires TimeRemaining(rows, quizzes, quizId, studentId, now).Ok?
    requires now <= EndTime(quizzes[quizId])
    requires quizzes[quizId].durationMinutes >= 0
    ensures var a := FindByStatus(rows, quizId, studentId, IN_PROGRESS).value.value;
      a.startedAt <= now ==> TimeRemaining(rows, quizzes, quizId, studentId, now).value <= quizzes[quizId].durationMinutes
    ensures var a := FindByStatus(rows, quizId, studentId, IN_PROGRESS).value.value;
      TimeRemaining(rows, quizzes, quizId, studentId, now).value * 60 <= a.startedAt + 60 * quizzes[quizId].durationMinutes - now
      || TimeRemaining(rows, quizzes, quizId, studentId, now).value == 0
  {
    var a := FindByStatus(rows, quizId, studentId, IN_PROGRESS).value.value;
    var seconds := a.startedAt + 60 * quizzes[quizId].durationMinutes - now;
    var m := WholeMinutes(seconds);
    if a.startedAt <= now && seconds >= 0 {
      assert m * 60 <= 60 * quizzes[quizId].durationMinutes;
      assert m <= quizzes[quizId].durationMinutes;
    }
  }

  // ---------------------------------------------------------------- the controller

  /** The attempt table behind the quiz-attempt endpoints. */
  class QuizAttemptController {
    const quizzes: map<int, Quiz>
    const students: set<int>
    var attempts: seq<Attempt>
    var nextId: int

    ghost predicate Valid()
      reads this
    {
      nextId >= 1 && IdsIncreasing(attempts) && (forall i :: 0 <= i < |attempts| ==> 1 <= attempts[i].id < nextId)
      && InProgressUnique(attempts) && (forall a :: a in attempts ==> a.quizId in quizzes)
    }

    constructor(quizzes: map<int, Quiz>, students: set<int>)
      ensures Valid() && this.quizzes == quizzes && this.students == students && attempts == []
    {
      this.quizzes := quizzes;
      this.students := students;
      attempts := [];
      nextId := 1;
    }

    /** `startQuizAttempt`: saves a new in-progress attempt when every check passes. */
    method StartQuizAttempt(quizId: int, studentId: int, now: Time) returns (r: Result<Attempt, StartError>)
      requires Valid()
      modifies this
      ensures Valid()
      ensures var check := StartCheck(old(attempts), quizzes, students, quizId, studentId, now);
        match check
        case Err(e) => r == Err(e) && attempts == old(attempts)
        case Ok(a) => r == Ok(a.(id := old(nextId))) && attempts == old(attempts) + [a.(id := old(nextId))]
    {
      var check := StartCheck(attempts, quizzes, students, quizId, studentId, now);
      if check.Err? {
        return Err(check.error);
      }
      var saved := check.value.(id := nextId);
      StartKeepsInProgressUnique(attempts, quizzes, students, quizId, studentId, now, nextId);
      attempts := attempts + [saved];
      nextId := nextId + 1;
      r := Ok(saved);
    }

    /** `submitQuizAttempt`: scores the answers against the quiz's questions and stores the result. */
    method SubmitQuizAttempt(attemptId: Option<int>, studentId: Option<int>, answers: Option<Answers>, now: Time)
      returns (r: Result<Attempt, SubmitError>)
      requires Valid()
      modifies this
      ensures Valid()
      ensures var check := SubmitCheck(old(attempts), quizzes, attemptId, studentId, answers, now);
        match check
        case Err(e) => r == Err(e) && attempts == old(attempts)
        case Ok((a, quiz)) =>
          var done := Submitted(a, Score(quiz.questions, answers.value), answers.value, now);
          r == Ok(done) && attempts == ReplaceById(old(attempts), done)
    {
      var check := SubmitCheck(attempts, quizzes, attemptId, studentId, answers, now);
      if check.Err? {
        return Err(check.error);
      }
      var (a, quiz) := check.value;
      var score := CalculateScore(quiz.questions, answers.value);
      var done := Submitted(a, score, answers.value, now);
      SubmitKeepsInProgressUnique(attempts, done);
      attempts := ReplaceById(attempts, done);
      r := Ok(done);
    }
  }
}

=== FILE: quiz_scoring.dfy ===
/**
 * Automatic quiz scoring: each question is worth its points when the
 * student's answer is correct for the question's type, and the total is
 * turned into a percentage and a grade band.
 */
module QuizScoring {
  import opened Wrappers
  import opened Text
  import Grades

  datatype QuestionOption = QuestionOption(id: int, isCorrect: bool)

  datatype Question = Question(id: int, questionType: string, points: int,
                               correctAnswer: Option<string>, options: seq<QuestionOption>)

  /** The student's answers, keyed by the question id written in decimal. */
  type Answers = map<string, string>

  datatype ScoreResult = ScoreResult(pointsEarned: int, totalPoints: int, percentage: real,
                                     letterGrade: string, description: string)

  const MULTIPLE_CHOICE := "MULTIPLE_CHOICE"
  const TRUE_FALSE := "TRUE_FALSE"
  const SHORT_ANSWER := "SHORT_ANSWER"

  /** The first option carrying the given id. */
  function OptionWithId(options: seq<QuestionOption>, id: int): (r: Option<QuestionOption>)
    ensures r.Some? ==> r.value in options && r.value.id == id
    ensures r.None? ==> forall o :: o in options ==> o.id != id
    ensures r.Some? ==> exists k :: 0 <= k < |options| && options[k] == r.value
                                    && forall j :: 0 <= j < k ==> options[j].id != id
  {
    if options == [] then None
    else if options[0].id == id then Some(options[0])
    else
      var rest := OptionWithId(options[1..], id);
      if rest.Some? then
        ghost var k :| 0 <= k < |options[1..]| && options[1..][k] == rest.value
                       && forall j :: 0 <= j < k ==> options[1..][j].id != id;
        assert options[k + 1] == rest.value;
        rest
      else rest
  }

  /** `checkMultipleChoiceAnswer`: the answer, untrimmed, must be an option id and that option must be correct. */
  function CheckMultipleChoice(q: Question, answer: string): bool
  {
    match ParseLong(answer)
    case None => false
    case Some(selected) =>
      match OptionWithId(q.options, selected)
      case None => false
      case Some(option) => option.isCorrect
  }

  /** `checkTrueFalseAnswer` and `checkShortAnswerAnswer`: the trimmed answer equals the key, ignoring case. */
  function CheckTextAnswer(q: Question, answer: string): bool
  {
    q.correctAnswer.Some? && EqualsIgnoreCase(JavaTrim(answer), q.correctAnswer.value)
  }

  /** `isAnswerCorrect`: a blank answer is wrong; an unknown question type is never right. */
  function IsAnswerCorrect(q: Question, answer: string): (ok: bool)
    ensures ok ==> !IsJavaBlank(answer)
    ensures ok ==> q.questionType in {MULTIPLE_CHOICE, TRUE_FALSE, SHORT_ANSWER}
  {
    if IsJavaBlank(answer) then false
    else if q.questionType == MULTIPLE_CHOICE then CheckMultipleChoice(q, answer)
    else if q.questionType == TRUE_FALSE || q.questionType == SHORT_ANSWER then CheckTextAnswer(q, answer)
    else false
  }

  /**
   * A multiple-choice answer is right exactly when it reads as a number, an
   * option with that id exists, and the first such option is marked correct.
   */
  lemma MultipleChoiceCorrectIff(q: Question, answer: string)
    requires q.questionType == MULTIPLE_CHOICE
    ensures IsAnswerCorrect(q, answer) <==>
      ParseLong(answer).Some? && OptionWithId(q.options, ParseLong(answer).value).Some?
      && OptionWithId(q.options, ParseLong(answer).value).value.isCorrect
  {
    if IsJavaBlank(answer) {
      JavaBlankIffAllTrimmed(answer);
      ParseLongRejectsBlank(answer);
    }
  }

  /** No string of control characters and spaces reads as a number. */
  lemma ParseLongRejectsBlank(s: string)
    requires forall i :: 0 <= i < |s| ==> IsJavaTrimmed(s[i])
    ensures ParseLong(s).None?
  {
    if ParseLong(s).Some? {
      ParseLongNeedsDigit(s);
    }
  }

  /** A string that reads as a number holds a digit. */
  lemma ParseLongNeedsDigit(s: string)
    requires ParseLong(s).Some?
    ensures exists i :: 0 <= i < |s| && IsDigit(s[i])
  {
    if s[0] == '-' || s[0] == '+' {
      assert AllDigits(s[1..]);
      assert IsDigit(s[1..][0]);
    } else {
      assert AllDigits(s);
    }
  }

  /** A true/false or short answer is right iff, trimmed, it matches the key ignoring case. */
  lemma TextAnswerCorrectIff(q: Question, answer: string)
    requires q.questionType in {TRUE_FALSE, SHORT_ANSWER}
    ensures IsAnswerCorrect(q, answer) <==>
      q.correctAnswer.Some? && Lower(JavaTrim(answer)) == Lower(q.correctAnswer.value) && !IsJavaBlank(answer)
  {
    if q.correctAnswer.Some? {
      EqualsIgnoreCaseIffLowerEqual(JavaTrim(answer), q.correctAnswer.value);
    }
  }

  /** The answer given for a question, if any. */
  function AnswerFor(q: Question, answers: Answers): Option<string>
  {
    var key := IntToString(q.id);
    if key in answers then Some(answers[key]) else None
  }

  /** The points one question contributes. */
  function Earned(q: Question, answers: Answers): (e: int)
    ensures e == 0 || e == q.points
    ensures AnswerFor(q, answers).None? ==> e == 0
  {
    match AnswerFor(q, answers)
    case None => 0
    case Some(a) => if IsAnswerCorrect(q, a) then q.points else 0
  }

  /** The sum of all question points. */
  function TotalPoints(qs: seq<Question>): int
  {
    if qs == [] then 0 else TotalPoints(qs[..|qs| - 1]) + qs[|qs| - 1].points
  }

  /** The sum of the points of the correctly answered questions. */
  function EarnedPoints(qs: seq<Question>, answers: Answers): int
  {
    if qs == [] then 0 else EarnedPoints(qs[..|qs| - 1], answers) + Earned(qs[|qs| - 1], answers)
  }

  /** With non-negative points, the earned points lie between 0 and the total. */
  lemma {:induction false} EarnedWithinTotal(qs: seq<Question>, answers: Answers)
    requires forall q :: q in qs ==> q.points >= 0
    ensures 0 <= EarnedPoints(qs, answers) <= TotalPoints(qs)
  {
    if qs != [] {
      var init := qs[..|qs| - 1];
      assert forall q :: q in init ==> q in qs;
      EarnedWithinTotal(init, answers);
    }
  }

  /** Without any answers nothing is earned. */
  lemma {:induction false} NoAnswersEarnNothing(qs: seq<Question>)
    ensures EarnedPoints(qs, map[]) == 0
  {
    if qs != [] {
      NoAnswersEarnNothing(qs[..|qs| - 1]);
    }
  }

  /** When every question is answered correctly, the earned points are the total. */
  lemma {:induction false} AllCorrectEarnsTotal(qs: seq<Question>, answers: Answers)
    requires forall q :: q in qs ==> AnswerFor(q, answers).Some? && IsAnswerCorrect(q, AnswerFor(q, answers).value)
    ensures EarnedPoints(qs, answers) == TotalPoints(qs)
  {
    if qs != [] {
      var init := qs[..|qs| - 1];
      assert forall q :: q in init ==> q in qs;
      AllCorrectEarnsTotal(init, answers);
      assert qs[|qs| - 1] in qs;
    }
  }

  /** The score the sums determine, graded by the shared bands. */
  function Score(qs: seq<Question>, answers: Answers): ScoreResult
  {
    var p := Grades.Percentage(EarnedPoints(qs, answers), TotalPoints(qs));
    ScoreResult(EarnedPoints(qs, answers), TotalPoints(qs), p, Grades.LetterGrade(p), Grades.Description(p))
  }

  /** `calculateScore`: walks the questions once, summing the total and the earned points. */
  method CalculateScore(qs: seq<Question>, answers: Answers) returns (r: ScoreResult)
    ensures r.totalPoints == TotalPoints(qs) && r.pointsEarned == EarnedPoints(qs, answers)
    ensures r.percentage == Grades.Percentage(r.pointsEarned, r.totalPoints)
    ensures r.letterGrade == Grades.LetterGrade(r.percentage)
    ensures r.description == Grades.Description(r.percentage)
    ensures r == Score(qs, answers)
  {
    var totalPoints := 0;
    var pointsEarned := 0;
    var i := 0;
    while i < |qs|
      invariant 0 <= i <= |qs|
      invariant totalPoints == TotalPoints(qs[..i])
      invariant pointsEarned == EarnedPoints(qs[..i], answers)
    {
      var q := qs[i];
      assert qs[..i + 1][..i] == qs[..i];
      totalPoints := totalPoints + q.points;
      var key := IntToString(q.id);
      if key in answers && IsAnswerCorrect(q, answers[key]) {
        pointsEarned := pointsEarned + q.points;
      }
      i := i + 1;
    }
    assert qs[..i] == qs;
    var percentage := Grades.Percentage(pointsEarned, totalPoints);
    r := ScoreResult(pointsEarned, totalPoints, percentage,
                     Grades.LetterGrade(percentage), Grades.Description(percentage));
  }

  /** A perfect score on a quiz worth points is graded A+, Outstanding. */
  lemma PerfectScoreIsTopBand(qs: seq<Question>, answers: Answers)
    requires forall q :: q in qs ==> AnswerFor(q, answers).Some? && IsAnswerCorrect(q, AnswerFor(q, answers).value)
    requires TotalPoints(qs) > 0
    ensures var p := Grades.Percentage(EarnedPoints(qs, answers), TotalPoints(qs));
      p == 100.0 && Grades.LetterGrade(p) == "A+" && Grades.Description(p) == "Outstanding"
  {
    AllCorrectEarnsTotal(qs, answers);
    Grades.PercentageBounds(TotalPoints(qs), TotalPoints(qs));
  }
}

=== FILE: quizzes.dfy ===
/**
 * Quizzes: the quiz controller. Creation validates the request, applies
 * defaults and saves the quiz, then its questions and their options one by
 * one; the student view checks the time window and hides the answers; the
 * active list filters on the window; deletion cascades to options,
 * questions and attempts.
 */
module Quizzes {
  import opened Wrappers
  import opened Text
  import opened Tables
  import opened Seqs
  import QuizAttempts

  /** `LocalDateTime` in seconds; `plusMinutes(m)` adds `60 * m`. */
  type Time = int

  const ACTIVE := "ACTIVE"
  const DEFAULT_TOTAL_POINTS := 100
  const DEFAULT_QUESTION_POINTS := 1

  /** A stored quiz. `@NotBlank` name and `@NotNull` start and duration hold for every stored row. */
  datatype StoredQuiz = StoredQuiz(
    id: int, name: string, description: Option<string>, startDateTime: Time, durationMinutes: int,
    totalPoints: int, status: string, createdAt: Time, courseId: int, instructorId: int)

  /** A stored question (`@NotBlank` text, `@NotNull` type and points). */
  datatype StoredQuestion = StoredQuestion(
    id: int, quizId: int, text: string, questionType: string, points: int, correctAnswer: Option<string>)

  datatype StoredOption = StoredOption(id: int, questionId: int, text: Option<string>, isCorrect: Option<bool>)

  type Attempt = QuizAttempts.Attempt

  function QuizId(q: StoredQuiz): int { q.id }
  function QuestionId(q: StoredQuestion): int { q.id }
  function OptionId(o: StoredOption): int { o.id }

  datatype OptionRequest = OptionRequest(text: Option<string>, isCorrect: Option<bool>)

  datatype QuestionRequest = QuestionRequest(
    text: Option<string>, questionType: Option<string>, points: Option<int>,
    correctAnswer: Option<string>, options: Option<seq<OptionRequest>>)

  datatype QuizRequest = QuizRequest(
    name: Option<string>, description: Option<string>, startDateTime: Option<Time>,
    durationMinutes: Option<int>, totalPoints: Option<int>, status: Option<string>,
    courseId: Option<int>, instructorId: Option<int>, questions: Option<seq<QuestionRequest>>)

  datatype QuizError =
    | QuizNotFound                // 404
    | InvalidCourseOrInstructor   // 400
    | InvalidTiming               // 400
    | NotStartedYet               // 400
    | QuizEnded                   // 400
    | CreateFailed                // an exception caught by the handler: 400

  function ErrorStatus(e: QuizError): (code: int)
    ensures code == 404 <==> e.QuizNotFound?
    ensures code == 400 <==> !e.QuizNotFound?
  {
    if e.QuizNotFound? then 404 else 400
  }

  // ---------------------------------------------------------------------
  // Time window

  function EndTime(q: StoredQuiz): Time
  {
    q.startDateTime + 60 * q.durationMinutes
  }

  /** `isActive` of the response: strictly after the start and strictly before the end. */
  predicate IsActive(q: StoredQuiz, now: Time)
  {
    q.startDateTime < now < EndTime(q)
  }

  /** `isOverdue` of the response: strictly after the end. */
  predicate IsOverdue(q: StoredQuiz, now: Time)
  {
    now > EndTime(q)
  }

  /** The response of `toResponse`: the quiz, its two flags and its number of attempts. */
  datatype QuizSummary = QuizSummary(quiz: StoredQuiz, active: bool, overdue: bool, attemptCount: nat)

  function OfQuizAttempt(quizId: int): Attempt -> bool
  {
    (a: Attempt) => a.quizId == quizId
  }

  function ToResponse(q: StoredQuiz, attempts: seq<Attempt>, now: Time): (r: QuizSummary)
    ensures !(r.active && r.overdue)
    ensures r.active <==> q.startDateTime < now < EndTime(q)
    ensures r.overdue <==> now > EndTime(q)
    ensures r.attemptCount == Count(attempts, OfQuizAttempt(q.id)) && r.attemptCount <= |attempts|
  {
    QuizSummary(q, IsActive(q, now), IsOverdue(q, now), Count(attempts, OfQuizAttempt(q.id)))
  }

  /** For a quiz with a positive duration, neither flag is set exactly up to the start and at the end instant. */
  lemma NeitherFlag(q: StoredQuiz, now: Time)
    requires q.durationMinutes > 0
    ensures (!IsActive(q, now) && !IsOverdue(q, now)) <==> now <= q.startDateTime || now == EndTime(q)
  {
  }

  /**
   * The window check of `getQuizForStudent`: before the start it has not
   * started; after the end it has ended; both bounds are inclusive.
   */
  function WindowError(q: StoredQuiz, now: Time): (r: Option<QuizError>)
    ensures r == Some(NotStartedYet) <==> now < q.startDateTime
    ensures r == Some(QuizEnded) <==> q.startDateTime <= now && now > EndTime(q)
    ensures r.None? <==> q.startDateTime <= now <= EndTime(q)
  {
    if now < q.startDateTime then Some(NotStartedYet)
    else if now > EndTime(q) then Some(QuizEnded)
    else None
  }

  /** A quiz the list calls active is always open to students; the start and end instants are open but not active. */
  lemma ActiveIsOpen(q: StoredQuiz, now: Time)
    ensures IsActive(q, now) ==> WindowError(q, now).None?
    ensures now == q.startDateTime && q.durationMinutes >= 0 ==> WindowError(q, now).None? && !IsActive(q, now)
  {
  }

  function ActiveInCourse(courseId: int, now: Time): StoredQuiz -> bool
  {
    (q: StoredQuiz) => q.courseId == courseId && IsActive(q, now)
  }

  /** `getActiveQuizzesByCourse`: the course's quizzes with start < now < end, in table order. */
  function ActiveQuizzes(quizzes: seq<StoredQuiz>, courseId: int, now: Time): (r: seq<StoredQuiz>)
    ensures forall q :: q in r <==> q in quizzes && q.courseId == courseId && q.startDateTime < now < EndTime(q)
    ensures Subsequence(r, quizzes)
  {
    var r := Filter(quizzes, ActiveInCourse(courseId, now));
    forall q ensures q in r <==> q in quizzes && q.courseId == courseId && IsActive(q, now) {
      FilterMembers(quizzes, ActiveInCourse(courseId, now), q);
    }
    FilterSubsequence(quizzes, ActiveInCourse(courseId, now));
    r
  }

  /** Every quiz of the active list is summarised as active and not overdue. */
  lemma ActiveListFlags(quizzes: seq<StoredQuiz>, attempts: seq<Attempt>, courseId: int, now: Time, q: StoredQuiz)
    requires q in ActiveQuizzes(quizzes, courseId, now)
    ensures ToResponse(q, attempts, now).active && !ToResponse(q, attempts, now).overdue
  {
  }

  // ---------------------------------------------------------------------
  // Question views

  datatype OptionView = OptionView(id: int, text: Option<string>, isCorrect: Option<bool>)

  datatype QuestionView = QuestionView(
    id: int, text: string, questionType: string, points: int,
    correctAnswer: Option<string>, options: seq<OptionView>)

  function OfQuestion(questionId: int): StoredOption -> bool
  {
    (o: StoredOption) => o.questionId == questionId
  }

  /** `question.getOptions()`: the options of the question, in table order. */
  function OptionsOf(options: seq<StoredOption>, questionId: int): seq<StoredOption>
  {
    Filter(options, OfQuestion(questionId))
  }

  /** `toQuestionResponse`: every field, the correct answer and each option's flag included. */
  function FullView(q: StoredQuestion, options: seq<StoredOption>): QuestionView
  {
    var opts := OptionsOf(options, q.id);
    QuestionView(q.id, q.text, q.questionType, q.points, q.correctAnswer,
                 seq(|opts|, k requires 0 <= k < |opts| => OptionView(opts[k].id, opts[k].text, opts[k].isCorrect)))
  }

  /** The student view as written: only `correctAnswer` is set to null. */
  function StudentViewAsWritten(q: StoredQuestion, options: seq<StoredOption>): (v: QuestionView)
    ensures v.correctAnswer.None?
    ensures v.options == FullView(q, options).options
  {
    FullView(q, options).(correctAnswer := None)
  }

  /**
   * The view as written still carries each option's `isCorrect`: for a
   * multiple-choice question the right answer reaches the student.
   */
  lemma StudentViewAsWrittenLeaksAnswer()
    ensures
      var q := StoredQuestion(1, 1, "2 + 2 = ?", "MULTIPLE_CHOICE", 1, Some("4"));
      var options := [StoredOption(1, 1, Some("4"), Some(true)), StoredOption(2, 1, Some("5"), Some(false))];
      StudentViewAsWritten(q, options).options[0].isCorrect == Some(true)
  {
    var options := [StoredOption(1, 1, Some("4"), Some(true)), StoredOption(2, 1, Some("5"), Some(false))];
    assert OptionsOf(options, 1) == options by {
      assert Filter(options[1..], OfQuestion(1)) == [options[1]] by {
        assert Filter(options[2..], OfQuestion(1)) == [];
      }
    }
  }

  /** The student view: the correct answer and every option's flag are hidden; the rest is shown. */
  function StudentView(q: StoredQuestion, options: seq<StoredOption>): (v: QuestionView)
    ensures v.correctAnswer.None?
    ensures forall k :: 0 <= k < |v.options| ==> v.options[k].isCorrect.None?
    ensures v.id == q.id && v.text == q.text && v.questionType == q.questionType && v.points == q.points
    ensures |v.options| == |FullView(q, options).options|
    ensures forall k :: 0 <= k < |v.options| ==>
              v.options[k] == FullView(q, options).options[k].(isCorrect := None)
  {
    var full := FullView(q, options);
    full.(correctAnswer := None,
          options := seq(|full.options|, k requires 0 <= k < |full.options| => full.options[k].(isCorrect := None)))
  }

  function OfQuiz(quizId: int): StoredQuestion -> bool
  {
    (q: StoredQuestion) => q.quizId == quizId
  }

  /** `findByQuizId` / `findByQuizIdOrderById`: with increasing ids, table order is id order. */
  function QuestionsOf(questions: seq<StoredQuestion>, quizId: int): (r: seq<StoredQuestion>)
    ensures forall q :: q in r <==> q in questions && q.quizId == quizId
    ensures KeysIncreasing(questions, QuestionId) ==> KeysIncreasing(r, QuestionId)
  {
    var r := Filter(questions, OfQuiz(quizId));
    forall q ensures q in r <==> q in questions && q.quizId == quizId {
      FilterMembers(questions, OfQuiz(quizId), q);
    }
    FilterSubsequence(questions, OfQuiz(quizId));
    if KeysIncreasing(questions, QuestionId) then
      SubsequenceKeepsKeysIncreasing(r, questions, QuestionId);
      r
    else
      r
  }

  datatype StudentQuiz = StudentQuiz(summary: QuizSummary, questions: seq<QuestionView>)

  /**
   * `getQuizForStudent` as written: 404, then the window, then the quiz's
   * questions with only the correct answer cleared; every option keeps its
   * `isCorrect` flag, as `toQuestionResponse` copies it.
   */
  function ForStudent(quizzes: seq<StoredQuiz>, questions: seq<StoredQuestion>, options: seq<StoredOption>,
                      attempts: seq<Attempt>, id: int, now: Time): (r: Result<StudentQuiz, QuizError>)
    ensures FindByKey(quizzes, QuizId, id).None? <==> r == Err(QuizNotFound)
    ensures FindByKey(quizzes, QuizId, id).Some? ==>
              var q := FindByKey(quizzes, QuizId, id).value;
              (r == Err(NotStartedYet) <==> now < q.startDateTime)
              && (r == Err(QuizEnded) <==> q.startDateTime <= now && now > EndTime(q))
              && (r.Ok? <==> q.startDateTime <= now <= EndTime(q))
    ensures r.Ok? ==>
              |r.value.questions| == |QuestionsOf(questions, id)|
              && forall k :: 0 <= k < |r.value.questions| ==>
                   r.value.questions[k].id == QuestionsOf(questions, id)[k].id
                   && r.value.questions[k].correctAnswer.None?
                   && r.value.questions[k].options == FullView(QuestionsOf(questions, id)[k], options).options
  {
    var found := FindByKey(quizzes, QuizId, id);
    if found.None? then Err(QuizNotFound)
    else
      var q := found.value;
      var window := WindowError(q, now);
      if window.Some? then Err(window.value)
      else
        var qs := QuestionsOf(questions, id);
        Ok(StudentQuiz(ToResponse(q, attempts, now),
                       seq(|qs|, k requires 0 <= k < |qs| => StudentViewAsWritten(qs[k], options))))
  }

  /** `getQuizForStudent` as intended: the same checks, with the answer and every option's flag hidden. */
  function ForStudentCorrected(quizzes: seq<StoredQuiz>, questions: seq<StoredQuestion>, options: seq<StoredOption>,
                               attempts: seq<Attempt>, id: int, now: Time): (r: Result<StudentQuiz, QuizError>)
    ensures FindByKey(quizzes, QuizId, id).None? <==> r == Err(QuizNotFound)
    ensures FindByKey(quizzes, QuizId, id).Some? ==>
              var q := FindByKey(quizzes, QuizId, id).value;
              (r == Err(NotStartedYet) <==> now < q.startDateTime)
              && (r == Err(QuizEnded) <==> q.startDateTime <= now && now > EndTime(q))
              && (r.Ok? <==> q.startDateTime <= now <= EndTime(q))
    ensures r.Ok? ==>
              |r.value.questions| == |QuestionsOf(questions, id)|
              && forall k :: 0 <= k < |r.value.questions| ==>
                   r.value.questions[k].id == QuestionsOf(questions, id)[k].id
                   && r.value.questions[k].correctAnswer.None?
                   && forall j :: 0 <= j < |r.value.questions[k].options| ==> r.value.questions[k].options[j].isCorrect.None?
  {
    var found := FindByKey(quizzes, QuizId, id);
    if found.None? then Err(QuizNotFound)
    else
      var q := found.value;
      var window := WindowError(q, now);
      if window.Some? then Err(window.value)
      else
        var qs := QuestionsOf(questions, id);
        Ok(StudentQuiz(ToResponse(q, attempts, now),
                       seq(|qs|, k requires 0 <= k < |qs| => StudentView(qs[k], options))))
  }

  /**
   * The corrected endpoint answers exactly when the one as written does,
   * with the same quiz and questions; the options differ only in the flag.
   */
  lemma CorrectedHidesOnlyFlags(quizzes: seq<StoredQuiz>, questions: seq<StoredQuestion>, options: seq<StoredOption>,
                                attempts: seq<Attempt>, id: int, now: Time)
    ensures var w := ForStudent(quizzes, questions, options, attempts, id, now);
      var c := ForStudentCorrected(quizzes, questions, options, attempts, id, now);
      (w.Err? <==> c.Err?) && (w.Err? ==> w == c)
      && (w.Ok? ==> c.value.summary == w.value.summary && |c.value.questions| == |w.value.questions|
                    && forall k :: 0 <= k < |w.value.questions| ==>
                         |c.value.questions[k].options| == |w.value.questions[k].options|
                         && forall j :: 0 <= j < |w.value.questions[k].options| ==>
                              c.value.questions[k].options[j] == w.value.questions[k].options[j].(isCorrect := None))
  {
  }

  // ---------------------------------------------------------------------
  // Creation

  /** The guards of `createQuiz`, in order, before anything is saved. */
  function CreateCheck(req: QuizRequest, courses: set<int>, users: set<int>): (r: Option<QuizError>)
    ensures req.courseId.None? || req.instructorId.None? ==> r == Some(CreateFailed)
    ensures req.courseId.Some? && req.instructorId.Some? ==>
              (r == Some(InvalidCourseOrInstructor) <==> req.courseId.value !in courses || req.instructorId.value !in users)
    ensures r == Some(InvalidTiming) <==>
              req.courseId.Some? && req.instructorId.Some? && req.courseId.value in courses && req.instructorId.value in users
              && (req.startDateTime.None? || req.durationMinutes.None? || req.durationMinutes.value <= 0)
    ensures r.None? ==>
              req.courseId.Some? && req.courseId.value in courses && req.instructorId.Some? && req.instructorId.value in users
              && req.startDateTime.Some? && req.durationMinutes.Some? && req.durationMinutes.value > 0
  {
    if req.courseId.None? || req.instructorId.None? then Some(CreateFailed)
    else if req.courseId.value !in courses || req.instructorId.value !in users then Some(InvalidCourseOrInstructor)
    else if req.startDateTime.None? || req.durationMinutes.None? || req.durationMinutes.value <= 0 then Some(InvalidTiming)
    else None
  }

  /** The quiz `createQuiz` saves: 100 points and ACTIVE unless the request says otherwise. */
  function NewQuiz(req: QuizRequest, id: int, now: Time): (q: StoredQuiz)
    requires req.name.Some? && req.startDateTime.Some? && req.durationMinutes.Some?
    requires req.courseId.Some? && req.instructorId.Some?
    ensures q.totalPoints == (if req.totalPoints.Some? then req.totalPoints.value else DEFAULT_TOTAL_POINTS)
    ensures q.status == (if req.status.Some? then req.status.value else ACTIVE)
    ensures q.id == id && q.createdAt == now && q.courseId == req.courseId.value && q.instructorId == req.instructorId.value
    ensures q.startDateTime == req.startDateTime.value && q.durationMinutes == req.durationMinutes.value
  {
    StoredQuiz(id, req.name.value, req.description, req.startDateTime.value, req.durationMinutes.value,
               req.totalPoints.GetOr(DEFAULT_TOTAL_POINTS), req.status.GetOr(ACTIVE), now,
               req.courseId.value, req.instructorId.value)
  }

  /** Bean validation of a question on save: non-blank text and a type. */
  predicate QuestionAcceptable(req: QuestionRequest)
  {
    req.text.Some? && !IsJavaBlank(req.text.value) && req.questionType.Some?
  }

  /** A question as saved: one point unless the request says otherwise. Only accepted requests are saved. */
  function QuestionRow(req: QuestionRequest, id: int, quizId: int): (q: StoredQuestion)
    ensures q.points == (if req.points.Some? then req.points.value else DEFAULT_QUESTION_POINTS)
    ensures q.id == id && q.quizId == quizId && q.correctAnswer == req.correctAnswer
    ensures req.text.Some? ==> q.text == req.text.value
    ensures req.questionType.Some? ==> q.questionType == req.questionType.value
  {
    StoredQuestion(id, quizId, req.text.GetOr(""), req.questionType.GetOr(""), req.points.GetOr(DEFAULT_QUESTION_POINTS),
                   req.correctAnswer)
  }

  /** A null or empty option list saves nothing. */
  function OptionRequests(req: QuestionRequest): seq<OptionRequest>
  {
    req.options.GetOr([])
  }

  /** How many questions are saved before the first one validation refuses. */
  function SavedCount(reqs: seq<QuestionRequest>): (n: nat)
    ensures n <= |reqs|
  {
    TakeWhileCount(reqs, QuestionAcceptable)
  }

  /** Going through the requests in order, the saving stops exactly at the first refused one. */
  lemma SavedCountAt(reqs: seq<QuestionRequest>, i: nat)
    requires i <= SavedCount(reqs)
    ensures i == SavedCount(reqs) <==> i == |reqs| || !QuestionAcceptable(reqs[i])
  {
    TakeWhileCountAt(reqs, QuestionAcceptable, i);
  }

  /** Every question before the count is acceptable to validation. */
  lemma SavedAreAcceptable(reqs: seq<QuestionRequest>)
    ensures forall k :: 0 <= k < SavedCount(reqs) ==> QuestionAcceptable(reqs[k])
  {
    TakeWhileCountSpec(reqs, QuestionAcceptable);
  }

  /** The first `n` questions of the request as saved, with consecutive ids. */
  function QuestionRows(reqs: seq<QuestionRequest>, n: nat, quizId: int, firstId: int): (r: seq<StoredQuestion>)
    requires n <= |reqs|
    ensures |r| == n
    ensures forall k :: 0 <= k < n ==> r[k] == QuestionRow(reqs[k], firstId + k, quizId)
  {
    seq(n, k requires 0 <= k < n => QuestionRow(reqs[k], firstId + k, quizId))
  }

  /** The options of one question, with consecutive ids. */
  function OptionRowsOf(reqs: seq<OptionRequest>, questionId: int, firstId: int): seq<StoredOption>
  {
    seq(|reqs|, k requires 0 <= k < |reqs| => StoredOption(firstId + k, questionId, reqs[k].text, reqs[k].isCorrect))
  }

  /** The options of the first `n` questions, saved question by question. */
  function OptionRows(reqs: seq<QuestionRequest>, n: nat, firstQuestionId: int, firstOptionId: int): seq<StoredOption>
    requires n <= |reqs|
  {
    if n == 0 then []
    else
      var prev := OptionRows(reqs, n - 1, firstQuestionId, firstOptionId);
      prev + OptionRowsOf(OptionRequests(reqs[n - 1]), firstQuestionId + n - 1, firstOptionId + |prev|)
  }

  /** Saving one more question appends exactly its options, numbered after the ones before. */
  lemma OptionRowsStep(reqs: seq<QuestionRequest>, n: nat, firstQuestionId: int, firstOptionId: int)
    requires n < |reqs|
    ensures var prev := OptionRows(reqs, n, firstQuestionId, firstOptionId);
            OptionRows(reqs, n + 1, firstQuestionId, firstOptionId)
            == prev + OptionRowsOf(OptionRequests(reqs[n]), firstQuestionId + n, firstOptionId + |prev|)
  {
  }

  /** Saved options draw consecutive ids, and each belongs to one of the questions saved with them. */
  lemma {:induction false} OptionRowsNumbered(reqs: seq<QuestionRequest>, n: nat, firstQuestionId: int, firstOptionId: int)
    requires n <= |reqs|
    ensures forall k :: 0 <= k < |OptionRows(reqs, n, firstQuestionId, firstOptionId)| ==>
              OptionRows(reqs, n, firstQuestionId, firstOptionId)[k].id == firstOptionId + k
    ensures forall o :: o in OptionRows(reqs, n, firstQuestionId, firstOptionId) ==>
              firstQuestionId <= o.questionId < firstQuestionId + n
  {
    if n > 0 {
      OptionRowsNumbered(reqs, n - 1, firstQuestionId, firstOptionId);
      var prev := OptionRows(reqs, n - 1, firstQuestionId, firstOptionId);
      var last := OptionRowsOf(OptionRequests(reqs[n - 1]), firstQuestionId + n - 1, firstOptionId + |prev|);
      assert OptionRows(reqs, n, firstQuestionId, firstOptionId) == prev + last;
      forall o: StoredOption | o in prev + last ensures firstQuestionId <= o.questionId < firstQuestionId + n {
        if o !in prev {
          var k :| 0 <= k < |last| && last[k] == o;
        }
      }
    }
  }

  /** The options saved for one question, one by one (the inner loop of `createQuiz`). */
  method SaveOptions(reqs: seq<OptionRequest>, questionId: int, firstId: int) returns (saved: seq<StoredOption>)
    ensures saved == OptionRowsOf(reqs, questionId, firstId)
  {
    saved := [];
    var j := 0;
    while j < |reqs|
      invariant 0 <= j <= |reqs|
      invariant saved == OptionRowsOf(reqs[..j], questionId, firstId)
    {
      saved := saved + [StoredOption(firstId + j, questionId, reqs[j].text, reqs[j].isCorrect)];
      j := j + 1;
    }
    assert reqs[..j] == reqs;
  }

  /** One turn of the outer loop of `createQuiz`: the question, then its options. */
  method SaveQuestion(reqs: seq<QuestionRequest>, i: nat, quizId: int, firstQuestionId: int, firstOptionId: int,
                      questions: seq<StoredQuestion>, options: seq<StoredOption>)
    returns (questions': seq<StoredQuestion>, options': seq<StoredOption>)
    requires i < |reqs|
    requires questions == QuestionRows(reqs, i, quizId, firstQuestionId)
    requires options == OptionRows(reqs, i, firstQuestionId, firstOptionId)
    ensures questions' == QuestionRows(reqs, i + 1, quizId, firstQuestionId)
    ensures options' == OptionRows(reqs, i + 1, firstQuestionId, firstOptionId)
  {
    var q := QuestionRow(reqs[i], firstQuestionId + i, quizId);
    var saved := SaveOptions(OptionRequests(reqs[i]), firstQuestionId + i, firstOptionId + |options|);
    assert QuestionRows(reqs, i + 1, quizId, firstQuestionId) == questions + [q];
    OptionRowsStep(reqs, i, firstQuestionId, firstOptionId);
    questions' := questions + [q];
    options' := options + saved;
  }

  /**
   * The outer loop of `createQuiz`: each question is saved, then its
   * options; the first question validation refuses throws, and what was
   * saved before it stays.
   */
  method SaveQuestions(reqs: seq<QuestionRequest>, quizId: int, firstQuestionId: int, firstOptionId: int)
    returns (questions: seq<StoredQuestion>, options: seq<StoredOption>, failed: bool)
    ensures failed <==> SavedCount(reqs) < |reqs|
    ensures questions == QuestionRows(reqs, SavedCount(reqs), quizId, firstQuestionId)
    ensures options == OptionRows(reqs, SavedCount(reqs), firstQuestionId, firstOptionId)
  {
    questions := [];
    options := [];
    var i := 0;
    while i < |reqs| && QuestionAcceptable(reqs[i])
      invariant 0 <= i <= SavedCount(reqs)
      invariant questions == QuestionRows(reqs, i, quizId, firstQuestionId)
      invariant options == OptionRows(reqs, i, firstQuestionId, firstOptionId)
    {
      SavedCountAt(reqs, i);
      questions, options := SaveQuestion(reqs, i, quizId, firstQuestionId, firstOptionId, questions, options);
      i := i + 1;
    }
    SavedCountAt(reqs, i);
    failed := i < |reqs|;
  }

  /** The questions and options saved by one creation refer only to each other and to the new quiz. */
  lemma CreatedRowsLinked(reqs: seq<QuestionRequest>, n: nat, quizId: int, firstQuestionId: int, firstOptionId: int)
    requires n <= |reqs|
    ensures forall q :: q in QuestionRows(reqs, n, quizId, firstQuestionId) ==> q.quizId == quizId
    ensures forall o :: o in OptionRows(reqs, n, firstQuestionId, firstOptionId) ==>
              o.questionId in KeySet(QuestionRows(reqs, n, quizId, firstQuestionId), QuestionId)
  {
    var qs := QuestionRows(reqs, n, quizId, firstQuestionId);
    OptionRowsNumbered(reqs, n, firstQuestionId, firstOptionId);
    forall o | o in OptionRows(reqs, n, firstQuestionId, firstOptionId) ensures o.questionId in KeySet(qs, QuestionId) {
      var k := o.questionId - firstQuestionId;
      assert qs[k] in qs && qs[k].id == o.questionId;
    }
  }

  /**
   * The state of the quiz tables the controller keeps: ids ordered and
   * below the next id of their table, no question without its quiz and no
   * option without its question.
   */
  ghost predicate TablesValid(quizzes: seq<StoredQuiz>, questions: seq<StoredQuestion>, options: seq<StoredOption>,
                              nextQuizId: int, nextQuestionId: int, nextOptionId: int)
  {
    nextQuizId >= 1 && nextQuestionId >= 1 && nextOptionId >= 1
    && KeysIncreasing(quizzes, QuizId) && (forall q :: q in quizzes ==> q.id < nextQuizId)
    && KeysIncreasing(questions, QuestionId) && (forall q :: q in questions ==> q.id < nextQuestionId)
    && KeysIncreasing(options, OptionId) && (forall o :: o in options ==> o.id < nextOptionId)
    && (forall q :: q in questions ==> q.quizId in KeySet(quizzes, QuizId))
    && (forall o :: o in options ==> o.questionId in KeySet(questions, QuestionId))
  }

  /** Adding a quiz and the rows saved for it keeps the tables valid. */
  lemma AddQuizKeepsTables(quizzes: seq<StoredQuiz>, questions: seq<StoredQuestion>, options: seq<StoredOption>,
                           nextQuizId: int, nextQuestionId: int, nextOptionId: int,
                           quiz: StoredQuiz, reqs: seq<QuestionRequest>, n: nat)
    requires TablesValid(quizzes, questions, options, nextQuizId, nextQuestionId, nextOptionId)
    requires quiz.id == nextQuizId && n <= |reqs|
    ensures var qs := QuestionRows(reqs, n, quiz.id, nextQuestionId);
            var os := OptionRows(reqs, n, nextQuestionId, nextOptionId);
            TablesValid(quizzes + [quiz], questions + qs, options + os,
                        nextQuizId + 1, nextQuestionId + |qs|, nextOptionId + |os|)
  {
    var qs := QuestionRows(reqs, n, quiz.id, nextQuestionId);
    var os := OptionRows(reqs, n, nextQuestionId, nextOptionId);
    AppendKeepsKeysIncreasing(quizzes, QuizId, quiz);
    AppendConsecutive(questions, qs, QuestionId, nextQuestionId);
    OptionRowsNumbered(reqs, n, nextQuestionId, nextOptionId);
    AppendConsecutive(options, os, OptionId, nextOptionId);
    CreatedRowsLinked(reqs, n, quiz.id, nextQuestionId, nextOptionId);
    forall q | q in questions + qs ensures q.quizId in KeySet(quizzes + [quiz], QuizId) {
      if q in questions {
        var z :| z in quizzes && z.id == q.quizId;
        assert z in quizzes + [quiz];
      } else {
        assert quiz in quizzes + [quiz];
      }
    }
    forall o | o in options + os ensures o.questionId in KeySet(questions + qs, QuestionId) {
      var q: StoredQuestion;
      if o in options {
        q :| q in questions && q.id == o.questionId;
      } else {
        q :| q in qs && q.id == o.questionId;
      }
      assert q in questions + qs;
    }
  }

  // ---------------------------------------------------------------------
  // Deletion

  function NotOfQuiz(quizId: int): StoredQuestion -> bool
  {
    (q: StoredQuestion) => q.quizId != quizId
  }

  function NotOfQuestion(questionId: int): StoredOption -> bool
  {
    (o: StoredOption) => o.questionId != questionId
  }

  function NotIn(questionIds: set<int>): StoredOption -> bool
  {
    (o: StoredOption) => o.questionId !in questionIds
  }

  /** The options left once those of the given questions are deleted, in table order. */
  function OptionsKept(options: seq<StoredOption>, questionIds: set<int>): (r: seq<StoredOption>)
    ensures forall o :: o in r <==> o in options && o.questionId !in questionIds
    ensures Subsequence(r, options)
  {
    var r := Filter(options, NotIn(questionIds));
    forall o ensures o in r <==> o in options && o.questionId !in questionIds {
      FilterMembers(options, NotIn(questionIds), o);
    }
    FilterSubsequence(options, NotIn(questionIds));
    r
  }

  function NotOfQuizAttempt(quizId: int): Attempt -> bool
  {
    (a: Attempt) => a.quizId != quizId
  }

  /** `questionRepository.deleteAll(findByQuizId(id))`: the other questions stay, in order. */
  function QuestionsNotOf(questions: seq<StoredQuestion>, quizId: int): (r: seq<StoredQuestion>)
    ensures forall q :: q in r <==> q in questions && q.quizId != quizId
    ensures Subsequence(r, questions)
  {
    var r := Filter(questions, NotOfQuiz(quizId));
    forall q ensures q in r <==> q in questions && q.quizId != quizId {
      FilterMembers(questions, NotOfQuiz(quizId), q);
    }
    FilterSubsequence(questions, NotOfQuiz(quizId));
    r
  }

  /** `attemptRepository.deleteAll(findByQuizId(id))`: the other attempts stay, in order. */
  function AttemptsNotOf(attempts: seq<Attempt>, quizId: int): (r: seq<Attempt>)
    ensures forall a :: a in r <==> a in attempts && a.quizId != quizId
    ensures Subsequence(r, attempts)
  {
    var r := Filter(attempts, NotOfQuizAttempt(quizId));
    forall a ensures a in r <==> a in attempts && a.quizId != quizId {
      FilterMembers(attempts, NotOfQuizAttempt(quizId), a);
    }
    FilterSubsequence(attempts, NotOfQuizAttempt(quizId));
    r
  }

  /**
   * The first loop of `deleteQuiz`: the options of each of the quiz's
   * questions are deleted, question by question.
   */
  method DeleteOptions(options: seq<StoredOption>, doomed: seq<StoredQuestion>) returns (r: seq<StoredOption>)
    ensures r == OptionsKept(options, KeySet(doomed, QuestionId))
  {
    r := options;
    var i := 0;
    assert KeySet(doomed[..0], QuestionId) == {};
    FilterAll(options, NotIn({}));
    while i < |doomed|
      invariant 0 <= i <= |doomed|
      invariant r == OptionsKept(options, KeySet(doomed[..i], QuestionId))
    {
      var ids := KeySet(doomed[..i], QuestionId);
      r := Filter(r, NotOfQuestion(doomed[i].id));
      FilterFilter(options, NotIn(ids), NotOfQuestion(doomed[i].id), NotIn(ids + {doomed[i].id}));
      PrefixStep(doomed, i);
      KeySetSnoc(doomed[..i], doomed[i], QuestionId);
      i := i + 1;
    }
    assert doomed[..i] == doomed;
  }

  class QuizController {
    const courses: set<int>
    const users: set<int>
    var quizzes: seq<StoredQuiz>
    var questions: seq<StoredQuestion>
    var options: seq<StoredOption>
    var attempts: seq<Attempt>
    var nextQuizId: int
    var nextQuestionId: int
    var nextOptionId: int

    ghost predicate Valid()
      reads this
    {
      TablesValid(quizzes, questions, options, nextQuizId, nextQuestionId, nextOptionId)
    }

    constructor(courses: set<int>, users: set<int>, attempts: seq<Attempt>)
      ensures Valid() && this.courses == courses && this.users == users && this.attempts == attempts
      ensures quizzes == [] && questions == [] && options == []
    {
      this.courses := courses;
      this.users := users;
      quizzes := [];
      questions := [];
      options := [];
      this.attempts := attempts;
      nextQuizId := 1;
      nextQuestionId := 1;
      nextOptionId := 1;
    }

    /** Writes the tables and the id counters at once. */
    method Store(quizzes': seq<StoredQuiz>, questions': seq<StoredQuestion>, options': seq<StoredOption>,
                 attempts': seq<Attempt>, nextQuizId': int, nextQuestionId': int, nextOptionId': int)
      requires TablesValid(quizzes', questions', options', nextQuizId', nextQuestionId', nextOptionId')
      modifies this
      ensures Valid()
      ensures quizzes == quizzes' && questions == questions' && options == options' && attempts == attempts'
      ensures nextQuizId == nextQuizId' && nextQuestionId == nextQuestionId' && nextOptionId == nextOptionId'
    {
      quizzes, questions, options, attempts := quizzes', questions', options', attempts';
      nextQuizId, nextQuestionId, nextOptionId := nextQuizId', nextQuestionId', nextOptionId';
    }

    /**
     * `createQuiz`. The guards change nothing; a blank name makes the quiz's
     * save throw; otherwise the quiz is saved and then its questions. The
     * handler has no transaction, so a question refused by validation
     * leaves the quiz and the questions before it saved, and answers 400.
     */
    method Create(req: QuizRequest, now: Time) returns (r: Result<StoredQuiz, QuizError>)
      requires Valid()
      modifies this
      ensures Valid()
      ensures attempts == old(attempts)
      ensures CreateCheck(req, courses, users).Some? ==>
                r == Err(CreateCheck(req, courses, users).value)
                && quizzes == old(quizzes) && questions == old(questions) && options == old(options)
      ensures CreateCheck(req, courses, users).None? && (req.name.None? || IsJavaBlank(req.name.value)) ==>
                r == Err(CreateFailed)
                && quizzes == old(quizzes) && questions == old(questions) && options == old(options)
      ensures CreateCheck(req, courses, users).None? && req.name.Some? && !IsJavaBlank(req.name.value) ==>
                var quiz := NewQuiz(req, old(nextQuizId), now);
                var reqs := req.questions.GetOr([]);
                quizzes == old(quizzes) + [quiz]
                && questions == old(questions) + QuestionRows(reqs, SavedCount(reqs), quiz.id, old(nextQuestionId))
                && options == old(options) + OptionRows(reqs, SavedCount(reqs), old(nextQuestionId), old(nextOptionId))
                && (r == Ok(quiz) <==> SavedCount(reqs) == |reqs|)
                && (r.Err? ==> r == Err(CreateFailed))
    {
      var invalid := CreateCheck(req, courses, users);
      if invalid.Some? {
        return Err(invalid.value);
      }
      if req.name.None? || IsJavaBlank(req.name.value) {
        return Err(CreateFailed);
      }
      var quiz := NewQuiz(req, nextQuizId, now);
      var reqs := req.questions.GetOr([]);
      var newQuestions, newOptions, failed := SaveQuestions(reqs, quiz.id, nextQuestionId, nextOptionId);
      AddQuizKeepsTables(quizzes, questions, options, nextQuizId, nextQuestionId, nextOptionId, quiz, reqs, SavedCount(reqs));
      Store(quizzes + [quiz], questions + newQuestions, options + newOptions, attempts,
            nextQuizId + 1, nextQuestionId + |newQuestions|, nextOptionId + |newOptions|);
      if failed {
        return Err(CreateFailed);
      }
      return Ok(quiz);
    }

    /**
     * `deleteQuiz`: 404 for an unknown quiz; otherwise the options of its
     * questions, its questions, its attempts and finally the quiz are deleted.
     */
    method Delete(id: int) returns (r: Result<(), QuizError>)
      requires Valid()
      modifies this
      ensures Valid()
      ensures FindByKey(old(quizzes), QuizId, id).None? ==>
                r == Err(QuizNotFound) && quizzes == old(quizzes) && questions == old(questions)
                && options == old(options) && attempts == old(attempts)
      ensures FindByKey(old(quizzes), QuizId, id).Some? ==>
                r == Ok(()) && quizzes == RemoveKey(old(quizzes), QuizId, id)
                && (forall q :: q in questions <==> q in old(questions) && q.quizId != id)
                && (forall o :: o in options <==>
                      o in old(options) && o.questionId !in KeySet(QuestionsOf(old(questions), id), QuestionId))
                && (forall a :: a in attempts <==> a in old(attempts) && a.quizId != id)
      ensures FindByKey(old(quizzes), QuizId, id).Some? ==>
                questions == QuestionsNotOf(old(questions), id) && attempts == AttemptsNotOf(old(attempts), id)
                && options == OptionsKept(old(options), KeySet(QuestionsOf(old(questions), id), QuestionId))
    {
      var found := FindByKey(quizzes, QuizId, id);
      if found.None? {
        return Err(QuizNotFound);
      }
      var doomed := QuestionsOf(questions, id);
      var keptOptions := DeleteOptions(options, doomed);
      var keptQuestions := QuestionsNotOf(questions, id);
      var keptAttempts := AttemptsNotOf(attempts, id);
      var keptQuizzes := RemoveKey(quizzes, QuizId, id);
      CascadeKeepsTables(quizzes, questions, options, nextQuizId, nextQuestionId, nextOptionId, id, doomed,
                         keptQuizzes, keptQuestions, keptOptions);
      Store(keptQuizzes, keptQuestions, keptOptions, keptAttempts, nextQuizId, nextQuestionId, nextOptionId);
      return Ok(());
    }
  }

  /** The cascade of `deleteQuiz` keeps the tables valid. */
  lemma CascadeKeepsTables(quizzes: seq<StoredQuiz>, questions: seq<StoredQuestion>, options: seq<StoredOption>,
                           nextQuizId: int, nextQuestionId: int, nextOptionId: int, id: int, doomed: seq<StoredQuestion>,
                           keptQuizzes: seq<StoredQuiz>, keptQuestions: seq<StoredQuestion>, keptOptions: seq<StoredOption>)
    requires TablesValid(quizzes, questions, options, nextQuizId, nextQuestionId, nextOptionId)
    requires forall q :: q in doomed <==> q in questions && q.quizId == id
    requires keptQuizzes == RemoveKey(quizzes, QuizId, id)
    requires keptQuestions == QuestionsNotOf(questions, id)
    requires forall o :: o in keptOptions <==> o in options && o.questionId !in KeySet(doomed, QuestionId)
    requires Subsequence(keptOptions, options)
    ensures TablesValid(keptQuizzes, keptQuestions, keptOptions, nextQuizId, nextQuestionId, nextOptionId)
  {
    RemoveKeyKeepsOrder(quizzes, QuizId, id);
    SubsequenceKeepsKeysIncreasing(keptQuestions, questions, QuestionId);
    SubsequenceKeepsKeysIncreasing(keptOptions, options, OptionId);
    forall q | q in keptQuestions ensures q.quizId in KeySet(keptQuizzes, QuizId) {
      var z :| z in quizzes && z.id == q.quizId;
      assert z in keptQuizzes;
    }
    forall o | o in keptOptions ensures o.questionId in KeySet(keptQuestions, QuestionId) {
      var q :| q in questions && q.id == o.questionId;
      assert q in keptQuestions;
    }
  }
}

=== FILE: seqs.dfy ===
/** Order-preserving filters and counts over sequences, the shape of every `WHERE` clause. */
module Seqs {
  import opened Wrappers

  /** `a` is `b` with some elements removed and the rest kept in order. */
  predicate Subsequence<T(==)>(a: seq<T>, b: seq<T>)
    decreases |b|
  {
    a == [] || (b != [] && ((a[0] == b[0] && Subsequence(a[1..], b[1..])) || Subsequence(a, b[1..])))
  }

  /** Every element of a subsequence occurs in the whole. */
  lemma {:induction false} SubsequenceMember<T>(a: seq<T>, b: seq<T>, k: int)
    requires Subsequence(a, b) && 0 <= k < |a|
    ensures a[k] in b
    decreases |b|
  {
    if b[0] == a[0] && Subsequence(a[1..], b[1..]) {
      if k > 0 {
        SubsequenceMember(a[1..], b[1..], k - 1);
      }
    } else {
      SubsequenceMember(a, b[1..], k);
    }
  }

  /** Positions in a subsequence come from increasing positions of the whole. */
  lemma {:induction false} SubsequenceIndices<T>(a: seq<T>, b: seq<T>, i: int, j: int)
    requires Subsequence(a, b) && 0 <= i < j < |a|
    ensures exists m, n :: 0 <= m < n < |b| && b[m] == a[i] && b[n] == a[j]
    decreases |b|
  {
    if b[0] == a[0] && Subsequence(a[1..], b[1..]) {
      if i == 0 {
        SubsequenceMember(a[1..], b[1..], j - 1);
        var n :| 0 <= n < |b[1..]| && b[1..][n] == a[j];
        assert b[n + 1] == a[j];
      } else {
        SubsequenceIndices(a[1..], b[1..], i - 1, j - 1);
        var m, n :| 0 <= m < n < |b[1..]| && b[1..][m] == a[i] && b[1..][n] == a[j];
        assert b[m + 1] == a[i] && b[n + 1] == a[j];
      }
    } else {
      SubsequenceIndices(a, b[1..], i, j);
      var m, n :| 0 <= m < n < |b[1..]| && b[1..][m] == a[i] && b[1..][n] == a[j];
      assert b[m + 1] == a[i] && b[n + 1] == a[j];
    }
  }

  /** Every sequence is a subsequence of itself. */
  lemma {:induction false} SubsequenceReflexive<T>(s: seq<T>)
    ensures Subsequence(s, s)
  {
    if s != [] {
      SubsequenceReflexive(s[1..]);
    }
  }

  /** A subsequence of a subsequence is a subsequence. */
  lemma {:induction false} SubsequenceTransitive<T>(a: seq<T>, b: seq<T>, c: seq<T>)
    requires Subsequence(a, b) && Subsequence(b, c)
    ensures Subsequence(a, c)
    decreases |c|
  {
    if a != [] {
      if b[0] == c[0] && Subsequence(b[1..], c[1..]) {
        if a[0] == b[0] && Subsequence(a[1..], b[1..]) {
          SubsequenceTransitive(a[1..], b[1..], c[1..]);
        } else {
          SubsequenceTransitive(a, b[1..], c[1..]);
        }
      } else {
        SubsequenceTransitive(a, b, c[1..]);
      }
    }
  }

  /** A prefix one longer is the prefix and the next element. */
  lemma PrefixStep<T>(s: seq<T>, i: int)
    requires 0 <= i < |s|
    ensures s[..i + 1] == s[..i] + [s[i]]
  {
  }

  /** The elements of `s` that satisfy `p`, in their original order. */
  function Filter<T>(s: seq<T>, p: T -> bool): (r: seq<T>)
    ensures |r| <= |s|
    ensures forall i :: 0 <= i < |r| ==> p(r[i])
    ensures multiset(r) <= multiset(s)
  {
    if s == [] then []
    else
      assert s == [s[0]] + s[1..];
      (if p(s[0]) then [s[0]] else []) + Filter(s[1..], p)
  }

  /** Filtering keeps exactly the elements that satisfy the predicate. */
  lemma {:induction false} FilterMembers<T>(s: seq<T>, p: T -> bool, x: T)
    ensures x in Filter(s, p) <==> x in s && p(x)
  {
    if s != [] {
      FilterMembers(s[1..], p, x);
      assert s == [s[0]] + s[1..];
    }
  }

  /** Filtering keeps the order of the kept elements. */
  lemma {:induction false} FilterSubsequence<T>(s: seq<T>, p: T -> bool)
    ensures Subsequence(Filter(s, p), s)
  {
    if s != [] {
      FilterSubsequence(s[1..], p);
      var r := Filter(s, p);
      if p(s[0]) {
        assert r == [s[0]] + Filter(s[1..], p);
        assert r[0] == s[0] && r[1..] == Filter(s[1..], p);
        assert Subsequence(r, s);
      } else {
        assert r == Filter(s[1..], p);
        assert r == [] || Subsequence(r, s[1..]);
      }
    }
  }

  /** Filtering by a predicate every element satisfies changes nothing. */
  lemma {:induction false} FilterAll<T>(s: seq<T>, p: T -> bool)
    requires forall i :: 0 <= i < |s| ==> p(s[i])
    ensures Filter(s, p) == s
  {
    if s != [] {
      FilterAll(s[1..], p);
      assert Filter(s, p) == [s[0]] + Filter(s[1..], p);
    }
  }

  /** Filtering twice is filtering once by both predicates. */
  lemma {:induction false} FilterFilter<T>(s: seq<T>, p: T -> bool, q: T -> bool, both: T -> bool)
    requires forall x :: both(x) == (p(x) && q(x))
    ensures Filter(Filter(s, p), q) == Filter(s, both)
  {
    if s != [] {
      FilterFilter(s[1..], p, q, both);
      var rest := Filter(s[1..], p);
      if p(s[0]) {
        assert Filter(s, p) == [s[0]] + rest;
        assert Filter([s[0]] + rest, q) == (if q(s[0]) then [s[0]] else []) + Filter(rest, q) by {
          assert ([s[0]] + rest)[1..] == rest;
        }
      } else {
        assert Filter(s, p) == rest;
      }
    }
  }

  /** The length of the longest prefix of `s` whose elements all satisfy `p`. */
  function TakeWhileCount<T>(s: seq<T>, p: T -> bool): (n: nat)
    ensures n <= |s|
    decreases |s|
  {
    if s == [] || !p(s[0]) then 0 else 1 + TakeWhileCount(s[1..], p)
  }

  /** Every element before the count satisfies `p`; the element at the count, if any, does not. */
  lemma {:induction false} TakeWhileCountSpec<T>(s: seq<T>, p: T -> bool)
    ensures forall k :: 0 <= k < TakeWhileCount(s, p) ==> p(s[k])
    ensures TakeWhileCount(s, p) < |s| ==> !p(s[TakeWhileCount(s, p)])
    decreases |s|
  {
    if s != [] && p(s[0]) {
      var rest := s[1..];
      TakeWhileCountSpec(rest, p);
      var n := TakeWhileCount(rest, p);
      forall k | 0 <= k < 1 + n ensures p(s[k]) {
        if k > 0 {
          assert s[k] == rest[k - 1];
        }
      }
      if n < |rest| {
        assert s[1 + n] == rest[n];
      }
    }
  }

  /** Scanning `s` from the front, the scan stops exactly at the count. */
  lemma TakeWhileCountAt<T>(s: seq<T>, p: T -> bool, i: nat)
    requires i <= TakeWhileCount(s, p)
    ensures i == TakeWhileCount(s, p) <==> i == |s| || !p(s[i])
  {
    TakeWhileCountSpec(s, p);
  }

  /** The number of elements of `s` that satisfy `p`. */
  function Count<T>(s: seq<T>, p: T -> bool): (n: nat)
    ensures n <= |s|
  {
    if s == [] then 0 else (if p(s[0]) then 1 else 0) + Count(s[1..], p)
  }

  /** A count query agrees with the length of the matching list query. */
  lemma {:induction false} CountIsFilterLength<T>(s: seq<T>, p: T -> bool)
    ensures Count(s, p) == |Filter(s, p)|
  {
    if s != [] {
      CountIsFilterLength(s[1..], p);
    }
  }

  /** Nothing is counted exactly when no element satisfies the predicate. */
  lemma {:induction false} CountZeroIffNone<T>(s: seq<T>, p: T -> bool)
    ensures Count(s, p) == 0 <==> forall i :: 0 <= i < |s| ==> !p(s[i])
  {
    if s != [] {
      CountZeroIffNone(s[1..], p);
      assert forall i :: 1 <= i < |s| ==> s[i] == s[1..][i - 1];
    }
  }

  lemma {:induction false} CountConcat<T>(a: seq<T>, b: seq<T>, p: T -> bool)
    ensures Count(a + b, p) == Count(a, p) + Count(b, p)
  {
    if a != [] {
      CountConcat(a[1..], b, p);
      assert (a + b)[0] == a[0];
      assert (a + b)[1..] == a[1..] + b;
    } else {
      assert a + b == b;
    }
  }

  lemma {:induction false} FilterConcat<T>(a: seq<T>, b: seq<T>, p: T -> bool)
    ensures Filter(a + b, p) == Filter(a, p) + Filter(b, p)
  {
    if a != [] {
      FilterConcat(a[1..], b, p);
      assert (a + b)[0] == a[0];
      assert (a + b)[1..] == a[1..] + b;
    } else {
      assert a + b == b;
    }
  }

  /** Two predicates that agree on every value select the same elements. */
  lemma {:induction false} FilterEquivalent<T>(s: seq<T>, p: T -> bool, q: T -> bool)
    requires forall x :: p(x) == q(x)
    ensures Filter(s, p) == Filter(s, q)
    ensures Count(s, p) == Count(s, q)
  {
    if s != [] {
      FilterEquivalent(s[1..], p, q);
    }
  }

  /** An `Optional` query that matches more than one row raises `IncorrectResultSizeDataAccessException`. */
  datatype QueryError = NonUniqueResult

  /** A finder returning `Optional`: no row, the one matching row, or an error when several match. */
  function FindOne<T>(s: seq<T>, p: T -> bool): (r: Result<Option<T>, QueryError>)
    ensures r == Ok(None) <==> forall i :: 0 <= i < |s| ==> !p(s[i])
    ensures r.Ok? && r.value.Some? ==> r.value.value in s && p(r.value.value)
    ensures r.Err? <==> Count(s, p) > 1
  {
    var matches := Filter(s, p);
    CountIsFilterLength(s, p);
    CountZeroIffNone(s, p);
    if |matches| == 0 then Ok(None)
    else if |matches| == 1 then
      assert matches[0] in multiset(s);
      Ok(Some(matches[0]))
    else
      Err(NonUniqueResult)
  }

  /** `s` with every occurrence of `x` removed, the rest in order: a row deleted from a table. */
  function Without<T(==)>(s: seq<T>, x: T): (r: seq<T>)
    ensures |r| <= |s|
    ensures forall y :: y in r ==> y in s && y != x
    ensures forall y :: y in s && y != x ==> y in r
    ensures multiset(r) == multiset(s)[x := 0]
  {
    if s == [] then []
    else
      assert s == [s[0]] + s[1..];
      (if s[0] == x then [] else [s[0]]) + Without(s[1..], x)
  }

  /** Removing one more element: what is left is what was there minus everything removed so far. */
  lemma WithoutStep<T>(s0: seq<T>, s: seq<T>, done: seq<T>, x: T)
    requires forall y :: y in s <==> y in s0 && y !in done
    ensures forall y :: y in Without(s, x) <==> y in s0 && y !in done + [x]
  {
  }
}

=== FILE: sorting.dfy ===
/**
 * Stable insertion sort by a comparator, used for the `ORDER BY` clauses of
 * the repositories and for the client-side sort of user lists. Rows that the
 * comparator ranks equal keep their original relative order.
 */
module Sorting {

  /** `le` ranks any two values one way or the other, and transitively. */
  ghost predicate TotalPreorder<T(!new)>(le: (T, T) -> bool)
  {
    (forall x, y :: le(x, y) || le(y, x)) &&
    (forall x, y, z :: le(x, y) && le(y, z) ==> le(x, z))
  }

  predicate SortedBy<T>(s: seq<T>, le: (T, T) -> bool)
  {
    forall i, j :: 0 <= i < j < |s| ==> le(s[i], s[j])
  }

  /** Inserts `x` before the first element it ranks at or below. */
  function Insert<T>(x: T, s: seq<T>, le: (T, T) -> bool): (r: seq<T>)
    ensures |r| == |s| + 1
    ensures multiset(r) == multiset(s) + multiset{x}
  {
    if s == [] || le(x, s[0]) then [x] + s
    else
      assert s == [s[0]] + s[1..];
      [s[0]] + Insert(x, s[1..], le)
  }

  function SortBy<T>(s: seq<T>, le: (T, T) -> bool): (r: seq<T>)
    ensures |r| == |s|
    ensures multiset(r) == multiset(s)
  {
    if s == [] then []
    else
      assert s == [s[0]] + s[1..];
      Insert(s[0], SortBy(s[1..], le), le)
  }

  lemma {:induction false} InsertSorted<T(!new)>(x: T, s: seq<T>, le: (T, T) -> bool)
    requires TotalPreorder(le)
    requires SortedBy(s, le)
    ensures SortedBy(Insert(x, s, le), le)
  {
    if s == [] || le(x, s[0]) {
    } else {
      InsertSorted(x, s[1..], le);
      var r := Insert(x, s, le);
      var tail := Insert(x, s[1..], le);
      assert r == [s[0]] + tail;
      assert le(s[0], x);
      forall j | 0 < j < |r|
        ensures le(s[0], r[j])
      {
        assert r[j] in multiset(tail);
        assert r[j] in multiset(s[1..]) + multiset{x};
        if r[j] != x {
          assert r[j] in s[1..];
          var k :| 0 <= k < |s[1..]| && s[1..][k] == r[j];
          assert s[k + 1] == r[j];
        }
      }
    }
  }

  /** The sort returns a sorted permutation of its input. */
  lemma {:induction false} SortBySorted<T(!new)>(s: seq<T>, le: (T, T) -> bool)
    requires TotalPreorder(le)
    ensures SortedBy(SortBy(s, le), le)
  {
    if s != [] {
      SortBySorted(s[1..], le);
      InsertSorted(s[0], SortBy(s[1..], le), le);
    }
  }

  /** The elements of `s` that `le` ranks equal to `v`, in their order in `s`. */
  function Ties<T>(s: seq<T>, le: (T, T) -> bool, v: T): (r: seq<T>)
    ensures |r| <= |s|
  {
    if s == [] then []
    else (if le(s[0], v) && le(v, s[0]) then [s[0]] else []) + Ties(s[1..], le, v)
  }

  /** An element that `x` is not ranked at or below cannot tie with `v` when `x` does. */
  lemma PassedOverNotTied<T(!new)>(x: T, y: T, le: (T, T) -> bool, v: T)
    requires TotalPreorder(le)
    requires !le(x, y)
    ensures !(le(x, v) && le(v, x) && le(y, v) && le(v, y))
  {
  }

  /**
   * Inserting `x` passes over only elements ranked strictly below it, so
   * among the elements ranked equal to `v` it lands in front.
   */
  lemma {:induction false} InsertTies<T(!new)>(x: T, r: seq<T>, le: (T, T) -> bool, v: T)
    requires TotalPreorder(le)
    ensures Ties(Insert(x, r, le), le, v) == (if le(x, v) && le(v, x) then [x] else []) + Ties(r, le, v)
  {
    if r == [] || le(x, r[0]) {
      InsertFrontTies(x, r, le, v);
    } else {
      InsertTies(x, r[1..], le, v);
      PassedOverNotTied(x, r[0], le, v);
      InsertPastTies(x, r, le, v);
    }
  }

  lemma InsertFrontTies<T>(x: T, r: seq<T>, le: (T, T) -> bool, v: T)
    requires r == [] || le(x, r[0])
    ensures Ties(Insert(x, r, le), le, v) == (if le(x, v) && le(v, x) then [x] else []) + Ties(r, le, v)
  {
    assert ([x] + r)[1..] == r;
  }

  /** The step past `r[0]`, given the result for the rest of `r`. */
  lemma InsertPastTies<T>(x: T, r: seq<T>, le: (T, T) -> bool, v: T)
    requires r != [] && !le(x, r[0])
    requires !(le(x, v) && le(v, x) && le(r[0], v) && le(v, r[0]))
    requires Ties(Insert(x, r[1..], le), le, v) == (if le(x, v) && le(v, x) then [x] else []) + Ties(r[1..], le, v)
    ensures Ties(Insert(x, r, le), le, v) == (if le(x, v) && le(v, x) then [x] else []) + Ties(r, le, v)
  {
    var rest := Insert(x, r[1..], le);
    assert Insert(x, r, le) == [r[0]] + rest;
    TiesCons(r[0], rest, le, v);
    TiesCons(r[0], r[1..], le, v);
    assert r == [r[0]] + r[1..];
    SwapEmpty(if le(r[0], v) && le(v, r[0]) then [r[0]] else [],
              if le(x, v) && le(v, x) then [x] else [], Ties(r[1..], le, v));
  }

  lemma TiesCons<T>(y: T, rest: seq<T>, le: (T, T) -> bool, v: T)
    ensures Ties([y] + rest, le, v) == (if le(y, v) && le(v, y) then [y] else []) + Ties(rest, le, v)
  {
    assert ([y] + rest)[1..] == rest;
  }

  lemma SwapEmpty<T>(a: seq<T>, b: seq<T>, tail: seq<T>)
    requires a == [] || b == []
    ensures a + (b + tail) == b + (a + tail)
  {
    if a == [] {
      assert [] + (b + tail) == b + tail;
    } else {
      assert [] + tail == tail;
    }
  }

  /**
   * The sort is stable: the elements that `le` ranks equal to any `v` come
   * out in the order they went in.
   */
  lemma {:induction false} SortByStable<T(!new)>(s: seq<T>, le: (T, T) -> bool, v: T)
    requires TotalPreorder(le)
    ensures Ties(SortBy(s, le), le, v) == Ties(s, le, v)
  {
    if s != [] {
      SortByStable(s[1..], le, v);
      InsertTies(s[0], SortBy(s[1..], le), le, v);
    }
  }

  /** Values that `le` ranks both ways are the same value, among the values of `s`. */
  predicate Antisymmetric<T(==)>(s: seq<T>, le: (T, T) -> bool)
  {
    forall i, j :: 0 <= i < |s| && 0 <= j < |s| && le(s[i], s[j]) && le(s[j], s[i]) ==> s[i] == s[j]
  }

  lemma SortedTail<T>(a: seq<T>, le: (T, T) -> bool)
    requires a != [] && SortedBy(a, le)
    ensures SortedBy(a[1..], le)
  {
    forall i, j | 0 <= i < j < |a[1..]|
      ensures le(a[1..][i], a[1..][j])
    {
      assert a[1..][i] == a[i + 1] && a[1..][j] == a[j + 1];
    }
  }

  lemma AntisymmetricTail<T>(a: seq<T>, le: (T, T) -> bool)
    requires a != [] && Antisymmetric(a, le)
    ensures Antisymmetric(a[1..], le)
  {
    forall i, j | 0 <= i < |a[1..]| && 0 <= j < |a[1..]| && le(a[1..][i], a[1..][j]) && le(a[1..][j], a[1..][i])
      ensures a[1..][i] == a[1..][j]
    {
      assert a[1..][i] == a[i + 1] && a[1..][j] == a[j + 1];
    }
  }

  lemma MultisetTail<T>(a: seq<T>)
    requires a != []
    ensures multiset(a[1..]) == multiset(a) - multiset{a[0]}
  {
    assert a == [a[0]] + a[1..];
  }

  lemma SortedHeadsEqual<T>(a: seq<T>, b: seq<T>, le: (T, T) -> bool)
    requires a != [] && b != []
    requires SortedBy(a, le) && SortedBy(b, le)
    requires multiset(a) == multiset(b)
    requires Antisymmetric(a, le)
    ensures a[0] == b[0]
  {
    assert a[0] in multiset(b);
    var j :| 0 <= j < |b| && b[j] == a[0];
    assert b[0] in multiset(a);
    var k :| 0 <= k < |a| && a[k] == b[0];
    if k != 0 && j != 0 {
      assert le(a[0], a[k]);
      assert le(b[0], b[j]);
    }
  }

  /**
   * Two sorted arrangements of the same values are equal when the comparator
   * separates every two distinct values.
   */
  lemma {:induction false} SortedPermutationUnique<T>(a: seq<T>, b: seq<T>, le: (T, T) -> bool)
    requires SortedBy(a, le) && SortedBy(b, le)
    requires multiset(a) == multiset(b)
    requires Antisymmetric(a, le)
    ensures a == b
  {
    assert |a| == |multiset(a)| == |b|;
    if a != [] {
      SortedHeadsEqual(a, b, le);
      MultisetTail(a);
      MultisetTail(b);
      SortedTail(a, le);
      SortedTail(b, le);
      AntisymmetricTail(a, le);
      var ta, tb := a[1..], b[1..];
      SortedPermutationUnique(ta, tb, le);
      assert a == [a[0]] + ta;
      assert b == [b[0]] + tb;
    }
  }

  function Reverse<T>(s: seq<T>): (r: seq<T>)
    ensures |r| == |s|
    ensures forall i :: 0 <= i < |s| ==> r[i] == s[|s| - 1 - i]
  {
    if s == [] then [] else Reverse(s[1..]) + [s[0]]
  }

  lemma {:induction false} ReverseMultiset<T>(s: seq<T>)
    ensures multiset(Reverse(s)) == multiset(s)
  {
    if s != [] {
      ReverseMultiset(s[1..]);
      assert s == [s[0]] + s[1..];
    }
  }
}

=== FILE: submission_controller.dfy ===
/**
 * The REST controller for assignment submissions: submit, grade, fetch
 * the latest, delete.
 */
module SubmissionControllers {
  import opened Wrappers
  import opened Tables
  import opened Seqs
  import opened Submissions
  import Assignments

  /** The request body of a submission; the ids may be missing. */
  datatype SubmissionRequest = SubmissionRequest(assignmentId: Option<int>, studentId: Option<int>, feedback: Option<string>)

  /** The grading body, its grade already read as a number. */
  datatype GradeRequest = GradeRequest(grade: Option<real>, letterGrade: Option<string>, feedback: Option<string>)

  datatype SubmissionError =
    | NotFound
    | InvalidIds   // "Invalid assignment or student ID"
    | MissingId    // `findById(null)` throws

  /** The state a fresh submission gets from `submitAssignment` and `onCreate`. */
  function Submitted(id: int, assignment: Assignments.Assignment, studentId: int, number: int,
                     feedback: Option<string>, now: Time): (r: SubmissionState)
    ensures r.submittedAt == Some(now) && r.lastModifiedAt == Some(now)
    ensures r.isLate == Some(now > assignment.dueDate)
    ensures r.status == Some(if now > assignment.dueDate then LATE_SUBMITTED else SUBMITTED)
    ensures r.submissionNumber == Some(number) && r.grade.None? && r.gradedAt.None?
  {
    SubmissionState(id, assignment.id, studentId, Some(now), Some(now),
                    Some(CreatedStatus(None, Some(assignment.dueDate), now)),
                    None, None, feedback, None, Some(number), LateFlag(Some(assignment.dueDate), None, now))
  }

  /** The state `gradeSubmission` leaves, for a submission that carries its lateness flag. */
  function Graded(s: SubmissionState, req: GradeRequest, now: Time): (r: SubmissionState)
    requires s.isLate.Some?
    ensures r.status == Some(if s.isLate.value then LATE_GRADED else GRADED)
    ensures r.grade == req.grade && r.letterGrade == req.letterGrade && r.feedback == req.feedback
    ensures r.gradedAt == Some(now) && r.lastModifiedAt == Some(now)
    ensures r.(grade := s.grade, letterGrade := s.letterGrade, feedback := s.feedback, gradedAt := s.gradedAt,
               status := s.status, lastModifiedAt := s.lastModifiedAt) == s
  {
    s.(grade := req.grade, letterGrade := req.letterGrade, feedback := req.feedback, gradedAt := Some(now),
       status := GradedStatus(s.isLate), lastModifiedAt := Some(now))
  }

  /** Grading twice at the same moment with the same request changes nothing the second time. */
  lemma GradeIdempotent(s: SubmissionState, req: GradeRequest, now: Time)
    requires s.isLate.Some?
    ensures Graded(Graded(s, req, now), req, now) == Graded(s, req, now)
  {
  }

  class AssignmentSubmissionController {
    const assignments: Assignments.AssignmentRepository
    const students: set<int>
    const submissions: SubmissionRepository

    /** Every stored submission was made against a due date, so it carries its lateness flag. */
    ghost predicate Valid()
      reads this, assignments, submissions, submissions.rows
    {
      assignments.Valid() && submissions.Valid() && submissions.AllFlagged()
    }

    constructor(assignments: Assignments.AssignmentRepository, students: set<int>, submissions: SubmissionRepository)
      requires assignments.Valid() && submissions.Valid() && submissions.rows == []
      ensures Valid()
      ensures this.assignments == assignments && this.students == students && this.submissions == submissions
    {
      this.assignments := assignments;
      this.students := students;
      this.submissions := submissions;
    }

    /**
     * `submitAssignment`: both ids must resolve; the new submission is
     * numbered one past the student's latest for the assignment.
     */
    method Submit(req: SubmissionRequest, now: Time) returns (r: Result<SubmissionState, SubmissionError>)
      requires Valid()
      modifies submissions
      ensures Valid()
      ensures req.assignmentId.None? || req.studentId.None? ==> r == Err(MissingId)
      ensures req.assignmentId.Some? && req.studentId.Some? ==>
                (r == Err(InvalidIds) <==>
                 FindByKey(assignments.rows, Assignments.AssignmentId, req.assignmentId.value).None? || req.studentId.value !in students)
      ensures r.Err? ==> submissions.rows == old(submissions.rows)
      ensures r.Ok? ==>
                req.assignmentId.Some? && req.studentId.Some?
                && |submissions.rows| == |old(submissions.rows)| + 1
                && var s := submissions.rows[|old(submissions.rows)|];
                   fresh(s) && submissions.rows == old(submissions.rows) + [s] && r.value == s.State()
                   && r.value == Submitted(old(submissions.nextId),
                                           FindByKey(assignments.rows, Assignments.AssignmentId, req.assignmentId.value).value,
                                           req.studentId.value,
                                           old(NextNumber(submissions.rows, req.assignmentId.value, req.studentId.value)),
                                           req.feedback, now)
      ensures r.Ok? ==> old(forall t :: (t in submissions.rows && t.assignmentId == r.value.assignmentId
                                         && t.studentId == r.value.studentId) ==> Number(t) < r.value.submissionNumber.value)
    {
      if req.assignmentId.None? || req.studentId.None? {
        return Err(MissingId);
      }
      var found := FindByKey(assignments.rows, Assignments.AssignmentId, req.assignmentId.value);
      if found.None? || req.studentId.value !in students {
        return Err(InvalidIds);
      }
      var assignment := found.value;
      NextNumberExceedsEarlier(submissions.rows, assignment.id, req.studentId.value);
      var number := NextNumber(submissions.rows, assignment.id, req.studentId.value);
      var s := new AssignmentSubmission(assignment.id, req.studentId.value);
      s.submissionNumber := Some(number);
      s.feedback := req.feedback;
      submissions.Insert(s, Some(assignment.dueDate), now);
      return Ok(s.State());
    }

    /**
     * `gradeSubmission`: records grade, letter grade, feedback and the
     * grading time, and moves the status to `GRADED` or `LATE_GRADED`.
     */
    method Grade(id: int, req: GradeRequest, now: Time) returns (r: Result<SubmissionState, SubmissionError>)
      requires Valid()
      modifies submissions.rows
      ensures Valid()
      ensures submissions.rows == old(submissions.rows)
      ensures FindById(old(submissions.rows), id).None? ==> r == Err(NotFound)
      ensures FindById(old(submissions.rows), id).Some? ==>
                var s := FindById(old(submissions.rows), id).value;
                s.isLate.Some? && s.State() == Graded(old(s.State()), req, now) && r == Ok(s.State())
      ensures forall t :: t in submissions.rows && Some(t) != FindById(old(submissions.rows), id) ==> t.State() == old(t.State())
    {
      var found := FindById(submissions.rows, id);
      if found.None? {
        return Err(NotFound);
      }
      var s := found.value;
      s.SetGrading(req.grade, req.letterGrade, req.feedback, now, GradedStatus(s.isLate));
      s.OnUpdate(now);
      return Ok(s.State());
    }

    /** `getLatestSubmission`: the highest-numbered submission of the student for the assignment. */
    function GetLatest(assignmentId: int, studentId: int): (r: Result<SubmissionState, SubmissionError>)
      reads this, submissions, submissions.rows
      ensures r == Err(NotFound) <==> forall s :: s in submissions.rows ==> s.assignmentId != assignmentId || s.studentId != studentId
      ensures r.Ok? ==> r.value.assignmentId == assignmentId && r.value.studentId == studentId
      ensures r.Ok? ==> forall s :: s in submissions.rows && s.assignmentId == assignmentId && s.studentId == studentId
                          ==> s.submissionNumber.GetOr(0) <= r.value.submissionNumber.GetOr(0)
      ensures r.Ok? ==> var latest := Latest(submissions.rows, assignmentId, studentId);
                latest.Some? && latest.value in submissions.rows && r.value == latest.value.State()
    {
      match Latest(submissions.rows, assignmentId, studentId)
      case None => Err(NotFound)
      case Some(s) => Ok(s.State())
    }

    /** `deleteSubmission`: exactly the submission with the id leaves the table. */
    method Delete(id: int) returns (r: Result<(), SubmissionError>)
      requires Valid()
      modifies submissions
      ensures Valid()
      ensures FindById(old(submissions.rows), id).None? ==> r == Err(NotFound) && submissions.rows == old(submissions.rows)
      ensures FindById(old(submissions.rows), id).Some? ==>
                var s := FindById(old(submissions.rows), id).value;
                r == Ok(()) && s !in submissions.rows
                && forall t :: t in old(submissions.rows) && t != s ==> t in submissions.rows
      ensures forall t :: t in submissions.rows ==> t in old(submissions.rows)
    {
      var found := FindById(submissions.rows, id);
      if found.None? {
        return Err(NotFound);
      }
      submissions.Remove(found.value);
      return Ok(());
    }
  }
}

=== FILE: submissions.dfy ===
/**
 * Assignment submissions: the entity with its persistence callbacks, the
 * submission table, and the status rules for lateness and grading.
 */
module Submissions {
  import opened Wrappers
  import opened Seqs
  import opened Text

  type Time = int

  const SUBMITTED := "SUBMITTED"
  const LATE_SUBMITTED := "LATE_SUBMITTED"
  const GRADED := "GRADED"
  const LATE_GRADED := "LATE_GRADED"

  /** The fields of a submission at one moment; `null` is `None`. */
  datatype SubmissionState = SubmissionState(
    id: int, assignmentId: int, studentId: int,
    submittedAt: Option<Time>, lastModifiedAt: Option<Time>, status: Option<string>,
    grade: Option<real>, letterGrade: Option<string>, feedback: Option<string>, gradedAt: Option<Time>,
    submissionNumber: Option<int>, isLate: Option<bool>)

  /** Lateness as `onCreate` records it: only when the assignment has a due date. */
  function LateFlag(dueDate: Option<Time>, previous: Option<bool>, now: Time): (r: Option<bool>)
    ensures dueDate.Some? ==> r == Some(now > dueDate.value)
    ensures dueDate.None? ==> r == previous
  {
    if dueDate.Some? then Some(now > dueDate.value) else previous
  }

  /** The status after `onCreate`: a late submission is `LATE_SUBMITTED`, else the given status or `SUBMITTED`. */
  function CreatedStatus(previous: Option<string>, dueDate: Option<Time>, now: Time): (r: string)
    ensures dueDate.Some? && now > dueDate.value ==> r == LATE_SUBMITTED
    ensures !(dueDate.Some? && now > dueDate.value) ==> r == previous.GetOr(SUBMITTED)
  {
    if dueDate.Some? && now > dueDate.value then LATE_SUBMITTED else previous.GetOr(SUBMITTED)
  }

  /** A submission made with a due date is `LATE_SUBMITTED` exactly when it is flagged late. */
  lemma CreatedStatusFollowsLateness(dueDate: Option<Time>, now: Time)
    requires dueDate.Some?
    ensures CreatedStatus(None, dueDate, now) == LATE_SUBMITTED <==> LateFlag(dueDate, None, now) == Some(true)
    ensures CreatedStatus(None, dueDate, now) == SUBMITTED <==> LateFlag(dueDate, None, now) == Some(false)
  {
  }

  class AssignmentSubmission {
    var id: int
    var assignmentId: int
    var studentId: int
    var submittedAt: Option<Time>
    var lastModifiedAt: Option<Time>
    var status: Option<string>
    var grade: Option<real>
    var letterGrade: Option<string>
    var feedback: Option<string>
    var gradedAt: Option<Time>
    var submissionNumber: Option<int>
    var isLate: Option<bool>

    function State(): SubmissionState
      reads this
    {
      SubmissionState(id, assignmentId, studentId, submittedAt, lastModifiedAt, status,
                      grade, letterGrade, feedback, gradedAt, submissionNumber, isLate)
    }

    /** `new AssignmentSubmission()` followed by `setAssignment` and `setStudent`. */
    constructor(assignmentId: int, studentId: int)
      ensures State() == SubmissionState(0, assignmentId, studentId, None, None, None,
                                         None, None, None, None, None, None)
    {
      id := 0;
      this.assignmentId := assignmentId;
      this.studentId := studentId;
      submittedAt := None;
      lastModifiedAt := None;
      status := None;
      grade := None;
      letterGrade := None;
      feedback := None;
      gradedAt := None;
      submissionNumber := None;
      isLate := None;
    }

    /**
     * `onCreate` (`@PrePersist`): stamps both times, numbers the submission 1
     * unless a number was set, defaults the status, and records lateness
     * against the assignment's due date.
     */
    method OnCreate(dueDate: Option<Time>, now: Time)
      modifies this
      ensures State() == old(State()).(
        submittedAt := Some(now), lastModifiedAt := Some(now),
        submissionNumber := Some(old(submissionNumber).GetOr(1)),
        status := Some(CreatedStatus(old(status), dueDate, now)),
        isLate := LateFlag(dueDate, old(isLate), now))
    {
      submittedAt := Some(now);
      lastModifiedAt := Some(now);
      if submissionNumber.None? {
        submissionNumber := Some(1);
      }
      if status.None? {
        status := Some(SUBMITTED);
      }
      if dueDate.Some? {
        isLate := Some(now > dueDate.value);
        if now > dueDate.value {
          status := Some(LATE_SUBMITTED);
        }
      }
    }

    /** The setters `gradeSubmission` calls on the submission, one after another. */
    method SetGrading(grade: Option<real>, letterGrade: Option<string>, feedback: Option<string>,
                      gradedAt: Time, status: Option<string>)
      modifies this
      ensures State() == old(State()).(grade := grade, letterGrade := letterGrade, feedback := feedback,
                                       gradedAt := Some(gradedAt), status := status)
    {
      this.grade := grade;
      this.letterGrade := letterGrade;
      this.feedback := feedback;
      this.gradedAt := Some(gradedAt);
      this.status := status;
    }

    /** `onUpdate` (`@PreUpdate`): only the modification time moves. */
    method OnUpdate(now: Time)
      modifies this
      ensures State() == old(State()).(lastModifiedAt := Some(now))
    {
      lastModifiedAt := Some(now);
    }
  }

  // ---------------------------------------------------------------- grading status

  /**
   * The status `gradeSubmission` sets: `LATE_GRADED` for a late submission,
   * `GRADED` for one on time. `isLate` is unboxed, so a submission never
   * flagged would make grading throw; `None` stands for that.
   */
  function GradedStatus(isLate: Option<bool>): (r: Option<string>)
    ensures r.None? <==> isLate.None?
    ensures r == Some(LATE_GRADED) <==> isLate == Some(true)
    ensures r == Some(GRADED) <==> isLate == Some(false)
  {
    match isLate
    case None => None
    case Some(late) => Some(if late then LATE_GRADED else GRADED)
  }

  /** A submission created against a due date is flagged, so grading it cannot fail on the flag. */
  lemma DatedSubmissionCanBeGraded(dueDate: Time, previous: Option<bool>, now: Time)
    ensures GradedStatus(LateFlag(Some(dueDate), previous, now)).Some?
    ensures GradedStatus(LateFlag(Some(dueDate), previous, now)).value == LATE_GRADED <==> now > dueDate
  {
  }

  /** Both graded statuses mention `GRADED`, which is how response counts recognise them. */
  lemma GradedStatusesMentionGraded()
    ensures Contains(GRADED, "GRADED") && Contains(LATE_GRADED, "GRADED")
  {
    var s := LATE_GRADED;
    assert "GRADED" <= s[5..];
    assert Contains(s[5..], "GRADED");
    assert s[4..][1..] == s[5..];
    assert s[3..][1..] == s[4..];
    assert s[2..][1..] == s[3..];
    assert s[1..][1..] == s[2..];
  }

  /** Neither submitted status mentions `GRADED`: they hold no `G`. */
  lemma SubmittedStatusesNotGraded()
    ensures !Contains(SUBMITTED, "GRADED") && !Contains(LATE_SUBMITTED, "GRADED")
  {
    ContainsNeedsFirstChar(SUBMITTED, "GRADED");
    ContainsNeedsFirstChar(LATE_SUBMITTED, "GRADED");
  }

  // ---------------------------------------------------------------- queries

  function FindById(rows: seq<AssignmentSubmission>, id: int): (r: Option<AssignmentSubmission>)
    reads rows
    ensures r.Some? ==> r.value in rows && r.value.id == id
    ensures r.None? ==> forall s :: s in rows ==> s.id != id
  {
    if rows == [] then None
    else if rows[0].id == id then Some(rows[0])
    else FindById(rows[1..], id)
  }

  /** `findByAssignmentId`. */
  function ForAssignment(rows: seq<AssignmentSubmission>, assignmentId: int): (r: seq<AssignmentSubmission>)
    reads rows
    ensures forall s :: s in r ==> s in rows && s.assignmentId == assignmentId
    ensures forall s :: s in rows && s.assignmentId == assignmentId ==> s in r
  {
    if rows == [] then []
    else (if rows[0].assignmentId == assignmentId then [rows[0]] else []) + ForAssignment(rows[1..], assignmentId)
  }

  function Number(s: AssignmentSubmission): int
    reads s
  {
    s.submissionNumber.GetOr(0)
  }

  /**
   * `findTopByAssignmentIdAndStudentIdOrderBySubmissionNumberDesc`: the
   * highest-numbered submission of the student for the assignment.
   */
  function Latest(rows: seq<AssignmentSubmission>, assignmentId: int, studentId: int): (r: Option<AssignmentSubmission>)
    reads rows
    ensures r.Some? ==> r.value in rows && r.value.assignmentId == assignmentId && r.value.studentId == studentId
    ensures r.Some? ==> forall s :: s in rows && s.assignmentId == assignmentId && s.studentId == studentId ==> Number(s) <= Number(r.value)
    ensures r.None? ==> forall s :: s in rows ==> s.assignmentId != assignmentId || s.studentId != studentId
  {
    if rows == [] then None
    else
      var rest := Latest(rows[1..], assignmentId, studentId);
      var head := rows[0];
      if head.assignmentId == assignmentId && head.studentId == studentId && (rest.None? || Number(head) >= Number(rest.value))
      then Some(head)
      else rest
  }

  /** The number the next submission gets: one past the latest, or 1 for the first. */
  function NextNumber(rows: seq<AssignmentSubmission>, assignmentId: int, studentId: int): int
    reads rows
  {
    match Latest(rows, assignmentId, studentId)
    case None => 1
    case Some(s) => Number(s) + 1
  }

  /** The new number exceeds every earlier number of the same student for the same assignment. */
  lemma NextNumberExceedsEarlier(rows: seq<AssignmentSubmission>, assignmentId: int, studentId: int)
    ensures forall s :: s in rows && s.assignmentId == assignmentId && s.studentId == studentId
                        ==> Number(s) < NextNumber(rows, assignmentId, studentId)
    ensures (forall s :: s in rows ==> Number(s) >= 1) ==> NextNumber(rows, assignmentId, studentId) >= 1
  {
  }

  /** The status mentions `GRADED`, which is how response counts recognise a graded submission. */
  predicate IsGraded(s: AssignmentSubmission)
    reads s
  {
    s.status.Some? && Contains(s.status.value, "GRADED")
  }

  /** How many submissions of the assignment are graded. */
  function GradedCount(rows: seq<AssignmentSubmission>, assignmentId: int): (n: nat)
    reads rows
    ensures n <= |ForAssignment(rows, assignmentId)|
  {
    if rows == [] then 0
    else (if rows[0].assignmentId == assignmentId && IsGraded(rows[0]) then 1 else 0) + GradedCount(rows[1..], assignmentId)
  }

  /** While every submission of the assignment still has a submitted status, none is counted as graded. */
  lemma {:induction false} UngradedNotCounted(rows: seq<AssignmentSubmission>, assignmentId: int)
    requires forall s :: s in rows && s.assignmentId == assignmentId ==>
               s.status == Some(SUBMITTED) || s.status == Some(LATE_SUBMITTED)
    ensures GradedCount(rows, assignmentId) == 0
  {
    if rows != [] {
      SubmittedStatusesNotGraded();
      UngradedNotCounted(rows[1..], assignmentId);
    }
  }

  /** Once every submission of the assignment is graded, all of them are counted. */
  lemma {:induction false} AllGradedCounted(rows: seq<AssignmentSubmission>, assignmentId: int)
    requires forall s :: s in rows && s.assignmentId == assignmentId ==>
               s.status == Some(GRADED) || s.status == Some(LATE_GRADED)
    ensures GradedCount(rows, assignmentId) == |ForAssignment(rows, assignmentId)|
  {
    if rows != [] {
      GradedStatusesMentionGraded();
      AllGradedCounted(rows[1..], assignmentId);
    }
  }

  // ---------------------------------------------------------------- the table

  /** The submission table. */
  class SubmissionRepository {
    var rows: seq<AssignmentSubmission>
    var nextId: int

    ghost predicate Valid()
      reads this, rows
    {
      nextId >= 1
      && (forall s :: s in rows ==> multiset(rows)[s] == 1)
      && (forall a, b :: a in rows && b in rows && a.id == b.id ==> a == b)
      && (forall s :: s in rows ==> 1 <= s.id < nextId && s.submissionNumber.Some?)
    }

    constructor()
      ensures Valid() && rows == []
    {
      rows := [];
      nextId := 1;
    }

    /** Every stored submission carries its lateness flag. */
    ghost predicate AllFlagged()
      reads this, rows
    {
      forall s :: s in rows ==> s.isLate.Some?
    }

    /** `save` of a new submission: runs `onCreate`, assigns the next id, appends the row. */
    method Insert(s: AssignmentSubmission, dueDate: Option<Time>, now: Time)
      requires Valid() && s !in rows
      modifies this, s
      ensures Valid()
      ensures rows == old(rows) + [s]
      ensures s.State() == old(s.State()).(
        id := old(nextId), submittedAt := Some(now), lastModifiedAt := Some(now),
        submissionNumber := Some(old(s.submissionNumber).GetOr(1)),
        status := Some(CreatedStatus(old(s.status), dueDate, now)),
        isLate := LateFlag(dueDate, old(s.isLate), now))
      ensures old(AllFlagged()) && dueDate.Some? ==> AllFlagged()
    {
      s.OnCreate(dueDate, now);
      s.id := nextId;
      rows := rows + [s];
      nextId := nextId + 1;
    }

    /** `delete`: the row leaves the table. */
    method Remove(s: AssignmentSubmission)
      requires Valid()
      modifies this
      ensures Valid()
      ensures rows == Without(old(rows), s) && nextId == old(nextId)
    {
      rows := Without(rows, s);
    }

    /** `delete` of each given submission in turn. */
    method RemoveEach(doomed: seq<AssignmentSubmission>)
      requires Valid()
      modifies this
      ensures Valid() && nextId == old(nextId)
      ensures forall s :: s in rows <==> s in old(rows) && s !in doomed
    {
      var i := 0;
      while i < |doomed|
        invariant 0 <= i <= |doomed|
        invariant Valid() && nextId == old(nextId)
        invariant forall s :: s in rows <==> s in old(rows) && s !in doomed[..i]
      {
        WithoutStep(old(rows), rows, doomed[..i], doomed[i]);
        Remove(doomed[i]);
        assert doomed[..i + 1] == doomed[..i] + [doomed[i]];
        i := i + 1;
      }
      assert doomed[..i] == doomed;
    }
  }
}

=== FILE: tables.dfy ===
/**
 * Tables keyed by a generated id: the rows of a JPA repository kept in
 * insertion order, with the lookups and updates every repository shares.
 */
module Tables {
  import opened Wrappers
  import opened Seqs

  /** Ids are generated in increasing order, so they increase along the table. */
  predicate KeysIncreasing<T>(rows: seq<T>, key: T -> int)
  {
    forall i, j :: 0 <= i < j < |rows| ==> key(rows[i]) < key(rows[j])
  }

  /** A row appended with an id above every stored one keeps the ids increasing. */
  lemma AppendKeepsKeysIncreasing<T>(rows: seq<T>, key: T -> int, x: T)
    requires KeysIncreasing(rows, key)
    requires forall y :: y in rows ==> key(y) < key(x)
    ensures KeysIncreasing(rows + [x], key)
  {
    var r := rows + [x];
    forall i, j | 0 <= i < j < |r| ensures key(r[i]) < key(r[j]) {
      if j == |rows| {
        assert r[i] in rows;
      }
    }
  }

  /** Rows with the same ids at the same places are ordered alike. */
  lemma SameKeysIncreasing<T>(a: seq<T>, b: seq<T>, key: T -> int)
    requires KeysIncreasing(a, key)
    requires |a| == |b| && forall k :: 0 <= k < |a| ==> key(a[k]) == key(b[k])
    ensures KeysIncreasing(b, key)
  {
  }

  /** `findById`. */
  function FindByKey<T>(rows: seq<T>, key: T -> int, k: int): (r: Option<T>)
    ensures r.Some? ==> r.value in rows && key(r.value) == k
    ensures r.None? ==> forall x :: x in rows ==> key(x) != k
  {
    if rows == [] then None
    else if key(rows[0]) == k then Some(rows[0])
    else FindByKey(rows[1..], key, k)
  }

  /** In a table with distinct ids, the row found for an id is the only row with it. */
  lemma FindByKeyUnique<T>(rows: seq<T>, key: T -> int, x: T)
    requires KeysIncreasing(rows, key)
    requires x in rows
    ensures FindByKey(rows, key, key(x)) == Some(x)
  {
    var y := FindByKey(rows, key, key(x)).value;
    var i :| 0 <= i < |rows| && rows[i] == x;
    var j :| 0 <= j < |rows| && rows[j] == y;
    assert i == j;
  }

  /** `save` of a stored row: the row with the same id is replaced, nothing else moves. */
  function ReplaceByKey<T>(rows: seq<T>, key: T -> int, x: T): (r: seq<T>)
    ensures |r| == |rows|
    ensures forall i :: 0 <= i < |rows| ==> r[i] == if key(rows[i]) == key(x) then x else rows[i]
  {
    if rows == [] then [] else [if key(rows[0]) == key(x) then x else rows[0]] + ReplaceByKey(rows[1..], key, x)
  }

  /** Replacing a row by one with the same id keeps the ids, hence their order. */
  lemma ReplaceByKeyKeepsKeys<T>(rows: seq<T>, key: T -> int, x: T)
    ensures forall i :: 0 <= i < |rows| ==> key(ReplaceByKey(rows, key, x)[i]) == key(rows[i])
  {
  }

  /** `delete`: every row with the id leaves the table, the rest keep their order. */
  function RemoveKey<T>(rows: seq<T>, key: T -> int, k: int): (r: seq<T>)
    ensures forall x :: x in r ==> x in rows && key(x) != k
    ensures forall x :: x in rows && key(x) != k ==> x in r
    ensures |r| <= |rows|
  {
    if rows == [] then []
    else (if key(rows[0]) == k then [] else [rows[0]]) + RemoveKey(rows[1..], key, k)
  }

  /** Removing rows keeps the remaining ids increasing. */
  lemma {:induction false} RemoveKeyKeepsOrder<T>(rows: seq<T>, key: T -> int, k: int)
    requires KeysIncreasing(rows, key)
    ensures KeysIncreasing(RemoveKey(rows, key, k), key)
  {
    if rows != [] {
      RemoveKeyKeepsOrder(rows[1..], key, k);
      var rest := RemoveKey(rows[1..], key, k);
      forall x | x in rest ensures key(rows[0]) < key(x) {
        var j :| 0 <= j < |rows[1..]| && rows[1..][j] == x;
        assert rows[j + 1] == x;
      }
    }
  }

  /** A row appended with an id above every stored one is found by that id. */
  lemma {:induction false} FindByKeyAppended<T>(rows: seq<T>, key: T -> int, x: T)
    requires forall y :: y in rows ==> key(y) < key(x)
    ensures FindByKey(rows + [x], key, key(x)) == Some(x)
  {
    if rows != [] {
      assert (rows + [x])[1..] == rows[1..] + [x];
      FindByKeyAppended(rows[1..], key, x);
    }
  }

  /** The ids held in a table. */
  function KeySet<T(==)>(rows: seq<T>, key: T -> int): (ids: set<int>)
    ensures forall k :: k in ids <==> exists x :: x in rows && key(x) == k
  {
    set x | x in rows :: key(x)
  }

  /** One more row adds its id to the ids held. */
  lemma KeySetSnoc<T>(rows: seq<T>, x: T, key: T -> int)
    ensures KeySet(rows + [x], key) == KeySet(rows, key) + {key(x)}
  {
    forall k | k in KeySet(rows + [x], key) ensures k in KeySet(rows, key) + {key(x)} {
      var y :| y in rows + [x] && key(y) == k;
      if y != x {
        assert y in rows;
      }
    }
    forall k | k in KeySet(rows, key) ensures k in KeySet(rows + [x], key) {
      var y :| y in rows && key(y) == k;
      assert y in rows + [x];
    }
    assert x in rows + [x];
  }

  /** Rows saved one after another draw consecutive ids from the generator. */
  lemma AppendConsecutive<T>(rows: seq<T>, extra: seq<T>, key: T -> int, next: int)
    requires KeysIncreasing(rows, key) && forall x :: x in rows ==> key(x) < next
    requires forall k :: 0 <= k < |extra| ==> key(extra[k]) == next + k
    ensures KeysIncreasing(rows + extra, key)
    ensures forall x :: x in rows + extra ==> key(x) < next + |extra|
  {
    var r := rows + extra;
    forall i, j | 0 <= i < j < |r| ensures key(r[i]) < key(r[j]) {
      if i < |rows| && j >= |rows| {
        assert r[i] in rows;
      }
    }
    forall x | x in r ensures key(x) < next + |extra| {
      var i :| 0 <= i < |r| && r[i] == x;
      if i < |rows| {
        assert r[i] in rows;
      }
    }
  }

  /** Keeping some rows of a table, in order, keeps its ids increasing. */
  lemma SubsequenceKeepsKeysIncreasing<T>(a: seq<T>, b: seq<T>, key: T -> int)
    requires Subsequence(a, b) && KeysIncreasing(b, key)
    ensures KeysIncreasing(a, key)
  {
    forall i, j | 0 <= i < j < |a| ensures key(a[i]) < key(a[j]) {
      SubsequenceIndices(a, b, i, j);
    }
  }
}

=== FILE: text.dfy ===
/**
 * The string operations of the Java and JavaScript standard libraries that the
 * platform relies on: trimming, ASCII case mapping, prefix and substring tests,
 * decimal printing, `Long.parseLong`, and the two different `split` semantics.
 */
module Text {
  import opened Wrappers

  // ---------------------------------------------------------------- trimming

  /** `part` occurs in `s` as a contiguous slice. */
  predicate IsInfix(part: string, s: string)
  {
    exists i :: 0 <= i <= |s| && part <= s[i..]
  }

  /** `String.trim()` in Java strips every character at or below U+0020. */
  predicate IsJavaTrimmed(c: char) { c <= ' ' }

  function JavaTrimStart(s: string): (r: string)
    ensures |r| <= |s| && r == s[|s| - |r|..]
    ensures r == [] || !IsJavaTrimmed(r[0])
    ensures forall i :: 0 <= i < |s| - |r| ==> IsJavaTrimmed(s[i])
  {
    if s != [] && IsJavaTrimmed(s[0]) then JavaTrimStart(s[1..]) else s
  }

  function JavaTrimEnd(s: string): (r: string)
    ensures |r| <= |s| && r == s[..|r|]
    ensures r == [] || !IsJavaTrimmed(r[|r| - 1])
    ensures forall i :: |r| <= i < |s| ==> IsJavaTrimmed(s[i])
  {
    if s != [] && IsJavaTrimmed(s[|s| - 1]) then JavaTrimEnd(s[..|s| - 1]) else s
  }

  /** Java `String.trim()`: the longest slice with no trimmable character at either end. */
  function JavaTrim(s: string): (r: string)
    ensures IsInfix(r, s)
    ensures r == [] || (!IsJavaTrimmed(r[0]) && !IsJavaTrimmed(r[|r| - 1]))
  {
    var t := JavaTrimStart(s);
    var r := JavaTrimEnd(t);
    assert r <= s[|s| - |t|..];
    r
  }

  /** `s == null || s.trim().isEmpty()` for a present string. */
  predicate IsJavaBlank(s: string) { JavaTrim(s) == "" }

  lemma {:induction false} JavaTrimStartEmpty(s: string)
    ensures JavaTrimStart(s) == "" <==> forall i :: 0 <= i < |s| ==> IsJavaTrimmed(s[i])
  {
    if s != [] && IsJavaTrimmed(s[0]) {
      JavaTrimStartEmpty(s[1..]);
      assert forall i :: 1 <= i < |s| ==> s[i] == s[1..][i - 1];
    }
  }

  /** A string is blank exactly when every character of it is trimmable. */
  lemma JavaBlankIffAllTrimmed(s: string)
    ensures IsJavaBlank(s) <==> forall i :: 0 <= i < |s| ==> IsJavaTrimmed(s[i])
  {
    JavaTrimStartEmpty(s);
  }

  /** Trimming twice is trimming once. */
  lemma JavaTrimIdempotent(s: string)
    ensures JavaTrim(JavaTrim(s)) == JavaTrim(s)
  {
    var r := JavaTrim(s);
    if r != [] {
      assert JavaTrimStart(r) == r;
      assert JavaTrimEnd(r) == r;
    }
  }

  /**
   * `String.prototype.trim()` in JavaScript strips the WhiteSpace and
   * LineTerminator code points of ECMAScript, a different set from Java's.
   */
  predicate IsJsWhiteSpace(c: char)
  {
    c == '\t' || c == '\n' || c == '\U{B}' || c == '\U{C}' || c == '\r' || c == ' '
    || c == '\U{A0}' || c == '\U{1680}' || ('\U{2000}' <= c <= '\U{200A}')
    || c == '\U{2028}' || c == '\U{2029}' || c == '\U{202F}' || c == '\U{205F}'
    || c == '\U{3000}' || c == '\U{FEFF}'
  }

  function JsTrimStart(s: string): (r: string)
    ensures |r| <= |s| && r == s[|s| - |r|..]
    ensures r == [] || !IsJsWhiteSpace(r[0])
    ensures forall i :: 0 <= i < |s| - |r| ==> IsJsWhiteSpace(s[i])
  {
    if s != [] && IsJsWhiteSpace(s[0]) then JsTrimStart(s[1..]) else s
  }

  function JsTrimEnd(s: string): (r: string)
    ensures |r| <= |s| && r == s[..|r|]
    ensures r == [] || !IsJsWhiteSpace(r[|r| - 1])
    ensures forall i :: |r| <= i < |s| ==> IsJsWhiteSpace(s[i])
  {
    if s != [] && IsJsWhiteSpace(s[|s| - 1]) then JsTrimEnd(s[..|s| - 1]) else s
  }

  /** JavaScript `String.prototype.trim()`. */
  function JsTrim(s: string): (r: string)
    ensures IsInfix(r, s)
    ensures r == [] || (!IsJsWhiteSpace(r[0]) && !IsJsWhiteSpace(r[|r| - 1]))
  {
    var t := JsTrimStart(s);
    var r := JsTrimEnd(t);
    assert r <= s[|s| - |t|..];
    r
  }

  // ---------------------------------------------------------------- case

  function LowerChar(c: char): char { if 'A' <= c <= 'Z' then c - 'A' + 'a' else c }

  function UpperChar(c: char): char { if 'a' <= c <= 'z' then c - 'a' + 'A' else c }

  /** `toLowerCase()` restricted to the ASCII letters. */
  function Lower(s: string): (r: string)
    ensures |r| == |s|
    ensures forall i :: 0 <= i < |s| ==> r[i] == LowerChar(s[i])
  {
    if s == [] then [] else [LowerChar(s[0])] + Lower(s[1..])
  }

  /** `toUpperCase()` restricted to the ASCII letters. */
  function Upper(s: string): (r: string)
    ensures |r| == |s|
    ensures forall i :: 0 <= i < |s| ==> r[i] == UpperChar(s[i])
  {
    if s == [] then [] else [UpperChar(s[0])] + Upper(s[1..])
  }

  /** Java `String.equalsIgnoreCase`: same length, and each pair of characters equal up to case. */
  predicate EqualsIgnoreCase(a: string, b: string)
  {
    |a| == |b| &&
    forall i :: 0 <= i < |a| ==>
      a[i] == b[i] || UpperChar(a[i]) == UpperChar(b[i]) || LowerChar(a[i]) == LowerChar(b[i])
  }

  /** Comparing ignoring case is comparing the lower-cased strings. */
  lemma EqualsIgnoreCaseIffLowerEqual(a: string, b: string)
    ensures EqualsIgnoreCase(a, b) <==> Lower(a) == Lower(b)
  {
    if EqualsIgnoreCase(a, b) {
      forall i | 0 <= i < |a| ensures Lower(a)[i] == Lower(b)[i] {
        CharsEqualIgnoringCase(a[i], b[i]);
      }
      assert Lower(a) == Lower(b);
    }
    if Lower(a) == Lower(b) {
      forall i | 0 <= i < |a|
        ensures a[i] == b[i] || UpperChar(a[i]) == UpperChar(b[i]) || LowerChar(a[i]) == LowerChar(b[i])
      {
        assert Lower(a)[i] == Lower(b)[i];
      }
    }
  }

  lemma CharsEqualIgnoringCase(x: char, y: char)
    ensures (x == y || UpperChar(x) == UpperChar(y) || LowerChar(x) == LowerChar(y)) <==> LowerChar(x) == LowerChar(y)
  {
  }

  // ---------------------------------------------------------------- searching

  /** `startsWith` in Java and JavaScript. */
  predicate StartsWith(s: string, prefix: string) { prefix <= s }

  /** Java `String.contains` and JavaScript `String.prototype.includes`. */
  predicate Contains(s: string, part: string)
    decreases |s|
  {
    part <= s || (s != [] && Contains(s[1..], part))
  }

  /** A string that lacks the first character of `part` does not contain `part`. */
  lemma {:induction false} ContainsNeedsFirstChar(s: string, part: string)
    requires part != [] && part[0] !in s
    ensures !Contains(s, part)
    decreases |s|
  {
    if s != [] {
      ContainsNeedsFirstChar(s[1..], part);
    }
  }

  /** `Contains` holds exactly when `part` occurs in `s` as a contiguous slice. */
  lemma {:induction false} ContainsIffInfix(s: string, part: string)
    ensures Contains(s, part) <==> IsInfix(part, s)
    decreases |s|
  {
    if part <= s {
      assert part <= s[0..];
    } else if s != [] {
      ContainsIffInfix(s[1..], part);
      if IsInfix(part, s) {
        var i :| 0 <= i <= |s| && part <= s[i..];
        assert i != 0;
        assert s[1..][i - 1..] == s[i..];
      }
      if Contains(s[1..], part) {
        var j :| 0 <= j <= |s[1..]| && part <= s[1..][j..];
        assert s[1..][j..] == s[j + 1..];
      }
    }
  }

  /** Every string contains the empty string. */
  lemma ContainsEmpty(s: string)
    ensures Contains(s, "")
  {
  }

  // ---------------------------------------------------------------- numbers

  const LONG_MIN: int := -0x8000_0000_0000_0000
  const LONG_MAX: int := 0x7FFF_FFFF_FFFF_FFFF

  predicate IsDigit(c: char) { '0' <= c <= '9' }

  /** The regular expression `\d+` of `String.matches`: one or more ASCII digits. */
  predicate AllDigits(s: string) { |s| >= 1 && forall i :: 0 <= i < |s| ==> IsDigit(s[i]) }

  function DigitChar(d: nat): char
    requires d < 10
  {
    '0' + d as char
  }

  /** The value of a run of ASCII digits. */
  function DigitsValue(s: string): (v: nat)
    requires forall i :: 0 <= i < |s| ==> IsDigit(s[i])
  {
    if s == [] then 0
    else
      var last := s[|s| - 1];
      assert IsDigit(last);
      DigitsValue(s[..|s| - 1]) * 10 + (last as int - '0' as int)
  }

  /** Decimal digits of a natural number, without leading zeros. */
  function NatToString(n: nat): (r: string)
    ensures AllDigits(r)
    ensures |r| > 1 ==> r[0] != '0'
  {
    if n < 10 then [DigitChar(n)] else NatToString(n / 10) + [DigitChar(n % 10)]
  }

  /** `String.valueOf(long)` and JavaScript `String(number)` on integers. */
  function IntToString(n: int): (r: string)
    ensures r != []
    ensures n >= 0 ==> AllDigits(r)
    ensures n < 0 ==> r[0] == '-' && AllDigits(r[1..])
  {
    if n < 0 then "-" + NatToString(-n) else NatToString(n)
  }

  lemma {:induction false} DigitsValueOfNatToString(n: nat)
    ensures DigitsValue(NatToString(n)) == n
  {
    if n >= 10 {
      var s := NatToString(n);
      DigitsValueOfNatToString(n / 10);
      assert s[..|s| - 1] == NatToString(n / 10);
    }
  }

  /**
   * `Long.parseLong(s)` in base 10: an optional sign followed by one or more
   * ASCII digits whose value fits a signed 64-bit integer; anything else
   * raises `NumberFormatException`, modelled as `None`.
   */
  function ParseLong(s: string): (r: Option<int>)
    ensures r.Some? ==> LONG_MIN <= r.value <= LONG_MAX
    ensures r.Some? ==> s != []
  {
    if s == [] then None
    else if s[0] == '-' || s[0] == '+' then
      var body := s[1..];
      if !AllDigits(body) then None
      else
        var d: int := DigitsValue(body);
        var v := if s[0] == '-' then -d else d;
        if LONG_MIN <= v <= LONG_MAX then Some(v) else None
    else if !AllDigits(s) then None
    else if DigitsValue(s) <= LONG_MAX then Some(DigitsValue(s))
    else None
  }

  /** Printing a 64-bit value and parsing it back gives the value. */
  lemma ParseLongOfIntToString(n: int)
    requires LONG_MIN <= n <= LONG_MAX
    ensures ParseLong(IntToString(n)) == Some(n)
  {
    var s := IntToString(n);
    if n < 0 {
      var body := NatToString(-n);
      assert s == "-" + body && s[1..] == body;
      DigitsValueOfNatToString(-n);
      assert DigitsValue(s[1..]) == -n;
    } else {
      DigitsValueOfNatToString(n);
      assert IsDigit(s[0]);
      assert s[0] != '-' && s[0] != '+';
    }
  }

  /** A string of digits is accepted exactly when its value does not exceed `Long.MAX_VALUE`. */
  lemma ParseLongDigits(s: string)
    requires AllDigits(s)
    ensures ParseLong(s) == (if DigitsValue(s) <= LONG_MAX then Some(DigitsValue(s)) else None)
  {
  }

  // ---------------------------------------------------------------- splitting

  /** Every field of `s` between occurrences of `sep`, including empty ones. */
  function SplitAll(s: string, sep: char): (r: seq<string>)
    ensures |r| >= 1
    ensures forall i :: 0 <= i < |r| ==> sep !in r[i]
    ensures sep !in s ==> r == [s]
  {
    if s == [] then [""]
    else if s[0] == sep then [""] + SplitAll(s[1..], sep)
    else
      var rest := SplitAll(s[1..], sep);
      assert sep !in s ==> sep !in s[1..] && [s[0]] + s[1..] == s by {
        if sep !in s { assert forall c :: c in s[1..] ==> c in s; }
      }
      [[s[0]] + rest[0]] + rest[1..]
  }

  /** Fields joined back with the separator. */
  function Join(parts: seq<string>, sep: char): string
  {
    if parts == [] then ""
    else if |parts| == 1 then parts[0]
    else parts[0] + [sep] + Join(parts[1..], sep)
  }

  /** Splitting and joining again gives back the original string. */
  lemma {:induction false} JoinSplitAll(s: string, sep: char)
    ensures Join(SplitAll(s, sep), sep) == s
  {
    if s == [] {
    } else if s[0] == sep {
      JoinSplitAll(s[1..], sep);
      var rest := SplitAll(s[1..], sep);
      assert SplitAll(s, sep) == [""] + rest;
      assert ([""] + rest)[1..] == rest;
      assert s == [sep] + s[1..];
    } else {
      var rest := SplitAll(s[1..], sep);
      JoinSplitAll(s[1..], sep);
      var r := [[s[0]] + rest[0]] + rest[1..];
      assert SplitAll(s, sep) == r;
      if |rest| == 1 {
        assert Join(r, sep) == [s[0]] + rest[0];
      } else {
        assert r[1..] == rest[1..];
        assert Join(rest, sep) == rest[0] + [sep] + Join(rest[1..], sep);
        assert Join(r, sep) == [s[0]] + rest[0] + [sep] + Join(rest[1..], sep);
      }
      assert s == [s[0]] + s[1..];
    }
  }

  /** Drops the empty strings at the end of a list of fields. */
  function DropTrailingEmpty(parts: seq<string>): (r: seq<string>)
    ensures r <= parts
    ensures r == [] || r[|r| - 1] != ""
    ensures forall i :: |r| <= i < |parts| ==> parts[i] == ""
  {
    if parts != [] && parts[|parts| - 1] == "" then DropTrailingEmpty(parts[..|parts| - 1]) else parts
  }

  /**
   * Java `String.split` with a one-character separator and no limit: the
   * string itself when the separator does not occur, otherwise the fields
   * with trailing empty strings removed.
   */
  function JavaSplit(s: string, sep: char): (r: seq<string>)
    ensures sep !in s ==> r == [s]
    ensures r <= SplitAll(s, sep)
  {
    if sep !in s then [s] else DropTrailingEmpty(SplitAll(s, sep))
  }

  predicate AllEmpty(parts: seq<string>) { forall i :: 0 <= i < |parts| ==> parts[i] == "" }

  predicate AllSep(s: string, sep: char) { forall i :: 0 <= i < |s| ==> s[i] == sep }

  lemma {:induction false} SplitAllAllEmpty(s: string, sep: char)
    ensures AllEmpty(SplitAll(s, sep)) <==> AllSep(s, sep)
  {
    if s != [] {
      SplitAllAllEmpty(s[1..], sep);
      var r := SplitAll(s, sep);
      var rest := SplitAll(s[1..], sep);
      if s[0] == sep {
        assert r == [""] + rest;
        assert AllSep(s, sep) <==> AllSep(s[1..], sep) by {
          assert forall i :: 1 <= i < |s| ==> s[i] == s[1..][i - 1];
        }
        if AllEmpty(rest) {
          assert forall i :: 1 <= i < |r| ==> r[i] == rest[i - 1];
        }
        if AllEmpty(r) {
          assert forall i :: 0 <= i < |rest| ==> rest[i] == r[i + 1];
        }
      } else {
        assert r[0] != "";
      }
    }
  }

  /**
   * Java `split` returns no fields at all exactly for a non-empty string made
   * only of separators; every other string yields at least one field.
   */
  lemma JavaSplitEmpty(s: string, sep: char)
    ensures JavaSplit(s, sep) == [] <==> s != [] && AllSep(s, sep)
  {
    SplitAllAllEmpty(s, sep);
    if s != [] && AllSep(s, sep) {
      assert s[0] == sep;
    }
  }

  /** JavaScript `split` with a one-character separator keeps every field. */
  function JsSplit(s: string, sep: char): (r: seq<string>)
    ensures |r| >= 1
    ensures Join(r, sep) == s
  {
    JoinSplitAll(s, sep);
    SplitAll(s, sep)
  }

  /** JavaScript `s.substring(0, n)`: the first `n` characters, or all of them when fewer. */
  function Take(s: string, n: nat): (r: string)
    ensures |r| <= n && r <= s
    ensures |s| >= n ==> |r| == n
    ensures |s| < n ==> r == s
  {
    if |s| <= n then s else s[..n]
  }

  /** Splitting at a separator placed between two strings splits each side on its own. */
  /** After the last separator, the last field is everything that follows it. */
  lemma {:induction false} SplitAllLastField(a: string, b: string, sep: char)
    requires sep !in b
    ensures var r := SplitAll(a + [sep] + b, sep);
      |r| >= 2 && r[|r| - 1] == b
    decreases |a|
  {
    var s := a + [sep] + b;
    SplitAllFirst(s, sep);
    if a == [] {
      assert s[0] == sep && s[1..] == b;
    } else {
      SplitAllLastField(a[1..], b, sep);
      assert s[1..] == a[1..] + [sep] + b;
    }
  }

  /** A string with one separator between two separator-free strings splits into those two. */
  lemma {:induction false} SplitAllTwoFields(a: string, b: string, sep: char)
    requires sep !in a && sep !in b
    ensures SplitAll(a + [sep] + b, sep) == [a, b]
    decreases |a|
  {
    var s := a + [sep] + b;
    SplitAllFirst(s, sep);
    if a == [] {
      assert s[0] == sep && s[1..] == b;
    } else {
      assert a[0] != sep && sep !in a[1..];
      SplitAllTwoFields(a[1..], b, sep);
      assert s[1..] == a[1..] + [sep] + b;
      var rest := SplitAll(s[1..], sep);
      assert rest[0] == a[1..] && rest[1..] == [b];
      assert [s[0]] + rest[0] == a;
    }
  }

  /** One unfolding of `SplitAll`. */
  lemma SplitAllFirst(s: string, sep: char)
    requires s != []
    ensures var rest := SplitAll(s[1..], sep);
      SplitAll(s, sep) == if s[0] == sep then [""] + rest else [[s[0]] + rest[0]] + rest[1..]
  {
  }

  /** The last field of `a/b` under Java `split`, when `b` is a non-empty field without separators. */
  lemma JavaSplitLastField(a: string, b: string, sep: char)
    requires b != [] && sep !in b
    ensures var parts := JavaSplit(a + [sep] + b, sep);
      parts != [] && parts[|parts| - 1] == b
  {
    var s := a + [sep] + b;
    assert s[|a|] == sep;
    SplitAllLastField(a, b, sep);
  }

  /** JavaScript `padStart(n, c)`: `s` preceded by enough copies of `c` to make it `n` long. */
  function PadStart(s: string, n: nat, c: char): (r: string)
    ensures |r| == if |s| >= n then |s| else n
    ensures r[|r| - |s|..] == s
    ensures forall i :: 0 <= i < |r| - |s| ==> r[i] == c
  {
    if |s| >= n then s else seq(n - |s|, _ => c) + s
  }

  // ---------------------------------------------------------------- ordering

  /** Lexicographic order on UTF-16 code units, `a` at or before `b`. */
  predicate LexLe(a: string, b: string)
  {
    a == [] || (b != [] && (a[0] < b[0] || (a[0] == b[0] && LexLe(a[1..], b[1..]))))
  }

  lemma {:induction false} LexLeTotal(a: string, b: string)
    ensures LexLe(a, b) || LexLe(b, a)
  {
    if a != [] && b != [] && a[0] == b[0] {
      LexLeTotal(a[1..], b[1..]);
    }
  }

  lemma {:induction false} LexLeTransitive(a: string, b: string, c: string)
    requires LexLe(a, b) && LexLe(b, c)
    ensures LexLe(a, c)
  {
    if a != [] && a[0] == b[0] && b[0] == c[0] {
      LexLeTransitive(a[1..], b[1..], c[1..]);
    }
  }
}

=== FILE: user_search_api.dfy ===
/**
 * The user-search helpers of the browser client: the name, initials and
 * role label shown for a user, and the client-side filtering, ordering and
 * suggestion lists over the users a search returned.
 */
module UserSearchApi {
  import opened Wrappers
  import opened Text
  import opened Seqs
  import opened Sorting

  /** A user as the search endpoint returns it; absent JSON fields are `None`. */
  datatype SearchUser = SearchUser(id: int, name: Option<string>, email: Option<string>,
                                   role: Option<string>, isOnline: bool)

  const UNKNOWN_USER: string := "Unknown User"

  /** JavaScript truthiness of a string that may be `null` or `undefined`. */
  predicate Truthy(s: Option<string>) { s.Some? && s.value != "" }

  /** The name counts when it is present and not only white space. */
  predicate HasName(u: SearchUser) { Truthy(u.name) && JsTrim(u.name.value) != "" }

  /**
   * `getUserDisplayName`: `"Unknown User"` for no user, the name when it
   * is not blank, otherwise the email, which may itself be missing.
   */
  function UserDisplayName(user: Option<SearchUser>): (r: Option<string>)
    ensures user.None? ==> r == Some(UNKNOWN_USER)
    ensures user.Some? && HasName(user.value) ==> r == user.value.name && JsTrim(r.value) != ""
    ensures user.Some? && !HasName(user.value) ==> r == user.value.email
  {
    if user.None? then Some(UNKNOWN_USER)
    else if HasName(user.value) then user.value.name
    else user.value.email
  }

  /** `part.charAt(0).toUpperCase()`: empty for an empty part. */
  function Initial(part: string): (r: string)
    ensures |r| <= 1 && (r == [] <==> part == [])
  {
    if part == [] then [] else [UpperChar(part[0])]
  }

  /** No lower-case ASCII letter in `s`. */
  predicate NoLowerCase(s: string) { forall i :: 0 <= i < |s| ==> !('a' <= s[i] <= 'z') }

  lemma UpperHasNoLowerCase(s: string)
    ensures NoLowerCase(Upper(s))
  {
  }

  lemma TakeKeepsNoLowerCase(s: string, n: nat)
    requires NoLowerCase(s)
    ensures NoLowerCase(Take(s, n))
  {
    var r := Take(s, n);
    assert forall i :: 0 <= i < |r| ==> r[i] == s[i];
  }

  /** The initials of every part, joined. */
  function Initials(parts: seq<string>): (r: string)
    ensures NoLowerCase(r)
  {
    if parts == [] then [] else Initial(parts[0]) + Initials(parts[1..])
  }

  /**
   * `getUserInitials`: `"?"` when there is nothing to show, otherwise the
   * initials of the display name.
   */
  function UserInitials(user: Option<SearchUser>): (r: string)
    ensures |r| <= 2 && NoLowerCase(r)
    ensures var d := UserDisplayName(user);
      !Truthy(d) || d.value == UNKNOWN_USER ==> r == "?"
  {
    var d := UserDisplayName(user);
    if !Truthy(d) || d.value == UNKNOWN_USER then "?" else NameInitials(d.value)
  }

  /**
   * For a name of several space-separated parts, the first letters of the
   * first two non-empty parts; otherwise the first two letters; upper-cased.
   */
  function NameInitials(name: string): (r: string)
    ensures |r| <= 2 && NoLowerCase(r)
  {
    var parts := JsSplit(name, ' ');
    if |parts| > 1 then
      TakeKeepsNoLowerCase(Initials(parts), 2);
      Take(Initials(parts), 2)
    else
      UpperHasNoLowerCase(Take(name, 2));
      Upper(Take(name, 2))
  }

  /** A user with a name, other than "Unknown User", shows the initials of that name. */
  lemma InitialsOfNamedUser(u: SearchUser)
    requires HasName(u) && u.name.value != UNKNOWN_USER
    ensures UserInitials(Some(u)) == NameInitials(u.name.value)
  {
  }

  /** "First Last" gives the two capitalised first letters. */
  lemma InitialsOfFirstAndLast(first: string, last: string)
    requires first != [] && last != [] && ' ' !in first && ' ' !in last
    ensures NameInitials(first + " " + last) == [UpperChar(first[0]), UpperChar(last[0])]
  {
    var n := first + " " + last;
    SplitAllTwoFields(first, last, ' ');
    assert first + [' '] + last == n;
    var parts := JsSplit(n, ' ');
    assert parts == [first, last];
    var ini := Initials(parts);
    assert ini == Initial(first) + Initials([last]) by {
      assert parts[1..] == [last];
    }
    assert Initials([last]) == Initial(last) + Initials([]);
    assert Take(ini, 2) == ini;
  }

  /** A single word gives its first two characters, upper-cased. */
  lemma InitialsOfOneWord(word: string)
    requires |word| >= 2 && ' ' !in word
    ensures NameInitials(word) == Upper(word[..2])
  {
    assert JsSplit(word, ' ') == [word];
    assert Take(word, 2) == word[..2];
  }

  /**
   * `getUserRoleDisplay`: the label of a known role, otherwise the role
   * itself, or `"Unknown"` when there is none.
   */
  function RoleDisplay(role: Option<string>): (r: string)
    ensures r != ""
    ensures !Truthy(role) ==> r == "Unknown"
  {
    if role == Some("STUDENT") then "Student"
    else if role == Some("FACULTY") then "Faculty"
    else if role == Some("ADMIN") then "Admin"
    else if Truthy(role) then role.value
    else "Unknown"
  }

  /** Every role is shown as itself up to the case of its letters. */
  lemma RoleDisplayIgnoresOnlyCase(role: Option<string>)
    requires Truthy(role)
    ensures EqualsIgnoreCase(RoleDisplay(role), role.value)
  {
    var r := RoleDisplay(role);
    var v := role.value;
    if v == "STUDENT" || v == "FACULTY" || v == "ADMIN" {
      assert |r| == |v|;
      forall i | 0 <= i < |r| ensures r[i] == v[i] || LowerChar(r[i]) == LowerChar(v[i]) {
        if v == "STUDENT" {
          assert r == "Student";
        } else if v == "FACULTY" {
          assert r == "Faculty";
        } else {
          assert r == "Admin";
        }
      }
    } else {
      assert r == v;
    }
  }

  predicate HasRole(role: string, u: SearchUser) { u.role == Some(role) }

  /** `filterUsersByRole`: every user when no role is given, otherwise those with that role, in order. */
  function FilterUsersByRole(users: seq<SearchUser>, role: Option<string>): (r: seq<SearchUser>)
    ensures !Truthy(role) ==> r == users
    ensures Subsequence(r, users)
    ensures Truthy(role) ==> forall u :: u in r <==> u in users && u.role == role
  {
    if !Truthy(role) then
      SubsequenceReflexive(users);
      users
    else
      var keep := u => HasRole(role.value, u);
      FilterSubsequence(users, keep);
      forall u ensures u in Filter(users, keep) <==> u in users && u.role == role {
        FilterMembers(users, keep, u);
      }
      Filter(users, keep)
  }

  // ---------------------------------------------------------------- ordering

  /**
   * The lower-cased display name the sort compares. A user whose display
   * name is missing compares as the empty string.
   */
  function SortName(u: SearchUser): string
  {
    var d := UserDisplayName(Some(u));
    Lower(if d.Some? then d.value else "")
  }

  /** The comparator of `sortUsersByOnlineStatus`, as "may come first": online first, then by name. */
  predicate OnlineFirst(a: SearchUser, b: SearchUser)
  {
    (a.isOnline && !b.isOnline) || (a.isOnline == b.isOnline && LexLe(SortName(a), SortName(b)))
  }

  lemma OnlineFirstIsTotalPreorder()
    ensures TotalPreorder(OnlineFirst)
  {
    forall a, b ensures OnlineFirst(a, b) || OnlineFirst(b, a) {
      LexLeTotal(SortName(a), SortName(b));
    }
    forall a, b, c | OnlineFirst(a, b) && OnlineFirst(b, c) ensures OnlineFirst(a, c) {
      if a.isOnline == b.isOnline == c.isOnline {
        LexLeTransitive(SortName(a), SortName(b), SortName(c));
      }
    }
  }

  /**
   * `sortUsersByOnlineStatus`: a stably sorted copy, so the same users with
   * every online user ahead of every offline one, and each group by name.
   */
  function SortUsersByOnlineStatus(users: seq<SearchUser>): (r: seq<SearchUser>)
    ensures multiset(r) == multiset(users)
    ensures SortedBy(r, OnlineFirst)
    ensures forall i, j :: 0 <= i < j < |r| && r[j].isOnline ==> r[i].isOnline
  {
    OnlineFirstIsTotalPreorder();
    SortBySorted(users, OnlineFirst);
    var r := SortBy(users, OnlineFirst);
    assert forall i, j :: 0 <= i < j < |r| ==> OnlineFirst(r[i], r[j]);
    r
  }

  // ---------------------------------------------------------------- suggestions

  /** A missing name, email or role searches as the empty string. */
  function OrEmpty(s: Option<string>): string { if s.Some? then s.value else "" }

  /** The user's name, email or role contains the lower-cased search term. */
  predicate Matches(term: string, u: SearchUser)
  {
    Contains(Lower(OrEmpty(u.name)), term) || Contains(Lower(OrEmpty(u.email)), term)
    || Contains(Lower(OrEmpty(u.role)), term)
  }

  /** The term a query searches for: lower-cased, then trimmed. */
  function SearchTerm(query: string): string { JsTrim(Lower(query)) }

  /**
   * `getSearchSuggestions`: nothing for a missing or blank query, otherwise
   * the users whose name, email or role contains the term, in order.
   */
  function SearchSuggestions(query: Option<string>, users: seq<SearchUser>): (r: seq<SearchUser>)
    ensures !Truthy(query) || JsTrim(query.value) == "" ==> r == []
    ensures Subsequence(r, users)
    ensures Truthy(query) && JsTrim(query.value) != "" ==>
              forall u :: u in r <==> u in users && Matches(SearchTerm(query.value), u)
  {
    if !Truthy(query) || JsTrim(query.value) == "" then
      assert Subsequence([], users);
      []
    else
      var term := SearchTerm(query.value);
      var keep := u => Matches(term, u);
      FilterSubsequence(users, keep);
      forall u ensures u in Filter(users, keep) <==> u in users && Matches(term, u) {
        FilterMembers(users, keep, u);
      }
      Filter(users, keep)
  }

  /** Narrowing by role and suggesting by query may be done in either order. */
  lemma SuggestionsCommuteWithRoleFilter(query: Option<string>, users: seq<SearchUser>, role: string)
    requires role != ""
    ensures FilterUsersByRole(SearchSuggestions(query, users), Some(role))
         == SearchSuggestions(query, FilterUsersByRole(users, Some(role)))
  {
    var byRole := u => HasRole(role, u);
    if Truthy(query) && JsTrim(query.value) != "" {
      var term := SearchTerm(query.value);
      var byTerm := u => Matches(term, u);
      var both := u => HasRole(role, u) && Matches(term, u);
      var both' := u => Matches(term, u) && HasRole(role, u);
      FilterFilter(users, byTerm, byRole, both);
      FilterFilter(users, byRole, byTerm, both');
      FilterEquivalent(users, both, both');
    } else {
      assert Filter([], byRole) == [];
    }
  }
}

=== FILE: websocket.dfy ===
/**
 * Real-time chat over STOMP: the event envelope pushed to subscribers, the
 * controller that turns client frames into service calls and broadcasts,
 * and the listener that reacts to sessions opening and closing.
 *
 * Each handler is specified by a pure outcome function of the tables before
 * the call, the authenticated principal's name and the frame's data; the
 * broker is an append-only outbox of deliveries.
 */
module WebSocket {
  import opened Wrappers
  import opened Text
  import opened ChatModel
  import Messages
  import ChatRooms
  import opened ChatServices

  // ---------------------------------------------------------------- envelope

  /** The event kinds the server emits; an error is sent with the bare type `"ERROR"`. */
  datatype EventKind = NEW_MESSAGE | MESSAGE_DELETED | USER_ONLINE | USER_OFFLINE
                     | TYPING_START | TYPING_STOP | MESSAGE_READ

  function KindName(k: EventKind): string
  {
    match k
    case NEW_MESSAGE => "NEW_MESSAGE"
    case MESSAGE_DELETED => "MESSAGE_DELETED"
    case USER_ONLINE => "USER_ONLINE"
    case USER_OFFLINE => "USER_OFFLINE"
    case TYPING_START => "TYPING_START"
    case TYPING_STOP => "TYPING_STOP"
    case MESSAGE_READ => "MESSAGE_READ"
  }

  const ERROR_TYPE := "ERROR"

  /** Clients dispatch on the type string: distinct kinds have distinct names, none of them `"ERROR"`. */
  lemma KindNamesDistinct(a: EventKind, b: EventKind)
    ensures KindName(a) == KindName(b) <==> a == b
    ensures KindName(a) != ERROR_TYPE
  {
  }

  /** What an event carries: a full message, an id, or an error text. */
  datatype Payload = Response(message: MessageResponse) | Id(id: int) | Text(text: string)

  /** `WebSocketMessage`: the timestamp is the time the envelope was built. */
  datatype Event = Event(kind: string, data: Payload, chatRoomId: Option<int>,
                         senderId: Option<int>, timestamp: Time)

  function NewMessageEvent(resp: MessageResponse, now: Time): (e: Event)
    ensures e.kind == KindName(NEW_MESSAGE) && e.data == Response(resp)
    ensures e.chatRoomId == Some(resp.chatRoomId) && e.senderId == Some(resp.sender.id)
  {
    Event(KindName(NEW_MESSAGE), Response(resp), Some(resp.chatRoomId), Some(resp.sender.id), now)
  }

  function MessageDeletedEvent(messageId: int, chatRoomId: int, senderId: int, now: Time): (e: Event)
    ensures e.kind == KindName(MESSAGE_DELETED) && e.data == Id(messageId)
    ensures e.chatRoomId == Some(chatRoomId) && e.senderId == Some(senderId)
  {
    Event(KindName(MESSAGE_DELETED), Id(messageId), Some(chatRoomId), Some(senderId), now)
  }

  /** Presence events name the user and no room. */
  function UserOnlineEvent(userId: int, now: Time): (e: Event)
    ensures e.kind == KindName(USER_ONLINE) && e.data == Id(userId) && e.chatRoomId.None? && e.senderId.None?
  {
    Event(KindName(USER_ONLINE), Id(userId), None, None, now)
  }

  function UserOfflineEvent(userId: int, now: Time): (e: Event)
    ensures e.kind == KindName(USER_OFFLINE) && e.data == Id(userId) && e.chatRoomId.None? && e.senderId.None?
  {
    Event(KindName(USER_OFFLINE), Id(userId), None, None, now)
  }

  /** Typing and read receipts carry the acting user both as data and as sender. */
  function RoomUserEvent(kind: EventKind, chatRoomId: int, userId: int, now: Time): (e: Event)
    requires kind in {TYPING_START, TYPING_STOP, MESSAGE_READ}
    ensures e.kind == KindName(kind) && e.data == Id(userId)
    ensures e.chatRoomId == Some(chatRoomId) && e.senderId == Some(userId)
  {
    Event(KindName(kind), Id(userId), Some(chatRoomId), Some(userId), now)
  }

  /** Why a handler failed. */
  datatype Failure =
    | NoPrincipal             // the session has no authenticated user
    | BadNumber(input: string) // `Long.parseLong` rejected the text
    | MissingData             // the frame had no `data`, so `toString()` hit null
    | Service(error: ChatError)

  function FailureMessage(f: Failure): string
  {
    match f
    case NoPrincipal => "Sender ID not found"
    case BadNumber(input) => "For input string: \"" + input + "\""
    case MissingData =>
      "Cannot invoke \"Object.toString()\" because the return value of "
      + "\"com.sikhshan.dto.WebSocketMessage.getData()\" is null"
    case Service(e) => ErrorMessage(e)
  }

  const SEND_FAILED := "Failed to send message: "
  const DELETE_FAILED := "Failed to delete message: "
  const READ_FAILED := "Failed to mark messages as read: "

  /** An error envelope: no room, no sender, the operation's prefix before the cause. */
  function ErrorEvent(prefix: string, f: Failure, now: Time): (e: Event)
    ensures e.kind == ERROR_TYPE && e.chatRoomId.None? && e.senderId.None?
    ensures e.data.Text? && prefix <= e.data.text
  {
    Event(ERROR_TYPE, Text(prefix + FailureMessage(f)), None, None, now)
  }

  // ---------------------------------------------------------------- routing

  datatype Delivery = Delivery(destination: string, event: Event)

  const PUBLIC_TOPIC := "/topic/public"
  const ROOM_TOPIC_PREFIX := "/topic/chat/"

  function RoomTopic(chatRoomId: int): string
  {
    ROOM_TOPIC_PREFIX + IntToString(chatRoomId)
  }

  /** The private error queue of a user. */
  function ErrorQueue(name: string): string
  {
    "/user/" + name + "/queue/errors"
  }

  /** Two rooms with 64-bit ids never share a topic, and no room topic is the public one. */
  lemma RoomTopicsDistinct(a: int, b: int)
    requires LONG_MIN <= a <= LONG_MAX && LONG_MIN <= b <= LONG_MAX
    ensures RoomTopic(a) == RoomTopic(b) <==> a == b
    ensures RoomTopic(a) != PUBLIC_TOPIC
  {
    if RoomTopic(a) == RoomTopic(b) {
      assert IntToString(a) == RoomTopic(a)[|ROOM_TOPIC_PREFIX|..];
      assert IntToString(b) == RoomTopic(b)[|ROOM_TOPIC_PREFIX|..];
      ParseLongOfIntToString(a);
      ParseLongOfIntToString(b);
    }
    assert RoomTopic(a)[1] == 't' && RoomTopic(a)[7] == 'c';
    assert PUBLIC_TOPIC[7] == 'p';
  }

  // ---------------------------------------------------------------- parsing the frame

  /** The user id behind the session: the principal's name read as a `long`. */
  function Authenticate(principal: Option<string>): (r: Result<int, Failure>)
    ensures r.Ok? ==> principal.Some? && ParseLong(principal.value) == Some(r.value)
    ensures r.Err? ==> r.error == (if principal.None? then NoPrincipal else BadNumber(principal.value))
  {
    match principal
    case None => Err(NoPrincipal)
    case Some(name) =>
      match ParseLong(name)
      case None => Err(BadNumber(name))
      case Some(id) => Ok(id)
  }

  /** A session whose principal is named after a 64-bit user id authenticates as that user. */
  lemma AuthenticateUserId(userId: int)
    requires LONG_MIN <= userId <= LONG_MAX
    ensures Authenticate(Some(IntToString(userId))) == Ok(userId)
  {
    ParseLongOfIntToString(userId);
  }

  /** The id in a frame's `data`, read through its text. */
  function DataId(data: Option<string>): (r: Result<int, Failure>)
    ensures r.Ok? ==> data.Some? && ParseLong(data.value) == Some(r.value)
    ensures data.None? ==> r == Err(MissingData)
  {
    match data
    case None => Err(MissingData)
    case Some(text) =>
      match ParseLong(text)
      case None => Err(BadNumber(text))
      case Some(id) => Ok(id)
  }

  // ---------------------------------------------------------------- outcomes

  /**
   * `/chat.sendMessage`: the event the handler returns and the deliveries it
   * makes. On success the event goes to the room's topic; whatever the
   * handler returns, success or error, is then broadcast on the public topic.
   */
  function SendOutcome(rooms: seq<ChatRoom>, users: map<int, User>, nextId: int,
                       req: MessageRequest, principal: Option<string>, now: Time): (r: (Event, seq<Delivery>))
    ensures |r.1| >= 1 && r.1[|r.1| - 1] == Delivery(PUBLIC_TOPIC, r.0)
    ensures r.0.kind == KindName(NEW_MESSAGE) || r.0.kind == ERROR_TYPE
  {
    match Authenticate(principal)
    case Err(f) =>
      var ev := ErrorEvent(SEND_FAILED, f, now);
      (ev, [Delivery(PUBLIC_TOPIC, ev)])
    case Ok(senderId) =>
      match PrepareMessage(rooms, users, req, senderId, now)
      case Err(e) =>
        var ev := ErrorEvent(SEND_FAILED, Service(e), now);
        (ev, [Delivery(PUBLIC_TOPIC, ev)])
      case Ok((room, m)) =>
        var ev := NewMessageEvent(ToMessageResponse(m.(id := nextId)), now);
        (ev, [Delivery(RoomTopic(req.chatRoomId), ev), Delivery(PUBLIC_TOPIC, ev)])
  }

  /**
   * A new message reaches a room's topic only when the session's user is a
   * participant of that room, and the event names that room and that user.
   */
  lemma SendReachesRoomOnlyFromMember(rooms: seq<ChatRoom>, users: map<int, User>, nextId: int,
                                      req: MessageRequest, principal: Option<string>, now: Time, d: Delivery)
    requires d in SendOutcome(rooms, users, nextId, req, principal, now).1
    requires d.destination != PUBLIC_TOPIC
    requires forall id :: id in users ==> users[id].id == id
    ensures Authenticate(principal).Ok?
    ensures var senderId := Authenticate(principal).value;
      ChatRooms.FindById(rooms, req.chatRoomId).Some?
      && ContainsUser(ChatRooms.FindById(rooms, req.chatRoomId).value, senderId)
      && d == Delivery(RoomTopic(req.chatRoomId), d.event)
      && d.event.kind == KindName(NEW_MESSAGE)
      && d.event.chatRoomId == Some(req.chatRoomId) && d.event.senderId == Some(senderId)
  {
  }

  /** Every new message, including one in a private room, is also broadcast on the public topic. */
  lemma SendAlwaysBroadcastsPublicly(rooms: seq<ChatRoom>, users: map<int, User>, nextId: int,
                                     req: MessageRequest, principal: Option<string>, now: Time)
    requires Authenticate(principal).Ok?
    requires PrepareMessage(rooms, users, req, Authenticate(principal).value, now).Ok?
    ensures var (ev, ds) := SendOutcome(rooms, users, nextId, req, principal, now);
      ev.kind == KindName(NEW_MESSAGE) && Delivery(PUBLIC_TOPIC, ev) in ds
      && ev.data.Response? && ev.data.message.content == DisplayContent(
           PrepareMessage(rooms, users, req, Authenticate(principal).value, now).value.1)
  {
  }

  /** What a handler without a return value does with its failure. */
  datatype Outcome = Delivered(deliveries: seq<Delivery>) | Escaped

  /**
   * Routes a failed attempt to the user's error queue. The catch block reads
   * the principal's name again, so without a principal the handler itself
   * throws and nothing is delivered.
   */
  function Route(attempt: Result<Delivery, Failure>, prefix: string, principal: Option<string>, now: Time): (r: Outcome)
    ensures attempt.Ok? ==> r == Delivered([attempt.value])
    ensures attempt.Err? && principal.None? ==> r == Escaped
    ensures attempt.Err? && principal.Some? ==>
      r == Delivered([Delivery(ErrorQueue(principal.value), ErrorEvent(prefix, attempt.error, now))])
  {
    match attempt
    case Ok(d) => Delivered([d])
    case Err(f) =>
      if principal.None? then Escaped
      else Delivered([Delivery(ErrorQueue(principal.value), ErrorEvent(prefix, f, now))])
  }

  /** The delivery `/chat.deleteMessage` attempts, or why it failed. */
  function DeleteAttempt(messages: seq<Message>, users: map<int, User>,
                         principal: Option<string>, data: Option<string>, now: Time): Result<Delivery, Failure>
  {
    match Authenticate(principal)
    case Err(f) => Err(f)
    case Ok(senderId) =>
      match DataId(data)
      case Err(f) => Err(f)
      case Ok(messageId) =>
        match PrepareDelete(messages, users, messageId, senderId, now)
        case Err(e) => Err(Service(e))
        case Ok(deleted) =>
          Ok(Delivery(RoomTopic(deleted.roomId), MessageDeletedEvent(messageId, deleted.roomId, senderId, now)))
  }

  /** `/chat.deleteMessage`: announces the deletion in the message's own room. */
  function DeleteOutcome(messages: seq<Message>, users: map<int, User>,
                         principal: Option<string>, data: Option<string>, now: Time): (r: Outcome)
    ensures r.Escaped? <==> principal.None?
    ensures r.Delivered? ==> |r.deliveries| == 1
  {
    Route(DeleteAttempt(messages, users, principal, data, now), DELETE_FAILED, principal, now)
  }

  /**
   * A deletion is announced only for the session user's own message, on the
   * topic of the room the message belongs to; any other frame gets an error
   * on the user's private queue.
   */
  lemma DeleteAnnouncedOnlyByAuthor(messages: seq<Message>, users: map<int, User>,
                                    principal: Option<string>, data: Option<string>, now: Time, d: Delivery)
    requires DeleteOutcome(messages, users, principal, data, now).Delivered?
    requires d in DeleteOutcome(messages, users, principal, data, now).deliveries
    ensures d.event.kind == KindName(MESSAGE_DELETED) || d == Delivery(ErrorQueue(principal.value), d.event)
    ensures d.event.kind == KindName(MESSAGE_DELETED) ==>
      Authenticate(principal).Ok? && DataId(data).Ok?
      && var m := Messages.FindById(messages, DataId(data).value);
         m.Some? && IsFromUser(m.value, Authenticate(principal).value)
         && d.destination == RoomTopic(m.value.roomId)
         && d.event.chatRoomId == Some(m.value.roomId)
  {
    var attempt := DeleteAttempt(messages, users, principal, data, now);
    if attempt.Ok? {
      var pd := PrepareDelete(messages, users, DataId(data).value, Authenticate(principal).value, now);
      assert pd.Ok?;
      assert pd.value.roomId == Messages.FindById(messages, DataId(data).value).value.roomId;
    } else {
      assert ErrorEvent(DELETE_FAILED, attempt.error, now).kind == ERROR_TYPE;
    }
  }

  /** The delivery `/chat.markAsRead` attempts, or why it failed. */
  function ReadAttempt(rooms: seq<ChatRoom>, principal: Option<string>, data: Option<string>, now: Time): Result<Delivery, Failure>
  {
    match Authenticate(principal)
    case Err(f) => Err(f)
    case Ok(userId) =>
      match DataId(data)
      case Err(f) => Err(f)
      case Ok(chatRoomId) =>
        match CheckAccess(rooms, chatRoomId, userId)
        case Err(e) => Err(Service(e))
        case Ok(_) => Ok(Delivery(RoomTopic(chatRoomId), RoomUserEvent(MESSAGE_READ, chatRoomId, userId, now)))
  }

  /** `/chat.markAsRead`: a read receipt on the room's topic. */
  function ReadOutcome(rooms: seq<ChatRoom>, principal: Option<string>, data: Option<string>, now: Time): (r: Outcome)
    ensures r.Escaped? <==> principal.None?
    ensures r.Delivered? ==> |r.deliveries| == 1
  {
    Route(ReadAttempt(rooms, principal, data, now), READ_FAILED, principal, now)
  }

  /** A read receipt is published only by a participant of the room it names. */
  lemma ReceiptOnlyFromMember(rooms: seq<ChatRoom>, principal: Option<string>, data: Option<string>, now: Time, d: Delivery)
    requires ReadOutcome(rooms, principal, data, now).Delivered?
    requires d in ReadOutcome(rooms, principal, data, now).deliveries
    requires d.event.kind == KindName(MESSAGE_READ)
    ensures Authenticate(principal).Ok? && DataId(data).Ok?
    ensures CheckAccess(rooms, DataId(data).value, Authenticate(principal).value).Ok?
    ensures d.destination == RoomTopic(DataId(data).value)
    ensures d.event.senderId == Some(Authenticate(principal).value)
  {
  }

  /**
   * `/chat.typing` and `/chat.stopTyping`: an indicator on the room's topic;
   * any failure is swallowed. Membership is not checked.
   */
  function TypingOutcome(start: bool, principal: Option<string>, data: Option<string>, now: Time): (r: seq<Delivery>)
    ensures |r| <= 1
    ensures r == [] <==> Authenticate(principal).Err? || DataId(data).Err?
  {
    match Authenticate(principal)
    case Err(_) => []
    case Ok(userId) =>
      match DataId(data)
      case Err(_) => []
      case Ok(chatRoomId) =>
        [Delivery(RoomTopic(chatRoomId), RoomUserEvent(if start then TYPING_START else TYPING_STOP, chatRoomId, userId, now))]
  }

  /** A well-formed typing frame is relayed to the named room whether or not the user belongs to it. */
  lemma TypingIgnoresMembership(start: bool, userId: int, chatRoomId: int, now: Time)
    requires LONG_MIN <= userId <= LONG_MAX && LONG_MIN <= chatRoomId <= LONG_MAX
    ensures TypingOutcome(start, Some(IntToString(userId)), Some(IntToString(chatRoomId)), now)
         == [Delivery(RoomTopic(chatRoomId),
                      RoomUserEvent(if start then TYPING_START else TYPING_STOP, chatRoomId, userId, now))]
  {
    ParseLongOfIntToString(userId);
    ParseLongOfIntToString(chatRoomId);
  }

  // ---------------------------------------------------------------- the controller

  /** The STOMP controller and the broker's record of what it published. */
  class WebSocketController {
    const service: ChatService
    var outbox: seq<Delivery>

    ghost predicate Valid()
      reads this, service, service.roomRepo, service.messageRepo
    {
      service.Valid()
    }

    constructor(service: ChatService)
      requires service.Valid()
      ensures Valid() && this.service == service && outbox == []
    {
      this.service := service;
      outbox := [];
    }

    /** `sendMessage`: stores the message through the service, then publishes as `SendOutcome` says. */
    method SendMessage(req: MessageRequest, principal: Option<string>, now: Time) returns (ev: Event)
      requires Valid()
      modifies this, service.roomRepo, service.messageRepo
      ensures Valid()
      ensures var (e, ds) := SendOutcome(old(service.roomRepo.rows), service.users, old(service.messageRepo.nextId), req, principal, now);
        ev == e && outbox == old(outbox) + ds
      ensures Authenticate(principal).Err? ==>
        service.roomRepo.rows == old(service.roomRepo.rows) && service.messageRepo.rows == old(service.messageRepo.rows)
      ensures Authenticate(principal).Ok? ==>
        var prep := PrepareMessage(old(service.roomRepo.rows), service.users, req, Authenticate(principal).value, now);
        (prep.Err? ==> service.roomRepo.rows == old(service.roomRepo.rows) && service.messageRepo.rows == old(service.messageRepo.rows))
        && (prep.Ok? ==>
              service.messageRepo.rows == old(service.messageRepo.rows) + [prep.value.1.(id := old(service.messageRepo.nextId))]
              && service.roomRepo.rows == ChatRooms.ReplaceById(old(service.roomRepo.rows), prep.value.0.(lastMessageAt := now)))
    {
      var auth := Authenticate(principal);
      if auth.Err? {
        ev := ErrorEvent(SEND_FAILED, auth.error, now);
        outbox := outbox + [Delivery(PUBLIC_TOPIC, ev)];
        return;
      }
      var r := service.SendMessage(req, auth.value, now);
      if r.Err? {
        ev := ErrorEvent(SEND_FAILED, Service(r.error), now);
        outbox := outbox + [Delivery(PUBLIC_TOPIC, ev)];
        return;
      }
      ev := NewMessageEvent(r.value, now);
      outbox := outbox + [Delivery(RoomTopic(req.chatRoomId), ev)];
      outbox := outbox + [Delivery(PUBLIC_TOPIC, ev)];
    }

    /** `deleteMessage`: soft-deletes through the service and announces it, or reports the failure privately. */
    method DeleteMessage(principal: Option<string>, data: Option<string>, now: Time) returns (escaped: bool)
      requires Valid()
      modifies this, service.messageRepo
      ensures Valid()
      ensures var out := DeleteOutcome(old(service.messageRepo.rows), service.users, principal, data, now);
        escaped == out.Escaped? && outbox == old(outbox) + (if out.Delivered? then out.deliveries else [])
      ensures var attempt := DeleteAttempt(old(service.messageRepo.rows), service.users, principal, data, now);
        (attempt.Err? ==> service.messageRepo.rows == old(service.messageRepo.rows))
        && (attempt.Ok? ==>
              var d := PrepareDelete(old(service.messageRepo.rows), service.users, DataId(data).value,
                                     Authenticate(principal).value, now);
              d.Ok? && service.messageRepo.rows == Messages.ReplaceById(old(service.messageRepo.rows), d.value))
    {
      var attempt: Result<Delivery, Failure>;
      var auth := Authenticate(principal);
      var id := DataId(data);
      if auth.Err? {
        attempt := Err(auth.error);
      } else if id.Err? {
        attempt := Err(id.error);
      } else {
        var r := service.DeleteMessage(id.value, auth.value, now);
        if r.Err? {
          attempt := Err(Service(r.error));
        } else {
          attempt := Ok(Delivery(RoomTopic(r.value.chatRoomId),
                                 MessageDeletedEvent(id.value, r.value.chatRoomId, auth.value, now)));
        }
      }
      var out := Route(attempt, DELETE_FAILED, principal, now);
      escaped := out.Escaped?;
      if out.Delivered? {
        outbox := outbox + out.deliveries;
      }
    }

    /** `markMessagesAsRead`: marks through the service and publishes a read receipt, or reports the failure privately. */
    method MarkMessagesAsRead(principal: Option<string>, data: Option<string>, now: Time) returns (escaped: bool)
      requires Valid()
      modifies this, service.messageRepo
      ensures Valid()
      ensures var out := ReadOutcome(old(service.roomRepo.rows), principal, data, now);
        escaped == out.Escaped? && outbox == old(outbox) + (if out.Delivered? then out.deliveries else [])
      ensures var attempt := ReadAttempt(old(service.roomRepo.rows), principal, data, now);
        (attempt.Err? ==> service.messageRepo.rows == old(service.messageRepo.rows))
        && (attempt.Ok? ==>
              service.messageRepo.rows
                == Messages.MarkRead(old(service.messageRepo.rows), DataId(data).value, Authenticate(principal).value))
    {
      var attempt: Result<Delivery, Failure>;
      var auth := Authenticate(principal);
      var id := DataId(data);
      if auth.Err? {
        attempt := Err(auth.error);
      } else if id.Err? {
        attempt := Err(id.error);
      } else {
        var r := service.MarkMessagesAsRead(id.value, auth.value);
        if r.Err? {
          attempt := Err(Service(r.error));
        } else {
          attempt := Ok(Delivery(RoomTopic(id.value), RoomUserEvent(MESSAGE_READ, id.value, auth.value, now)));
        }
      }
      var out := Route(attempt, READ_FAILED, principal, now);
      escaped := out.Escaped?;
      if out.Delivered? {
        outbox := outbox + out.deliveries;
      }
    }

    /** `handleTyping` (`start`) and `handleStopTyping`: relay the indicator; failures are dropped. */
    method Typing(start: bool, principal: Option<string>, data: Option<string>, now: Time)
      requires Valid()
      modifies this
      ensures Valid()
      ensures outbox == old(outbox) + TypingOutcome(start, principal, data, now)
    {
      outbox := outbox + TypingOutcome(start, principal, data, now);
    }
  }

  // ---------------------------------------------------------------- session events

  /** Marks users online and offline as their sessions open and close. */
  class WebSocketEventListener {
    const service: ChatService

    constructor(service: ChatService)
      ensures this.service == service
    {
      this.service := service;
    }

    /** `handleWebSocketConnectListener`: the user whose presence call is made, if the name is a number. */
    method HandleConnect(principal: Option<string>) returns (marked: Option<int>)
      ensures marked == (if Authenticate(principal).Ok? then Some(Authenticate(principal).value) else None)
      ensures unchanged(service, service.roomRepo, service.messageRepo)
    {
      var auth := Authenticate(principal);
      marked := None;
      if auth.Ok? {
        service.MarkUserOnline(auth.value);
        marked := Some(auth.value);
      }
    }

    /** `handleWebSocketDisconnectListener`: as `HandleConnect`, marking the user offline. */
    method HandleDisconnect(principal: Option<string>) returns (marked: Option<int>)
      ensures marked == (if Authenticate(principal).Ok? then Some(Authenticate(principal).value) else None)
      ensures unchanged(service, service.roomRepo, service.messageRepo)
    {
      var auth := Authenticate(principal);
      marked := None;
      if auth.Ok? {
        service.MarkUserOffline(auth.value);
        marked := Some(auth.value);
      }
    }
  }
}

=== FILE: wrappers.dfy ===
/** Optional values and results with an error channel, shared by every module. */
module Wrappers {

  /** A value that may be absent (Java `null`, `Optional.empty()`, JavaScript `undefined`). */
  datatype Option<T> = None | Some(value: T)
  {
    function GetOr(default: T): (r: T)
      ensures Some? ==> r == value
      ensures None? ==> r == default
    {
      match this
      case Some(v) => v
      case None => default
    }
  }

  /** The outcome of an operation that either returns a value or fails with an error. */
  datatype Result<T, E> = Ok(value: T) | Err(error: E)
}
